=== FILE: README.md ===
# Digital-signature register: import, checking, web gates — a Dafny model

The application keeps a register of digital signatures (smart cards, tokens,
certificates) for an Italian office. A workbook of several sheets is the
source of truth. The importer (`src/services/dataLoader.js`) turns its rows
into signature, asset, document, contact and renewal records and writes them
to MySQL. An independent checker (`scripts/verifyWorkbookVsDb.js`) reads the
same workbook again and reports where the database differs. A small web
application (`src/app.js`, its duplicate `app.js`, `src/routes/auth.js`,
`public/script.js`) shows the register behind a login. A setup script
(`scripts/createTables.js`) creates the database.

This project models those parts in Dafny, as pure functions over immutable
data, and proves what they promise:

- `wrappers.dfy`: `Option` and `Result`.
- `jstext.dfy`: the JavaScript string operations the code relies on: `trim`,
  the white-space regular expressions, single-character replacements, case
  mapping, digit runs, `join`.
- `seqs.dfy`: first-occurrence de-duplication (`filter`/`indexOf` and
  `Array.from(new Set(...))`).
- `cells.dfy`: a workbook cell (`null`, boolean, number, text), JavaScript
  truthiness, `String(number)`, `parseFloat` and `toFixed(2)` as whole cents.
- `calendar.dfy`: calendar days, `new Date(y, m, d)` roll-over, Excel serial
  days and the ISO text of a day.
- `coerce.dfy`: the importer's value coercers (`parseBoolean`, `parseMoney`,
  `parseDate`, `parseGenericValue`, `normaliseId`) and `standardiseKey`.
- `headers.dfy`: table-name sanitising, look-up keys, `buildLookup`,
  `mapColumnKey`, `buildColumnNames`, `rowToRecord` and the row window of
  `prepareSheetRows`.
- `columns.dfy`: the column mappings and the asset and document definitions.
- `records.dfy`: `normaliseMasterRecord`, `normaliseContactRecord` and
  `normaliseRenewalRecord`.
- `loader.dfy`: the record builders, and the database writes with the tables
  as maps (`loadDataToDatabase`, `applyContactUpdates`, `replaceRenewals`,
  `loadDataFromXLS`).
- `workbook_values.dfy`, `workbook_records.dfy`, `workbook_compare.dfy`: the
  checker's coercers, its extraction of records, the contact merge, and its
  two comparisons, with the database ids read as the driver returns them
  and as `normaliseId` reads them.
- `client.dfy`: the page's pure helpers: `esc`, `fmt.date`, `isTruthyValue`,
  asset normalisation and `collectCheckboxAssets`, the pager, the sort
  toggle and the password form.
- `auth_routes.dfy`: the avatar data-URL codec and the login, change-password
  and profile handlers.
- `gates.dfy`: the access gates and the routing order of both entry
  points, and the error and not-found replies of `src/app.js` (the
  duplicate `app.js` registers neither and leaves both to Express).
- `schema.dfy`: `sanitizeIdentifier`, the character set and collation
  choice, and the fallback retry of `createTables.js`.

Numbers are exact: money is a whole number of cents, and dates are calendar
triples. Foreign code appears as a function parameter: base64 encoding and
decoding, bcrypt's `verifyPassword`, the locale date formatter, the MySQL
server's answer to `CREATE DATABASE`, and the workbook parser.

## Model

| member | source | states |
|---|---|---|
| `JsText.TrimCutsSpace` | src/services/dataLoader.js:121 | `trim()` keeps an infix of the text and cuts away only white space at both ends |
| `JsText.TrimEmptyIffAllSpace` | src/services/dataLoader.js:313-316 | a text trims to `''` exactly when it is all white space |
| `JsText.TrimIdempotent` | src/services/dataLoader.js:121 | trimming twice changes nothing more |
| `JsText.CollapsedSingle` | src/services/dataLoader.js:119 | after `replace(/\s+/g, ' ')` the only white space left is single blanks |
| `JsText.CollapseSpacesNoop` | src/services/dataLoader.js:119 | text whose only white space is single blanks is left alone by the collapse |
| `JsText.RemoveSpacesMembers` | src/services/dataLoader.js:289 | `replace(/\s+/g, '')` keeps exactly the characters that are not white space |
| `JsText.DeleteAllMembers` | src/services/dataLoader.js:288-290 | deleting every `€` (or `.`) keeps exactly the other characters |
| `JsText.ReplaceFirstAt` | src/services/dataLoader.js:291 | `replace(',', '.')` changes the first comma, if any, and nothing else |
| `JsText.TakeDigitsParts` | src/services/dataLoader.js:371 | the digit run taken is a prefix no digit follows |
| `JsText.FirstDigitAtFirst` | src/services/dataLoader.js:371 | `match(/\d+/)` starts at the first digit, and finds nothing when there is no digit |
| `Seqs.DistinctOrder` | src/services/dataLoader.js:188 | de-duplication keeps first-occurrence order |
| `Seqs.DistinctOfNoDups` | src/services/dataLoader.js:188 | a sequence without repeats is its own de-duplication |
| `Seqs.DistinctIdempotent` | scripts/verifyWorkbookVsDb.js:325 | de-duplicating twice changes nothing more |
| `Cells.NumberTextOfNat` | src/services/dataLoader.js:366 | `String(n)` of a natural number is its decimal digits |
| `Cells.DecimalPrefix` | src/services/dataLoader.js:298 | `parseFloat` reads a numeric prefix: when one is found, at least one character and never more than the text is consumed |
| `Cells.CentsNearest` | src/services/dataLoader.js:299 | `Number(x.toFixed(2))` is the whole number of cents nearest to 100x, a tie going away from zero |
| `Cells.CentsOfCents` | src/services/dataLoader.js:284 | an amount that already is whole cents keeps them |
| `Calendar.NextPrevInverse` | src/services/dataLoader.js:331 | stepping a day forward and back again are inverse |
| `Calendar.MakeDate` | src/services/dataLoader.js:331 | the date `new Date(y, m - 1, d)` builds, months and days rolled over, is always a valid calendar date |
| `Calendar.MakeDateOfValid` | src/services/dataLoader.js:331 | a real date after the year 99 comes back from `new Date` unchanged |
| `Calendar.PadExact` | src/services/dataLoader.js:336 | a zero-padded field of at most `w` digits has exactly `w` digits and reads back as itself |
| `Calendar.IsoTextFields` | src/services/dataLoader.js:336 | for a four-digit year the ISO text is `YYYY-MM-DD` and each field reads back as the date's component |
| `Coerce.NewlinesToSpaceGone` | src/services/dataLoader.js:120 | no line feed survives `replace(/\r?\n/g, ' ')` |
| `Coerce.StandardiseKeyShape` | src/services/dataLoader.js:116-121 | a standardised key is trimmed and its only white space is single inner blanks |
| `Coerce.StandardiseKeyIdempotent` | src/services/dataLoader.js:116-121 | standardising twice changes nothing more |
| `Coerce.ParseBoolean` | src/services/dataLoader.js:252-276 | `null` is false, a boolean is itself, a number is true exactly when non-zero |
| `Coerce.ParseBooleanText` | src/services/dataLoader.js:265-275 | a text is true exactly when its standardised lower-cased form is one of the ten markers; the raw comparison never decides |
| `Coerce.CleanMoneyShape` | src/services/dataLoader.js:287-292 | the cleaned amount has no euro sign, no white space and at most one decimal point |
| `Coerce.ParseMoney` | src/services/dataLoader.js:278-300 | `null` gives `null`; a number gives the whole cents nearest to it |
| `Coerce.MoneyOfNumber` | src/services/dataLoader.js:283-285 | a number that is whole cents keeps them |
| `Coerce.MoneyOfItalian` | src/services/dataLoader.js:287-299 | an amount written `1.234,56` (dotted thousands, decimal comma) reads back as the amount |
| `Coerce.ParseFloatDecimal` | src/services/dataLoader.js:298 | `parseFloat` of `<digits>.<digits>` is their value |
| `Coerce.MatchDmyIff` | src/services/dataLoader.js:319-320 | the pattern `d{1,2}/d{1,2}/d{2,4}` matches exactly text of that shape, with the numbers its groups spell |
| `Coerce.Pivot` | src/services/dataLoader.js:327-329 | two-digit years 50-99 become 19xx and 0-49 become 20xx; other years stay |
| `Coerce.DayOfText` | src/services/dataLoader.js:312-331 | a day read from text is a valid calendar date |
| `Coerce.SerialDay` | src/services/dataLoader.js:307-310 | a day read from an Excel serial number is a valid calendar date |
| `Coerce.SerialWholeDays` | src/services/dataLoader.js:308 | serial 25569 is 1 January 1970 and each whole day after it is the next day |
| `Coerce.ParseDay` | src/services/dataLoader.js:302-341 | a day read from a cell is a valid calendar date |
| `Coerce.ParseDate` | src/services/dataLoader.js:302-341 | `null`, booleans, `''` and `-` give `null`; a date is given as ten characters of ISO text |
| `Coerce.DateOfDmy` | src/services/dataLoader.js:318-331 | `d-m-y`, `d.m.y` and `d/m/y` are read as that day of the pivoted year, rolled over as `new Date` does |
| `Coerce.DayRoundTrip` | src/services/dataLoader.js:318-331 | the day/month/year text of a date after the year 99 reads back as that date, with any of the three separators |
| `Coerce.DateRoundTrip` | src/services/dataLoader.js:302-341 | ... and `parseDate` gives that date's ISO text |
| `Coerce.ParseDateOnClock` | src/services/dataLoader.js:331-336 | the date as written, on a server clock ahead of or behind UTC, is ten characters of ISO text |
| `Coerce.ClockBehindUtc` | src/services/dataLoader.js:331-336 | on a clock at or behind UTC the code as written gives the intended text |
| `Coerce.ClockAheadShiftsDay` | src/services/dataLoader.js:331-336 | on a clock ahead of UTC every text date is stored one day early |
| `Coerce.ParseGenericValue` | src/services/dataLoader.js:343-359 | text is trimmed, blank or `-` text is `null`, other values pass through |
| `Coerce.ParseGenericValueIdempotent` | src/services/dataLoader.js:343-359 | parsing a parsed value again changes nothing |
| `Coerce.NormaliseId` | src/services/dataLoader.js:361-383 | an empty value gives `null` |
| `Coerce.IdOfTextUntrimmed` | src/services/dataLoader.js:366-375 | the id is the first digit run of the untrimmed text: trimming changes nothing |
| `Coerce.NoRunInTrimmed` | src/services/dataLoader.js:377-382 | a text without a digit gives `null`: the `parseInt` fallback never yields a number |
| `Coerce.NormaliseIdOfNumber` | src/services/dataLoader.js:361-383 | a natural number's own text normalises back to it |
| `Coerce.NormaliseIdIdempotent` | src/services/dataLoader.js:455-469 | normalising an id twice, as the master builder does, changes nothing |
| `Headers.KeepCharsMembers` | src/services/dataLoader.js:109 | the character filter keeps exactly the accepted characters of the text |
| `Headers.KeepIdentUntrimmed` | src/services/dataLoader.js:108-109 | the trim before the identifier filter changes nothing |
| `Headers.SanitizeTableNameShape` | src/services/dataLoader.js:107-114 | a table name is the fallback or a non-empty identifier made of the given name's characters |
| `Headers.SanitizeTableNameIdempotent` | src/services/dataLoader.js:107-114 | sanitising a sanitised name again changes nothing when the fallback is an identifier |
| `Headers.NormaliseForLookupChars` | src/services/dataLoader.js:123-126 | a look-up key holds only lower-case digits, letters, accented vowels and the degree sign |
| `Headers.NormaliseForLookupIdempotent` | src/services/dataLoader.js:123-126 | a look-up key is its own look-up key |
| `Headers.NormaliseForLookupStandard` | src/services/dataLoader.js:123-126 | a standardised header has the same look-up key as the raw one |
| `Headers.BuildLookupKeys` | src/services/dataLoader.js:128-142 | every one of the three spellings of a mapping key is in the look-up |
| `Headers.BuildLookupSound` | src/services/dataLoader.js:128-142 | every look-up entry is the target of some mapping key under one of its spellings |
| `Headers.MapColumnKeyKnown` | src/services/dataLoader.js:385-399 | a header spelled like a mapping key is recognised and maps to a mapping target |
| `Headers.MapColumnKeyStandard` | src/services/dataLoader.js:385-399 | looking up a header and its standardised form agree |
| `Headers.BuildColumnNamesShape` | src/services/dataLoader.js:167-193 | one name per column up to the longest header row |
| `Headers.ColumnNameCases` | src/services/dataLoader.js:178-190 | a column without header text is `column_<i>`; otherwise its distinct parts in first-occurrence order joined by a blank |
| `Headers.PartsMembers` | src/services/dataLoader.js:179-181 | a part is exactly a non-empty standardised header cell of the column in some header row |
| `Headers.PartsEmpty` | src/services/dataLoader.js:179-183 | a column has no parts exactly when every header cell of it is blank after standardising |
| `Headers.RowToRecordSpec` | src/services/dataLoader.js:195-212 | distinct keys; a key is absent exactly when no column of its name holds a value; otherwise its value is that of the last column of its name that holds one |
| `Headers.PutGet` | src/services/dataLoader.js:208 | after `record[key] = value` the key reads the value and every other key reads as before |
| `Headers.KeepRowsMembers` | src/services/dataLoader.js:214-224 | a row is kept exactly when some cell is neither `null` nor blank text |
| `Headers.DataRowsSpec` | src/services/dataLoader.js:243-247 | a data row is a non-blank row whose 1-based number lies between the start and end rows |
| `Headers.DataRowsCount` | src/services/dataLoader.js:231-247 | never more data rows than the window has rows |
| `Headers.HeaderRowsSpec` | src/services/dataLoader.js:234-235 | the header is the last `XLS_HEADER_ROWS` non-blank rows above the window, all of them when that is zero |
| `Headers.NoHeaderNoColumns` | src/services/dataLoader.js:237-241 | without a non-blank row above the window there are no column names |
| `Columns.ItemKeyInjective` | src/services/dataLoader.js:156 | with colon-free categories the `category::subtype` key determines the pair |
| `Columns.AssetDefinitionsAre` | src/services/dataLoader.js:153-164 | the asset definitions are the thirteen asset pairs, each once |
| `Columns.DocumentDefinitionsAre` | src/services/dataLoader.js:153-165 | the document definitions are the three document pairs, each once |
| `Columns.CategoriesHaveNoColon` | src/services/dataLoader.js:30-50 | no category of the mappings holds a colon |
| `Records.LastOfNone` | src/services/dataLoader.js:426-453 | a field is unset exactly when no header maps to it |
| `Records.LastOfSome` | src/services/dataLoader.js:426-453 | a field holds the value of the last column whose header maps to it |
| `Records.PaymentOfDate` | src/services/dataLoader.js:488-497 | a payment cell that reads as a date is `Altro` paid on that day |
| `Records.PaymentOfText` | src/services/dataLoader.js:488-497 | a payment text without digits is stored trimmed with no payment date |
| `Records.MasterId` | src/services/dataLoader.js:455-463 | a master record is built exactly when the id resolves to a positive number, which becomes its id |
| `Records.MasterOfNumericId` | src/services/dataLoader.js:455-469 | a row whose id column holds a positive whole number is that signature |
| `Records.MasterCoverage` | src/services/dataLoader.js:403-424 | every signature lists the thirteen asset and three document pairs once each, in order, with value 0 or 1 |
| `Records.FlagLast` | src/services/dataLoader.js:432-448 | an asset is flagged exactly when the last column mapped to it reads as true |
| `Records.TitolareNeverNull` | src/services/dataLoader.js:508-510 | the holder is never `null`: a blank or missing holder is `''` |
| `Records.BaseRawAbsent` | src/services/dataLoader.js:465-500 | a base column no header maps to is `null` |
| `Records.ContactShape` | src/services/dataLoader.js:541-562 | a contact exists exactly for a positive id; its e-mail and telephone are trimmed, never blank or `-` |
| `Records.NoteFoldEmpty` | src/services/dataLoader.js:573-589 | the merged note is `null` exactly when every note column is blank |
| `Records.NoteRepeat` | src/services/dataLoader.js:578-584 | a note value equal to the whole note so far adds nothing |
| `Records.NoteAppend` | src/services/dataLoader.js:580-581 | a different one is appended after ` \| ` |
| `Records.NoteRepeatsApart` | src/services/dataLoader.js:578-584 | the merge compares with the whole note, so `a`, `b`, `a` gives `a \| b \| a` |
| `Records.NeRefLeftmost` | src/services/dataLoader.js:624 | the reference found is the leftmost match of `NE-?\s*\d+` |
| `Records.NeRefNone` | src/services/dataLoader.js:624 | no match is found only when no position matches |
| `Records.NeRefDigits` | src/services/dataLoader.js:624 | a reference found is a non-empty run of digits |
| `Records.NeAtSpelled` | src/services/dataLoader.js:624 | `N`, `E`, an optional `-`, white space and digits match with that digit run |
| `Records.NeRefCanonical` | src/services/dataLoader.js:627 | the canonical `NE-<digits>` reads back as its digits |
| `Records.NeRefWithoutN` | src/services/dataLoader.js:624-631 | a text without `N` or `n` holds no reference |
| `Records.RinnovoAgrees` | src/services/dataLoader.js:622-632 | the corrected handling agrees with the written one wherever that one does not throw |
| `Records.NumericRinnovoThrows` | src/services/dataLoader.js:622-624 | a numeric `Rinnovo DA` cell makes the written code throw |
| `Records.NumericRinnovoKept` | src/services/dataLoader.js:622-632 | corrected, a numeric cell is stored as it is, with no reference |
| `Records.RinnovoOfSpelled` | src/services/dataLoader.js:622-628 | a text holding `NE`, an optional `-`, blanks and digits becomes `NE-<digits>` with that reference |
| `Records.RinnovoIdempotent` | src/services/dataLoader.js:622-632 | a stored `NE-<digits>` reads back as itself with the same reference |
| `Records.RenewalAgrees` | src/services/dataLoader.js:564-643 | the corrected renewal builder agrees with the written one wherever that one does not throw |
| `Records.RenewalNumericRinnovo` | src/services/dataLoader.js:594-624 | a row with a usable id and a numeric `Rinnovo DA` makes the written builder throw |
| `Records.RenewalExists` | src/services/dataLoader.js:594-600 | a renewal exists exactly for a positive id, which is its signature id |
| `Records.RenewalShape` | src/services/dataLoader.js:599-640 | certificate flags are 0 or 1, the sheet name is trimmed, the payment follows the payment cell |
| `Records.RenewalNote` | src/services/dataLoader.js:573-619 | the stored note is the merged note, `null` exactly when every note column is blank |
| `Loader.BuiltMembers` | src/services/dataLoader.js:645-652 | a record is built exactly when some row normalises to it |
| `Loader.BuiltAppend` | src/services/dataLoader.js:663-670 | building keeps the order of the rows |
| `Loader.BuiltAsWrittenFails` | src/services/dataLoader.js:663-670 | the written builder throws as soon as one row throws |
| `Loader.BuildRenewalRecordsAgree` | src/services/dataLoader.js:663-670 | a sheet the written builder gets through is built the same by the corrected one; a numeric `Rinnovo DA` aborts it |
| `Loader.BuiltMastersShape` | src/services/dataLoader.js:645-652 | every built master has a positive id, thirteen assets and three documents |
| `Loader.StoredFlagsOfBits` | src/services/dataLoader.js:706-708 | flags already 0 or 1 are inserted as they are |
| `Loader.LoadMastersCounts` | src/services/dataLoader.js:679-737 | the base count is the number of records; assets and documents count 13 and 3 per record |
| `Loader.StoreMasterKeys` | src/services/dataLoader.js:695-730 | an id has rows after the load exactly when it had before or a record carries it; renewals are untouched |
| `Loader.LoadMastersUntouched` | src/services/dataLoader.js:692-731 | the rows of an id no record carries stay as they were |
| `Loader.LoadMastersLastWins` | src/services/dataLoader.js:695-730 | `REPLACE INTO` and delete-then-insert leave the rows of the last record carrying an id |
| `Loader.UpdateContactKeeps` | src/services/dataLoader.js:747-773 | one update keeps the ids, master columns and other tables, and counts 1 exactly when the contact applies |
| `Loader.ApplyContactsKeeps` | src/services/dataLoader.js:740-776 | contact updates keep the ids, the master columns and the other tables |
| `Loader.ApplyContactsCount` | src/services/dataLoader.js:740-776 | the update count is the number of contacts that apply |
| `Loader.UpdateContactField` | src/services/dataLoader.js:751-771 | an update writes a field only of its own id and only with a truthy value |
| `Loader.ApplyContactsFieldKept` | src/services/dataLoader.js:747-773 | a field no contact gives a truthy value for stays as it was |
| `Loader.ApplyContactsFieldLast` | src/services/dataLoader.js:747-773 | a field holds the last truthy value given for it |
| `Loader.ApplyContactsBound` | src/services/dataLoader.js:740-776 | never more updates than contacts |
| `Loader.StoreRenewalKeeps` | src/services/dataLoader.js:823-844 | a stored renewal differs from the built one only in its reference and, when falsy, its note |
| `Loader.ChunksFlatten` | src/services/dataLoader.js:816-817 | the chunks, in order, are the whole input |
| `Loader.ChunksCount` | src/services/dataLoader.js:816-817 | there are `ceil(n / 500)` chunks |
| `Loader.ChunksBounded` | src/services/dataLoader.js:816-817 | no chunk is empty or longer than 500 |
| `Loader.ReplaceRenewals` | src/services/dataLoader.js:778-855 | without a name nothing happens; otherwise the table holds exactly the stored renewals and the count is their number |
| `Loader.TableNamesIdent` | src/services/dataLoader.js:859-871 | every table name is a non-empty identifier |
| `Loader.UnsetFallback` | src/services/dataLoader.js:859-871 | an unset variable leaves its table at the fallback name |
| `Loader.TableNamesDefault` | src/services/dataLoader.js:859-871 | with no variable set the names are `digital_signatures` and its three suffixed names |
| `Loader.ImportRecords` | src/services/dataLoader.js:903-921 | the counts: one base row per master, 13 asset and 3 document rows per master, one inserted renewal each, at most one update per contact; the renewal table ends as the stored renewals; an id has a base row exactly when it had one or a master carries it |
| `Loader.FlatMapAsWrittenAgrees` | src/services/dataLoader.js:897-899 | the throwing `flatMap` throws exactly when one element's build throws, and otherwise yields the plain `flatMap` |
| `Loader.RenewalsOfAgree` | src/services/dataLoader.js:897-899 | the renewals of the later sheets, as written, throw exactly when one sheet's build throws (a numeric `Rinnovo DA` on any of them does), and otherwise are the corrected ones |
| `Loader.LoadDataFromXls` | src/services/dataLoader.js:857-945 | three errors, each exactly in its case and in this order: no sheet, no valid master row, a renewal build that throws before the transaction (with its message); a successful load reports the counts of the import and leaves the stored renewals in the table |
| `WorkbookValues.EndIndex` | scripts/verifyWorkbookVsDb.js:13-18 | a configured end row is never before the start row |
| `WorkbookValues.ClampRowBounds` | scripts/verifyWorkbookVsDb.js:210-218 | start is the start index; end is the last row, or the end index when that is smaller |
| `WorkbookValues.ScannedAgreesWithLoader` | scripts/verifyWorkbookVsDb.js:210-218 | with an end row configured the checker walks the loader's window |
| `WorkbookValues.ScannedToLastRow` | scripts/verifyWorkbookVsDb.js:14-18 | with no end row configured the checker walks to the last row |
| `WorkbookValues.ToTextAgrees` | scripts/verifyWorkbookVsDb.js:169-188 | `toText` reads cells as the loader's `parseGenericValue` does |
| `WorkbookValues.ToTextTrimmed` | scripts/verifyWorkbookVsDb.js:169-188 | every text `toText` keeps is trimmed |
| `WorkbookValues.ToTextNonEmpty` | scripts/verifyWorkbookVsDb.js:169-188 | no text `toText` keeps is empty |
| `WorkbookValues.ToBooleanFlag` | scripts/verifyWorkbookVsDb.js:193-208 | the flag is 0 or 1, and `null` gives 0 |
| `WorkbookValues.FlagOfText` | scripts/verifyWorkbookVsDb.js:200-207 | a text is flagged exactly when it holds `■` or its trimmed form, as written or lower-cased, is a truthy token |
| `WorkbookValues.FlagAgreesOffText` | scripts/verifyWorkbookVsDb.js:193-199 | away from text the flag and `parseBoolean` agree |
| `WorkbookValues.FlagTakesOk` | scripts/verifyWorkbookVsDb.js:20-32 | `ok` is flagged but is no `parseBoolean` marker |
| `WorkbookValues.FlagTakesT` | scripts/verifyWorkbookVsDb.js:20-32 | `t` is flagged but is no `parseBoolean` marker |
| `WorkbookValues.FlagRefusesAcuteSi` | scripts/verifyWorkbookVsDb.js:20-32 | `sí` is a `parseBoolean` marker but not flagged |
| `WorkbookValues.ToMoney` | scripts/verifyWorkbookVsDb.js:128-150 | `null`, `''` and `-` give `null`; a number gives its cents |
| `WorkbookValues.CleanAmountAgrees` | scripts/verifyWorkbookVsDb.js:137-142 | without quotes or euro signs both cleanings leave the same text |
| `WorkbookValues.ToMoneyAgrees` | scripts/verifyWorkbookVsDb.js:128-150 | the checker and the loader read the same amount when there is no quote or euro sign |
| `WorkbookValues.ToIdAgrees` | scripts/verifyWorkbookVsDb.js:152-167 | the checker's `normaliseId` is the loader's |
| `WorkbookValues.ToIdOfRun` | scripts/verifyWorkbookVsDb.js:152-167 | the id is the number the first digit run spells, `null` without a digit |
| `WorkbookValues.NoteTextsParts` | scripts/verifyWorkbookVsDb.js:287-289 | every note part is non-empty trimmed text |
| `WorkbookValues.NoteTextsEmpty` | scripts/verifyWorkbookVsDb.js:287-289 | there are no parts exactly when every note cell reads as `null` |
| `WorkbookValues.NoteOfJoin` | scripts/verifyWorkbookVsDb.js:322-327 | the note is the distinct parts in first-occurrence order joined by ` \| ` |
| `WorkbookValues.NoteOfNone` | scripts/verifyWorkbookVsDb.js:322-327 | the note is `null` exactly when every note column reads as `null` |
| `WorkbookValues.NoteRepeatKeptOnce` | scripts/verifyWorkbookVsDb.js:322-327 | `a`, `b`, `a` gives `a \| b`, where the loader writes `a \| b \| a` |
| `WorkbookRecords.PutValid` | scripts/verifyWorkbookVsDb.js:246 | `map.set` keeps the table well formed, and setting a key already present keeps the order of the keys |
| `WorkbookRecords.PaymentAgrees` | scripts/verifyWorkbookVsDb.js:242-244 | the checker's payment rule is the loader's |
| `WorkbookRecords.KeyedShape` | scripts/verifyWorkbookVsDb.js:230-261 | the map holds every record under its own id and exactly the ids some row gives |
| `WorkbookRecords.KeyedLastWins` | scripts/verifyWorkbookVsDb.js:246 | a later row with the same id overwrites an earlier one |
| `WorkbookRecords.ExtractEmissionRecords` | scripts/verifyWorkbookVsDb.js:220-263 | a missing sheet is an error with its message |
| `WorkbookRecords.EmissionRecordsSpec` | scripts/verifyWorkbookVsDb.js:220-263 | each id of a scanned row has the record of the last such row, and no other id is present |
| `WorkbookRecords.RenewalOfShape` | scripts/verifyWorkbookVsDb.js:302-328 | flags are 0 or 1, CFD-R is 0, no new emission; the note is `null` exactly for blank note columns |
| `WorkbookRecords.ListedMembers` | scripts/verifyWorkbookVsDb.js:275-331 | the list holds exactly the records the rows give |
| `WorkbookRecords.ExtractRenewalRecords` | scripts/verifyWorkbookVsDb.js:265-334 | a missing sheet is an error naming it |
| `WorkbookRecords.RenewalRecordsSpec` | scripts/verifyWorkbookVsDb.js:265-334 | a record is extracted exactly when a scanned row gives it, with the sheet's name and a positive id |
| `WorkbookRecords.MergeNoneYet` | scripts/verifyWorkbookVsDb.js:509-528 | while no record of an id has a value for a field, the merged field stays `null` |
| `WorkbookRecords.MergeFirstWins` | scripts/verifyWorkbookVsDb.js:521-526 | the first non-empty value of an id decides the field |
| `WorkbookRecords.MergeKeys` | scripts/verifyWorkbookVsDb.js:509-528 | the merged entries are exactly the ids of the records |
| `WorkbookRecords.ApplyInfoKeeps` | scripts/verifyWorkbookVsDb.js:530-541 | applying the merge changes only e-mail and telephone |
| `WorkbookRecords.BaseTakesFirstRenewal` | scripts/verifyWorkbookVsDb.js:509-541 | a base record's e-mail is the first value any renewal of its id carries |
| `WorkbookRecords.BaseKeepsWithoutRenewal` | scripts/verifyWorkbookVsDb.js:530-541 | without such a value the base record keeps its own |
| `WorkbookRecords.CheckTableNames` | scripts/verifyWorkbookVsDb.js:551-553 | an unset base name gives `digital_signatures`, and a renewal name that is set is used as given |
| `WorkbookRecords.CheckTablesAgree` | scripts/verifyWorkbookVsDb.js:551-553 | with unset or plain names the checker reads the tables the loader writes |
| `WorkbookCompare.CountsAreMultiplicities` | scripts/verifyWorkbookVsDb.js:359-371 | the counts are the multiplicities of the records, with entries only for keys that occur |
| `WorkbookCompare.CompareRenewalSetsSpec` | scripts/verifyWorkbookVsDb.js:373-399 | a record is only in Excel by `delta` exactly when Excel has `delta` more copies, and symmetrically |
| `WorkbookCompare.CompareRenewalSetsDistinct` | scripts/verifyWorkbookVsDb.js:376-396 | no record is reported twice on one side |
| `WorkbookCompare.CompareRenewalSetsDisjoint` | scripts/verifyWorkbookVsDb.js:385-395 | no record is reported on both sides |
| `WorkbookCompare.CompareRenewalSetsEmpty` | scripts/verifyWorkbookVsDb.js:373-399 | both lists are empty exactly when the sides hold the same multiset |
| `WorkbookCompare.ComparePermutation` | scripts/verifyWorkbookVsDb.js:373-399 | comparing records with any reordering of themselves reports nothing |
| `WorkbookCompare.DbTextAgrees` | scripts/verifyWorkbookVsDb.js:401-420 | correctly encoded database text is read as the workbook text is |
| `WorkbookCompare.DbTextDecodes` | scripts/verifyWorkbookVsDb.js:411-414 | mis-encoded text is re-decoded before it is trimmed |
| `WorkbookCompare.FieldMismatchesMembers` | scripts/verifyWorkbookVsDb.js:473-493 | a field is reported exactly when its two values differ |
| `WorkbookCompare.NormaliseKey` | scripts/verifyWorkbookVsDb.js:152-167 | `normaliseId` gives a number or `null`, never a string |
| `WorkbookCompare.NormaliseKeyOfId` | scripts/verifyWorkbookVsDb.js:152-167 | `normaliseId` keeps a number, and reads an id back from its decimal text |
| `WorkbookCompare.BaseIdsSpec` | scripts/verifyWorkbookVsDb.js:434-438 | for any reading of the row ids, `missingInDb` and `extraInDb` are exactly the one-sided ids, without repeats and disjoint; a number never equals a string |
| `WorkbookCompare.BaseAsWrittenOneSided` | scripts/verifyWorkbookVsDb.js:434-458 | as written, with the `VARCHAR` row ids returned as strings, every workbook id is missing, every distinct row id is extra, and no field is compared |
| `WorkbookCompare.BaseIdsCorrected` | scripts/verifyWorkbookVsDb.js:434-438 | with the row ids put through `normaliseId`, a workbook id is missing exactly when no row's id reads as it, and extra exactly when some row's id reads as it and the workbook lacks it; an unreadable row id adds `null` to the extra ids |
| `WorkbookCompare.BaseStoredId` | scripts/verifyWorkbookVsDb.js:434-438 | an id stored as its decimal text is reported missing, and its row extra, as written; it is matched once the row ids are normalised |
| `WorkbookCompare.MismatchesSpec` | scripts/verifyWorkbookVsDb.js:454-494 | for any reading of the row ids, a mismatch is reported exactly for a field where a row and the workbook record of its id differ |
| `WorkbookCompare.MismatchesOnlyCommon` | scripts/verifyWorkbookVsDb.js:454-458 | only ids present on both sides are reported, and only for differing values |
| `WorkbookCompare.ExcelPayload` | scripts/verifyWorkbookVsDb.js:336-338 | a workbook renewal's payload carries its id as a number |
| `WorkbookCompare.NormaliseDbRenewalWith` | scripts/verifyWorkbookVsDb.js:620-641 | a database row keeps the id it is given and its sheet name, and its four certificate flags become 0 or 1 |
| `WorkbookCompare.CompareSheetClean` | scripts/verifyWorkbookVsDb.js:620-643 | a sheet is clean exactly when the payloads of its rows are its workbook payloads in some order, as written and with the ids normalised |
| `WorkbookCompare.SheetAsWrittenNeverClean` | scripts/verifyWorkbookVsDb.js:620-643 | as written, a sheet whose rows return their ids as strings is never clean unless both sides are empty |
| `WorkbookCompare.StoredRenewalPayload` | scripts/verifyWorkbookVsDb.js:620-643 | a row stored from a workbook renewal, its id as decimal text, does not match the record as written and matches it once its id is normalised |
| `Client.EscapeTextIsEach` | public/script.js:121 | the four chained replacements escape each character on its own |
| `Client.Esc` | public/script.js:121 | `null` and `undefined` give `''` |
| `Client.EscRoundTrip` | public/script.js:121 | escaped text holds no `<`, `>` or `"`, and reading the entities back gives the text |
| `Client.FormatDate` | public/script.js:177-178 | a falsy value shows as `''` |
| `Client.FormatIsoDate` | public/script.js:180-181 | text starting `yyyy-mm-dd` shows as `dd/mm/yyyy`, whatever follows |
| `Client.ShownDateReadsBack` | public/script.js:180-181 | what the page shows for a stored date is read back to it by the importer's date parser |
| `Client.TruthyValueOfNonText` | public/script.js:905-909 | away from text the value is read with JavaScript truthiness |
| `Client.NumeralByValue` | public/script.js:912-915 | a non-falsy text that reads as a number is true exactly when the number is not zero |
| `Client.WordIsTruthy` | public/script.js:911-916 | a word that is not a falsy token is true, listed or not |
| `Client.WordChecksBox` | public/script.js:933-934 | a word that is not a falsy token checks an asset box |
| `Client.UnknownWordDisagrees` | public/script.js:916 | some lower-case word outside both token lists (`maybe`) checks a box but is false to the importer and to the checker |
| `Client.TokenSetsDisagree` | public/script.js:903 | some truthy token of the page (`s`) is accepted by neither the importer nor the checker |
| `Client.TruthyTokenNotZero` | public/script.js:903-915 | no truthy token of the page reads as the number zero |
| `Client.CategoryLikeSubtype` | public/script.js:901-902 | without a backslash a category is normalised exactly like a subtype |
| `Client.CategoryKeepsInnerBlank` | public/script.js:901 | `smart card` becomes `SMART CARD`: `/\\s+/` does not match blanks |
| `Client.CollectSound` | public/script.js:938-952 | every collected pair comes from a checked box with non-empty halves, and no pair is collected twice |
| `Client.CollectIsDistinct` | public/script.js:938-952 | with colon-free categories the result is the first-occurrence de-duplication of the checked pairs |
| `Client.KeyCollisionDrops` | public/script.js:946-947 | a category holding `::` can make a different pair's box be dropped |
| `Client.CollidingKeys` | public/script.js:946 | `A::B`/`C` and `A`/`B::C` share a key |
| `Client.PageRangeWithinTotal` | public/script.js:533 | on a served page the range names exactly the rows shown, within the total, reaching it on the last page only |
| `Client.FullPagesAdjoin` | public/script.js:533 | a full page ends just before the next one begins |
| `Client.ButtonsMatchClicks` | public/script.js:532-538 | a button is disabled exactly when its click does nothing |
| `Client.SortClickSelects` | public/script.js:540 | a click sorts by its key, descending exactly when that key was ascending |
| `Client.SortClickTwice` | public/script.js:540 | two clicks on the current key restore the order |
| `Client.PasswordFormOrder` | public/script.js:824-834 | a mismatch is reported whatever the length; a request is sent exactly when the fields agree and hold ten characters |
| `AuthRoutes.SafeMime` | src/routes/auth.js:48 | the mime put into a data URL is never empty |
| `AuthRoutes.BuildAvatarDataUrl` | src/routes/auth.js:46-51 | no data URL exactly for a missing or empty buffer |
| `AuthRoutes.MatchDataUrl` | src/routes/auth.js:59 | the mime runs to the first `;`, the payload is non-empty and has no line break |
| `AuthRoutes.NoAvatarIff` | src/routes/auth.js:54-57 | there is no avatar exactly when the value is not text or is blank |
| `AuthRoutes.ParseAvatarErrors` | src/routes/auth.js:58-75 | every error is one of three messages; the size message never surfaces |
| `AuthRoutes.OversizeReportedInvalid` | src/routes/auth.js:67-75 | an oversized avatar of an allowed type is reported as an invalid image |
| `AuthRoutes.OversizeReportedTooLarge` | src/routes/auth.js:69-71 | with the message kept, it is reported as too large |
| `AuthRoutes.ReportedAgrees` | src/routes/auth.js:53-76 | both parsers accept the same values and differ only in a size error's message |
| `AuthRoutes.AvatarRoundTrip` | src/routes/auth.js:46-76 | a non-empty buffer within the limit, built with an allowed mime, parses back to itself and its mime |
| `AuthRoutes.LoginChecksInputFirst` | src/routes/auth.js:148-151 | missing credentials get 400 before any lookup, whatever the user table holds |
| `AuthRoutes.LoginSucceedsIff` | src/routes/auth.js:153-175 | a login succeeds exactly for a known user whose password verifies |
| `AuthRoutes.ChangePasswordOrder` | src/routes/auth.js:193-211 | 401 without a session, 400 for a short password, 404 for an unknown user, 400 without the current password, in that order |
| `AuthRoutes.ChangePasswordVerifies` | src/routes/auth.js:213-228 | then 401 for a wrong current password, 400 for the same password, and only then the change, which stores the new password for the user found with the change flag cleared |
| `AuthRoutes.ChangePasswordSession` | src/routes/auth.js:225-226 | the password is written, and the session's flag cleared, exactly by a successful change; a failed one changes nothing |
| `AuthRoutes.FormSubmitPassesLength` | src/routes/auth.js:198 | what the page's password form sends always passes the server's length check |
| `AuthRoutes.CleanFullNameShape` | src/routes/auth.js:276-279 | the stored name is trimmed and non-blank, or `null` |
| `AuthRoutes.ProfileWithoutAvatar` | src/routes/auth.js:280-303 | without avatar text the avatar is cleared in the table and the session |
| `AuthRoutes.ProfileKeepsAvatar` | src/routes/auth.js:283-303 | saving a valid data URL stores its buffer and mime and puts the same URL in the session |
| `AuthRoutes.ProfileRejectsAvatar` | src/routes/auth.js:284-293 | a rejected avatar answers 400 with the message of `parseAvatarDataUrl` as written, never the size message, and changes nothing |
| `AuthRoutes.ProfileOversize` | src/routes/auth.js:67-75 | an oversized avatar of an allowed type is answered `Immagine non valida.` by the handler as written and with the size message by the corrected one; neither stores anything |
| `Gates.GatesByAccess` | src/app.js:98-126 | 401 or a redirect to `/login` without a user, 403 or `/login?change=1` when the password must change, else pass |
| `Gates.LoginAgreesWithPageGate` | src/app.js:128-135 | `/login` redirects home exactly for the sessions the page gate lets through |
| `Gates.RouteIgnoresCase` | src/app.js:95-143 | a path is routed as its ASCII-lower-case form, as Express matches routes without regard to case |
| `Gates.RouteVariants` | src/app.js:113-135 | `/API/...` is routed as `/api/...`, and `/login/` and `/Login` reach the login page |
| `Gates.LoginPath` | src/app.js:128-135 | `/login` in any letter case, with or without one trailing slash, reaches the login page |
| `Gates.ApiOnlyAuthorized` | src/app.js:113 | on every API path the account router does not handle, the API routes are reached exactly by sessions with a user and no pending password change |
| `Gates.AuthFallsThrough` | src/app.js:95-113 | an account path with no GET route (`/api/auth/unknown`) falls through to the API gate, so only an authorised session gets past it |
| `Gates.PagesOnlyAuthorized` | src/app.js:137-145 | no page or file but the login page and the account routes reaches any other session |
| `Gates.ErrorStatusKept` | src/app.js:159-171 | the reply has the error's status when it has one, else 500; the message is generic outside development |
| `Gates.RootGatesAgree` | app.js:87-116 | the duplicate entry point decides every session as `src/app.js` does |
| `Schema.SanitizeIdentifier` | scripts/createTables.js:5-15 | a failure always carries the invalid-identifier message |
| `Schema.SanitizeIdentifierShape` | scripts/createTables.js:5-15 | a value with an identifier character gives a non-empty identifier of its characters; else the fallback, else the error |
| `Schema.SanitizeIdentifierIdempotent` | scripts/createTables.js:6-10 | what was taken from the value sanitises to itself |
| `Schema.SanitizeAgreesWithLoader` | scripts/createTables.js:5-13 | with a fallback, the sanitiser agrees with the importer's table-name sanitiser |
| `Schema.FallbackCharsetChanges` | scripts/createTables.js:43-46 | the fallback set differs from the desired one exactly for `utf8mb4`, which falls back to `utf8` |
| `Schema.FallbackCollationGeneral` | scripts/createTables.js:48-51 | both branches give the set's general collation, which belongs to the set |
| `Schema.DefaultCollationChoice` | scripts/createTables.js:38-41 | the default collation is `utf8mb4_unicode_ci` exactly for `utf8mb4`, else `utf8_general_ci` |
| `Schema.DefaultCollationMismatch` | scripts/createTables.js:38-41 | some identifier set (`latin1`) does not own its default collation |
| `Schema.MatchingCollationBelongs` | scripts/createTables.js:38-51 | the corrected default belongs to its set and agrees with the written one for `utf8mb4` and `utf8` |
| `Schema.ConfigureFails` | scripts/createTables.js:26-30 | configuration fails exactly for a missing database name or one without identifier characters, with each message |
| `Schema.SetupIdentifiers` | scripts/createTables.js:30-51 | every name put into the SQL is an identifier, whatever the environment holds |
| `Schema.SetupDefaults` | scripts/createTables.js:31-51 | the defaults for unset names, sets and collations |
| `Schema.ConfiguredPairsBelong` | scripts/createTables.js:37-51 | with the corrected default, a pair the environment does not override belongs together |
| `Schema.ForeignDefaultCollation` | scripts/createTables.js:37-41 | as written, a set such as `latin1` without a collation is paired with `utf8_general_ci` |
| `Schema.OwnDefaultCollation` | scripts/createTables.js:37-41 | corrected, it is paired with its own general collation |
| `Schema.DefaultPairs` | scripts/createTables.js:37-51 | with nothing set the pairs are `utf8mb4`/`utf8mb4_unicode_ci` and `utf8`/`utf8_general_ci` |
| `Schema.CreateDatabaseOutcome` | scripts/createTables.js:71-98 | the fallback pair is used only after an unknown-pair error and when the pairs differ; other errors are raised unchanged |
| `Schema.MismatchNotRetried` | scripts/createTables.js:80-85 | the collation-mismatch error 1253 does not allow the fallback |
| `Schema.DefaultsFallBack` | scripts/createTables.js:80-85 | with the default pairs every unknown-pair error leads to the fallback attempt |
| `Schema.MissingNameFirst` | scripts/createTables.js:26-28 | a missing database name stops the script before the server is asked anything |
| `Schema.ProvisionedPair` | scripts/createTables.js:71-98 | the database is created with the desired pair exactly when the server accepts it, else with the fallback |
| `Schema.ForeignCharsetProvision` | scripts/createTables.js:37-98 | on a server that refuses a collation outside its set, `latin1` without a collation ends the script as written with error 1253, while the corrected default creates the database with `latin1_general_ci` |

## Left out

- Database I/O is replaced by maps: SQL text, connections, transactions and `affectedRows` beyond the counts the code adds up. An `UPDATE` counts 1 when the id exists, and an insert counts its rows.
- The workbook parser (`xlsx`), bcrypt, `Buffer`'s base64, multer and the session store are parameters or absent. Base64 is an abstract codec that round-trips and has no line breaks.
- Floating point: amounts are exact reals and money is whole cents. The checker's 0.01 tolerance becomes equality of cents.
- `Cells.NumberText`: numbers are exact reals, and `String(x)` is plain decimal digits with fractions cut after twenty places. JavaScript numbers are doubles, and the model leaves three things out. Integers above 2^53 are not all representable, so `String` writes only their shortest round-trip digits, zero-filled. From 1e21 up, and below 1e-6, it writes exponent notation. `Number.parseInt` of a long digit run rounds the same way.
- `Cells.NumberTextOfNat`: holds for every natural in the model; in JavaScript only up to 2^53 (`Number.MAX_SAFE_INTEGER` + 1).
- `Coerce.NormaliseIdOfNumber`: holds for every natural in the model; in JavaScript only up to 2^53. From 1e21 up, `String` gives exponent notation, and `normaliseId` reads only its first digit (1e21 gives 1).
- `Coerce.NormaliseIdIdempotent`: holds for every id in the model; in JavaScript only for ids up to 2^53. A 22-digit text id becomes 1 on the second normalisation.
- `Records.MasterOfNumericId`: holds for every positive id in the model; in JavaScript only for ids up to 2^53, for the same reason.
- `Records.MasterId`: the id of a built record equals the resolved id in the model. In JavaScript this holds only for ids up to 2^53, because the master builder normalises the id twice.
- `Date` cells, the Rome-time formatting and the fallback `new Date(text)` parsing of the checker's `toIsoDate` are absent; `fmt.date` takes the locale formatter as a parameter. The Excel serial conversion is modelled on whole days.
- JavaScript strings are sequences of characters: lengths are not counted in UTF-16 units.
- `JsText.ToUpper`: case mapping covers ASCII and the Latin-1 letters whose case partner is itself Latin-1. `ß`, `ÿ` and `µ` are left unchanged, while `toUpperCase` gives `SS`, `Ÿ` (U+0178) and `Μ` (U+039C). `JsText.ToLower` and `JsText.ToUpper` map no character outside Latin-1.
- The order of an object's keys is modelled only where the code depends on it (`rowToRecord`, the note merge).
- `applyAssetsToCheckboxes`, the DOM, fetch calls, charts, timers and the avatar resizing of the page are left out; the pager and the sort toggle are modelled as pure functions of the page state.
- The 500 replies of the handlers' `catch` blocks, session regeneration and `loadLegacyAvatarDataUrl` (it reads the filesystem) are left out.
- Routing is modelled for `GET` requests only; static file lookup is a single handler. Paths are taken as already percent-decoded and without a query string.
- `Headers.PrepareSheetRows`: `XLS_START_ROW`, `XLS_END_ROW` and `XLS_HEADER_ROWS` are integers in the model. A value of the environment that does not parse (`NaN`) is not modelled. In JavaScript a `NaN` start or end row keeps no data row, so every import then fails with `NO_VALID_ROWS`.
- `Headers.MapColumnKey`: the look-up table is a map of the mapped names only. In JavaScript it is a plain object, so a header spelled like an inherited property (`constructor`, `toString`, `valueOf`, `__proto__`, ...) finds a function. That function has no `type` or `value`, so the value goes to a base column named `undefined`, and the `REPLACE INTO` then fails and rolls back the import. Such headers are not modelled.
- `AVATAR_MAX_SIZE` is a parameter: a value of the environment that does not parse (`NaN`) is not modelled.
- The `CREATE TABLE` statements of `createTables.js` and the connection it opens are left out; only the names and the character-set choice they use are modelled. The model assumes the base table the importer writes: one with the columns `fattura_data_pagamento`, `email` and `recapito_telefonico` (`Loader.BaseRow`). The base table `createTables.js` makes (lines 103-117) has none of the three.
- `Loader.LoadDataFromXls`: on the base table of `createTables.js`, every import with a master row fails, and the model does not say so. Every base record carries `fattura_data_pagamento` (`src/services/dataLoader.js:514-516`), so the first `REPLACE INTO … SET ?` (line 695) fails on the unknown column and the import rolls back. The contact `UPDATE` (lines 751-769) names `email` and `recapito_telefonico`. The checker's query selects the same two columns (`scripts/verifyWorkbookVsDb.js:556-567`), so on that table it fails too.
- The renewal table is not created in the code modelled, so the type of its `signature_id` column is unknown: `WorkbookCompare.DbRenewal` keeps the id as any JavaScript value, and `WorkbookCompare.SheetAsWrittenNeverClean` assumes strings, as the `VARCHAR(10)` of the base table and its linked tables suggests.
- `Loader.LoadDataFromXls`: the dates it stores are parsed with `Coerce.ParseDate`, as are those of `Records.NormaliseMasterWith` and `Records.BuildRenewal`. That is the code as written only on a server clock at or behind UTC (`Coerce.ClockBehindUtc`). On a clock ahead of UTC the code stores the previous day (see Findings).
- `BOOLEAN_COLUMNS` is empty in the importer, so the base columns never go through `parseBoolean`; the model keeps that.
- The checker's `toMoney` strips quote characters and keeps euro signs, while the importer does the opposite; the two are compared only on text with neither (`WorkbookValues.ToMoneyAgrees`).

## Findings

| source | as written | input that shows it | evidently intended | confidence | as-written member | corrected member |
|---|---|---|---|---|---|---|
| src/services/dataLoader.js:331-336 | the day is built at local midnight with `new Date(y, m, d)` and printed with `toISOString()`, which reads the UTC day | `15/01/2024` on a server clock one hour ahead of UTC (Italy) is stored as `2024-01-14` | the calendar day written in the cell | medium, not executed | `Coerce.ClockAheadShiftsDay` | `Coerce.DateRoundTrip` |
| src/services/dataLoader.js:622-624 | `parseGenericValue` returns numbers unchanged, then `.match` is called on the result | a `Rinnovo DA` cell holding the number `123` throws a `TypeError`, which aborts the whole import | a numeric cell is kept as it is, with no reference | high, not executed | `Records.NumericRinnovoThrows` | `Records.NumericRinnovoKept` |
| src/routes/auth.js:67-75 | the size error is thrown inside the `try`, so the `catch` replaces its message | a well-formed PNG data URL of 3 MB is answered `Immagine non valida.` | `L'immagine e' troppo grande. Dimensione massima: 2 MB.` | medium, not executed | `AuthRoutes.OversizeReportedInvalid` | `AuthRoutes.OversizeReportedTooLarge` |
| scripts/createTables.js:38-41 | every set but `utf8mb4` gets `utf8_general_ci` as default collation | `DB_CHARSET=latin1` with no `DB_COLLATION` asks MySQL for `latin1` with `utf8_general_ci`; MySQL refuses this with error 1253, which does not start the fallback | the set's own general collation, as lines 48-51 choose for the fallback | medium, not executed | `Schema.ForeignDefaultCollation` | `Schema.OwnDefaultCollation` |
| scripts/verifyWorkbookVsDb.js:434-458 | the workbook ids are numbers from `normaliseId`, while the base table's `VARCHAR(10)` ids come back as strings; `Set.has` and `Map.has` never equate the two | workbook id `7` and a base row with id `"7"`: `7` is reported missing, `"7"` extra, and the row's fields are never compared | the row ids put through `normaliseId` before they are looked up | high, not executed | `WorkbookCompare.BaseAsWrittenOneSided` | `WorkbookCompare.BaseIdsCorrected` |
| scripts/verifyWorkbookVsDb.js:620-643 | `signature_id` is kept as the database returns it, so `JSON.stringify` keys a string id `"7"` apart from the workbook's `7` | a renewal stored with id `"7"` and otherwise equal fields is reported once only in Excel and once only in the database | `signature_id: normaliseId(row.signature_id)` | medium, not executed | `WorkbookCompare.SheetAsWrittenNeverClean` | `WorkbookCompare.StoredRenewalPayload` |

In each row the first member is stated over the code as written
(`Coerce.ParseDateOnClock`, `Records.RinnovoAsWritten`,
`AuthRoutes.ParseAvatarDataUrl`, `Schema.DefaultCollation`,
`WorkbookCompare.CompareBaseRecords`, `WorkbookCompare.NormaliseDbRenewal`).
The second is stated over the corrected definition (`Coerce.ParseDate`,
`Records.RinnovoOf`, `AuthRoutes.ParseAvatarReported`,
`Schema.MatchingCollation`, `WorkbookCompare.CompareBaseRecordsCorrected`,
`WorkbookCompare.NormaliseDbRenewalCorrected`).

The handlers are modelled as written. `Loader.LoadDataFromXls` fails when a
renewal sheet throws. `AuthRoutes.UpdateProfile` uses `ParseAvatarDataUrl`,
and `Schema.Provision` uses `DefaultCollation`. The corrected handlers sit
beside them: `AuthRoutes.UpdateProfileReported` and
`Schema.ProvisionCorrected`. `AuthRoutes.ProfileOversize` and
`Schema.ForeignCharsetProvision` compare each pair. The record builders
parse dates with `Coerce.ParseDate`. This is the code as written on a server
clock at or behind UTC (`Coerce.ClockBehindUtc`); a successful import builds
the renewals the code builds (`Loader.RenewalsOfAgree`).

=== FILE: auth_routes.dfy ===
/** The account routes: the avatar data-URL codec, the guards of the login,
    password-change and profile-update handlers, and what each leaves in the
    session. Password hashing, the user lookup and base64 are parameters. */
module AuthRoutes {
  import opened Wrappers
  import opened JsText
  import opened Cells
  import Seqs
  import Client

  type Bytes = seq<bv8>

  const AvatarMaxSize: int := 2097152
  const AllowedAvatarTypes: set<string> :=
    {"image/png", "image/jpeg", "image/pjpeg", "image/gif", "image/webp"}
  const DefaultMime := "image/png"

  const BadFormat := "Formato immagine non valido."
  const Unsupported := "Formato immagine non supportato. Usa PNG, JPG, GIF o WebP."
  const TooLarge := "L'immagine e' troppo grande. Dimensione massima: 2 MB."
  const Invalid := "Immagine non valida."

  /** `Buffer`'s base64: `encode` is `buffer.toString('base64')` and `decode`
      is `Buffer.from(text, 'base64')`, `None` when it throws. */
  datatype Codec = Codec(encode: Bytes -> string, decode: string -> Option<Bytes>)

  predicate Base64Char(c: char) {
    ('A' <= c <= 'Z') || ('a' <= c <= 'z') || ('0' <= c <= '9') || c == '+' || c == '/' || c == '='
  }

  /** `buf` encodes to non-empty base64 text that decodes back to it. */
  predicate RoundTrips(codec: Codec, buf: Bytes) {
    var e := codec.encode(buf);
    && |e| > 0
    && (forall i :: 0 <= i < |e| ==> Base64Char(e[i]))
    && codec.decode(e) == Some(buf)
  }

  // ------------------------------------------------------ buildAvatarDataUrl

  /** The mime a data URL is built with: the trimmed text, `image/png` when
      it is missing or blank. */
  function SafeMime(mime: Cell): (r: string)
    ensures |r| > 0
  {
    if mime.Str? && |Trim(mime.s)| > 0 then Trim(mime.s) else DefaultMime
  }

  /** `buildAvatarDataUrl(mime, buffer)`; `None` for the buffer is anything
      that is not a `Buffer`. */
  function BuildAvatarDataUrl(mime: Cell, buffer: Option<Bytes>, codec: Codec): (r: Option<string>)
    ensures r.None? <==> buffer.None? || |buffer.value| == 0
  {
    if buffer.None? || |buffer.value| == 0 then None
    else Some("data:" + SafeMime(mime) + ";base64," + codec.encode(buffer.value))
  }

  // ------------------------------------------------------ parseAvatarDataUrl

  /** What `.` does not match. */
  predicate LineTerminator(c: char) {
    c == '\n' || c == '\r' || c == '\U{2028}' || c == '\U{2029}'
  }

  predicate NoLineBreak(s: string) {
    forall i :: 0 <= i < |s| ==> !LineTerminator(s[i])
  }

  /** `text.match(/^data:([^;]+);base64,(.+)$/)`: the mime runs to the first
      `;`, which must open `;base64,`; the payload is the non-empty rest,
      free of line breaks. */
  function MatchDataUrl(t: string): (r: Option<(string, string)>)
    ensures r.Some? ==> |r.value.0| > 0 && ';' !in r.value.0 && |r.value.1| > 0 && NoLineBreak(r.value.1)
  {
    if |t| < 5 || t[..5] != "data:" then None
    else
      var rest := t[5..];
      if ';' !in rest then None
      else
        var k := Seqs.IndexOf(rest, ';');
        var tail := rest[k..];
        if k == 0 || |tail| < 8 || tail[..8] != ";base64," then None
        else
          var payload := tail[8..];
          if |payload| == 0 || !NoLineBreak(payload) then None
          else Some((rest[..k], payload))
  }

  datatype Avatar = NoAvatar | Image(buffer: Bytes, mime: string)

  /** The body of the `try`: decoding, then the size limit. */
  function DecodePayload(payload: string, codec: Codec, maxSize: int): Result<Bytes, string> {
    match codec.decode(payload)
    case None => Failure(Invalid)
    case Some(buf) => if |buf| > maxSize then Failure(TooLarge) else Success(buf)
  }

  /** The checks before decoding: `None` when there is no avatar text, else
      the matched mime and payload or the error thrown. */
  function AvatarParts(value: Cell): Option<Result<(string, string), string>> {
    if !value.Str? || Trim(value.s) == "" then None
    else
      match MatchDataUrl(Trim(value.s))
      case None => Some(Failure(BadFormat))
      case Some((mime, payload)) =>
        if mime !in AllowedAvatarTypes then Some(Failure(Unsupported)) else Some(Success((mime, payload)))
  }

  /** `parseAvatarDataUrl(value)` as written: the `catch` around decoding
      replaces every error thrown inside it, the size error included, with
      `Immagine non valida.`. */
  function ParseAvatarDataUrl(value: Cell, codec: Codec, maxSize: int): (r: Result<Avatar, string>) {
    match AvatarParts(value)
    case None => Success(NoAvatar)
    case Some(Failure(e)) => Failure(e)
    case Some(Success((mime, payload))) =>
      match DecodePayload(payload, codec, maxSize)
      case Success(buf) => Success(Image(buf, mime))
      case Failure(_) => Failure(Invalid)
  }

  /** The size message is evidently meant to reach the user: here only a
      decoding failure is rewritten. */
  function ParseAvatarReported(value: Cell, codec: Codec, maxSize: int): (r: Result<Avatar, string>) {
    match AvatarParts(value)
    case None => Success(NoAvatar)
    case Some(Failure(e)) => Failure(e)
    case Some(Success((mime, payload))) =>
      match DecodePayload(payload, codec, maxSize)
      case Success(buf) => Success(Image(buf, mime))
      case Failure(e) => Failure(e)
  }

  /** There is no avatar exactly when the value is not text or is blank. */
  lemma NoAvatarIff(value: Cell, codec: Codec, maxSize: int)
    ensures ParseAvatarDataUrl(value, codec, maxSize) == Success(NoAvatar) <==> !value.Str? || Trim(value.s) == ""
  {
  }

  /** Every error of the parser is one of three messages; the size message
      never surfaces. */
  lemma ParseAvatarErrors(value: Cell, codec: Codec, maxSize: int)
    requires ParseAvatarDataUrl(value, codec, maxSize).Failure?
    ensures ParseAvatarDataUrl(value, codec, maxSize).error in {BadFormat, Unsupported, Invalid}
    ensures ParseAvatarDataUrl(value, codec, maxSize).error != TooLarge
  {
  }

  /** An oversized avatar of an allowed type is reported as an invalid image. */
  lemma OversizeReportedInvalid(s: string, mime: string, payload: string, buf: Bytes, codec: Codec, maxSize: int)
    requires Trim(s) != "" && MatchDataUrl(Trim(s)) == Some((mime, payload)) && mime in AllowedAvatarTypes
    requires codec.decode(payload) == Some(buf) && |buf| > maxSize
    ensures ParseAvatarDataUrl(Str(s), codec, maxSize) == Failure(Invalid)
  {
  }

  /** With the message kept, the same avatar is reported as too large ... */
  lemma OversizeReportedTooLarge(s: string, mime: string, payload: string, buf: Bytes, codec: Codec, maxSize: int)
    requires Trim(s) != "" && MatchDataUrl(Trim(s)) == Some((mime, payload)) && mime in AllowedAvatarTypes
    requires codec.decode(payload) == Some(buf) && |buf| > maxSize
    ensures ParseAvatarReported(Str(s), codec, maxSize) == Failure(TooLarge)
  {
  }

  /** ... and nothing else changes: both parsers accept the same values with
      the same avatar, and differ only in the message of a size error. */
  lemma ReportedAgrees(value: Cell, codec: Codec, maxSize: int)
    ensures ParseAvatarReported(value, codec, maxSize).Success? <==> ParseAvatarDataUrl(value, codec, maxSize).Success?
    ensures ParseAvatarReported(value, codec, maxSize).Success? ==>
      ParseAvatarReported(value, codec, maxSize) == ParseAvatarDataUrl(value, codec, maxSize)
    ensures ParseAvatarReported(value, codec, maxSize).Failure? && ParseAvatarReported(value, codec, maxSize).error != TooLarge ==>
      ParseAvatarReported(value, codec, maxSize) == ParseAvatarDataUrl(value, codec, maxSize)
  {
  }

  // ------------------------------------------------------------ round trip

  lemma AllowedShape(m: string)
    requires m in AllowedAvatarTypes
    ensures |m| > 0 && ';' !in m && IsTrimmed(m)
  {
  }

  lemma MatchBuilt(m: string, e: string)
    requires |m| > 0 && ';' !in m && |e| > 0 && NoLineBreak(e)
    ensures MatchDataUrl("data:" + m + ";base64," + e) == Some((m, e))
  {
    var t := "data:" + m + ";base64," + e;
    var rest := m + ";base64," + e;
    assert t[..5] == "data:" && t[5..] == rest;
    assert rest[|m|] == ';' && rest[..|m|] == m;
    Seqs.IndexOfAt(rest, ';', |m|);
    var tail := rest[|m|..];
    assert tail == ";base64," + e;
    assert tail[..8] == ";base64," && tail[8..] == e;
  }

  lemma Base64NoBreak(e: string)
    requires forall i :: 0 <= i < |e| ==> Base64Char(e[i])
    ensures NoLineBreak(e)
  {
  }

  lemma BuiltTrimmed(m: string, e: string)
    requires |e| > 0 && Base64Char(e[|e| - 1])
    ensures IsTrimmed("data:" + m + ";base64," + e)
  {
    var t := "data:" + m + ";base64," + e;
    assert t[0] == 'd' && t[|t| - 1] == e[|e| - 1];
  }

  /** A non-empty buffer within the size limit, built into a data URL with an
      allowed mime, parses back to the same buffer and mime. */
  lemma AvatarRoundTrip(mime: string, buf: Bytes, codec: Codec, maxSize: int)
    requires mime in AllowedAvatarTypes && 0 < |buf| <= maxSize && RoundTrips(codec, buf)
    ensures BuildAvatarDataUrl(Str(mime), Some(buf), codec).Some?
    ensures ParseAvatarDataUrl(Str(BuildAvatarDataUrl(Str(mime), Some(buf), codec).value), codec, maxSize)
      == Success(Image(buf, mime))
  {
    var e := codec.encode(buf);
    AllowedShape(mime);
    TrimOfTrimmed(mime);
    assert SafeMime(Str(mime)) == mime;
    var url := "data:" + mime + ";base64," + e;
    BuiltTrimmed(mime, e);
    TrimOfTrimmed(url);
    Base64NoBreak(e);
    MatchBuilt(mime, e);
  }

  // ------------------------------------------------------------- responses

  datatype Reply = Reply(status: int, message: string)

  /** The part of `req.session` the handlers read and write. */
  datatype Session = Session(
    userId: Option<nat>,
    username: string,
    mustChangePassword: bool,
    fullName: Option<string>,
    avatarUrl: Option<string>)

  datatype User = User(id: nat, username: string, passwordHash: string, mustChangePassword: bool,
                       fullName: string, avatarUrl: Option<string>)

  // ---------------------------------------------------------- POST /login

  /** `POST /login`. `findUser` is the lookup by user name and `verify` the
      hash comparison; the session is regenerated on success. */
  function Login(session: Session, username: Cell, password: Cell,
                 findUser: Cell -> Option<User>, verify: (Cell, string) -> bool): (Reply, Session)
  {
    if !Truthy(username) || !Truthy(password) then (Reply(400, "Credenziali mancanti."), session)
    else
      match findUser(username)
      case None => (Reply(401, "Credenziali non valide."), session)
      case Some(u) =>
        if !verify(password, u.passwordHash) then (Reply(401, "Credenziali non valide."), session)
        else
          (Reply(200, "Autenticato."),
           Session(Some(u.id), u.username, u.mustChangePassword,
                   if u.fullName == "" then None else Some(u.fullName), u.avatarUrl))
  }

  /** Missing credentials are refused with 400 before any lookup: the answer
      does not depend on the user table or the hashes, and the session stays. */
  lemma LoginChecksInputFirst(session: Session, username: Cell, password: Cell,
                              f1: Cell -> Option<User>, v1: (Cell, string) -> bool,
                              f2: Cell -> Option<User>, v2: (Cell, string) -> bool)
    requires !Truthy(username) || !Truthy(password)
    ensures Login(session, username, password, f1, v1) == Login(session, username, password, f2, v2)
    ensures Login(session, username, password, f1, v1).0.status == 400
    ensures Login(session, username, password, f1, v1).1 == session
  {
  }

  /** A login succeeds exactly for a known user whose password verifies, and
      then the session belongs to that user and carries its flag. */
  lemma LoginSucceedsIff(session: Session, username: Cell, password: Cell,
                         findUser: Cell -> Option<User>, verify: (Cell, string) -> bool)
    ensures Login(session, username, password, findUser, verify).0.status == 200 <==>
      Truthy(username) && Truthy(password) && findUser(username).Some?
        && verify(password, findUser(username).value.passwordHash)
    ensures Login(session, username, password, findUser, verify).0.status == 200 ==>
      var s := Login(session, username, password, findUser, verify).1;
      s.userId == Some(findUser(username).value.id)
        && s.mustChangePassword == findUser(username).value.mustChangePassword
  {
  }

  // ------------------------------------------------- POST /change-password

  const MinPasswordLength := 10

  /** `newPassword` is a string of at least ten characters. */
  predicate NewPasswordAccepted(p: Cell) {
    p.Str? && |p.s| >= MinPasswordLength
  }

  /** The call `updateUserPassword(user.id, newPassword, { requireChangeFlag })`. */
  datatype PasswordUpdate = PasswordUpdate(userId: nat, newPassword: Cell, requireChangeFlag: bool)

  /** `POST /change-password`: the checks in source order; the first that
      fails decides the reply. `findUser` is the lookup by id and `verify`
      the hash comparison. The second component is the password update
      handed to the users table, when there is one, and the third the
      session afterwards. */
  function ChangePassword(session: Session, currentPassword: Cell, newPassword: Cell,
                          findUser: nat -> Option<User>, verify: (Cell, string) -> bool)
    : (Reply, Option<PasswordUpdate>, Session)
  {
    if session.userId.None? then (Reply(401, "Non autenticato."), None, session)
    else if !NewPasswordAccepted(newPassword) then
      (Reply(400, "La nuova password deve contenere almeno 10 caratteri."), None, session)
    else
      match findUser(session.userId.value)
      case None => (Reply(404, "Utente non trovato."), None, session)
      case Some(u) =>
        if !Truthy(currentPassword) then (Reply(400, "Inserisci la password attuale."), None, session)
        else if !verify(currentPassword, u.passwordHash) then (Reply(401, "Password attuale non corretta."), None, session)
        else if verify(newPassword, u.passwordHash) then
          (Reply(400, "La nuova password deve essere diversa da quella attuale."), None, session)
        else (Reply(200, "Password aggiornata correttamente."), Some(PasswordUpdate(u.id, newPassword, false)),
              session.(mustChangePassword := false))
  }

  /** The stages of the handler: each reply is given exactly when every
      earlier check passed and its own check failed. */
  lemma ChangePasswordOrder(session: Session, cur: Cell, np: Cell,
                            findUser: nat -> Option<User>, verify: (Cell, string) -> bool)
    ensures var r := ChangePassword(session, cur, np, findUser, verify).0;
      && (r == Reply(401, "Non autenticato.") <==> session.userId.None?)
      && (r == Reply(400, "La nuova password deve contenere almeno 10 caratteri.") <==>
            session.userId.Some? && !NewPasswordAccepted(np))
      && (r == Reply(404, "Utente non trovato.") <==>
            session.userId.Some? && NewPasswordAccepted(np) && findUser(session.userId.value).None?)
      && (r == Reply(400, "Inserisci la password attuale.") <==>
            session.userId.Some? && NewPasswordAccepted(np) && findUser(session.userId.value).Some?
            && !Truthy(cur))
  {
  }

  /** ... then the current password must verify and the new one must differ;
      only then is the new password stored, for the user found, with the
      change flag cleared. */
  lemma ChangePasswordVerifies(session: Session, cur: Cell, np: Cell,
                               findUser: nat -> Option<User>, verify: (Cell, string) -> bool)
    requires session.userId.Some? && NewPasswordAccepted(np) && Truthy(cur)
    requires findUser(session.userId.value).Some?
    ensures var u := findUser(session.userId.value).value;
      var h := u.passwordHash;
      var (r, up, _) := ChangePassword(session, cur, np, findUser, verify);
      && (r == Reply(401, "Password attuale non corretta.") <==> !verify(cur, h))
      && (r == Reply(400, "La nuova password deve essere diversa da quella attuale.") <==>
            verify(cur, h) && verify(np, h))
      && (r.status == 200 <==> verify(cur, h) && !verify(np, h))
      && (r.status == 200 ==> up == Some(PasswordUpdate(u.id, np, false)))
  {
  }

  /** The password is written exactly by a successful change; the session's
      flag is cleared exactly then, and nothing else in the session changes. */
  lemma ChangePasswordSession(session: Session, cur: Cell, np: Cell,
                              findUser: nat -> Option<User>, verify: (Cell, string) -> bool)
    ensures var (r, up, s) := ChangePassword(session, cur, np, findUser, verify);
      && (up.Some? <==> r.status == 200)
      && (r.status == 200 ==> s == session.(mustChangePassword := false) && up.value.newPassword == np
                              && !up.value.requireChangeFlag)
      && (r.status != 200 ==> s == session)
  {
  }

  /** What the password form sends always passes the server's length check. */
  lemma FormSubmitPassesLength(np: string, confirm: string)
    requires Client.CheckPasswordForm(np, confirm) == Client.Submit
    ensures NewPasswordAccepted(Str(np))
  {
    Client.PasswordFormOrder(np, confirm);
  }

  // --------------------------------------------------------- PUT /profile

  /** The fields handed to `updateUserProfile`. */
  datatype ProfileUpdate = ProfileUpdate(fullName: Option<string>, avatarData: Option<Bytes>, avatarMime: Option<string>)

  /** `fullName.trim()`, `null` for anything that is not non-blank text. */
  function CleanFullName(fullName: Cell): (r: Option<string>) {
    if fullName.Str? && |Trim(fullName.s)| > 0 then Some(Trim(fullName.s)) else None
  }

  /** `PUT /profile` with the avatar parser `parse`: the reply, the update
      stored (when there is one) and the session. */
  function UpdateProfileWith(session: Session, fullName: Cell, avatarUrl: Cell, codec: Codec, maxSize: int,
                             parse: (Cell, Codec, int) -> Result<Avatar, string>)
    : (Reply, Option<ProfileUpdate>, Session)
  {
    if session.userId.None? then (Reply(401, "Non autenticato."), None, session)
    else
      var name := CleanFullName(fullName);
      var raw := if avatarUrl.Str? then Trim(avatarUrl.s) else "";
      var parsed: Result<Avatar, string> := if raw == "" then Success(NoAvatar) else parse(Str(raw), codec, maxSize);
      match parsed
      case Failure(e) => (Reply(400, e), None, session)
      case Success(NoAvatar) =>
        (Reply(200, "Profilo aggiornato."), Some(ProfileUpdate(name, None, None)),
         session.(fullName := name, avatarUrl := None))
      case Success(Image(buf, mime)) =>
        (Reply(200, "Profilo aggiornato."), Some(ProfileUpdate(name, Some(buf), Some(mime))),
         session.(fullName := name, avatarUrl := BuildAvatarDataUrl(Str(mime), Some(buf), codec)))
  }

  /** `PUT /profile` as written, on `parseAvatarDataUrl`. */
  function UpdateProfile(session: Session, fullName: Cell, avatarUrl: Cell, codec: Codec, maxSize: int)
    : (Reply, Option<ProfileUpdate>, Session)
  {
    UpdateProfileWith(session, fullName, avatarUrl, codec, maxSize, ParseAvatarDataUrl)
  }

  /** `PUT /profile` on the parser that keeps the size message. */
  function UpdateProfileReported(session: Session, fullName: Cell, avatarUrl: Cell, codec: Codec, maxSize: int)
    : (Reply, Option<ProfileUpdate>, Session)
  {
    UpdateProfileWith(session, fullName, avatarUrl, codec, maxSize, ParseAvatarReported)
  }

  /** The stored name is trimmed and non-blank, or `null`. */
  lemma CleanFullNameShape(fullName: Cell)
    ensures CleanFullName(fullName).Some? ==> |CleanFullName(fullName).value| > 0 && IsTrimmed(CleanFullName(fullName).value)
    ensures CleanFullName(fullName).None? <==> !fullName.Str? || AllSpace(fullName.s)
  {
    if fullName.Str? {
      TrimEmptyIffAllSpace(fullName.s);
    }
  }

  /** Without avatar text the update clears the avatar, in the table and in
      the session, and always succeeds for a signed-in user. */
  lemma ProfileWithoutAvatar(session: Session, fullName: Cell, avatarUrl: Cell, codec: Codec, maxSize: int)
    requires session.userId.Some?
    requires !avatarUrl.Str? || Trim(avatarUrl.s) == ""
    ensures var (r, u, s) := UpdateProfile(session, fullName, avatarUrl, codec, maxSize);
      && r.status == 200
      && u == Some(ProfileUpdate(CleanFullName(fullName), None, None))
      && s.avatarUrl.None? && s.fullName == CleanFullName(fullName)
  {
  }

  /** Saving the avatar the page was given stores its buffer and mime and
      puts the same data URL back in the session. */
  lemma ProfileKeepsAvatar(session: Session, fullName: Cell, mime: string, buf: Bytes, codec: Codec, maxSize: int)
    requires session.userId.Some?
    requires mime in AllowedAvatarTypes && 0 < |buf| <= maxSize && RoundTrips(codec, buf)
    ensures var url := BuildAvatarDataUrl(Str(mime), Some(buf), codec);
      var (r, u, s) := UpdateProfile(session, fullName, Str(url.value), codec, maxSize);
      && r.status == 200
      && u == Some(ProfileUpdate(CleanFullName(fullName), Some(buf), Some(mime)))
      && s.avatarUrl == url
  {
    AvatarRoundTrip(mime, buf, codec, maxSize);
    var url := BuildAvatarDataUrl(Str(mime), Some(buf), codec).value;
    BuiltTrimmed(mime, codec.encode(buf));
    TrimOfTrimmed(url);
  }

  /** A rejected avatar leaves everything unchanged and answers 400 with the
      parser's message, which is never the size message. */
  lemma ProfileRejectsAvatar(session: Session, fullName: Cell, s: string, codec: Codec, maxSize: int)
    requires session.userId.Some? && Trim(s) != ""
    requires ParseAvatarDataUrl(Str(Trim(s)), codec, maxSize).Failure?
    ensures var (r, u, s') := UpdateProfile(session, fullName, Str(s), codec, maxSize);
      && r == Reply(400, ParseAvatarDataUrl(Str(Trim(s)), codec, maxSize).error)
      && r.message in {BadFormat, Unsupported, Invalid}
      && u.None? && s' == session
  {
    ParseAvatarErrors(Str(Trim(s)), codec, maxSize);
  }

  /** An avatar of an allowed type over the size limit: the handler as
      written answers `Immagine non valida.`, the one on the corrected parser
      answers with the size message; neither stores anything. */
  lemma ProfileOversize(session: Session, fullName: Cell, s: string, mime: string, payload: string, buf: Bytes,
                        codec: Codec, maxSize: int)
    requires session.userId.Some?
    requires Trim(s) != "" && MatchDataUrl(Trim(s)) == Some((mime, payload)) && mime in AllowedAvatarTypes
    requires codec.decode(payload) == Some(buf) && |buf| > maxSize
    ensures var (r, u, s') := UpdateProfile(session, fullName, Str(s), codec, maxSize);
      r == Reply(400, Invalid) && u.None? && s' == session
    ensures var (r, u, s') := UpdateProfileReported(session, fullName, Str(s), codec, maxSize);
      r == Reply(400, TooLarge) && u.None? && s' == session
  {
    TrimIdempotent(s);
    OversizeReportedInvalid(Trim(s), mime, payload, buf, codec, maxSize);
    OversizeReportedTooLarge(Trim(s), mime, payload, buf, codec, maxSize);
  }
}

=== FILE: calendar.dfy ===
/** Calendar dates as (year, month, day) triples, the proleptic Gregorian
    calendar JavaScript's `Date` uses, the normalisation `new Date(y, m, d)`
    applies to out-of-range months and days, and the `YYYY-MM-DD` text
    `toISOString().slice(0, 10)` produces (the clock is taken as UTC). */
module Calendar {
  import opened JsText
  import Cells

  datatype Date = Date(year: int, month: int, day: int)

  predicate IsLeap(y: int) {
    (y % 4 == 0 && y % 100 != 0) || y % 400 == 0
  }

  function DaysInMonth(y: int, m: int): (n: int)
    requires 1 <= m <= 12
    ensures 28 <= n <= 31
  {
    if m == 2 then (if IsLeap(y) then 29 else 28)
    else if m == 4 || m == 6 || m == 9 || m == 11 then 30
    else 31
  }

  predicate Valid(d: Date) {
    1 <= d.month <= 12 && 1 <= d.day <= DaysInMonth(d.year, d.month)
  }

  function NextDay(d: Date): (r: Date)
    requires Valid(d)
    ensures Valid(r)
  {
    if d.day < DaysInMonth(d.year, d.month) then Date(d.year, d.month, d.day + 1)
    else if d.month < 12 then Date(d.year, d.month + 1, 1)
    else Date(d.year + 1, 1, 1)
  }

  function PrevDay(d: Date): (r: Date)
    requires Valid(d)
    ensures Valid(r)
  {
    if d.day > 1 then Date(d.year, d.month, d.day - 1)
    else if d.month > 1 then Date(d.year, d.month - 1, DaysInMonth(d.year, d.month - 1))
    else Date(d.year - 1, 12, 31)
  }

  /** Stepping a day forward and back again are inverse. */
  lemma NextPrevInverse(d: Date)
    requires Valid(d)
    ensures PrevDay(NextDay(d)) == d && NextDay(PrevDay(d)) == d
  {
  }

  function AddDays(d: Date, n: nat): (r: Date)
    requires Valid(d)
    ensures Valid(r)
    decreases n
  {
    if n == 0 then d else AddDays(NextDay(d), n - 1)
  }

  function SubDays(d: Date, n: nat): (r: Date)
    requires Valid(d)
    ensures Valid(r)
    decreases n
  {
    if n == 0 then d else SubDays(PrevDay(d), n - 1)
  }

  /** The date `new Date(y, m - 1, d)` denotes, for a one-based month `m`:
      years 0 to 99 mean 1900 to 1999, months outside 1..12 carry into the
      year, and the day counts from the first of that month, so day 0 is the
      last day of the month before. */
  function MakeDate(y: int, m: int, d: int): (r: Date)
    ensures Valid(r)
  {
    var yr := if 0 <= y <= 99 then 1900 + y else y;
    var first := Date(yr + (m - 1) / 12, (m - 1) % 12 + 1, 1);
    if d >= 1 then AddDays(first, d - 1) else SubDays(first, 1 - d)
  }

  lemma {:induction false} AddDaysWithinMonth(y: int, m: int, a: int, k: nat)
    requires 1 <= m <= 12 && 1 <= a && a + k <= DaysInMonth(y, m)
    ensures AddDays(Date(y, m, a), k) == Date(y, m, a + k)
    decreases k
  {
    if k > 0 {
      AddDaysWithinMonth(y, m, a + 1, k - 1);
    }
  }

  /** A real calendar date outside the two-digit-year range comes back from
      `new Date` unchanged. */
  lemma MakeDateOfValid(y: int, m: int, d: int)
    requires Valid(Date(y, m, d)) && !(0 <= y <= 99)
    ensures MakeDate(y, m, d) == Date(y, m, d)
  {
    assert (m - 1) / 12 == 0 && (m - 1) % 12 + 1 == m;
    AddDaysWithinMonth(y, m, 1, d - 1);
  }

  /** The UTC calendar day `k` days after 1 January 1970. */
  function DayFromEpoch(k: int): (r: Date)
    ensures Valid(r)
  {
    if k >= 0 then AddDays(Date(1970, 1, 1), k) else SubDays(Date(1970, 1, 1), -k)
  }

  function Zeros(n: nat): (r: string)
    ensures |r| == n && AllDigits(r)
  {
    if n == 0 then "" else Zeros(n - 1) + "0"
  }

  /** `n` in decimal, padded with zeros to at least `w` digits. */
  function Pad(n: nat, w: nat): (r: string)
    ensures AllDigits(r) && |r| >= w
  {
    var s := NatToDigits(n);
    if |s| < w then Zeros(w - |s|) + s else s
  }

  /** `toISOString().slice(0, 10)` of midnight UTC on `d`. */
  function IsoText(d: Date): (r: string)
    requires Valid(d)
    ensures |r| == 10
  {
    var y := if 0 <= d.year <= 9999 then Pad(d.year, 4)
      else (if d.year < 0 then "-" else "+") + Pad(if d.year < 0 then -d.year else d.year, 6);
    (y + "-" + Pad(d.month, 2) + "-" + Pad(d.day, 2))[..10]
  }

  lemma {:induction false} DigitsLength(n: nat, w: nat)
    requires w >= 1 && n < Cells.Pow10(w)
    ensures |NatToDigits(n)| <= w
  {
    if n >= 10 {
      assert Cells.Pow10(1) == 10;
      assert Cells.Pow10(w) == 10 * Cells.Pow10(w - 1);
      DigitsLength(n / 10, w - 1);
      assert NatToDigits(n) == NatToDigits(n / 10) + [DigitChar(n % 10)];
    }
  }

  lemma {:induction false} ZerosValue(n: nat)
    ensures DigitsValue(Zeros(n)) == 0
  {
    if n > 0 {
      assert Zeros(n)[..n - 1] == Zeros(n - 1);
      ZerosValue(n - 1);
    }
  }

  lemma {:induction false} LeadingZerosValue(z: nat, s: string)
    requires AllDigits(s)
    ensures DigitsValue(Zeros(z) + s) == DigitsValue(s)
  {
    if |s| == 0 {
      assert Zeros(z) + s == Zeros(z);
      ZerosValue(z);
    } else {
      var t := Zeros(z) + s;
      assert t[..|t| - 1] == Zeros(z) + s[..|s| - 1];
      LeadingZerosValue(z, s[..|s| - 1]);
    }
  }

  /** A padded number of at most `w` digits has exactly `w` digits and reads
      back as itself. */
  lemma PadExact(n: nat, w: nat)
    requires w >= 1 && n < Cells.Pow10(w)
    ensures |Pad(n, w)| == w && DigitsValue(Pad(n, w)) == n
  {
    DigitsLength(n, w);
    var s := NatToDigits(n);
    if |s| < w {
      LeadingZerosValue(w - |s|, s);
    }
  }

  /** For a four-digit year nothing of `YYYY-MM-DD` is cut off. */
  lemma IsoTextJoin(d: Date)
    requires Valid(d) && 0 <= d.year <= 9999
    ensures IsoText(d) == Pad(d.year, 4) + "-" + Pad(d.month, 2) + "-" + Pad(d.day, 2)
  {
    assert Cells.Pow10(2) == 100 && Cells.Pow10(4) == 10000;
    PadExact(d.year, 4);
    PadExact(d.month, 2);
    PadExact(d.day, 2);
    var t := Pad(d.year, 4) + "-" + Pad(d.month, 2) + "-" + Pad(d.day, 2);
    assert t[..10] == t;
  }

  lemma DashedFields(a: string, b: string, c: string)
    requires |a| == 4 && |b| == 2 && |c| == 2
    ensures var t := a + "-" + b + "-" + c;
      && t[..4] == a && t[4] == '-' && t[5..7] == b && t[7] == '-' && t[8..] == c
  {
  }

  /** For a four-digit year the ISO text is `YYYY-MM-DD` and each field reads
      back as the date's own component. */
  lemma IsoTextFields(d: Date)
    requires Valid(d) && 0 <= d.year <= 9999
    ensures var t := IsoText(d);
      && AllDigits(t[..4]) && t[4] == '-' && AllDigits(t[5..7]) && t[7] == '-' && AllDigits(t[8..])
      && DigitsValue(t[..4]) == d.year && DigitsValue(t[5..7]) == d.month && DigitsValue(t[8..]) == d.day
  {
    assert Cells.Pow10(2) == 100 && Cells.Pow10(4) == 10000;
    PadExact(d.year, 4);
    PadExact(d.month, 2);
    PadExact(d.day, 2);
    IsoTextJoin(d);
    DashedFields(Pad(d.year, 4), Pad(d.month, 2), Pad(d.day, 2));
  }
}

=== FILE: cells.dfy ===
/** Cell values as the spreadsheet reader and the JSON bodies hand them to the
    application, with the JavaScript conversions applied to them: truthiness,
    `String(v)`, `parseFloat`, `Number(string)` and `toFixed(2)`.
    Numbers are exact reals: NaN, infinities from overflow and binary
    rounding are outside the model. */
module Cells {
  import opened Wrappers
  import opened JsText

  /** `Empty` is `null` or `undefined`. */
  datatype Cell = Empty | Bool(b: bool) | Num(x: real) | Str(s: string)

  /** JavaScript truthiness of a cell value. */
  predicate Truthy(c: Cell) {
    match c
    case Empty => false
    case Bool(b) => b
    case Num(x) => x != 0.0
    case Str(s) => |s| > 0
  }

  /** Decimal digits of a fraction in [0, 1), cut off after `fuel` digits. */
  function FracDigits(f: real, fuel: nat): (r: string)
    requires 0.0 <= f < 1.0
    ensures AllDigits(r) && |r| <= fuel
    decreases fuel
  {
    if f == 0.0 || fuel == 0 then ""
    else
      var d := (f * 10.0).Floor;
      [DigitChar(d)] + FracDigits(f * 10.0 - d as real, fuel - 1)
  }

  /** `String(x)`: exact for integers, fractions cut after twenty digits. */
  function NumberText(x: real): (r: string)
    ensures |r| > 0
  {
    var a := if x < 0.0 then -x else x;
    var n := a.Floor;
    var f := a - n as real;
    (if x < 0.0 then "-" else "") + NatToDigits(n)
      + (if f == 0.0 then "" else "." + FracDigits(f, 20))
  }

  /** `String(v)` for a value that is neither `null` nor `undefined`. */
  function JsString(c: Cell): string
    requires !c.Empty?
  {
    match c
    case Bool(b) => if b then "true" else "false"
    case Num(x) => NumberText(x)
    case Str(s) => s
  }

  /** A natural number prints as its decimal digits. */
  lemma NumberTextOfNat(n: nat)
    ensures NumberText(n as real) == NatToDigits(n)
  {
    assert (n as real).Floor == n;
  }

  /** The outcome of a JavaScript numeric conversion. */
  datatype Numeric = NaN | Infinite(negative: bool) | Finite(x: real)

  function Pow10(n: nat): (p: nat)
    ensures p >= 1
  {
    if n == 0 then 1 else 10 * Pow10(n - 1)
  }

  /** `m * 10^e`, one decimal place at a time. */
  function Scale(m: real, e: int): real
    decreases if e >= 0 then e else -e
  {
    if e == 0 then m else if e > 0 then 10.0 * Scale(m, e - 1) else Scale(m, e + 1) / 10.0
  }

  /** An optional `+` or `-` at `t[i]`: (is negative, index after it). */
  function SignAt(t: string, i: nat): (r: (bool, nat))
    requires i <= |t|
    ensures i <= r.1 <= i + 1 && r.1 <= |t|
  {
    if i < |t| && (t[i] == '+' || t[i] == '-') then (t[i] == '-', i + 1) else (false, i)
  }

  /** The digits, optional point and fraction digits from `t[i]` on: (integer
      digits, fraction digits, index after them). */
  function Mantissa(t: string, i: nat): (r: (string, string, nat))
    requires i <= |t|
    ensures i <= r.2 <= |t|
  {
    var ip := TakeDigits(t[i..]);
    var j := i + |ip|;
    if j < |t| && t[j] == '.' then
      var fp := TakeDigits(t[j + 1..]);
      (ip, fp, j + 1 + |fp|)
    else (ip, "", j)
  }

  /** An optional exponent `e`/`E`, sign and digits at `t[k]`: (exponent,
      index after it); a bare `e` is not part of the number. */
  function Exponent(t: string, k: nat): (r: (int, nat))
    requires k <= |t|
    ensures k <= r.1 <= |t|
  {
    if k < |t| && (t[k] == 'e' || t[k] == 'E') then
      var (eneg, ei) := SignAt(t, k + 1);
      var ed := TakeDigits(t[ei..]);
      if |ed| > 0 then (if eneg then -(DigitsValue(ed) as int) else DigitsValue(ed) as int, ei + |ed|)
      else (0, k)
    else (0, k)
  }

  /** The longest prefix of `t` that is a finite StrDecimalLiteral of
      ECMAScript (sign, digits, optional fraction, optional exponent), as
      (value, length consumed); `None` when no digit starts the text. */
  function DecimalPrefix(t: string): (r: Option<(real, nat)>)
    ensures r.Some? ==> 0 < r.value.1 <= |t|
  {
    var (neg, i) := SignAt(t, 0);
    var (ip, fp, k) := Mantissa(t, i);
    if |ip| == 0 && |fp| == 0 then None
    else
      var (exp, end) := Exponent(t, k);
      var v := Scale(DigitsValue(ip + fp) as real, exp - |fp|);
      Some((if neg then -v else v, end))
  }

  /** `t` starts with `p`, compared one character at a time. */
  predicate StartsWith(t: string, p: string)
    decreases |p|
  {
    |p| == 0 || (|t| > 0 && t[0] == p[0] && StartsWith(t[1..], p[1..]))
  }

  /** `Number.parseFloat(s)`: leading white space skipped, then the longest
      numeric prefix. */
  function JsParseFloat(s: string): Numeric {
    var t := TrimStart(s);
    var (neg, i) := SignAt(t, 0);
    if StartsWith(t[i..], "Infinity") then Infinite(neg)
    else
      match DecimalPrefix(t)
      case None => NaN
      case Some((v, _)) => Finite(v)
  }

  function RadixDigit(c: char): int {
    if '0' <= c <= '9' then c as int - '0' as int
    else if 'a' <= c <= 'f' then c as int - 'a' as int + 10
    else if 'A' <= c <= 'F' then c as int - 'A' as int + 10
    else 99
  }

  predicate AllRadixDigits(s: string, radix: nat) {
    forall i :: 0 <= i < |s| ==> RadixDigit(s[i]) < radix
  }

  function RadixValue(s: string, radix: nat): nat
    requires AllRadixDigits(s, radix)
  {
    if |s| == 0 then 0
    else RadixValue(s[..|s| - 1], radix) * radix + RadixDigit(s[|s| - 1])
  }

  /** The radix of a `0x`, `0o` or `0b` prefix, 0 when there is none. */
  function RadixOfPrefix(t: string): nat {
    if |t| < 2 || t[0] != '0' then 0
    else if t[1] == 'x' || t[1] == 'X' then 16
    else if t[1] == 'o' || t[1] == 'O' then 8
    else if t[1] == 'b' || t[1] == 'B' then 2
    else 0
  }

  /** `Number(s)` for a string: the whole trimmed text must be a numeric
      literal; the empty text is 0. */
  function JsNumber(s: string): Numeric {
    var t := Trim(s);
    var (neg, i) := SignAt(t, 0);
    var radix := RadixOfPrefix(t);
    if t == "" then Finite(0.0)
    else if |t| - i == 8 && StartsWith(t[i..], "Infinity") then Infinite(neg)
    else if radix > 0 then
      (if |t| > 2 && AllRadixDigits(t[2..], radix) then Finite(RadixValue(t[2..], radix) as real) else NaN)
    else
      match DecimalPrefix(t)
      case Some((v, n)) => if n == |t| then Finite(v) else NaN
      case None => NaN
  }

  /** `Number(x.toFixed(2))` as a whole number of cents: `x` times a hundred,
      rounded half away from zero. A double of 1e21 or more, for which
      `toFixed` gives back its own text, is a whole number, so the formula
      covers it too. */
  function Cents(x: real): int {
    if x < 0.0 then -((-x * 100.0 + 0.5).Floor) else (x * 100.0 + 0.5).Floor
  }

  /** The cents are the nearest whole number to a hundred times the amount;
      a tie goes away from zero. */
  lemma CentsNearest(x: real)
    ensures -0.5 <= Cents(x) as real - x * 100.0 <= 0.5
    ensures Cents(x) as real - x * 100.0 == 0.5 ==> x > 0.0
    ensures Cents(x) as real - x * 100.0 == -0.5 ==> x < 0.0
  {
    var y := x * 100.0;
    if x < 0.0 {
      var n := (-y + 0.5).Floor;
      assert n as real <= -y + 0.5 < n as real + 1.0;
    } else {
      var n := (y + 0.5).Floor;
      assert n as real <= y + 0.5 < n as real + 1.0;
    }
  }

  /** An amount that already is a whole number of cents keeps them. */
  lemma CentsOfCents(n: int)
    ensures Cents(n as real / 100.0) == n
  {
    var x := n as real / 100.0;
    assert x * 100.0 == n as real;
    if x < 0.0 {
      assert (-x * 100.0 + 0.5).Floor == -n;
    } else {
      assert (x * 100.0 + 0.5).Floor == n;
    }
  }
}

=== FILE: client.dfy ===
/** The pure helpers of the browser page: HTML escaping, the date column
    format, the token reading of asset flags, the normalisation and collection
    of the asset checkboxes, the pager and sort header of the signature list,
    and the order of the password form's checks. */
module Client {
  import opened Wrappers
  import opened JsText
  import opened Cells
  import Seqs
  import Calendar
  import Coerce
  import Columns
  import Headers
  import WorkbookValues

  // ------------------------------------------------------------------ esc

  /** `s.replace(/a/g, rep)` for a one-character pattern. */
  function ReplaceChar(s: string, a: char, rep: string): (r: string)
    ensures |r| >= |s| || |rep| == 0
  {
    if |s| == 0 then ""
    else (if s[0] == a then rep else [s[0]]) + ReplaceChar(s[1..], a, rep)
  }

  lemma {:induction false} ReplaceCharAppend(x: string, y: string, a: char, rep: string)
    ensures ReplaceChar(x + y, a, rep) == ReplaceChar(x, a, rep) + ReplaceChar(y, a, rep)
    decreases |x|
  {
    if |x| == 0 {
      assert x + y == y;
    } else {
      assert (x + y)[0] == x[0];
      assert (x + y)[1..] == x[1..] + y;
      ReplaceCharAppend(x[1..], y, a, rep);
    }
  }

  lemma {:induction false} ReplaceCharAbsent(s: string, a: char, rep: string)
    requires a !in s
    ensures ReplaceChar(s, a, rep) == s
    decreases |s|
  {
    if |s| > 0 {
      assert s[1..] == s[|s| - |s[1..]|..];
      assert a !in s[1..];
      ReplaceCharAbsent(s[1..], a, rep);
      assert [s[0]] + s[1..] == s;
    }
  }

  /** The four global replacements of `esc`, applied in source order. */
  function EscapeText(s: string): string {
    ReplaceChar(ReplaceChar(ReplaceChar(ReplaceChar(s, '&', "&amp;"), '<', "&lt;"), '>', "&gt;"), '"', "&quot;")
  }

  /** `esc(s)`: `null` and `undefined` give the empty text. */
  function Esc(v: Cell): (r: string)
    ensures v.Empty? ==> r == ""
  {
    if v.Empty? then "" else EscapeText(JsString(v))
  }

  /** The entity a single character is written as. */
  function EscChar(c: char): string {
    if c == '&' then "&amp;"
    else if c == '<' then "&lt;"
    else if c == '>' then "&gt;"
    else if c == '"' then "&quot;"
    else [c]
  }

  /** Escaping one character at a time, left to right. */
  function EscapeEach(s: string): string {
    if |s| == 0 then "" else EscChar(s[0]) + EscapeEach(s[1..])
  }

  /** Reading the four entities back; anything else is kept. */
  function Unescape(s: string): string
    decreases |s|
  {
    if |s| == 0 then ""
    else if |s| >= 5 && s[..5] == "&amp;" then "&" + Unescape(s[5..])
    else if |s| >= 4 && s[..4] == "&lt;" then "<" + Unescape(s[4..])
    else if |s| >= 4 && s[..4] == "&gt;" then ">" + Unescape(s[4..])
    else if |s| >= 6 && s[..6] == "&quot;" then "\"" + Unescape(s[6..])
    else [s[0]] + Unescape(s[1..])
  }

  /** No character that opens a tag or closes an attribute value. */
  predicate MarkupFree(s: string) {
    forall i :: 0 <= i < |s| ==> s[i] != '<' && s[i] != '>' && s[i] != '"'
  }

  lemma EscapeTextAppend(x: string, y: string)
    ensures EscapeText(x + y) == EscapeText(x) + EscapeText(y)
  {
    var x1, y1 := ReplaceChar(x, '&', "&amp;"), ReplaceChar(y, '&', "&amp;");
    ReplaceCharAppend(x, y, '&', "&amp;");
    var x2, y2 := ReplaceChar(x1, '<', "&lt;"), ReplaceChar(y1, '<', "&lt;");
    ReplaceCharAppend(x1, y1, '<', "&lt;");
    var x3, y3 := ReplaceChar(x2, '>', "&gt;"), ReplaceChar(y2, '>', "&gt;");
    ReplaceCharAppend(x2, y2, '>', "&gt;");
    ReplaceCharAppend(x3, y3, '"', "&quot;");
  }

  lemma ReplaceOne(c: char, a: char, rep: string)
    ensures ReplaceChar([c], a, rep) == if c == a then rep else [c]
  {
    assert [c][1..] == "";
  }

  lemma EscapeAmp()
    ensures EscapeText("&") == "&amp;"
  {
    var e := "&amp;";
    assert '<' !in e && '>' !in e && '"' !in e;
    ReplaceOne('&', '&', e);
    ReplaceCharAbsent(e, '<', "&lt;");
    ReplaceCharAbsent(e, '>', "&gt;");
    ReplaceCharAbsent(e, '"', "&quot;");
  }

  lemma EscapeLt()
    ensures EscapeText("<") == "&lt;"
  {
    ReplaceOne('<', '&', "&amp;");
    ReplaceOne('<', '<', "&lt;");
    ReplaceCharAbsent("&lt;", '>', "&gt;");
    ReplaceCharAbsent("&lt;", '"', "&quot;");
  }

  lemma EscapeGt()
    ensures EscapeText(">") == "&gt;"
  {
    ReplaceOne('>', '&', "&amp;");
    ReplaceOne('>', '<', "&lt;");
    ReplaceOne('>', '>', "&gt;");
    ReplaceCharAbsent("&gt;", '"', "&quot;");
  }

  lemma EscapeQuot()
    ensures EscapeText("\"") == "&quot;"
  {
    ReplaceOne('"', '&', "&amp;");
    ReplaceOne('"', '<', "&lt;");
    ReplaceOne('"', '>', "&gt;");
    ReplaceOne('"', '"', "&quot;");
  }

  lemma EscapePlain(c: char)
    requires c != '&' && c != '<' && c != '>' && c != '"'
    ensures EscapeText([c]) == [c]
  {
    ReplaceOne(c, '&', "&amp;");
    ReplaceOne(c, '<', "&lt;");
    ReplaceOne(c, '>', "&gt;");
    ReplaceOne(c, '"', "&quot;");
  }

  /** The chain of replacements treats a single character as `EscChar`: no
      later pattern occurs in an earlier entity. */
  lemma EscapeTextOfChar(c: char)
    ensures EscapeText([c]) == EscChar(c)
  {
    if c == '&' {
      EscapeAmp();
    } else if c == '<' {
      EscapeLt();
    } else if c == '>' {
      EscapeGt();
    } else if c == '"' {
      EscapeQuot();
    } else {
      EscapePlain(c);
    }
  }

  /** The four passes of `esc` escape each character on its own. */
  lemma {:induction false} EscapeTextIsEach(s: string)
    ensures EscapeText(s) == EscapeEach(s)
    decreases |s|
  {
    if |s| == 0 {
      assert EscapeText(s) == "";
    } else {
      assert s == [s[0]] + s[1..];
      EscapeTextAppend([s[0]], s[1..]);
      EscapeTextOfChar(s[0]);
      EscapeTextIsEach(s[1..]);
    }
  }

  lemma UnescapeAmp(t: string)
    ensures Unescape("&amp;" + t) == "&" + Unescape(t)
  {
    var x := "&amp;" + t;
    assert x[..5] == "&amp;" && x[5..] == t;
  }

  lemma UnescapeLt(t: string)
    ensures Unescape("&lt;" + t) == "<" + Unescape(t)
  {
    var x := "&lt;" + t;
    assert x[1] == 'l';
    assert x[..4] == "&lt;" && x[4..] == t;
  }

  lemma UnescapeGt(t: string)
    ensures Unescape("&gt;" + t) == ">" + Unescape(t)
  {
    var x := "&gt;" + t;
    assert x[1] == 'g' && x[..4] != "&lt;";
    assert x[..4] == "&gt;" && x[4..] == t;
  }

  lemma UnescapeQuot(t: string)
    ensures Unescape("&quot;" + t) == "\"" + Unescape(t)
  {
    var x := "&quot;" + t;
    assert x[1] == 'q' && x[..4] != "&lt;" && x[..4] != "&gt;";
    assert x[..6] == "&quot;" && x[6..] == t;
  }

  lemma UnescapePlain(c: char, t: string)
    requires c != '&'
    ensures Unescape([c] + t) == [c] + Unescape(t)
  {
    var x := [c] + t;
    assert x[0] == c && x[1..] == t;
  }

  lemma UnescapeOfEntity(c: char, t: string)
    ensures Unescape(EscChar(c) + t) == [c] + Unescape(t)
  {
    if c == '&' {
      UnescapeAmp(t);
    } else if c == '<' {
      UnescapeLt(t);
    } else if c == '>' {
      UnescapeGt(t);
    } else if c == '"' {
      UnescapeQuot(t);
    } else {
      UnescapePlain(c, t);
    }
  }

  lemma {:induction false} UnescapeEach(s: string)
    ensures Unescape(EscapeEach(s)) == s
    decreases |s|
  {
    if |s| > 0 {
      UnescapeOfEntity(s[0], EscapeEach(s[1..]));
      UnescapeEach(s[1..]);
    }
  }

  lemma {:induction false} EscapeEachMarkupFree(s: string)
    ensures MarkupFree(EscapeEach(s))
    decreases |s|
  {
    if |s| > 0 {
      EscapeEachMarkupFree(s[1..]);
      var e, t := EscChar(s[0]), EscapeEach(s[1..]);
      assert MarkupFree(e);
      assert forall i :: |e| <= i < |e + t| ==> (e + t)[i] == t[i - |e|];
    }
  }

  /** Escaped text holds no `<`, `>` or `"`, and reading the entities back
      gives the value's text. */
  lemma EscRoundTrip(v: Cell)
    requires !v.Empty?
    ensures MarkupFree(Esc(v))
    ensures Unescape(Esc(v)) == JsString(v)
  {
    EscapeTextIsEach(JsString(v));
    EscapeEachMarkupFree(JsString(v));
    UnescapeEach(JsString(v));
  }

  // ------------------------------------------------------------- fmt.date

  /** The text starts `dddd-dd-dd`. */
  predicate IsoPrefix(s: string) {
    && |s| >= 10
    && AllDigits(s[..4]) && s[4] == '-' && AllDigits(s[5..7]) && s[7] == '-' && AllDigits(s[8..10])
  }

  /** `fmt.date(v)`: the Italian day/month/year of an ISO-dated text.
      `localeDate` stands for `new Date(v).toLocaleDateString('it-IT')`,
      `None` when the text is not a date. */
  function FormatDate(v: Cell, localeDate: string -> Option<string>): (r: string)
    ensures !Truthy(v) ==> r == ""
  {
    if !Truthy(v) then ""
    else
      match v
      case Str(s) =>
        if IsoPrefix(s) then s[8..10] + "/" + s[5..7] + "/" + s[..4]
        else (match localeDate(s) case Some(t) => t case None => s)
      case _ => JsString(v)
  }

  /** Text that starts with a date's ISO form shows that date as
      day/month/year, whatever follows it (a time, a zone). */
  lemma FormatIsoDate(d: Calendar.Date, rest: string, localeDate: string -> Option<string>)
    requires Calendar.Valid(d) && 0 <= d.year <= 9999
    ensures FormatDate(Str(Calendar.IsoText(d) + rest), localeDate)
      == Calendar.Pad(d.day, 2) + "/" + Calendar.Pad(d.month, 2) + "/" + Calendar.Pad(d.year, 4)
  {
    assert Pow10(2) == 100 && Pow10(4) == 10000;
    Calendar.PadExact(d.year, 4);
    Calendar.PadExact(d.month, 2);
    Calendar.PadExact(d.day, 2);
    Calendar.IsoTextJoin(d);
    var t := Calendar.IsoText(d);
    var s := t + rest;
    Calendar.DashedFields(Calendar.Pad(d.year, 4), Calendar.Pad(d.month, 2), Calendar.Pad(d.day, 2));
    assert s[..4] == t[..4] && s[5..7] == t[5..7] && s[8..10] == t[8..];
    assert s[4] == t[4] && s[7] == t[7];
  }

  /** What the page shows for a stored date is read back to that date by the
      importer's date parser. */
  lemma ShownDateReadsBack(d: Calendar.Date, localeDate: string -> Option<string>)
    requires Calendar.Valid(d) && 100 <= d.year <= 9999
    ensures Coerce.ParseDate(Str(FormatDate(Str(Calendar.IsoText(d)), localeDate))) == Some(Calendar.IsoText(d))
  {
    FormatIsoDate(d, "", localeDate);
    assert Calendar.IsoText(d) + "" == Calendar.IsoText(d);
    Coerce.DateRoundTrip(d, '/');
    assert Calendar.Pad(d.day, 2) + "/" + Calendar.Pad(d.month, 2) + "/" + Calendar.Pad(d.year, 4)
      == Calendar.Pad(d.day, 2) + ['/'] + Calendar.Pad(d.month, 2) + ['/'] + Calendar.Pad(d.year, 4);
  }

  // --------------------------------------------------------- isTruthyValue

  const TruthyTokens: set<string> := {"1", "true", "t", "yes", "y", "si", "s", "ok", "x"}
  const FalsyTokens: set<string> := {"0", "false", "f", "no", "n", "off", "null", "undefined", ""}

  /** `value.trim().toLowerCase()` */
  function TokenOf(s: string): string {
    ToLower(Trim(s))
  }

  /** `isTruthyValue(value)`: the falsy tokens are looked up first, then the
      truthy ones, then the text is read as a number; any other text is true. */
  function IsTruthyValue(v: Cell): bool {
    match v
    case Empty => false
    case Bool(b) => b
    case Num(x) => x != 0.0
    case Str(s) =>
      var n := TokenOf(s);
      if n in FalsyTokens then false
      else if n in TruthyTokens then true
      else match JsNumber(n)
        case Finite(x) => x != 0.0
        case _ => true
  }

  /** Away from text, the value is read with JavaScript truthiness. */
  lemma TruthyValueOfNonText(v: Cell)
    requires !v.Str?
    ensures IsTruthyValue(v) == Truthy(v)
  {
  }

  lemma LowerKeepsTrimmed(t: string)
    requires IsTrimmed(t)
    ensures IsTrimmed(ToLower(t))
  {
  }

  /** A trimmed text starting with a lower-case Latin letter is not a number. */
  lemma WordIsNaN(t: string)
    requires |t| > 0 && 'a' <= t[0] <= 'z' && IsTrimmed(t)
    ensures JsNumber(t) == NaN
  {
    TrimOfTrimmed(t);
    assert SignAt(t, 0) == (false, 0);
    assert RadixOfPrefix(t) == 0;
    assert !StartsWith(t[0..], "Infinity");
    assert t[0..] == t;
    assert TakeDigits(t) == "";
    assert Mantissa(t, 0) == ("", "", 0);
  }

  lemma OneIsOne()
    ensures JsNumber("1") == Finite(1.0)
  {
    var t := "1";
    TrimOfTrimmed(t);
    assert SignAt(t, 0) == (false, 0);
    assert t[0..] == t;
    TakeDigitsUpTo(t, "");
    assert t + "" == t;
    assert Mantissa(t, 0) == ("1", "", 1);
    assert Exponent(t, 1) == (0, 1);
    assert DigitsValue("1") == 1 by {
      assert "1"[..0] == "";
    }
    assert "1" + "" == "1";
    assert DecimalPrefix(t) == Some((1.0, 1));
  }

  /** No truthy token reads as the number zero. */
  lemma TruthyTokenNotZero(n: string)
    requires n in TruthyTokens
    ensures JsNumber(n) != Finite(0.0)
  {
    if n == "1" {
      OneIsOne();
    } else {
      WordIsNaN(n);
    }
  }

  /** A text that is not a falsy token and reads as a number is true exactly
      when that number is not zero, whichever way the token lookup goes. */
  lemma NumeralByValue(s: string, x: real)
    requires TokenOf(s) !in FalsyTokens && JsNumber(TokenOf(s)) == Finite(x)
    ensures IsTruthyValue(Str(s)) <==> x != 0.0
  {
    if TokenOf(s) in TruthyTokens {
      TruthyTokenNotZero(TokenOf(s));
    }
  }

  /** A word that is not a falsy token is true, listed or not. */
  lemma WordIsTruthy(s: string)
    requires |TokenOf(s)| > 0 && 'a' <= TokenOf(s)[0] <= 'z' && TokenOf(s) !in FalsyTokens
    ensures IsTruthyValue(Str(s))
  {
    LowerKeepsTrimmed(Trim(s));
    WordIsNaN(TokenOf(s));
  }

  /** A non-empty word of lower-case Latin letters. */
  predicate LowerWord(w: string) {
    |w| > 0 && forall i :: 0 <= i < |w| ==> 'a' <= w[i] <= 'z'
  }

  lemma TokenOfWord(w: string)
    requires LowerWord(w)
    ensures TokenOf(w) == w
  {
    WorkbookValues.TrimmedWord(w);
    WorkbookValues.LowerLatinWord(w);
  }

  /** A word that is not a falsy token checks an asset box. */
  lemma WordChecksBox(w: string)
    requires LowerWord(w) && w !in FalsyTokens
    ensures IsTruthyValue(Str(w))
  {
    TokenOfWord(w);
    WordIsTruthy(w);
  }

  /** A word outside the importer's markers is false to `parseBoolean`. */
  lemma WordNotMarker(w: string)
    requires LowerWord(w) && w !in Coerce.LowerMarkers
    ensures !Coerce.ParseBoolean(Str(w))
  {
    WorkbookValues.TrimmedWord(w);
    WorkbookValues.LowerLatinWord(w);
    Coerce.ParseBooleanText(w);
  }

  /** A word outside the checker's tokens is flagged 0. */
  lemma WordNotFlagged(w: string)
    requires LowerWord(w) && w !in WorkbookValues.TruthyTokens
    ensures WorkbookValues.ToBooleanFlag(Str(w)) == 0
  {
    WorkbookValues.TrimmedWord(w);
    WorkbookValues.LowerLatinWord(w);
    WorkbookValues.FlagOfText(w);
  }

  /** An unknown word (`maybe`) checks an asset box, while the importer's
      `parseBoolean` and the workbook checker's flag both read it as false. */
  lemma UnknownWordDisagrees()
    ensures exists w :: (LowerWord(w) && w !in TruthyTokens && w !in FalsyTokens
      && IsTruthyValue(Str(w)) && !Coerce.ParseBoolean(Str(w)) && WorkbookValues.ToBooleanFlag(Str(w)) == 0)
  {
    var w := "maybe";
    assert LowerWord(w) && w !in TruthyTokens && w !in FalsyTokens;
    assert w !in Coerce.LowerMarkers && w !in WorkbookValues.TruthyTokens;
    WordChecksBox(w);
    WordNotMarker(w);
    WordNotFlagged(w);
  }

  /** A truthy token of the page (`s`) that neither the importer nor the
      checker accepts. */
  lemma TokenSetsDisagree()
    ensures exists w :: (w in TruthyTokens
      && IsTruthyValue(Str(w)) && !Coerce.ParseBoolean(Str(w)) && WorkbookValues.ToBooleanFlag(Str(w)) == 0)
  {
    var w := "s";
    assert LowerWord(w) && w !in FalsyTokens;
    assert w !in Coerce.LowerMarkers && w !in WorkbookValues.TruthyTokens;
    WordChecksBox(w);
    WordNotMarker(w);
    WordNotFlagged(w);
  }

  // ------------------------------------------------------ asset checkboxes

  /** The characters up to the first one that is not `s`. */
  function DropS(s: string): (r: string)
    ensures |r| <= |s|
  {
    if |s| > 0 && s[0] == 's' then DropS(s[1..]) else s
  }

  /** `replace(/\\s+/g, '_')`: the pattern is a backslash followed by one or
      more letters `s`, not a run of white space. */
  function ReplaceBackslashS(s: string): string
    decreases |s|
  {
    if |s| == 0 then ""
    else if |s| > 1 && s[0] == '\\' && s[1] == 's' then "_" + ReplaceBackslashS(DropS(s[2..]))
    else [s[0]] + ReplaceBackslashS(s[1..])
  }

  lemma {:induction false} BackslashFree(s: string)
    requires '\\' !in s
    ensures ReplaceBackslashS(s) == s
    decreases |s|
  {
    if |s| > 0 {
      assert s[1..] == s[|s| - |s[1..]|..];
      assert '\\' !in s[1..];
      BackslashFree(s[1..]);
      assert [s[0]] + s[1..] == s;
    }
  }

  /** `normalizeAssetCategory(value)` */
  function NormalizeAssetCategory(v: Cell): string {
    if Truthy(v) then ToUpper(ReplaceBackslashS(Trim(JsString(v)))) else ""
  }

  /** `normalizeAssetSubtype(value)` */
  function NormalizeAssetSubtype(v: Cell): string {
    if Truthy(v) then ToUpper(Trim(JsString(v))) else ""
  }

  /** Without a backslash, a category is normalised exactly like a subtype:
      trimmed and upper-cased, with its inner blanks kept. */
  lemma CategoryLikeSubtype(s: string)
    requires '\\' !in s
    ensures NormalizeAssetCategory(Str(s)) == NormalizeAssetSubtype(Str(s))
  {
    TrimCutsSpace(s);
    var t := Trim(s);
    assert forall i :: 0 <= i < |t| ==> t[i] == s[Lead(s) + i];
    BackslashFree(t);
  }

  lemma ToUpperAppend(a: string, b: string)
    ensures ToUpper(a + b) == ToUpper(a) + ToUpper(b)
  {
  }

  lemma BlankJoined(a: string, b: string)
    requires |a| > 0 && |b| > 0 && NoSpace(a) && NoSpace(b) && '\\' !in a && '\\' !in b
    ensures IsTrimmed(a + " " + b) && '\\' !in a + " " + b
  {
    var s := a + " " + b;
    assert s[0] == a[0] && s[|s| - 1] == b[|b| - 1];
    assert forall i :: 0 <= i < |s| ==> s[i] == (if i < |a| then a[i] else if i == |a| then ' ' else b[i - |a| - 1]);
  }

  /** Two words with a blank between them keep the blank: `smart card`
      becomes `SMART CARD`, not `SMART_CARD`. */
  lemma CategoryKeepsInnerBlank(a: string, b: string)
    requires |a| > 0 && |b| > 0 && NoSpace(a) && NoSpace(b) && '\\' !in a && '\\' !in b
    ensures NormalizeAssetCategory(Str(a + " " + b)) == ToUpper(a) + " " + ToUpper(b)
  {
    BlankJoined(a, b);
    PlainCategory(a + " " + b);
    UpperAroundBlank(a, b);
  }

  lemma PlainCategory(s: string)
    requires |s| > 0 && IsTrimmed(s) && '\\' !in s
    ensures NormalizeAssetCategory(Str(s)) == ToUpper(s)
  {
    TrimOfTrimmed(s);
    BackslashFree(s);
  }

  lemma UpperAroundBlank(a: string, b: string)
    ensures ToUpper(a + " " + b) == ToUpper(a) + " " + ToUpper(b)
  {
    ToUpperAppend(a + " ", b);
    ToUpperAppend(a, " ");
    assert ToUpper(" ") == " " by {
      assert UpperChar(' ') == ' ';
    }
  }

  datatype Checkbox = Checkbox(category: Cell, value: Cell, checked: bool)

  /** The normalised pair a checked box contributes, if both halves are
      non-empty. */
  function Picked(cb: Checkbox): (r: Option<Columns.Item>)
    ensures r.Some? ==> cb.checked && r.value.category != "" && r.value.subtype != ""
  {
    if !cb.checked then None
    else
      var c := NormalizeAssetCategory(cb.category);
      var s := NormalizeAssetSubtype(cb.value);
      if c == "" || s == "" then None else Some(Columns.Item(c, s))
  }

  /** What each box contributes, in page order. */
  function Picks(cbs: seq<Checkbox>): (ps: seq<Option<Columns.Item>>)
    ensures |ps| == |cbs|
  {
    seq(|cbs|, i requires 0 <= i < |cbs| => Picked(cbs[i]))
  }

  /** The contributed pairs, repeats included. */
  function Somes(ps: seq<Option<Columns.Item>>): seq<Columns.Item> {
    if |ps| == 0 then []
    else Somes(ps[..|ps| - 1]) + match ps[|ps| - 1] case None => [] case Some(it) => [it]
  }

  function Keys(r: seq<Columns.Item>): (ks: seq<string>)
    ensures |ks| == |r|
  {
    seq(|r|, i requires 0 <= i < |r| => Columns.ItemKey(r[i]))
  }

  /** The `seen` loop: a pair is pushed unless its `category::subtype` key
      was pushed before. */
  function KeepNew(ps: seq<Option<Columns.Item>>): seq<Columns.Item>
    decreases |ps|
  {
    if |ps| == 0 then []
    else
      var r := KeepNew(ps[..|ps| - 1]);
      match ps[|ps| - 1]
      case None => r
      case Some(it) => if Columns.ItemKey(it) in Keys(r) then r else r + [it]
  }

  /** `collectCheckboxAssets(checkboxes)` */
  function CollectCheckboxAssets(cbs: seq<Checkbox>): seq<Columns.Item> {
    KeepNew(Picks(cbs))
  }

  lemma KeysSnoc(r: seq<Columns.Item>, it: Columns.Item)
    ensures Keys(r + [it]) == Keys(r) + [Columns.ItemKey(it)]
  {
  }

  lemma NoDupsSnoc<T>(xs: seq<T>, x: T)
    requires Seqs.NoDups(xs) && x !in xs
    ensures Seqs.NoDups(xs + [x])
  {
    assert forall i :: 0 <= i < |xs| ==> (xs + [x])[i] == xs[i];
  }

  /** No key is kept twice, and everything kept was contributed. */
  lemma {:induction false} KeepNewSound(ps: seq<Option<Columns.Item>>)
    ensures Seqs.NoDups(Keys(KeepNew(ps)))
    ensures forall it :: it in KeepNew(ps) ==> Some(it) in ps
    decreases |ps|
  {
    if |ps| > 0 {
      var p := ps[..|ps| - 1];
      var q := KeepNew(p);
      KeepNewSound(p);
      assert forall o :: o in p ==> o in ps;
      match ps[|ps| - 1]
      case None =>
      case Some(it) =>
        if Columns.ItemKey(it) !in Keys(q) {
          KeysSnoc(q, it);
          NoDupsSnoc(Keys(q), Columns.ItemKey(it));
        }
    }
  }

  /** Distinct keys mean distinct pairs. */
  lemma KeysDistinct(r: seq<Columns.Item>)
    requires Seqs.NoDups(Keys(r))
    ensures Seqs.NoDups(r)
  {
    forall i, j | 0 <= i < j < |r|
      ensures r[i] != r[j]
    {
      assert Keys(r)[i] != Keys(r)[j];
    }
  }

  /** Every collected pair comes from a checked box with a non-empty
      category and subtype, and no key (hence no pair) is collected twice. */
  lemma CollectSound(cbs: seq<Checkbox>)
    ensures Seqs.NoDups(Keys(CollectCheckboxAssets(cbs)))
    ensures Seqs.NoDups(CollectCheckboxAssets(cbs))
    ensures forall it :: it in CollectCheckboxAssets(cbs) ==>
      exists i :: 0 <= i < |cbs| && cbs[i].checked && Picked(cbs[i]) == Some(it)
    ensures forall it :: it in CollectCheckboxAssets(cbs) ==> it.category != "" && it.subtype != ""
  {
    var ps := Picks(cbs);
    KeepNewSound(ps);
    KeysDistinct(KeepNew(ps));
    forall it | it in KeepNew(ps)
      ensures exists i :: 0 <= i < |cbs| && cbs[i].checked && Picked(cbs[i]) == Some(it)
      ensures it.category != "" && it.subtype != ""
    {
      var i :| 0 <= i < |ps| && ps[i] == Some(it);
      assert Picked(cbs[i]) == Some(it);
    }
  }

  lemma SomesSnoc(ps: seq<Option<Columns.Item>>, it: Columns.Item)
    requires |ps| > 0 && ps[|ps| - 1] == Some(it)
    ensures Somes(ps) == Somes(ps[..|ps| - 1]) + [it]
  {
  }

  /** With colon-free categories, a key is among the kept keys exactly when
      its pair is among the kept pairs. */
  lemma KeyMembership(q: seq<Columns.Item>, it: Columns.Item)
    requires forall x :: x in q ==> Columns.NoColon(x.category)
    requires Columns.NoColon(it.category)
    ensures Columns.ItemKey(it) in Keys(q) <==> it in q
  {
    if Columns.ItemKey(it) in Keys(q) {
      var j :| 0 <= j < |q| && Keys(q)[j] == Columns.ItemKey(it);
      Columns.ItemKeyInjective(q[j], it);
    }
    if it in q {
      var j :| 0 <= j < |q| && q[j] == it;
      assert Keys(q)[j] == Columns.ItemKey(it);
    }
  }

  lemma DistinctSnoc<T>(xs: seq<T>, x: T)
    ensures Seqs.Distinct(xs + [x])
      == if x in Seqs.Distinct(xs) then Seqs.Distinct(xs) else Seqs.Distinct(xs) + [x]
  {
    var ys := xs + [x];
    assert ys[..|ys| - 1] == xs;
    assert ys[|ys| - 1] == x;
  }

  /** With colon-free categories the key determines the pair, so the `seen`
      loop is first-occurrence de-duplication of the contributed pairs. */
  lemma {:induction false} KeepNewIsDistinct(ps: seq<Option<Columns.Item>>)
    requires forall it :: it in Somes(ps) ==> Columns.NoColon(it.category)
    ensures KeepNew(ps) == Seqs.Distinct(Somes(ps))
    decreases |ps|
  {
    if |ps| > 0 {
      var p := ps[..|ps| - 1];
      var xs := Somes(p);
      match ps[|ps| - 1]
      case None =>
        assert Somes(ps) == xs + [];
        assert xs + [] == xs;
        KeepNewIsDistinct(p);
      case Some(it) =>
        SomesSnoc(ps, it);
        assert forall x :: x in xs ==> x in Somes(ps);
        assert it in Somes(ps);
        KeepNewIsDistinct(p);
        var q := KeepNew(p);
        assert forall x :: x in q ==> x in xs;
        KeyMembership(q, it);
        DistinctSnoc(xs, it);
    }
  }

  /** The pairs of the checked boxes with colon-free categories are collected
      once each, in the order they first occur on the page: nothing checked
      is lost. */
  lemma CollectIsDistinct(cbs: seq<Checkbox>)
    requires forall i :: 0 <= i < |cbs| && Picked(cbs[i]).Some? ==> Columns.NoColon(Picked(cbs[i]).value.category)
    ensures CollectCheckboxAssets(cbs) == Seqs.Distinct(Somes(Picks(cbs)))
  {
    SomesMembers(Picks(cbs));
    KeepNewIsDistinct(Picks(cbs));
  }

  lemma {:induction false} SomesMembers(ps: seq<Option<Columns.Item>>)
    ensures forall it :: it in Somes(ps) ==> Some(it) in ps
    decreases |ps|
  {
    if |ps| > 0 {
      SomesMembers(ps[..|ps| - 1]);
      assert forall o :: o in ps[..|ps| - 1] ==> o in ps;
    }
  }

  /** Two different pairs can share a key when a category holds `::`; the
      second box is then dropped although its pair was never collected. */
  lemma KeyCollisionDrops(a: Checkbox, b: Checkbox)
    requires Picked(a).Some? && Picked(b).Some? && Picked(a) != Picked(b)
    requires Columns.ItemKey(Picked(a).value) == Columns.ItemKey(Picked(b).value)
    ensures CollectCheckboxAssets([a, b]) == [Picked(a).value]
    ensures Picked(b).value !in CollectCheckboxAssets([a, b])
  {
    var ps := Picks([a, b]);
    assert ps == [Picked(a), Picked(b)];
    assert ps[..1] == [Picked(a)];
    assert [Picked(a)][..0] == [];
    assert KeepNew([Picked(a)]) == [Picked(a).value];
    assert Keys([Picked(a).value])[0] == Columns.ItemKey(Picked(a).value);
  }

  /** Such pairs exist: `A::B` with `C`, and `A` with `B::C`. */
  lemma CollidingKeys()
    ensures Columns.ItemKey(Columns.Item("A::B", "C")) == Columns.ItemKey(Columns.Item("A", "B::C"))
  {
  }

  // ---------------------------------------------------------------- pager

  /** The numbers of the first and last row on the page, both 0 for an empty
      list. */
  datatype Shown = Shown(start: int, end: int)

  function PageRange(page: int, pageSize: int, total: int, rows: nat): (r: Shown) {
    if total == 0 then Shown(0, 0)
    else
      var start := (page - 1) * pageSize + 1;
      Shown(start, start + rows - 1)
  }

  /** On a page served with `LIMIT pageSize OFFSET (page - 1) * pageSize`,
      the range names exactly the rows shown, stays within the total, and
      reaches it on the last page only. */
  lemma PageRangeWithinTotal(page: int, pageSize: int, total: int, rows: nat)
    requires pageSize > 0 && page >= 1 && 0 <= (page - 1) * pageSize < total
    requires rows == Headers.Min(pageSize, total - (page - 1) * pageSize)
    ensures var r := PageRange(page, pageSize, total, rows);
      && 1 <= r.start <= r.end <= total
      && r.end - r.start + 1 == rows
      && (r.end == total <==> total <= page * pageSize)
  {
  }

  /** A full page ends just before the next page begins. */
  lemma FullPagesAdjoin(page: int, pageSize: int, total: int, rows: nat)
    requires total > 0 && rows == pageSize
    ensures PageRange(page + 1, pageSize, total, rows).start == PageRange(page, pageSize, total, rows).end + 1
  {
  }

  predicate PrevDisabled(page: int) {
    page <= 1
  }

  predicate NextDisabled(page: int, totalPages: int) {
    page >= totalPages
  }

  /** The page the previous button loads, if it loads one. */
  function PrevClick(page: int): Option<int> {
    if page > 1 then Some(page - 1) else None
  }

  /** The page the next button loads, if it loads one. */
  function NextClick(page: int, totalPages: int): Option<int> {
    if page < totalPages then Some(page + 1) else None
  }

  /** A button is shown disabled exactly when its click does nothing, and a
      click from a page in range lands on a page in range. */
  lemma ButtonsMatchClicks(page: int, totalPages: int)
    ensures PrevDisabled(page) <==> PrevClick(page).None?
    ensures NextDisabled(page, totalPages) <==> NextClick(page, totalPages).None?
    ensures 1 <= page <= totalPages && PrevClick(page).Some? ==> 1 <= PrevClick(page).value <= totalPages
    ensures 1 <= page <= totalPages && NextClick(page, totalPages).Some? ==>
      1 <= NextClick(page, totalPages).value <= totalPages
  {
  }

  // ----------------------------------------------------------------- sort

  datatype Dir = Asc | Desc
  datatype SortOrder = SortOrder(key: string, dir: Dir)

  function Flip(d: Dir): Dir {
    if d == Asc then Desc else Asc
  }

  /** A click on a sortable header; `None` for a header without a key, which
      changes nothing and reloads nothing. */
  function SortClick(st: SortOrder, key: string): Option<SortOrder> {
    if key == "" then None
    else if st.key == key then Some(SortOrder(key, Flip(st.dir)))
    else Some(SortOrder(key, Asc))
  }

  /** A click sorts by its key, descending exactly when that key was already
      ascending. */
  lemma SortClickSelects(st: SortOrder, key: string)
    requires key != ""
    ensures SortClick(st, key).Some? && SortClick(st, key).value.key == key
    ensures SortClick(st, key).value.dir == Desc <==> st.key == key && st.dir == Asc
  {
  }

  /** Two clicks on the current key restore the order. */
  lemma SortClickTwice(st: SortOrder)
    requires st.key != ""
    ensures SortClick(SortClick(st, st.key).value, st.key) == Some(st)
  {
  }

  // -------------------------------------------------------- password form

  datatype FormVerdict = Mismatch | TooShort | Submit

  const MinPasswordLength := 10

  /** The checks of the password form, in page order. */
  function CheckPasswordForm(newPassword: string, confirm: string): FormVerdict {
    if newPassword != confirm then Mismatch
    else if |newPassword| == 0 || |newPassword| < MinPasswordLength then TooShort
    else Submit
  }

  function FormMessage(v: FormVerdict): string {
    match v
    case Mismatch => "Le password non coincidono."
    case TooShort => "La nuova password deve contenere almeno 10 caratteri."
    case Submit => "Aggiornamento password..."
  }

  /** A mismatch is reported whatever the length; a request is sent exactly
      when the two fields agree and hold at least ten characters. */
  lemma PasswordFormOrder(newPassword: string, confirm: string)
    ensures CheckPasswordForm(newPassword, confirm) == Mismatch <==> newPassword != confirm
    ensures CheckPasswordForm(newPassword, confirm) == TooShort <==>
      newPassword == confirm && |newPassword| < MinPasswordLength
    ensures CheckPasswordForm(newPassword, confirm) == Submit <==>
      newPassword == confirm && |newPassword| >= MinPasswordLength
  {
  }
}

=== FILE: coerce.dfy ===
/** The cell coercers of the spreadsheet loader (src/services/dataLoader.js):
    header-key standardisation, `parseBoolean`, `parseMoney`, `parseDate`,
    `parseGenericValue` and `normaliseId`. */
module Coerce {
  import opened Wrappers
  import opened JsText
  import opened Cells
  import Seqs
  import Calendar

  // -------------------------------------------------------------------- keys

  /** `s.replace(/\r?\n/g, ' ')` */
  function NewlinesToSpace(s: string): (r: string)
    decreases |s|
  {
    if |s| == 0 then ""
    else if s[0] == '\n' then " " + NewlinesToSpace(s[1..])
    else if |s| >= 2 && s[0] == '\r' && s[1] == '\n' then " " + NewlinesToSpace(s[2..])
    else [s[0]] + NewlinesToSpace(s[1..])
  }

  /** No line feed survives `NewlinesToSpace`. */
  lemma {:induction false} NewlinesToSpaceGone(s: string)
    ensures '\n' !in NewlinesToSpace(s)
    decreases |s|
  {
    if |s| == 0 {
    } else if s[0] == '\n' {
      NewlinesToSpaceGone(s[1..]);
    } else if |s| >= 2 && s[0] == '\r' && s[1] == '\n' {
      NewlinesToSpaceGone(s[2..]);
    } else {
      NewlinesToSpaceGone(s[1..]);
    }
  }

  /** Text without line feeds is left alone by `NewlinesToSpace`. */
  lemma {:induction false} NewlinesToSpaceNoop(s: string)
    requires '\n' !in s
    ensures NewlinesToSpace(s) == s
    decreases |s|
  {
    if |s| > 0 {
      assert '\n' !in s[1..];
      NewlinesToSpaceNoop(s[1..]);
    }
  }

  /** `standardiseKey`: no-break spaces become blanks, every run of white
      space one blank, line breaks blanks, and both ends are trimmed. */
  function StandardiseKey(k: string): string
  {
    Trim(NewlinesToSpace(CollapseSpaces(ReplaceAll(k, '\U{00A0}', ' '))))
  }

  lemma InfixSingleBlanks(s: string, a: nat, b: nat)
    requires a <= b <= |s| && SingleBlanks(s)
    ensures SingleBlanks(s[a..b])
  {
    var t := s[a..b];
    assert forall i :: 0 <= i < |t| ==> t[i] == s[a + i];
  }

  lemma SingleBlanksNoNewline(s: string)
    requires SingleBlanks(s)
    ensures '\n' !in s
  {
    assert forall i :: 0 <= i < |s| ==> s[i] != '\n';
  }

  lemma SingleBlanksNoNbsp(s: string)
    requires SingleBlanks(s)
    ensures ReplaceAll(s, '\U{00A0}', ' ') == s
  {
  }

  lemma TrimSingleBlanks(s: string)
    requires SingleBlanks(s)
    ensures SingleBlanks(Trim(s))
  {
    TrimCutsSpace(s);
    InfixSingleBlanks(s, Lead(s), Lead(s) + |Trim(s)|);
  }

  lemma CollapsedKey(k: string)
    ensures var c := CollapseSpaces(ReplaceAll(k, '\U{00A0}', ' '));
      SingleBlanks(c) && NewlinesToSpace(c) == c
  {
    var c := CollapseSpaces(ReplaceAll(k, '\U{00A0}', ' '));
    CollapsedSingle(ReplaceAll(k, '\U{00A0}', ' '));
    SingleBlanksNoNewline(c);
    NewlinesToSpaceNoop(c);
  }

  /** A standardised key has no white space but single inner blanks. */
  lemma StandardiseKeyShape(k: string)
    ensures IsTrimmed(StandardiseKey(k)) && SingleBlanks(StandardiseKey(k))
  {
    CollapsedKey(k);
    TrimSingleBlanks(CollapseSpaces(ReplaceAll(k, '\U{00A0}', ' ')));
  }

  /** Standard text is its own standard form. */
  lemma StandardiseKeyOfStandard(s: string)
    requires IsTrimmed(s) && SingleBlanks(s)
    ensures StandardiseKey(s) == s
  {
    SingleBlanksNoNbsp(s);
    CollapseSpacesNoop(s);
    SingleBlanksNoNewline(s);
    NewlinesToSpaceNoop(s);
    TrimOfTrimmed(s);
  }

  /** Standardising twice changes nothing more. */
  lemma StandardiseKeyIdempotent(k: string)
    ensures StandardiseKey(StandardiseKey(k)) == StandardiseKey(k)
  {
    StandardiseKeyShape(k);
    StandardiseKeyOfStandard(StandardiseKey(k));
  }

  lemma StandardiseKeyNoSpace(s: string)
    requires NoSpace(s)
    ensures StandardiseKey(s) == s
  {
    StandardiseKeyOfStandard(s);
  }

  // ---------------------------------------------------------------- booleans

  const BlackSquare: string := "\U{25A0}"

  /** TRUTHY_MARKERS */
  const TruthyMarkers: set<string> :=
    {BlackSquare, "x", "X", "si", "s\U{00EC}", "s\U{00ED}", "yes", "y", "true", "1"}

  /** The markers as the lower-cased comparison can meet them. */
  const LowerMarkers: set<string> :=
    {BlackSquare, "x", "si", "s\U{00EC}", "s\U{00ED}", "yes", "y", "true", "1"}

  /** `parseBoolean` */
  function ParseBoolean(c: Cell): (r: bool)
    ensures c.Empty? ==> !r
    ensures c.Bool? ==> r == c.b
    ensures c.Num? ==> (r <==> c.x != 0.0)
  {
    match c
    case Empty => false
    case Bool(b) => b
    case Num(x) => x != 0.0
    case Str(s) => ToLower(StandardiseKey(s)) in TruthyMarkers || s in TruthyMarkers
  }

  lemma MarkerNoSpace(m: string)
    requires m in TruthyMarkers
    ensures NoSpace(m)
  {
  }

  lemma MarkerLower(m: string)
    requires m in TruthyMarkers
    ensures ToLower(m) in LowerMarkers
  {
    if m == "X" {
      assert ToLower(m) == "x";
    } else {
      assert forall i :: 0 <= i < |m| ==> LowerChar(m[i]) == m[i];
      assert ToLower(m) == m;
    }
  }

  lemma LowerOfMarker(m: string)
    requires m in TruthyMarkers
    ensures ToLower(StandardiseKey(m)) in LowerMarkers
  {
    MarkerNoSpace(m);
    StandardiseKeyNoSpace(m);
    MarkerLower(m);
  }

  /** A text cell is true exactly when its standardised, lower-cased text is
      one of the markers; the second, raw comparison never decides. */
  lemma ParseBooleanText(s: string)
    ensures ParseBoolean(Str(s)) <==> ToLower(StandardiseKey(s)) in LowerMarkers
  {
    if s in TruthyMarkers {
      LowerOfMarker(s);
    }
  }

  // ------------------------------------------------------------------- money

  /** No two decimal points. */
  predicate AtMostOneDot(s: string) {
    forall i, j :: 0 <= i < j < |s| && s[i] == '.' ==> s[j] != '.'
  }

  /** The cleaning `parseMoney` applies to text: every euro sign, white-space
      character and dot is dropped, the first comma becomes the decimal
      point, and the ends are trimmed. */
  function CleanMoney(s: string): string {
    Trim(ReplaceFirst(DeleteAll(RemoveSpaces(DeleteAll(s, '\U{20AC}')), '.'), ',', '.'))
  }

  lemma DeleteAllNoSpace(s: string, a: char)
    requires NoSpace(s)
    ensures NoSpace(DeleteAll(s, a))
  {
    var r := DeleteAll(s, a);
    DeleteAllMembers(s, a);
    forall i | 0 <= i < |r|
      ensures !IsSpace(r[i])
    {
      assert r[i] in r;
      var j :| 0 <= j < |s| && s[j] == r[i];
    }
  }

  lemma NoSpaceTrimmed(s: string)
    requires NoSpace(s)
    ensures Trim(s) == s
  {
    assert IsTrimmed(s);
    TrimOfTrimmed(s);
  }

  lemma EuroAndSpacesGone(s: string)
    ensures var x := RemoveSpaces(DeleteAll(s, '\U{20AC}'));
      '\U{20AC}' !in x && NoSpace(x)
  {
    DeleteAllMembers(s, '\U{20AC}');
    RemoveSpacesMembers(DeleteAll(s, '\U{20AC}'));
  }

  lemma DotsGone(x: string)
    requires '\U{20AC}' !in x && NoSpace(x)
    ensures var d := DeleteAll(x, '.');
      '\U{20AC}' !in d && '.' !in d && NoSpace(d)
  {
    DeleteAllMembers(x, '.');
    DeleteAllNoSpace(x, '.');
  }

  lemma OneDotAt(d: string, k: nat, t: string)
    requires k < |d| && |t| == |d| && forall i :: 0 <= i < |t| ==> t[i] == (if i == k then '.' else d[i])
    requires '\U{20AC}' !in d && '.' !in d && NoSpace(d)
    ensures '\U{20AC}' !in t && NoSpace(t) && AtMostOneDot(t)
  {
  }

  lemma ReplaceFirstDot(d: string)
    requires '\U{20AC}' !in d && '.' !in d && NoSpace(d)
    ensures var t := ReplaceFirst(d, ',', '.');
      '\U{20AC}' !in t && NoSpace(t) && AtMostOneDot(t)
  {
    var t := ReplaceFirst(d, ',', '.');
    ReplaceFirstAt(d, ',', '.');
    if ',' in d {
      OneDotAt(d, Seqs.IndexOf(d, ','), t);
    }
  }

  /** What the cleaning leaves has no euro sign, no white space and at most
      one decimal point. */
  lemma CleanMoneyShape(s: string)
    ensures var r := CleanMoney(s);
      '\U{20AC}' !in r && NoSpace(r) && AtMostOneDot(r)
  {
    var x := RemoveSpaces(DeleteAll(s, '\U{20AC}'));
    EuroAndSpacesGone(s);
    var d := DeleteAll(x, '.');
    DotsGone(x);
    var t := ReplaceFirst(d, ',', '.');
    ReplaceFirstDot(d);
    NoSpaceTrimmed(t);
  }

  /** `parseMoney` of a text, in cents: `None` for a blank or `-` amount or
      one that does not start with a finite number. */
  function MoneyOfText(s: string): Option<int>
  {
    var t := CleanMoney(s);
    if t == "" || t == "-" then None
    else match JsParseFloat(t)
      case Finite(v) => Some(Cents(v))
      case _ => None
  }

  /** `parseMoney`, in whole cents. */
  function ParseMoney(c: Cell): (r: Option<int>)
    ensures c.Empty? ==> r.None?
    ensures c.Num? ==> r.Some? && -0.5 <= r.value as real - c.x * 100.0 <= 0.5
  {
    match c
    case Empty => None
    case Num(x) =>
      CentsNearest(x);
      Some(Cents(x))
    case _ => MoneyOfText(JsString(c))
  }

  /** A number that already is a whole number of cents keeps them. */
  lemma MoneyOfNumber(n: int)
    ensures ParseMoney(Num(n as real / 100.0)) == Some(n)
  {
    CentsOfCents(n);
  }

  /** Digits grouped by three with dots, the Italian thousands separator. */
  function Group(s: string): string
    decreases |s|
  {
    if |s| <= 3 then s else Group(s[..|s| - 3]) + "." + s[|s| - 3..]
  }

  /** A whole number of cents written the Italian way: `1.234,56`. */
  function ItalianAmount(cents: nat): string {
    Group(NatToDigits(cents / 100)) + "," + Calendar.Pad(cents % 100, 2)
  }

  /** Digits and dots. */
  predicate DottedDigits(s: string) {
    forall i :: 0 <= i < |s| ==> IsDigit(s[i]) || s[i] == '.'
  }

  lemma DottedAppend(x: string, y: string)
    requires DottedDigits(x) && DottedDigits(y)
    ensures DottedDigits(x + y)
  {
    assert forall i :: |x| <= i < |x + y| ==> (x + y)[i] == y[i - |x|];
  }

  lemma {:induction false} GroupDotted(s: string)
    requires AllDigits(s)
    ensures DottedDigits(Group(s))
    decreases |s|
  {
    if |s| > 3 {
      GroupDotted(s[..|s| - 3]);
      DottedAppend(Group(s[..|s| - 3]), ".");
      DottedAppend(Group(s[..|s| - 3]) + ".", s[|s| - 3..]);
    }
  }

  lemma DigitsSlice(s: string, a: nat, b: nat)
    requires AllDigits(s) && a <= b <= |s|
    ensures AllDigits(s[a..b])
  {
    assert forall i :: 0 <= i < b - a ==> s[a..b][i] == s[a + i];
  }

  lemma NoPunctuation(s: string)
    requires AllDigits(s)
    ensures '.' !in s && ',' !in s
  {
    assert forall i :: 0 <= i < |s| ==> s[i] != '.' && s[i] != ',';
  }

  lemma DeleteDotsAround(x: string, sep: string, l: string)
    requires '.' !in l && (sep == "." || sep == ",")
    ensures DeleteAll(x + sep + l, '.') == DeleteAll(x, '.') + DeleteAll(sep, '.') + l
  {
    DeleteAllAppend(x + sep, l, '.');
    DeleteAllAppend(x, sep, '.');
    DeleteAllAbsent(l, '.');
  }

  /** Dropping the dots of a grouped number gives back its digits. */
  lemma {:induction false} GroupDeleted(s: string)
    requires AllDigits(s)
    ensures DeleteAll(Group(s), '.') == s
    decreases |s|
  {
    if |s| <= 3 {
      NoPunctuation(s);
      DeleteAllAbsent(s, '.');
    } else {
      var h := s[..|s| - 3];
      var l := s[|s| - 3..];
      DigitsSlice(s, 0, |s| - 3);
      DigitsSlice(s, |s| - 3, |s|);
      assert s[0..|s| - 3] == h && s[|s| - 3..|s|] == l;
      GroupDeleted(h);
      NoPunctuation(l);
      DeleteDotsAround(Group(h), ".", l);
      assert DeleteAll(".", '.') == "";
      assert h + l == s;
    }
  }

  lemma DigitsValueSnoc(a: string, c: char)
    requires AllDigits(a) && IsDigit(c)
    ensures DigitsValue(a + [c]) == DigitsValue(a) * 10 + DigitValue(c)
  {
    assert (a + [c])[..|a|] == a;
  }

  /** Two more digits multiply the value by a hundred. */
  lemma DigitsValueTwo(a: string, f: string)
    requires AllDigits(a) && AllDigits(f) && |f| == 2
    ensures DigitsValue(a + f) == DigitsValue(a) * 100 + DigitsValue(f)
  {
    DigitsValueSnoc(a, f[0]);
    DigitsValueSnoc(a + [f[0]], f[1]);
    assert a + f == a + [f[0]] + [f[1]];
    DigitsValueSnoc([f[0]], f[1]);
    assert [f[0]] + [f[1]] == f;
    assert DigitsValue([f[0]]) == DigitValue(f[0]) by {
      assert [f[0]][..0] == "";
    }
  }

  lemma MantissaOfDecimal(a: string, f: string)
    requires AllDigits(a) && AllDigits(f)
    ensures var t := a + "." + f; Mantissa(t, 0) == (a, f, |t|)
  {
    var t := a + "." + f;
    assert t == a + ("." + f);
    assert t[0..] == t;
    TakeDigitsUpTo(a, "." + f);
    assert t[|a|] == '.';
    assert t[|a| + 1..] == f;
    TakeDigitsUpTo(f, "");
    assert f + "" == f;
  }

  lemma DigitUntrimmed(t: string)
    requires |t| > 0 && IsDigit(t[0])
    ensures TrimStart(t) == t
  {
  }

  lemma DigitUnsigned(t: string)
    requires |t| > 0 && IsDigit(t[0])
    ensures SignAt(t, 0) == (false, 0)
  {
  }

  lemma NotInfinity(t: string)
    requires |t| > 0 && IsDigit(t[0])
    ensures !StartsWith(t, "Infinity")
  {
  }

  lemma DecimalPrefixOfDecimal(a: string, f: string)
    requires |a| > 0 && AllDigits(a) && AllDigits(f)
    ensures var t := a + "." + f;
      DecimalPrefix(t) == Some((Scale(DigitsValue(a + f) as real, -|f|), |t|))
  {
    var t := a + "." + f;
    assert t[0] == a[0];
    DigitUnsigned(t);
    MantissaOfDecimal(a, f);
    assert Exponent(t, |t|) == (0, |t|);
  }

  /** `parseFloat` of `<digits>.<digits>`. */
  lemma ParseFloatDecimal(a: string, f: string)
    requires |a| > 0 && AllDigits(a) && AllDigits(f)
    ensures JsParseFloat(a + "." + f) == Finite(Scale(DigitsValue(a + f) as real, -|f|))
  {
    var t := a + "." + f;
    assert t[0] == a[0];
    DigitUntrimmed(t);
    DigitUnsigned(t);
    NotInfinity(t);
    assert t[0..] == t;
    DecimalPrefixOfDecimal(a, f);
  }

  lemma CentsScale(x: real)
    ensures Scale(x, -2) == x / 100.0
  {
    assert Scale(x, -1) == x / 10.0;
  }

  lemma ParseCents(a: string, f: string, cents: nat)
    requires |a| > 0 && AllDigits(a) && |f| == 2 && AllDigits(f) && DigitsValue(a + f) == cents
    ensures JsParseFloat(a + "." + f) == Finite(cents as real / 100.0)
  {
    ParseFloatDecimal(a, f);
    CentsScale(cents as real);
  }

  lemma ReplaceFirstComma(a: string, f: string)
    requires AllDigits(a)
    ensures ReplaceFirst(a + "," + f, ',', '.') == a + "." + f
  {
    var d := a + "," + f;
    assert d[..|a|] == a;
    assert ',' !in a by {
      assert forall i :: 0 <= i < |a| ==> a[i] != ',';
    }
    Seqs.IndexOfAt(d, ',', |a|);
    assert d[|a| + 1..] == f;
  }

  lemma ItalianChars(g: string, f: string)
    requires DottedDigits(g) && AllDigits(f)
    ensures var s := g + "," + f; '\U{20AC}' !in s && NoSpace(s)
  {
    var s := g + "," + f;
    assert forall i :: 0 <= i < |s| ==> IsDigit(s[i]) || s[i] == '.' || s[i] == ',';
  }

  lemma DeleteDots(g: string, a: string, f: string)
    requires DeleteAll(g, '.') == a && AllDigits(f)
    ensures DeleteAll(g + "," + f, '.') == a + "," + f
  {
    NoPunctuation(f);
    DeleteDotsAround(g, ",", f);
    assert DeleteAll(",", '.') == ",";
  }

  lemma ItalianDeleted(a: string, f: string)
    requires AllDigits(a) && AllDigits(f)
    ensures DeleteAll(RemoveSpaces(DeleteAll(Group(a) + "," + f, '\U{20AC}')), '.') == a + "," + f
  {
    var g := Group(a);
    GroupDotted(a);
    GroupDeleted(a);
    var s := g + "," + f;
    ItalianChars(g, f);
    DeleteAllAbsent(s, '\U{20AC}');
    RemoveSpacesAbsent(s);
    DeleteDots(g, a, f);
  }

  lemma CleanMoneyBySteps(s: string, d: string, t: string)
    requires DeleteAll(RemoveSpaces(DeleteAll(s, '\U{20AC}')), '.') == d
    requires ReplaceFirst(d, ',', '.') == t && Trim(t) == t
    ensures CleanMoney(s) == t
  {
  }

  lemma DecimalNoSpace(a: string, f: string)
    requires AllDigits(a) && AllDigits(f)
    ensures NoSpace(a + "." + f)
  {
  }

  /** What the cleaning leaves of an Italian amount. */
  lemma CleanItalian(a: string, f: string)
    requires |a| > 0 && AllDigits(a) && AllDigits(f)
    ensures CleanMoney(Group(a) + "," + f) == a + "." + f
  {
    ItalianDeleted(a, f);
    ReplaceFirstComma(a, f);
    DecimalNoSpace(a, f);
    NoSpaceTrimmed(a + "." + f);
    CleanMoneyBySteps(Group(a) + "," + f, a + "," + f, a + "." + f);
  }

  /** A text whose cleaned form starts with a finite number is that number,
      in cents. */
  lemma MoneyOfClean(s: string, t: string, v: real, n: int)
    requires CleanMoney(s) == t && t != "" && t != "-" && JsParseFloat(t) == Finite(v)
    requires Cents(v) == n
    ensures ParseMoney(Str(s)) == Some(n)
  {
  }

  lemma MoneyOfGrouped(a: string, f: string, cents: nat)
    requires |a| > 0 && AllDigits(a) && |f| == 2 && AllDigits(f) && DigitsValue(a + f) == cents
    ensures ParseMoney(Str(Group(a) + "," + f)) == Some(cents)
  {
    CleanItalian(a, f);
    ParseCents(a, f, cents);
    CentsOfCents(cents);
    MoneyOfClean(Group(a) + "," + f, a + "." + f, cents as real / 100.0, cents);
  }

  lemma ItalianDigits(cents: nat)
    ensures var a := NatToDigits(cents / 100);
      var f := Calendar.Pad(cents % 100, 2);
      && |a| > 0 && AllDigits(a) && |f| == 2 && AllDigits(f)
      && DigitsValue(a + f) == cents
  {
    var a := NatToDigits(cents / 100);
    assert Pow10(2) == 100;
    Calendar.PadExact(cents % 100, 2);
    DigitsValueTwo(a, Calendar.Pad(cents % 100, 2));
  }

  /** An amount written with dotted thousands and a decimal comma reads back
      as the amount: "1.234,56" is 123456 cents. */
  lemma MoneyOfItalian(cents: nat)
    ensures ParseMoney(Str(ItalianAmount(cents))) == Some(cents)
  {
    ItalianDigits(cents);
    MoneyOfGrouped(NatToDigits(cents / 100), Calendar.Pad(cents % 100, 2), cents);
  }

  // ------------------------------------------------------------------- dates

  /** `s` is `<d{1,2}>/<d{1,2}>/<d{2,4}>` with its separators at `i` and `j`. */
  predicate DmyAt(s: string, i: nat, j: nat) {
    && 1 <= i <= 2 && i + 2 <= j <= i + 3 && j + 3 <= |s| <= j + 5
    && s[i] == '/' && s[j] == '/'
    && AllDigits(s[..i]) && AllDigits(s[i + 1..j]) && AllDigits(s[j + 1..])
  }

  /** The numbers the three groups spell. */
  function DmyFields(s: string, i: nat, j: nat): (nat, nat, nat)
    requires DmyAt(s, i, j)
  {
    (DigitsValue(s[..i]), DigitsValue(s[i + 1..j]), DigitsValue(s[j + 1..]))
  }

  /** The day, month and year the pattern `^(\d{1,2})\/(\d{1,2})\/(\d{2,4})$`
      captures, scanning the digit groups from the left. */
  function MatchDmy(s: string): Option<(nat, nat, nat)>
  {
    var a := TakeDigits(s);
    if !(1 <= |a| <= 2) || |a| == |s| || s[|a|] != '/' then None
    else
      var t := s[|a| + 1..];
      var b := TakeDigits(t);
      if !(1 <= |b| <= 2) || |b| == |t| || t[|b|] != '/' then None
      else
        var c := t[|b| + 1..];
        if 2 <= |c| <= 4 && AllDigits(c) then
          Some((DigitsValue(a), DigitsValue(b), DigitsValue(c)))
        else None
  }

  /** Text of the pattern's shape matches with its own groups. */
  lemma MatchDmyOf(s: string, i: nat, j: nat)
    requires DmyAt(s, i, j)
    ensures MatchDmy(s) == Some(DmyFields(s, i, j))
  {
    assert s == s[..i] + s[i..];
    TakeDigitsUpTo(s[..i], s[i..]);
    var t := s[i + 1..];
    assert t == s[i + 1..j] + s[j..];
    TakeDigitsUpTo(s[i + 1..j], s[j..]);
    assert t[j - i - 1 + 1..] == s[j + 1..];
  }

  /** A match has the pattern's shape. */
  lemma MatchDmyShape(s: string)
    requires MatchDmy(s).Some?
    ensures var i := |TakeDigits(s)|;
      var j := i + 1 + |TakeDigits(s[i + 1..])|;
      DmyAt(s, i, j) && MatchDmy(s).value == DmyFields(s, i, j)
  {
    var a := TakeDigits(s);
    TakeDigitsParts(s);
    var t := s[|a| + 1..];
    var b := TakeDigits(t);
    TakeDigitsParts(t);
    var j := |a| + 1 + |b|;
    assert s[|a| + 1..j] == b;
    assert s[j] == t[|b|];
    assert s[j + 1..] == t[|b| + 1..];
  }

  /** `MatchDmy` finds a day, month and year exactly when the text has the
      pattern's shape, and they are the numbers its groups spell. */
  lemma MatchDmyIff(s: string, v: (nat, nat, nat))
    ensures MatchDmy(s) == Some(v) <==> exists i, j :: DmyAt(s, i, j) && v == DmyFields(s, i, j)
  {
    if MatchDmy(s) == Some(v) {
      MatchDmyShape(s);
    }
    if exists i, j :: DmyAt(s, i, j) && v == DmyFields(s, i, j) {
      var i, j :| DmyAt(s, i, j) && v == DmyFields(s, i, j);
      MatchDmyOf(s, i, j);
    }
  }

  /** The two-digit-year pivot: 50-99 are 19xx, 0-49 are 20xx. */
  function Pivot(y: nat): (r: nat)
    ensures y < 50 ==> r == 2000 + y
    ensures 50 <= y < 100 ==> r == 1900 + y
    ensures y >= 100 ==> r == y
  {
    if y < 100 then (if y >= 50 then y + 1900 else y + 2000) else y
  }

  /** `-` and `.` read as `/`. */
  function Slashed(t: string): string {
    ReplaceAll(ReplaceAll(t, '-', '/'), '.', '/')
  }

  /** The day `parseDate` reads from a text: trimmed, `-` and `.` read as
      `/`, then day/month/year, rolled over as `new Date(y, m - 1, d)`
      does. */
  function DayOfText(s: string): (r: Option<Calendar.Date>)
    ensures r.Some? ==> Calendar.Valid(r.value)
  {
    var t := Trim(s);
    if t == "" || t == "-" then None
    else
      match MatchDmy(Slashed(t))
      case None => None
      case Some((d, m, y)) => Some(Calendar.MakeDate(Pivot(y), m, d))
  }

  const MsPerDay: int := 86400000
  const MaxTime: int := 8640000000000000

  /** The UTC day of an Excel serial day number as `parseDate` converts it:
      milliseconds from 1970, rounded half up; `None` outside the range of
      `Date`. */
  function SerialDay(x: real): (r: Option<Calendar.Date>)
    ensures r.Some? ==> Calendar.Valid(r.value)
  {
    var ms := ((x - 25569.0) * MsPerDay as real + 0.5).Floor;
    if ms < -MaxTime || ms > MaxTime then None
    else Some(Calendar.DayFromEpoch(ms / MsPerDay))
  }

  /** The calendar day of the `Date` `parseDate` builds, before formatting. */
  function ParseDay(c: Cell): (r: Option<Calendar.Date>)
    ensures r.Some? ==> Calendar.Valid(r.value)
  {
    match c
    case Empty => None
    case Bool(_) => None
    case Num(x) => SerialDay(x)
    case Str(s) => if s == "" || s == "-" then None else DayOfText(s)
  }

  /** `parseDate`: the ISO `YYYY-MM-DD` text of the cell's date, the day
      formatted as the calendar day it was built for. */
  function ParseDate(c: Cell): (r: Option<string>)
    ensures c.Empty? || c.Bool? || c == Str("") || c == Str("-") ==> r.None?
    ensures r.Some? ==> |r.value| == 10
  {
    match ParseDay(c)
    case None => None
    case Some(d) => Some(Calendar.IsoText(d))
  }

  /** Serial day 25569 is 1 January 1970; each whole day after it is the
      next calendar day. */
  lemma SerialWholeDays(k: int)
    requires -100000000 <= k <= 100000000
    ensures SerialDay(25569.0 + k as real) == Some(Calendar.DayFromEpoch(k))
  {
    var ms := k * MsPerDay;
    assert ((25569.0 + k as real - 25569.0) * MsPerDay as real + 0.5).Floor == ms;
    assert ms / MsPerDay == k;
  }

  lemma SlashedParts(a: string, b: string, c: string, sep: char)
    requires sep == '/' || sep == '-' || sep == '.'
    requires AllDigits(a) && AllDigits(b) && AllDigits(c)
    ensures Slashed(a + [sep] + b + [sep] + c) == a + "/" + b + "/" + c
  {
    var s := a + [sep] + b + [sep] + c;
    var s2 := a + "/" + b + "/" + c;
    var n := Slashed(s);
    assert |n| == |s2|;
    assert forall i :: 0 <= i < |s2| ==> n[i] == s2[i];
  }

  lemma ThreeParts(a: string, b: string, c: string, sep: char)
    ensures var s := a + [sep] + b + [sep] + c;
      var i := |a|;
      var j := |a| + 1 + |b|;
      && |s| == j + 1 + |c| && s[..i] == a && s[i] == sep && s[i + 1..j] == b && s[j] == sep && s[j + 1..] == c
  {
  }

  lemma DmyOfParts(a: string, b: string, c: string)
    requires 1 <= |a| <= 2 && 1 <= |b| <= 2 && 2 <= |c| <= 4
    requires AllDigits(a) && AllDigits(b) && AllDigits(c)
    ensures MatchDmy(a + "/" + b + "/" + c) == Some((DigitsValue(a), DigitsValue(b), DigitsValue(c)))
  {
    ThreeParts(a, b, c, '/');
    MatchDmyOf(a + "/" + b + "/" + c, |a|, |a| + 1 + |b|);
  }

  lemma DmyTrimmed(s: string, a: string, c: string)
    requires 1 <= |a| && 1 <= |c| && AllDigits(a) && AllDigits(c)
    requires |s| >= |a| + |c| && s[..|a|] == a && s[|s| - |c|..] == c
    ensures Trim(s) == s && s != "" && s != "-"
  {
    assert s[0] == a[0] && s[|s| - 1] == c[|c| - 1];
    TrimOfTrimmed(s);
  }

  lemma DayOfSlashed(s: string, v: (nat, nat, nat))
    requires Trim(s) == s && s != "" && s != "-" && MatchDmy(Slashed(s)) == Some(v)
    ensures ParseDay(Str(s)) == Some(Calendar.MakeDate(Pivot(v.2), v.1, v.0))
  {
  }

  /** A text `d<sep>m<sep>y` with one- or two-digit day and month and a two-
      to four-digit year is read as that day of that month of the pivoted
      year, rolled over as `new Date` does. */
  lemma DateOfDmy(a: string, b: string, c: string, sep: char)
    requires sep == '/' || sep == '-' || sep == '.'
    requires 1 <= |a| <= 2 && 1 <= |b| <= 2 && 2 <= |c| <= 4
    requires AllDigits(a) && AllDigits(b) && AllDigits(c)
    ensures ParseDay(Str(a + [sep] + b + [sep] + c))
      == Some(Calendar.MakeDate(Pivot(DigitsValue(c)), DigitsValue(b), DigitsValue(a)))
  {
    var s := a + [sep] + b + [sep] + c;
    assert s[..|a|] == a && s[|s| - |c|..] == c;
    DmyTrimmed(s, a, c);
    SlashedParts(a, b, c, sep);
    DmyOfParts(a, b, c);
    DayOfSlashed(s, (DigitsValue(a), DigitsValue(b), DigitsValue(c)));
  }

  /** The day/month/four-digit-year text of a date after the year 99 reads
      back as that date. */
  lemma DayRoundTrip(d: Calendar.Date, sep: char)
    requires Calendar.Valid(d) && 100 <= d.year <= 9999
    requires sep == '/' || sep == '-' || sep == '.'
    ensures ParseDay(Str(Calendar.Pad(d.day, 2) + [sep] + Calendar.Pad(d.month, 2) + [sep] + Calendar.Pad(d.year, 4)))
      == Some(d)
  {
    assert Pow10(2) == 100 && Pow10(4) == 10000;
    Calendar.PadExact(d.day, 2);
    Calendar.PadExact(d.month, 2);
    Calendar.PadExact(d.year, 4);
    DateOfDmy(Calendar.Pad(d.day, 2), Calendar.Pad(d.month, 2), Calendar.Pad(d.year, 4), sep);
    Calendar.MakeDateOfValid(d.year, d.month, d.day);
  }

  /** ... and `parseDate` gives its ISO text. */
  lemma DateRoundTrip(d: Calendar.Date, sep: char)
    requires Calendar.Valid(d) && 100 <= d.year <= 9999
    requires sep == '/' || sep == '-' || sep == '.'
    ensures ParseDate(Str(Calendar.Pad(d.day, 2) + [sep] + Calendar.Pad(d.month, 2) + [sep] + Calendar.Pad(d.year, 4)))
      == Some(Calendar.IsoText(d))
  {
    DayRoundTrip(d, sep);
  }

  // -------------------------------------------- parseDate on a local clock

  /** The UTC day at which local midnight of `d` falls on a clock `offset`
      minutes ahead of UTC (less than a day either way). */
  function UtcDayOfLocalMidnight(d: Calendar.Date, offset: int): (r: Calendar.Date)
    requires Calendar.Valid(d) && -1440 < offset < 1440
    ensures Calendar.Valid(r)
  {
    if offset > 0 then Calendar.PrevDay(d) else d
  }

  /** `parseDate` as written, on a server whose clock is `offset` minutes
      ahead of UTC: a text date is built at local midnight by `new Date(y,
      m, d)` but formatted by `toISOString`, which reads the UTC day. */
  function ParseDateOnClock(c: Cell, offset: int): (r: Option<string>)
    requires -1440 < offset < 1440
    ensures r.Some? ==> |r.value| == 10
  {
    match c
    case Str(s) =>
      if s == "" || s == "-" then None
      else (match DayOfText(s)
        case None => None
        case Some(d) => Some(Calendar.IsoText(UtcDayOfLocalMidnight(d, offset))))
    case _ => ParseDate(c)
  }

  /** On a clock at or behind UTC the code as written gives the intended
      text. */
  lemma ClockBehindUtc(c: Cell, offset: int)
    requires -1440 < offset <= 0
    ensures ParseDateOnClock(c, offset) == ParseDate(c)
  {
  }

  lemma PrevDayDiffers(d: Calendar.Date)
    requires Calendar.Valid(d)
    ensures Calendar.PrevDay(d) != d
  {
  }

  lemma IsoTextInjective(d: Calendar.Date, e: Calendar.Date)
    requires Calendar.Valid(d) && 0 <= d.year <= 9999
    requires Calendar.Valid(e) && 0 <= e.year <= 9999
    requires Calendar.IsoText(d) == Calendar.IsoText(e)
    ensures d == e
  {
    Calendar.IsoTextFields(d);
    Calendar.IsoTextFields(e);
  }

  /** On a clock ahead of UTC (Italy's, for one) every text date is stored
      one day early: "15/01/2024" becomes "2024-01-14". */
  lemma ClockAheadShiftsDay(d: Calendar.Date, sep: char, offset: int)
    requires Calendar.Valid(d) && 100 <= d.year <= 9999
    requires sep == '/' || sep == '-' || sep == '.'
    requires 0 < offset < 1440
    ensures var s := Calendar.Pad(d.day, 2) + [sep] + Calendar.Pad(d.month, 2) + [sep] + Calendar.Pad(d.year, 4);
      && ParseDateOnClock(Str(s), offset) == Some(Calendar.IsoText(Calendar.PrevDay(d)))
      && ParseDateOnClock(Str(s), offset) != ParseDate(Str(s))
  {
    DateRoundTrip(d, sep);
    DayRoundTrip(d, sep);
    PrevDayDiffers(d);
    var p := Calendar.PrevDay(d);
    if Calendar.IsoText(p) == Calendar.IsoText(d) {
      IsoTextInjective(p, d);
    }
  }

  // ---------------------------------------------------------------- generics

  /** `parseGenericValue`: text is trimmed and blank or `-` text is `null`;
      other values pass through. */
  function ParseGenericValue(c: Cell): (r: Cell)
    ensures !c.Str? ==> r == c
    ensures r.Str? ==> c.Str? && IsTrimmed(r.s) && r.s != "" && r.s != "-"
    ensures c.Str? && r.Empty? ==> Trim(c.s) == "" || Trim(c.s) == "-"
  {
    match c
    case Str(s) =>
      var t := Trim(s);
      if t == "" || t == "-" then Empty else Str(t)
    case _ => c
  }

  lemma ParseGenericValueIdempotent(c: Cell)
    ensures ParseGenericValue(ParseGenericValue(c)) == ParseGenericValue(c)
  {
    if ParseGenericValue(c).Str? {
      TrimOfTrimmed(ParseGenericValue(c).s);
    }
  }

  // --------------------------------------------------------------------- ids

  /** `isEmpty` of src/utils/helpers.js */
  predicate IsEmptyValue(c: Cell) {
    c == Empty || c == Str("")
  }

  /** The number the first run of digits of `s` spells, if there is one. */
  function RunValue(s: string): Option<nat> {
    match FirstDigitRun(s)
    case None => None
    case Some(run) => Some(DigitsValue(run))
  }

  /** `normaliseId` of a value's text: trimmed, then the first run of digits
      read in base ten. The fallback `parseInt` of `normaliseId` only runs on
      text without a digit, where it is always NaN, so it is `None` here. */
  function IdOfText(s: string): Option<nat>
  {
    var t := Trim(s);
    if t == "" then None else RunValue(t)
  }

  /** `normaliseId`: the number the first run of digits of the value's text
      spells, `null` for an empty value or a text without digits. */
  function NormaliseId(c: Cell): (r: Option<nat>)
    ensures IsEmptyValue(c) ==> r.None?
  {
    if IsEmptyValue(c) then None else IdOfText(JsString(c))
  }

  /** `FirstDigitAt` is the first position holding a digit. */
  lemma FirstDigitAtIs(s: string, k: nat)
    requires k < |s| && IsDigit(s[k]) && forall i :: 0 <= i < k ==> !IsDigit(s[i])
    ensures FirstDigitAt(s) == Some(k)
  {
    FirstDigitAtFirst(s);
  }

  /** Trailing white space does not lengthen a run of digits. */
  lemma {:induction false} RunStopsAtSpace(u: string, tail: string)
    requires AllSpace(tail)
    ensures TakeDigits(u + tail) == TakeDigits(u)
    decreases |u|
  {
    if |u| == 0 {
      assert u + tail == tail;
    } else {
      assert (u + tail)[1..] == u[1..] + tail;
      RunStopsAtSpace(u[1..], tail);
    }
  }

  /** The first digit of a trimmed text is the first digit of the text. */
  lemma FirstDigitInTrimmed(s: string, k: nat)
    requires FirstDigitAt(Trim(s)) == Some(k)
    ensures FirstDigitAt(s) == Some(Lead(s) + k)
  {
    var t := Trim(s);
    var a := Lead(s);
    TrimCutsSpace(s);
    FirstDigitAtFirst(t);
    assert forall i :: 0 <= i < a ==> s[i] == s[..a][i];
    assert forall i :: a <= i < a + k ==> s[i] == t[i - a];
    FirstDigitAtIs(s, a + k);
  }

  /** ... and the run of digits from there is the same. */
  lemma RunInTrimmed(s: string, k: nat)
    requires k < |Trim(s)|
    ensures TakeDigits(s[Lead(s) + k..]) == TakeDigits(Trim(s)[k..])
  {
    var t := Trim(s);
    var a := Lead(s);
    TrimCutsSpace(s);
    var tail := s[a + |t|..];
    assert s[a + k..] == t[k..] + tail;
    RunStopsAtSpace(t[k..], tail);
  }

  /** A text whose trimmed form has no digit has none. */
  lemma NoRunInTrimmed(s: string)
    requires FirstDigitAt(Trim(s)).None?
    ensures FirstDigitAt(s).None?
  {
    var t := Trim(s);
    var a := Lead(s);
    TrimCutsSpace(s);
    FirstDigitAtFirst(t);
    assert forall i :: 0 <= i < a ==> s[i] == s[..a][i];
    assert forall i :: a <= i < a + |t| ==> s[i] == t[i - a];
    assert forall i :: a + |t| <= i < |s| ==> s[i] == s[a + |t|..][i - a - |t|];
  }

  /** Trimming does not change which number a text spells: the id is the
      first run of digits of the untrimmed text. */
  lemma IdOfTextUntrimmed(s: string)
    ensures IdOfText(s) == RunValue(s)
  {
    var t := Trim(s);
    if t == "" {
      TrimEmptyIffAllSpace(s);
    } else {
      match FirstDigitAt(t)
      case None => NoRunInTrimmed(s);
      case Some(k) =>
        FirstDigitInTrimmed(s, k);
        RunInTrimmed(s, k);
    }
  }

  /** A run of digits with nothing around it is its own value. */
  lemma RunOfDigits(s: string)
    requires |s| > 0 && AllDigits(s)
    ensures FirstDigitRun(s) == Some(s)
  {
    FirstDigitAtIs(s, 0);
    assert s[0..] == s;
    TakeDigitsUpTo(s, "");
    assert s + "" == s;
  }

  lemma DigitsTrimmed(s: string)
    requires |s| > 0 && AllDigits(s)
    ensures Trim(s) == s
  {
    assert IsTrimmed(s);
    TrimOfTrimmed(s);
  }

  lemma IdOfDigits(s: string)
    requires |s| > 0 && AllDigits(s)
    ensures IdOfText(s) == Some(DigitsValue(s))
  {
    DigitsTrimmed(s);
    RunOfDigits(s);
  }

  /** A natural number's own text normalises back to it. */
  lemma NormaliseIdOfNumber(n: nat)
    ensures NormaliseId(Num(n as real)) == Some(n)
  {
    NumberTextOfNat(n);
    IdOfDigits(NatToDigits(n));
  }

  /** `normaliseId` is idempotent: applying it to its own result (as the
      master-record builder does) changes nothing. */
  lemma NormaliseIdIdempotent(c: Cell)
    requires NormaliseId(c).Some?
    ensures NormaliseId(Num(NormaliseId(c).value as real)) == NormaliseId(c)
  {
    NormaliseIdOfNumber(NormaliseId(c).value);
  }
}

=== FILE: columns.dfy ===
/** The column mappings of the spreadsheet loader (src/services/dataLoader.js):
    which workbook header stands for which field, asset or document, the
    look-up tables built from them, and the asset and document definitions
    every master record covers. */
module Columns {
  import Seqs
  import Headers

  /** A (category, subtype) pair of an asset or document column. */
  datatype Item = Item(category: string, subtype: string)

  /** What a header of the master sheet stands for. */
  datatype Target = Base(name: string) | Asset(item: Item) | Document(item: Item)

  /** `BASE_COLUMN_MAPPING` */
  const BaseMapping: seq<(string, string)> := [
    ("N\U{00B0}", "id"),
    ("Titolare", "titolare"),
    ("Data Emissione", "data_emissione"),
    ("Emesso DA", "emesso_da"),
    ("Costo (i.e.)", "costo_ie"),
    ("Fatturazione Costo (i.e.)", "costo_ie"),
    ("Importo (i.e.)", "importo_ie"),
    ("Fatturazione Importo (i.e.)", "importo_ie"),
    ("N\U{00B0} Documento", "fattura_numero"),
    ("Fatturazione N\U{00B0} Documento", "fattura_numero"),
    ("Tipo Invio", "fattura_tipo_invio"),
    ("Fatturazione Tipo Invio", "fattura_tipo_invio"),
    ("Tipo Pag.", "fattura_tipo_pagamento"),
    ("Tipo Pagamento", "fattura_tipo_pagamento"),
    ("Fatturazione Tipo Pag.", "fattura_tipo_pagamento"),
    ("Note", "note")
  ]

  /** `DOCUMENT_COLUMN_MAPPING` */
  const DocumentMapping: seq<(string, Item)> := [
    ("Documenti MR", Item("DOCUMENTO", "MR")),
    ("Documenti AEC", Item("DOCUMENTO", "AEC")),
    ("Documenti DI", Item("DOCUMENTO", "DI"))
  ]

  /** `ASSET_COLUMN_MAPPING` */
  const AssetMapping: seq<(string, Item)> := [
    ("KIT STD", Item("KIT", "STD")),
    ("KIT TOK", Item("KIT", "TOK")),
    ("KIT AK", Item("KIT", "AK")),
    ("KIT AK-CNS", Item("KIT", "AK-CNS")),
    ("SMART CARD STD", Item("SMART_CARD", "STD")),
    ("SMART CARD SIM", Item("SMART_CARD", "SIM")),
    ("SMART CARD TAV", Item("SMART_CARD", "TAV")),
    ("LETTORE TOK", Item("LETTORE", "TOK")),
    ("LETTORE AK", Item("LETTORE", "AK")),
    ("CERTIFICATO CNS-L", Item("CERTIFICATO", "CNS-L")),
    ("CERTIFICATO CNS", Item("CERTIFICATO", "CNS")),
    ("CERTIFICATO CFD", Item("CERTIFICATO", "CFD")),
    ("CERTIFICATO CFD-R", Item("CERTIFICATO", "CFD-R"))
  ]

  /** `CONTACT_COLUMN_MAPPING` */
  const ContactMapping: seq<(string, string)> := [
    ("N\U{00B0}", "id"),
    ("Titolare", "titolare"),
    ("Email", "email"),
    ("Recapito Telefonico", "recapito_telefonico")
  ]

  /** `RENEWAL_COLUMN_MAPPING` */
  const RenewalMapping: seq<(string, string)> := [
    ("N\U{00B0}", "id"),
    ("Titolare", "titolare"),
    ("Email", "email"),
    ("Recapito Telefonico", "recapito_telefonico"),
    ("CERTIFICATO CNS-L", "certificato_cns_l"),
    ("CERTIFICATO CNS", "certificato_cns"),
    ("CERTIFICATO CFD", "certificato_cfd"),
    ("CERTIFICATO CFD-R", "certificato_cfd_r"),
    ("Data Emissione", "data_emissione"),
    ("Emissione", "data_emissione"),
    ("Data Scadenza", "data_scadenza"),
    ("Scadenza", "data_scadenza"),
    ("Rinnovo Data", "rinnovo_data"),
    ("Rinnovo DA", "rinnovo_da"),
    ("Costo (i.e.)", "costo_ie"),
    ("Fatturazione Costo (i.e.)", "costo_ie"),
    ("Importo (i.e.)", "importo_ie"),
    ("Fatturazione Importo (i.e.)", "importo_ie"),
    ("Fatturazione N\U{00B0} Documento", "fattura_numero"),
    ("Fatturazione Tipo Invio", "fattura_tipo_invio"),
    ("Fatturazione Tipo Pag.", "fattura_tipo_pagamento"),
    ("Tipo Invio", "fattura_tipo_invio"),
    ("Tipo Pag.", "fattura_tipo_pagamento"),
    ("Note", "note"),
    ("Note ", "note"),
    ("column_16", "note"),
    ("column_17", "note"),
    ("column_18", "note")
  ]

  function BaseEntries(): seq<(string, Target)> {
    seq(|BaseMapping|, i requires 0 <= i < |BaseMapping| => (BaseMapping[i].0, Base(BaseMapping[i].1)))
  }

  function AssetEntries(): seq<(string, Target)> {
    seq(|AssetMapping|, i requires 0 <= i < |AssetMapping| => (AssetMapping[i].0, Asset(AssetMapping[i].1)))
  }

  function DocumentEntries(): seq<(string, Target)> {
    seq(|DocumentMapping|, i requires 0 <= i < |DocumentMapping| =>
      (DocumentMapping[i].0, Document(DocumentMapping[i].1)))
  }

  /** `COLUMN_LOOKUP`: the spread of the base, asset and document look-ups,
      a later table's key overriding an earlier one's. */
  function ColumnLookup(): map<string, Target> {
    Headers.BuildLookup(BaseEntries()) + Headers.BuildLookup(AssetEntries())
      + Headers.BuildLookup(DocumentEntries())
  }

  /** `CONTACT_LOOKUP` */
  function ContactLookup(): map<string, string> {
    Headers.BuildLookup(ContactMapping)
  }

  /** `RENEWAL_LOOKUP` */
  function RenewalLookup(): map<string, string> {
    Headers.BuildLookup(RenewalMapping)
  }

  /** `${category}::${subtype}`, the key `createDefinitions` de-duplicates by. */
  function ItemKey(it: Item): string {
    it.category + "::" + it.subtype
  }

  predicate NoColon(s: string) {
    ':' !in s
  }

  /** The first colon of a key sits right after the category. */
  lemma FirstColon(c: string, t: string)
    requires NoColon(c)
    ensures Seqs.IndexOf(c + "::" + t, ':') == |c|
  {
    var k := c + "::" + t;
    assert k[..|c|] == c;
    Seqs.IndexOfAt(k, ':', |c|);
  }

  /** Without colons in the categories, the key determines the pair, so
      de-duplicating by key is de-duplicating pairs. */
  lemma ItemKeyInjective(a: Item, b: Item)
    requires NoColon(a.category) && NoColon(b.category)
    requires ItemKey(a) == ItemKey(b)
    ensures a == b
  {
    var k := ItemKey(a);
    FirstColon(a.category, a.subtype);
    FirstColon(b.category, b.subtype);
    assert a.category == k[..|a.category|] == b.category;
    assert a.subtype == k[|a.category| + 2..] == b.subtype;
  }

  /** `createDefinitions(mapping)`: the mapping's pairs in order, each once. */
  function CreateDefinitions(mapping: seq<(string, Item)>): seq<Item> {
    Seqs.Distinct(seq(|mapping|, i requires 0 <= i < |mapping| => mapping[i].1))
  }

  /** The thirteen asset pairs of the workbook. */
  const AssetItems: seq<Item> := [
    Item("KIT", "STD"), Item("KIT", "TOK"), Item("KIT", "AK"), Item("KIT", "AK-CNS"),
    Item("SMART_CARD", "STD"), Item("SMART_CARD", "SIM"), Item("SMART_CARD", "TAV"),
    Item("LETTORE", "TOK"), Item("LETTORE", "AK"),
    Item("CERTIFICATO", "CNS-L"), Item("CERTIFICATO", "CNS"), Item("CERTIFICATO", "CFD"),
    Item("CERTIFICATO", "CFD-R")
  ]

  /** The three document pairs of the workbook. */
  const DocumentItems: seq<Item> := [
    Item("DOCUMENTO", "MR"), Item("DOCUMENTO", "AEC"), Item("DOCUMENTO", "DI")
  ]

  /** `ASSET_DEFINITIONS` */
  function AssetDefinitions(): seq<Item> {
    CreateDefinitions(AssetMapping)
  }

  /** `DOCUMENT_DEFINITIONS` */
  function DocumentDefinitions(): seq<Item> {
    CreateDefinitions(DocumentMapping)
  }

  lemma AssetItemsDistinct()
    ensures Seqs.NoDups(AssetItems)
  {
  }

  /** The asset definitions are the thirteen asset pairs, each once. */
  lemma AssetDefinitionsAre()
    ensures AssetDefinitions() == AssetItems && |AssetItems| == 13 && Seqs.NoDups(AssetItems)
  {
    assert seq(|AssetMapping|, i requires 0 <= i < |AssetMapping| => AssetMapping[i].1) == AssetItems;
    AssetItemsDistinct();
    Seqs.DistinctOfNoDups(AssetItems);
  }

  /** The document definitions are the three document pairs, each once. */
  lemma DocumentDefinitionsAre()
    ensures DocumentDefinitions() == DocumentItems && |DocumentItems| == 3 && Seqs.NoDups(DocumentItems)
  {
    assert seq(|DocumentMapping|, i requires 0 <= i < |DocumentMapping| => DocumentMapping[i].1)
      == DocumentItems;
    assert Seqs.NoDups(DocumentItems);
    Seqs.DistinctOfNoDups(DocumentItems);
  }

  /** The categories of the workbook (`KIT`, `SMART_CARD`, `LETTORE`,
      `CERTIFICATO`, `DOCUMENTO`) hold no colon, so the keys of
      `createDefinitions` tell every pair apart. */
  lemma CategoriesHaveNoColon()
    ensures NoColon("KIT") && NoColon("SMART_CARD") && NoColon("LETTORE")
    ensures NoColon("CERTIFICATO") && NoColon("DOCUMENTO")
  {
  }
}

=== FILE: gates.dfy ===
/** The access gates of the web application (src/app.js) and of its
    duplicate entry point (app.js): the API gate, the page gate, the login
    page decision, the order in which paths reach them, and the error and
    not-found replies of src/app.js. */
module Gates {
  import opened Wrappers
  import opened Cells

  /** The two session fields the gates read, as stored (any JSON value). */
  datatype SessionView = SessionView(userId: Cell, mustChangePassword: Cell)

  /** What a middleware or handler does with a request. */
  datatype Outcome =
    | Respond(status: int, message: string, mustChangePassword: bool)
    | Redirect(location: string)
    | Next
    | Serve(page: string)

  /** The three kinds of session the gates tell apart. */
  datatype Access = Anonymous | MustChange | Authorized

  function Classify(s: SessionView): Access {
    if !Truthy(s.userId) then Anonymous
    else if Truthy(s.mustChangePassword) then MustChange
    else Authorized
  }

  // ------------------------------------------------------------ src/app.js

  /** `ensureApiAuthenticated` */
  function ApiGate(s: SessionView): Outcome {
    if !Truthy(s.userId) then Respond(401, "Non autenticato.", false)
    else if Truthy(s.mustChangePassword) then Respond(403, "Cambio password richiesto.", true)
    else Next
  }

  /** `ensurePageAuthenticated` */
  function PageGate(s: SessionView): Outcome {
    if !Truthy(s.userId) then Redirect("/login")
    else if Truthy(s.mustChangePassword) then Redirect("/login?change=1")
    else Next
  }

  /** `GET /login` */
  function LoginPage(s: SessionView): Outcome {
    if Truthy(s.userId) && !Truthy(s.mustChangePassword) then Redirect("/") else Serve("login.html")
  }

  /** Each gate is a function of the session's kind: the API gate answers
      401 for anonymous sessions and 403 with the change flag for sessions
      that must change their password, the page gate sends them to the login
      page, and both let exactly the authorised sessions through. */
  lemma GatesByAccess(s: SessionView)
    ensures ApiGate(s) == match Classify(s)
      case Anonymous => Respond(401, "Non autenticato.", false)
      case MustChange => Respond(403, "Cambio password richiesto.", true)
      case Authorized => Next
    ensures PageGate(s) == match Classify(s)
      case Anonymous => Redirect("/login")
      case MustChange => Redirect("/login?change=1")
      case Authorized => Next
  {
  }

  /** The login page redirects home exactly for the sessions the page gate
      lets through, so the two never send a browser back and forth. */
  lemma LoginAgreesWithPageGate(s: SessionView)
    ensures LoginPage(s) == Redirect("/") <==> PageGate(s) == Next
    ensures PageGate(s).Redirect? ==> LoginPage(s) == Serve("login.html")
  {
  }

  /** The handlers the paths lead to. */
  datatype Handler = AuthRouter | ApiRouter | IndexPage | StaticFiles

  predicate HasPrefix(path: string, p: string) {
    |p| <= |path| && path[..|p|] == p
  }

  /** Express compares paths with routes without regard to the case of
      ASCII letters (its default); only those letters are folded. */
  function AsciiLower(path: string): (r: string)
    ensures |r| == |path|
  {
    seq(|path|, i requires 0 <= i < |path| => if 'A' <= path[i] <= 'Z' then (path[i] as int + 32) as char else path[i])
  }

  /** `app.use(prefix, ...)` matches the prefix itself and the paths below it. */
  predicate Mounted(path: string, prefix: string) {
    path == prefix || HasPrefix(path, prefix + "/")
  }

  /** `app.get(route, ...)` matches the route with or without one trailing
      slash (Express is not strict by default); `/` matches only itself. */
  predicate Exact(path: string, route: string) {
    path == route || (route != "/" && path == route + "/")
  }

  /** The GET routes of the account router (src/routes/auth.js), mounted
      at `/api/auth`: `/session` and `/profile`. */
  predicate AuthHandles(path: string) {
    Exact(path, "/api/auth/session") || Exact(path, "/api/auth/profile")
  }

  /** The registration order of src/app.js for a GET request: the account
      routes are open, the API is behind the API gate, `/login` decides for
      itself, and the index page and the static files are behind the page
      gate. A path below `/api/auth` that the account router does not
      handle falls through to the API gate. */
  function Route(path: string, s: SessionView): (r: Result<Handler, Outcome>) {
    var p := AsciiLower(path);
    if AuthHandles(p) then Success(AuthRouter)
    else if Mounted(p, "/api") then
      (if ApiGate(s) == Next then Success(ApiRouter) else Failure(ApiGate(s)))
    else if Exact(p, "/login") then Failure(LoginPage(s))
    else if Exact(p, "/") then
      (if PageGate(s) == Next then Success(IndexPage) else Failure(PageGate(s)))
    else if PageGate(s) == Next then Success(StaticFiles) else Failure(PageGate(s))
  }

  /** Folding is idempotent, so a path and its folded form are routed alike. */
  lemma RouteIgnoresCase(path: string, s: SessionView)
    ensures AsciiLower(AsciiLower(path)) == AsciiLower(path)
    ensures Route(path, s) == Route(AsciiLower(path), s)
  {
    var p := AsciiLower(path);
    assert forall i :: 0 <= i < |p| ==> AsciiLower(p)[i] == p[i];
  }

  /** Upper-case API paths still pass the API gate, and `/login/` is still
      the login page. */
  lemma RouteVariants(s: SessionView)
    ensures Route("/API/signatures", s) == Route("/api/signatures", s)
    ensures Route("/login/", s) == Failure(LoginPage(s))
    ensures Route("/Login", s) == Failure(LoginPage(s))
  {
    RouteIgnoresCase("/API/signatures", s);
    assert AsciiLower("/API/signatures") == "/api/signatures";
    assert AsciiLower("/login/") == "/login/";
    assert AsciiLower("/Login") == "/login";
    LoginPath("/login/", s);
    LoginPath("/Login", s);
  }

  lemma LoginPath(path: string, s: SessionView)
    requires AsciiLower(path) == "/login" || AsciiLower(path) == "/login/"
    ensures Route(path, s) == Failure(LoginPage(s))
  {
    var p := AsciiLower(path);
    assert p[1] == 'l';
    assert !AuthHandles(p) && !Mounted(p, "/api") by {
      assert "/api/auth/session"[1] == 'a' && "/api/auth/profile"[1] == 'a';
      assert "/api/auth/session/"[1] == 'a' && "/api/auth/profile/"[1] == 'a';
      assert "/api"[1] == 'a' && ("/api" + "/")[1] == 'a';
    }
  }

  /** The API routes are reached exactly by authorised sessions, on every API
      path the account router does not handle. */
  lemma ApiOnlyAuthorized(path: string, s: SessionView)
    requires Mounted(AsciiLower(path), "/api") && !AuthHandles(AsciiLower(path))
    ensures Route(path, s) == Success(ApiRouter) <==> Classify(s) == Authorized
  {
  }

  /** An account path with no GET route is not answered by the account
      router: it meets the API gate like any other API path. */
  lemma AuthFallsThrough(s: SessionView)
    ensures Route("/api/auth/session", s) == Success(AuthRouter)
    ensures Route("/api/auth/unknown", s) == Route("/api/signatures", s)
    ensures Route("/api/auth/unknown", s).Success? <==> Classify(s) == Authorized
  {
    assert AsciiLower("/api/auth/session") == "/api/auth/session";
    assert AsciiLower("/api/auth/unknown") == "/api/auth/unknown";
    assert AsciiLower("/api/signatures") == "/api/signatures";
    ApiOnlyAuthorized("/api/auth/unknown", s);
    ApiOnlyAuthorized("/api/signatures", s);
  }

  /** No page or file except the login page and the account routes is
      served to a session that is not authorised. */
  lemma PagesOnlyAuthorized(path: string, s: SessionView)
    requires Route(path, s).Success? && Route(path, s).value != AuthRouter
    ensures Classify(s) == Authorized
  {
  }

  // ----------------------------------------------------------- error replies

  const GenericError := "Si \U{00E8} verificato un errore durante l'elaborazione della richiesta"

  /** A thrown error as the error handler reads it; `status` is `None` when
      it is absent. */
  datatype Error = Error(status: Option<int>, message: string)

  /** The status of the error handler: `err.status || 500`. */
  function ErrorStatus(err: Error): (r: int) {
    match err.status
    case Some(n) => if n != 0 then n else 500
    case None => 500
  }

  /** The error handler's reply; the error's own message is shown only in
      development. */
  function ErrorReply(err: Error, development: bool): Outcome {
    Respond(ErrorStatus(err), if development then err.message else GenericError, false)
  }

  /** An error with a status keeps it; every other error answers 500. */
  lemma ErrorStatusKept(err: Error, development: bool)
    ensures ErrorReply(err, development).status == 500 <==>
      err.status.None? || err.status.value == 0 || err.status.value == 500
    ensures err.status.Some? && err.status.value != 0 ==> ErrorReply(err, development).status == err.status.value
    ensures !development ==> ErrorReply(err, development).message == GenericError
  {
  }

  /** The last handler: nothing matched. */
  function NotFound(): Outcome {
    Respond(404, "Risorsa non trovata", false)
  }

  // ---------------------------------------------- app.js (the duplicate)

  /** `ensureApiAuthenticated` of app.js */
  function RootApiGate(s: SessionView): Outcome {
    if !Truthy(s.userId) then Respond(401, "Non autenticato.", false)
    else if Truthy(s.mustChangePassword) then Respond(403, "Cambio password richiesto.", true)
    else Next
  }

  /** `ensurePageAuthenticated` of app.js */
  function RootPageGate(s: SessionView): Outcome {
    if !Truthy(s.userId) then Redirect("/login")
    else if Truthy(s.mustChangePassword) then Redirect("/login?change=1")
    else Next
  }

  /** `GET /login` of app.js */
  function RootLoginPage(s: SessionView): Outcome {
    if Truthy(s.userId) && !Truthy(s.mustChangePassword) then Redirect("/") else Serve("login.html")
  }

  /** The duplicate entry point decides every session as src/app.js does. */
  lemma RootGatesAgree(s: SessionView)
    ensures RootApiGate(s) == ApiGate(s)
    ensures RootPageGate(s) == PageGate(s)
    ensures RootLoginPage(s) == LoginPage(s)
  {
  }
}

=== FILE: headers.dfy ===
/** Header handling of the spreadsheet loader (src/services/dataLoader.js):
    table-name sanitising, the look-up form of a header, column names built
    from the header rows, rows turned into records, the choice of header and
    data rows, and the three-variant column look-up. */
module Headers {
  import opened Wrappers
  import opened JsText
  import opened Cells
  import Seqs
  import Coerce

  // ---------------------------------------------------------- character filters

  /** `s.replace(/[^…]/g, '')`: the characters of `s` that `keep` accepts, in order. */
  function KeepChars(s: string, keep: char -> bool): (r: string)
    ensures |r| <= |s|
  {
    if |s| == 0 then ""
    else (if keep(s[0]) then [s[0]] else "") + KeepChars(s[1..], keep)
  }

  lemma {:induction false} KeepCharsMembers(s: string, keep: char -> bool)
    ensures forall c :: c in KeepChars(s, keep) <==> c in s && keep(c)
  {
    if |s| > 0 {
      KeepCharsMembers(s[1..], keep);
      assert s == [s[0]] + s[1..];
    }
  }

  lemma {:induction false} KeepCharsNoop(s: string, keep: char -> bool)
    requires forall i :: 0 <= i < |s| ==> keep(s[i])
    ensures KeepChars(s, keep) == s
  {
    if |s| > 0 {
      KeepCharsNoop(s[1..], keep);
      assert [s[0]] + s[1..] == s;
    }
  }

  lemma {:induction false} KeepCharsAppend(a: string, b: string, keep: char -> bool)
    ensures KeepChars(a + b, keep) == KeepChars(a, keep) + KeepChars(b, keep)
  {
    if |a| > 0 {
      assert (a + b)[1..] == a[1..] + b;
      KeepCharsAppend(a[1..], b, keep);
    } else {
      assert a + b == b;
    }
  }

  /** Text whose characters are all refused keeps nothing. */
  lemma {:induction false} KeepCharsNone(s: string, keep: char -> bool)
    requires forall i :: 0 <= i < |s| ==> !keep(s[i])
    ensures KeepChars(s, keep) == ""
  {
    if |s| > 0 {
      KeepCharsNone(s[1..], keep);
    }
  }

  // ---------------------------------------------------------------- table names

  /** `[a-zA-Z0-9_]` */
  predicate IdentChar(c: char) {
    'a' <= c <= 'z' || 'A' <= c <= 'Z' || '0' <= c <= '9' || c == '_'
  }

  predicate IsIdent(s: string) {
    forall i :: 0 <= i < |s| ==> IdentChar(s[i])
  }

  lemma IdentAppend(a: string, b: string)
    requires IsIdent(a) && IsIdent(b)
    ensures IsIdent(a + b)
  {
    assert forall i :: |a| <= i < |a + b| ==> (a + b)[i] == b[i - |a|];
  }

  /** `sanitizeTableName(name, fallback)`: the identifier characters of the
      trimmed name, or the fallback when none remain. The name comes from an
      environment variable, `None` when it is unset. */
  function SanitizeTableName(name: Option<string>, fallback: string): string
  {
    var safe := KeepChars(Trim(name.GetOr("")), IdentChar);
    if |safe| > 0 then safe else fallback
  }

  /** The name is either the fallback or a non-empty identifier made of the
      characters of the given name. */
  lemma SanitizeTableNameShape(name: Option<string>, fallback: string)
    ensures var r := SanitizeTableName(name, fallback);
      r == fallback || (name.Some? && |r| > 0 && IsIdent(r)
        && forall c :: c in r ==> c in name.value)
  {
    var s := name.GetOr("");
    var r := KeepChars(Trim(s), IdentChar);
    KeepCharsMembers(Trim(s), IdentChar);
    TrimCutsSpace(s);
    forall c | c in Trim(s) ensures c in s {
      var i :| 0 <= i < |Trim(s)| && Trim(s)[i] == c;
      assert s[Lead(s) + i] == c;
    }
  }

  lemma SpaceNotIdent(c: char)
    requires IsSpace(c)
    ensures !IdentChar(c)
  {
  }

  /** White space is never an identifier character, so the trim `sanitizeTableName`
      does first changes nothing. */
  lemma KeepIdentUntrimmed(s: string)
    ensures KeepChars(Trim(s), IdentChar) == KeepChars(s, IdentChar)
  {
    var a := Lead(s);
    var t := Trim(s);
    TrimCutsSpace(s);
    var head := s[..a];
    var tail := s[a + |t|..];
    assert s == head + t + tail;
    KeepCharsAppend(head + t, tail, IdentChar);
    KeepCharsAppend(head, t, IdentChar);
    forall i | 0 <= i < |head| ensures !IdentChar(head[i]) {
      SpaceNotIdent(head[i]);
    }
    forall i | 0 <= i < |tail| ensures !IdentChar(tail[i]) {
      SpaceNotIdent(tail[i]);
    }
    KeepCharsNone(head, IdentChar);
    KeepCharsNone(tail, IdentChar);
    assert "" + KeepChars(t, IdentChar) + "" == KeepChars(t, IdentChar);
  }

  /** An identifier has no white space and sanitises to itself. */
  lemma SanitizeIdent(s: string, fallback: string)
    requires |s| > 0 && IsIdent(s)
    ensures SanitizeTableName(Some(s), fallback) == s
  {
    assert !IsSpace(s[0]) && !IsSpace(s[|s| - 1]);
    TrimOfTrimmed(s);
    KeepCharsNoop(s, IdentChar);
  }

  /** Sanitising a sanitised name again changes nothing, when the fallback is
      itself an identifier (as every fallback of the loader is). */
  lemma SanitizeTableNameIdempotent(name: Option<string>, fallback: string)
    requires IsIdent(fallback)
    ensures var r := SanitizeTableName(name, fallback);
      SanitizeTableName(Some(r), fallback) == r
  {
    var r := SanitizeTableName(name, fallback);
    SanitizeTableNameShape(name, fallback);
    if |r| > 0 {
      SanitizeIdent(r, fallback);
    } else {
      assert Trim(r) == "";
      assert KeepChars("", IdentChar) == "";
    }
  }

  // ---------------------------------------------------------------- look-up keys

  /** `[\da-zàèéìòù°]` under the `i` flag: digits, ASCII letters, the Italian
      accented vowels in either case, and the degree sign. */
  predicate LookupChar(c: char) {
    || '0' <= c <= '9' || 'a' <= c <= 'z' || 'A' <= c <= 'Z'
    || c in "\U{00E0}\U{00E8}\U{00E9}\U{00EC}\U{00F2}\U{00F9}\U{00C0}\U{00C8}\U{00C9}\U{00CC}\U{00D2}\U{00D9}\U{00B0}"
  }

  /** `normaliseForLookup`: the standardised key, lower-cased, with
      everything but look-up characters removed. */
  function NormaliseForLookup(k: string): string {
    KeepChars(ToLower(Coerce.StandardiseKey(k)), LookupChar)
  }

  lemma LowerCharIdempotent(c: char)
    ensures LowerChar(LowerChar(c)) == LowerChar(c)
  {
  }

  /** Lower-casing twice changes nothing more. */
  lemma ToLowerIdempotent(s: string)
    ensures ToLower(ToLower(s)) == ToLower(s)
  {
    forall i | 0 <= i < |s| ensures ToLower(ToLower(s))[i] == ToLower(s)[i] {
      LowerCharIdempotent(s[i]);
    }
  }

  lemma LookupCharNotSpace(c: char)
    requires LookupChar(c)
    ensures !IsSpace(c)
  {
  }

  /** Every character of lower-cased text is its own lower case. */
  lemma ToLowerFixed(s: string)
    ensures forall c :: c in ToLower(s) ==> LowerChar(c) == c
  {
    forall c | c in ToLower(s) ensures LowerChar(c) == c {
      var j :| 0 <= j < |s| && ToLower(s)[j] == c;
      LowerCharIdempotent(s[j]);
    }
  }

  /** A look-up key is made of lower-case look-up characters only. */
  lemma NormaliseForLookupChars(k: string)
    ensures var r := NormaliseForLookup(k);
      forall i :: 0 <= i < |r| ==> LookupChar(r[i]) && LowerChar(r[i]) == r[i]
  {
    var l := ToLower(Coerce.StandardiseKey(k));
    var r := NormaliseForLookup(k);
    KeepCharsMembers(l, LookupChar);
    ToLowerFixed(Coerce.StandardiseKey(k));
    assert forall i :: 0 <= i < |r| ==> r[i] in r;
  }

  /** `normaliseForLookup` is idempotent: a look-up key is its own look-up key. */
  lemma NormaliseForLookupIdempotent(k: string)
    ensures NormaliseForLookup(NormaliseForLookup(k)) == NormaliseForLookup(k)
  {
    var r := NormaliseForLookup(k);
    NormaliseForLookupChars(k);
    forall i | 0 <= i < |r| ensures !IsSpace(r[i]) {
      LookupCharNotSpace(r[i]);
    }
    Coerce.StandardiseKeyNoSpace(r);
    assert ToLower(r) == r;
    KeepCharsNoop(r, LookupChar);
  }

  /** A standardised header looks up the same key as the raw header. */
  lemma NormaliseForLookupStandard(k: string)
    ensures NormaliseForLookup(Coerce.StandardiseKey(k)) == NormaliseForLookup(k)
  {
    Coerce.StandardiseKeyIdempotent(k);
  }

  // ---------------------------------------------------------------- column look-up

  /** The three spellings under which a header is looked up, in order. */
  function Variants(k: string): seq<string> {
    var s := Coerce.StandardiseKey(k);
    [s, ToLower(s), NormaliseForLookup(k)]
  }

  /** `mapColumnKey(key, lookup)`: the entry of the first variant present. */
  function MapColumnKey<T>(k: string, lookup: map<string, T>): Option<T>
  {
    var vs := Variants(k);
    if vs[0] in lookup then Some(lookup[vs[0]])
    else if vs[1] in lookup then Some(lookup[vs[1]])
    else if vs[2] in lookup then Some(lookup[vs[2]])
    else None
  }

  /** `buildLookup(mapping, type)` with the spellings of a key given by
      `variants`: every spelling of every mapping key points at that key's
      target, a later key overriding an earlier one. */
  function BuildLookupWith<T>(entries: seq<(string, T)>, variants: string -> seq<string>): map<string, T>
  {
    if |entries| == 0 then map[]
    else
      var e := entries[|entries| - 1];
      BuildLookupWith(entries[..|entries| - 1], variants) + map key | key in variants(e.0) :: e.1
  }

  /** `buildLookup(mapping, type)` */
  function BuildLookup<T>(entries: seq<(string, T)>): map<string, T> {
    BuildLookupWith(entries, Variants)
  }

  /** Every spelling of a mapping key is a look-up key. */
  lemma {:induction false} BuildLookupKeys<T>(entries: seq<(string, T)>, variants: string -> seq<string>,
                                             i: nat, v: string)
    requires i < |entries| && v in variants(entries[i].0)
    ensures v in BuildLookupWith(entries, variants)
  {
    var n := |entries| - 1;
    if i < n {
      assert entries[..n][i] == entries[i];
      BuildLookupKeys(entries[..n], variants, i, v);
    }
  }

  /** Every look-up entry points at the target of some mapping key, under one
      of that key's spellings. */
  lemma {:induction false} BuildLookupSound<T>(entries: seq<(string, T)>, variants: string -> seq<string>,
                                              key: string)
    requires key in BuildLookupWith(entries, variants)
    ensures exists i :: (0 <= i < |entries| && key in variants(entries[i].0)
      && BuildLookupWith(entries, variants)[key] == entries[i].1)
  {
    var n := |entries| - 1;
    if key !in variants(entries[n].0) {
      BuildLookupSound(entries[..n], variants, key);
      var i :| 0 <= i < n && key in variants(entries[..n][i].0)
        && BuildLookupWith(entries[..n], variants)[key] == entries[..n][i].1;
      assert entries[..n][i] == entries[i];
    }
  }

  /** A header spelled like a mapping key is always recognised, and what it
      maps to is the target of a mapping key. */
  lemma MapColumnKeyKnown<T>(entries: seq<(string, T)>, i: nat)
    requires i < |entries|
    ensures var r := MapColumnKey(entries[i].0, BuildLookup(entries));
      r.Some? && exists j :: 0 <= j < |entries| && r.value == entries[j].1
  {
    var k := entries[i].0;
    var vs := Variants(k);
    BuildLookupKeys(entries, Variants, i, vs[0]);
    BuildLookupSound(entries, Variants, vs[0]);
  }

  /** Looking up a header and looking up its standardised form agree. */
  lemma MapColumnKeyStandard<T>(k: string, lookup: map<string, T>)
    ensures MapColumnKey(Coerce.StandardiseKey(k), lookup) == MapColumnKey(k, lookup)
  {
    Coerce.StandardiseKeyIdempotent(k);
    NormaliseForLookupStandard(k);
  }

  // ---------------------------------------------------------------- column names

  /** The cell of a row at column `i`; a short row reads `undefined`. */
  function CellAt(row: seq<Cell>, i: nat): Cell {
    if i < |row| then row[i] else Empty
  }

  /** `standardiseKey(row[i] || '')` */
  function HeaderPart(c: Cell): string {
    Coerce.StandardiseKey(if Truthy(c) then JsString(c) else "")
  }

  /** The non-empty header parts of column `i`, top row first. */
  function Parts(rows: seq<seq<Cell>>, i: nat): seq<string>
  {
    if |rows| == 0 then []
    else
      var p := HeaderPart(CellAt(rows[0], i));
      (if p != "" then [p] else []) + Parts(rows[1..], i)
  }

  /** The length of the longest row. */
  function MaxLen(rows: seq<seq<Cell>>): nat {
    if |rows| == 0 then 0
    else
      var m := MaxLen(rows[1..]);
      if |rows[0]| > m then |rows[0]| else m
  }

  /** `column_<i>` */
  function DefaultColumn(i: nat): string {
    "column_" + NatToDigits(i)
  }

  /** The name of column `i`: `column_<i>` when no header row names it, else
      its distinct parts joined by a blank and trimmed. */
  function ColumnName(rows: seq<seq<Cell>>, i: nat): string {
    var parts := Parts(rows, i);
    if |parts| == 0 then DefaultColumn(i)
    else Trim(Join(Seqs.Distinct(parts), " "))
  }

  /** `buildColumnNames(headerRows)` */
  function BuildColumnNames(rows: seq<seq<Cell>>): seq<string> {
    if |rows| == 0 then []
    else seq(MaxLen(rows), i requires 0 <= i => ColumnName(rows, i))
  }

  /** `MaxLen` is the length of a longest row. */
  lemma {:induction false} MaxLenIsMax(rows: seq<seq<Cell>>)
    ensures forall k :: 0 <= k < |rows| ==> |rows[k]| <= MaxLen(rows)
    ensures |rows| > 0 ==> exists k :: 0 <= k < |rows| && |rows[k]| == MaxLen(rows)
  {
    if |rows| > 0 {
      MaxLenIsMax(rows[1..]);
      if |rows[0]| <= MaxLen(rows[1..]) && |rows| > 1 {
        var k :| 0 <= k < |rows[1..]| && |rows[1..][k]| == MaxLen(rows[1..]);
        assert |rows[k + 1]| == MaxLen(rows);
      }
    }
  }

  /** One name per column up to the longest header row, each the column's
      `ColumnName`. */
  lemma BuildColumnNamesShape(rows: seq<seq<Cell>>)
    ensures var r := BuildColumnNames(rows);
      && |r| == MaxLen(rows)
      && (forall k :: 0 <= k < |rows| ==> |rows[k]| <= |r|)
      && (forall i :: 0 <= i < |r| ==> r[i] == ColumnName(rows, i))
  {
    MaxLenIsMax(rows);
  }

  /** A part is a non-empty standardised header cell of some row. */
  lemma {:induction false} PartsMembers(rows: seq<seq<Cell>>, i: nat)
    ensures forall p :: p in Parts(rows, i) <==>
      p != "" && exists k :: 0 <= k < |rows| && HeaderPart(CellAt(rows[k], i)) == p
  {
    if |rows| > 0 {
      PartsMembers(rows[1..], i);
      forall p ensures p in Parts(rows, i) <==>
        p != "" && exists k :: 0 <= k < |rows| && HeaderPart(CellAt(rows[k], i)) == p
      {
        if p != "" && (exists k :: 0 <= k < |rows| && HeaderPart(CellAt(rows[k], i)) == p) {
          var k :| 0 <= k < |rows| && HeaderPart(CellAt(rows[k], i)) == p;
          if k > 0 {
            assert rows[1..][k - 1] == rows[k];
          }
        }
        if p in Parts(rows[1..], i) {
          var k :| 0 <= k < |rows[1..]| && HeaderPart(CellAt(rows[1..][k], i)) == p;
          assert rows[k + 1] == rows[1..][k];
        }
      }
    }
  }

  /** Every part is trimmed and not empty. */
  lemma PartsTrimmed(rows: seq<seq<Cell>>, i: nat)
    ensures forall p :: p in Parts(rows, i) ==> p != "" && IsTrimmed(p)
  {
    PartsMembers(rows, i);
    forall p | p in Parts(rows, i) ensures p != "" && IsTrimmed(p) {
      var k :| 0 <= k < |rows| && HeaderPart(CellAt(rows[k], i)) == p;
      var c := CellAt(rows[k], i);
      Coerce.StandardiseKeyShape(if Truthy(c) then JsString(c) else "");
    }
  }

  /** A column with no header text is named `column_<i>`; otherwise its name
      is its distinct header parts, in first-occurrence order, joined by a
      blank, and the final trim of `buildColumnNames` changes nothing. */
  lemma ColumnNameCases(rows: seq<seq<Cell>>, i: nat)
    ensures Parts(rows, i) == [] ==> ColumnName(rows, i) == DefaultColumn(i)
    ensures Parts(rows, i) != [] ==>
      var d := Seqs.Distinct(Parts(rows, i));
      |d| > 0 && ColumnName(rows, i) == Join(d, " ") && |ColumnName(rows, i)| > 0
  {
    var parts := Parts(rows, i);
    if parts != [] {
      var d := Seqs.Distinct(parts);
      PartsTrimmed(rows, i);
      assert parts[0] in d;
      JoinTrimmed(d, " ");
      TrimOfTrimmed(Join(d, " "));
    }
  }

  /** No header text in column `i` exactly when every row's cell there is
      blank after standardisation. */
  lemma PartsEmpty(rows: seq<seq<Cell>>, i: nat)
    ensures Parts(rows, i) == [] <==>
      forall k :: 0 <= k < |rows| ==> HeaderPart(CellAt(rows[k], i)) == ""
  {
    PartsMembers(rows, i);
    assert forall k :: 0 <= k < |rows| ==>
      HeaderPart(CellAt(rows[k], i)) == "" || HeaderPart(CellAt(rows[k], i)) in Parts(rows, i);
    if Parts(rows, i) != [] {
      assert Parts(rows, i)[0] in Parts(rows, i);
    }
  }

  // ---------------------------------------------------------------- records

  /** A JavaScript object built by assignment: keys in insertion order, an
      assignment to an existing key keeps its place. */
  type Record = seq<(string, Cell)>

  function Keys(rec: Record): seq<string> {
    seq(|rec|, i requires 0 <= i < |rec| => rec[i].0)
  }

  /** `rec[k]`, `None` for an absent key. */
  function Get(rec: Record, k: string): Option<Cell> {
    if |rec| == 0 then None
    else if rec[0].0 == k then Some(rec[0].1)
    else Get(rec[1..], k)
  }

  /** `rec[k] = v` */
  function Put(rec: Record, k: string, v: Cell): Record {
    if |rec| == 0 then [(k, v)]
    else if rec[0].0 == k then [(k, v)] + rec[1..]
    else [rec[0]] + Put(rec[1..], k, v)
  }

  /** After `rec[k] = v`, `k` reads `v` and every other key reads as before. */
  lemma {:induction false} PutGet(rec: Record, k: string, v: Cell, k': string)
    ensures Get(Put(rec, k, v), k') == if k' == k then Some(v) else Get(rec, k')
  {
    if |rec| > 0 && rec[0].0 != k {
      PutGet(rec[1..], k, v, k');
    }
  }

  /** An assignment keeps the order of the keys and appends a new key. */
  lemma {:induction false} PutKeys(rec: Record, k: string, v: Cell)
    ensures Keys(Put(rec, k, v)) == if k in Keys(rec) then Keys(rec) else Keys(rec) + [k]
  {
    if |rec| > 0 {
      assert Keys(rec) == [rec[0].0] + Keys(rec[1..]);
      if rec[0].0 != k {
        PutKeys(rec[1..], k, v);
        assert Keys(Put(rec, k, v)) == [rec[0].0] + Keys(Put(rec[1..], k, v));
      } else {
        assert Keys(Put(rec, k, v)) == [k] + Keys(rec[1..]);
      }
    }
  }

  /** The record of the first `n` columns of a row. */
  function Fill(row: seq<Cell>, columns: seq<string>, n: nat): Record
    requires n <= |columns|
  {
    if n == 0 then []
    else
      var rec := Fill(row, columns, n - 1);
      var i := n - 1;
      if i >= |row| || row[i].Empty? then rec else Put(rec, columns[i], row[i])
  }

  /** `rowToRecord(row, columns)`: each named column's value, skipping
      `null` and cells past the end of the row; a later column with the same
      name overwrites an earlier one. */
  function RowToRecord(row: seq<Cell>, columns: seq<string>): Record {
    Fill(row, columns, |columns|)
  }

  /** A key is unset exactly when no column of that name holds a value. */
  lemma {:induction false} FillAbsent(row: seq<Cell>, columns: seq<string>, n: nat, k: string)
    requires n <= |columns|
    ensures Get(Fill(row, columns, n), k).None? <==>
      forall i :: 0 <= i < n && columns[i] == k ==> CellAt(row, i).Empty?
  {
    if n > 0 {
      FillAbsent(row, columns, n - 1, k);
      var i := n - 1;
      if !(i >= |row| || row[i].Empty?) {
        PutGet(Fill(row, columns, n - 1), columns[i], row[i], k);
      }
    }
  }

  /** The value of a key is that of the last column of that name holding one. */
  lemma {:induction false} FillLast(row: seq<Cell>, columns: seq<string>, n: nat, i: nat)
    requires i < n <= |columns| && !CellAt(row, i).Empty?
    requires forall j :: i < j < n && columns[j] == columns[i] ==> CellAt(row, j).Empty?
    ensures Get(Fill(row, columns, n), columns[i]) == Some(row[i])
  {
    var j := n - 1;
    var rec := Fill(row, columns, j);
    if i < j {
      FillLast(row, columns, j, i);
      if !(j >= |row| || row[j].Empty?) {
        PutGet(rec, columns[j], row[j], columns[i]);
      }
    } else {
      PutGet(rec, columns[i], row[i], columns[i]);
    }
  }

  /** The keys of a record are distinct. */
  lemma {:induction false} FillKeysDistinct(row: seq<Cell>, columns: seq<string>, n: nat)
    requires n <= |columns|
    ensures Seqs.NoDups(Keys(Fill(row, columns, n)))
  {
    if n > 0 {
      FillKeysDistinct(row, columns, n - 1);
      var i := n - 1;
      if !(i >= |row| || row[i].Empty?) {
        PutKeys(Fill(row, columns, n - 1), columns[i], row[i]);
      }
    }
  }

  /** `rowToRecord` as a whole: distinct keys, an absent key exactly when no
      column of that name holds a value, and otherwise the value of the last
      column of that name that holds one. */
  lemma RowToRecordSpec(row: seq<Cell>, columns: seq<string>, k: string)
    ensures Seqs.NoDups(Keys(RowToRecord(row, columns)))
    ensures Get(RowToRecord(row, columns), k).None? <==>
      forall i :: 0 <= i < |columns| && columns[i] == k ==> CellAt(row, i).Empty?
    ensures forall i :: (0 <= i < |columns| && columns[i] == k && !CellAt(row, i).Empty?
      && (forall j :: i < j < |columns| && columns[j] == k ==> CellAt(row, j).Empty?)) ==>
      Get(RowToRecord(row, columns), k) == Some(row[i])
  {
    FillKeysDistinct(row, columns, |columns|);
    FillAbsent(row, columns, |columns|, k);
    forall i | 0 <= i < |columns| && columns[i] == k && !CellAt(row, i).Empty?
      && (forall j :: i < j < |columns| && columns[j] == k ==> CellAt(row, j).Empty?)
      ensures Get(RowToRecord(row, columns), k) == Some(row[i])
    {
      FillLast(row, columns, |columns|, i);
    }
  }

  // ---------------------------------------------------------------- row selection

  /** A cell that does not count as a value: `null` or blank text. */
  predicate Blank(c: Cell) {
    c.Empty? || (c.Str? && Trim(c.s) == "")
  }

  /** `rowHasValues(row)` */
  predicate RowHasValues(row: seq<Cell>) {
    exists i :: 0 <= i < |row| && !Blank(row[i])
  }

  /** `rows.filter(rowHasValues)` */
  function KeepRows(rows: seq<seq<Cell>>): (r: seq<seq<Cell>>)
    ensures |r| <= |rows|
  {
    if |rows| == 0 then []
    else (if RowHasValues(rows[0]) then [rows[0]] else []) + KeepRows(rows[1..])
  }

  lemma {:induction false} KeepRowsMembers(rows: seq<seq<Cell>>)
    ensures forall row :: row in KeepRows(rows) <==> row in rows && RowHasValues(row)
  {
    if |rows| > 0 {
      KeepRowsMembers(rows[1..]);
      assert rows == [rows[0]] + rows[1..];
    }
  }

  /** `arr.slice(start)` for an integer `start`: a negative start counts from
      the end. */
  function SliceFrom<T>(s: seq<T>, start: int): (r: seq<T>)
    ensures |r| <= |s|
  {
    if start < 0 then (if |s| + start < 0 then s else s[|s| + start..])
    else if start > |s| then []
    else s[start..]
  }

  /** The sheet window: `XLS_START_ROW`, `XLS_END_ROW`, `XLS_HEADER_ROWS`. */
  datatype Window = Window(startRow: int, endRow: int, headerRows: int)

  /** The window when none of the three variables is set. */
  const DefaultWindow := Window(10, 2247, 2)

  function StartRow(w: Window): int {
    if w.startRow < 1 then 1 else w.startRow
  }

  function EndRow(w: Window): int {
    if w.endRow < StartRow(w) then StartRow(w) else w.endRow
  }

  function Min(a: int, b: int): int {
    if a < b then a else b
  }

  /** The non-blank rows above the first data row, of which the last
      `XLS_HEADER_ROWS` are the header. */
  function HeaderRows(rows: seq<seq<Cell>>, w: Window): seq<seq<Cell>> {
    var candidates := KeepRows(rows[..Min(StartRow(w) - 1, |rows|)]);
    SliceFrom(candidates, -w.headerRows)
  }

  /** The non-blank rows whose 1-based number lies in the window. */
  function DataRows(rows: seq<seq<Cell>>, w: Window): seq<seq<Cell>> {
    var a := Min(StartRow(w) - 1, |rows|);
    var b := Min(EndRow(w), |rows|);
    KeepRows(rows[a..b])
  }

  /** `prepareSheetRows(rows)`: the column names and the data rows. */
  function PrepareSheetRows(rows: seq<seq<Cell>>, w: Window): (seq<string>, seq<seq<Cell>>) {
    if |rows| == 0 then ([], [])
    else
      var headers := HeaderRows(rows, w);
      var columns := BuildColumnNames(if |headers| == 0 then [[]] else headers);
      (columns, DataRows(rows, w))
  }

  /** A row is a data row exactly when it has a value and sits at a 0-based
      index `k` whose row number `k + 1` lies between the start and end rows. */
  lemma DataRowsSpec(rows: seq<seq<Cell>>, w: Window, row: seq<Cell>)
    ensures row in PrepareSheetRows(rows, w).1 <==>
      RowHasValues(row) && exists k :: StartRow(w) - 1 <= k < EndRow(w) && k < |rows| && rows[k] == row
  {
    var a := Min(StartRow(w) - 1, |rows|);
    var b := Min(EndRow(w), |rows|);
    if |rows| > 0 {
      var win := rows[a..b];
      KeepRowsMembers(win);
      assert forall k :: a <= k < b ==> rows[k] == win[k - a];
      if row in win {
        var k :| 0 <= k < |win| && win[k] == row;
        assert rows[a + k] == row;
      }
    }
  }

  /** There are never more data rows than the window has rows. */
  lemma DataRowsCount(rows: seq<seq<Cell>>, w: Window)
    ensures |PrepareSheetRows(rows, w).1| <= EndRow(w) - StartRow(w) + 1
  {
  }

  /** The header is the last `XLS_HEADER_ROWS` non-blank rows above the
      window when that setting is positive; when it is zero, `slice(-0)` is
      `slice(0)` and every such row is a header row. */
  lemma HeaderRowsSpec(rows: seq<seq<Cell>>, w: Window)
    ensures var c := KeepRows(rows[..Min(StartRow(w) - 1, |rows|)]);
      var h := HeaderRows(rows, w);
      && (w.headerRows > 0 ==> |h| == Min(w.headerRows, |c|) && h == c[|c| - |h|..])
      && (w.headerRows == 0 ==> h == c)
      && forall row :: row in h ==> RowHasValues(row)
  {
    var c := KeepRows(rows[..Min(StartRow(w) - 1, |rows|)]);
    KeepRowsMembers(rows[..Min(StartRow(w) - 1, |rows|)]);
  }

  /** Without a non-blank row above the window there are no column names. */
  lemma NoHeaderNoColumns(rows: seq<seq<Cell>>, w: Window)
    requires |rows| > 0 && HeaderRows(rows, w) == []
    ensures PrepareSheetRows(rows, w).0 == []
  {
    var one: seq<seq<Cell>> := [[]];
    assert MaxLen(one) == 0 by {
      assert one[1..] == [];
    }
  }
}

=== FILE: jstext.dfy ===
/** JavaScript string primitives the application relies on: the white-space
    class of `\s` and `trim()`, global replacements, case mapping, decimal
    digits and `Array.prototype.join`. Strings are sequences of Unicode
    scalar values.

    The functions carry only quantifier-free contracts; what they compute is
    stated by the lemmas beside them, so that a proof pays only for the
    facts it asks for. */
module JsText {
  import opened Wrappers
  import Seqs

  /** WhiteSpace and LineTerminator of ECMAScript: what `\s` matches and what
      `trim()` removes. */
  predicate IsSpace(c: char) {
    || c == ' ' || c == '\t' || c == '\n' || c == '\r' || c == '\U{000B}' || c == '\U{000C}'
    || c == '\U{00A0}' || c == '\U{1680}' || ('\U{2000}' <= c <= '\U{200A}')
    || c == '\U{2028}' || c == '\U{2029}' || c == '\U{202F}' || c == '\U{205F}'
    || c == '\U{3000}' || c == '\U{FEFF}'
  }

  predicate AllSpace(s: string) {
    forall i :: 0 <= i < |s| ==> IsSpace(s[i])
  }

  predicate NoSpace(s: string) {
    forall i :: 0 <= i < |s| ==> !IsSpace(s[i])
  }

  /** Neither end of `s` is white space: `s.trim() === s`. */
  predicate IsTrimmed(s: string) {
    |s| == 0 || (!IsSpace(s[0]) && !IsSpace(s[|s| - 1]))
  }

  // -------------------------------------------------------------------- trim

  /** `s.trimStart()` */
  function TrimStart(s: string): (r: string)
    ensures |r| <= |s|
    ensures |s| > 0 && IsSpace(s[0]) ==> |r| < |s|
    ensures |s| > 0 && !IsSpace(s[0]) ==> r == s
  {
    if |s| > 0 && IsSpace(s[0]) then TrimStart(s[1..]) else s
  }

  /** `s.trimEnd()` */
  function TrimEnd(s: string): (r: string)
    ensures |r| <= |s|
    ensures |s| > 0 && !IsSpace(s[|s| - 1]) ==> r == s
  {
    if |s| > 0 && IsSpace(s[|s| - 1]) then TrimEnd(s[..|s| - 1]) else s
  }

  /** The number of white-space characters `trim()` removes at the front. */
  function Lead(s: string): nat
  {
    |s| - |TrimStart(s)|
  }

  /** `trimStart` keeps a suffix that does not start with white space and
      drops only white space. */
  lemma {:induction false} TrimStartParts(s: string)
    ensures TrimStart(s) == s[Lead(s)..]
    ensures |TrimStart(s)| > 0 ==> !IsSpace(TrimStart(s)[0])
    ensures AllSpace(s[..Lead(s)])
    decreases |s|
  {
    if |s| > 0 && IsSpace(s[0]) {
      var k := Lead(s[1..]);
      TrimStartParts(s[1..]);
      assert s[1..][k..] == s[k + 1..];
      assert s[..k + 1] == [s[0]] + s[1..][..k];
    } else {
      assert s[0..] == s;
    }
  }

  /** `trimEnd` keeps a prefix that does not end with white space and drops
      only white space. */
  lemma {:induction false} TrimEndParts(s: string)
    ensures TrimEnd(s) == s[..|TrimEnd(s)|]
    ensures |TrimEnd(s)| > 0 ==> !IsSpace(TrimEnd(s)[|TrimEnd(s)| - 1])
    ensures AllSpace(s[|TrimEnd(s)|..])
    decreases |s|
  {
    if |s| > 0 && IsSpace(s[|s| - 1]) {
      var p := s[..|s| - 1];
      var r := TrimEnd(p);
      TrimEndParts(p);
      assert p[..|r|] == s[..|r|];
      assert s[|r|..] == p[|r|..] + [s[|s| - 1]];
    } else {
      assert s[..|s|] == s;
    }
  }

  /** `s.trim()` */
  function Trim(s: string): (r: string)
    ensures IsTrimmed(r) && |r| <= |s|
  {
    TrimStartParts(s);
    TrimEndParts(TrimStart(s));
    TrimEnd(TrimStart(s))
  }

  lemma TrimParts(s: string, t: string, r: string)
    requires |t| <= |s| && t == s[|s| - |t|..] && AllSpace(s[..|s| - |t|])
    requires |r| <= |t| && r == t[..|r|] && AllSpace(t[|r|..])
    ensures var a := |s| - |t|;
      && r == s[a..a + |r|]
      && AllSpace(s[a + |r|..])
  {
    var a := |s| - |t|;
    assert s[a + |r|..] == t[|r|..];
  }

  /** `trim()` keeps an infix of `s` and cuts away only white space. */
  lemma TrimCutsSpace(s: string)
    ensures Trim(s) == s[Lead(s)..Lead(s) + |Trim(s)|]
    ensures AllSpace(s[..Lead(s)]) && AllSpace(s[Lead(s) + |Trim(s)|..])
  {
    TrimStartParts(s);
    TrimEndParts(TrimStart(s));
    TrimParts(s, TrimStart(s), Trim(s));
  }

  /** Text whose ends are not white space is left alone by `trim()`. */
  lemma TrimOfTrimmed(s: string)
    requires IsTrimmed(s)
    ensures Trim(s) == s
  {
  }

  lemma TrimIdempotent(s: string)
    ensures Trim(Trim(s)) == Trim(s)
  {
    TrimOfTrimmed(Trim(s));
  }

  /** `s.trim() === ''` exactly when `s` is all white space. */
  lemma TrimEmptyIffAllSpace(s: string)
    ensures Trim(s) == "" <==> AllSpace(s)
  {
    TrimCutsSpace(s);
    if Trim(s) == "" {
      assert s == s[..Lead(s)] + s[Lead(s)..];
    } else {
      assert s[Lead(s)] == Trim(s)[0];
    }
  }

  // ------------------------------------------------------------ replacements

  /** Text whose only white space is single blanks. */
  predicate SingleBlanks(s: string) {
    && (forall i :: 0 <= i < |s| && IsSpace(s[i]) ==> s[i] == ' ')
    && (forall i, j :: 0 <= i < |s| && 0 <= j < |s| && j == i + 1 && s[i] == ' ' ==> s[j] != ' ')
  }

  /** `s.replace(/\s+/g, ' ')`: every maximal run of white space becomes one
      blank. */
  function CollapseSpaces(s: string): (r: string)
    ensures |s| == 0 <==> |r| == 0
    ensures |s| > 0 && IsSpace(s[0]) ==> r[0] == ' '
    ensures |s| > 0 && !IsSpace(s[0]) ==> r[0] == s[0]
    decreases |s|
  {
    if |s| == 0 then ""
    else if IsSpace(s[0]) then " " + CollapseSpaces(TrimStart(s))
    else [s[0]] + CollapseSpaces(s[1..])
  }

  lemma ConsSingleBlanks(c: char, t: string)
    requires SingleBlanks(t)
    requires !IsSpace(c) || (c == ' ' && (|t| == 0 || t[0] != ' '))
    ensures SingleBlanks([c] + t)
  {
    var s := [c] + t;
    assert forall i :: 1 <= i < |s| ==> s[i] == t[i - 1];
  }

  /** What `CollapseSpaces` leaves has single blanks as its only white
      space. */
  lemma {:induction false} CollapsedSingle(s: string)
    ensures SingleBlanks(CollapseSpaces(s))
    decreases |s|
  {
    if |s| > 0 {
      if IsSpace(s[0]) {
        var t := TrimStart(s);
        CollapsedSingle(t);
        TrimStartParts(s);
        ConsSingleBlanks(' ', CollapseSpaces(t));
      } else {
        CollapsedSingle(s[1..]);
        ConsSingleBlanks(s[0], CollapseSpaces(s[1..]));
      }
    }
  }

  /** Text with single blanks only is left alone by `CollapseSpaces`. */
  lemma {:induction false} CollapseSpacesNoop(s: string)
    requires SingleBlanks(s)
    ensures CollapseSpaces(s) == s
    decreases |s|
  {
    if |s| > 0 {
      assert SingleBlanks(s[1..]) by {
        assert forall i :: 0 <= i < |s| - 1 ==> s[1..][i] == s[i + 1];
      }
      if IsSpace(s[0]) {
        assert |s| == 1 || !IsSpace(s[1]);
        assert TrimStart(s[1..]) == s[1..];
        assert TrimStart(s) == s[1..];
      }
      CollapseSpacesNoop(s[1..]);
    }
  }

  /** `s.replace(/\s+/g, '')` */
  function RemoveSpaces(s: string): (r: string)
    ensures |r| <= |s|
  {
    if |s| == 0 then ""
    else if IsSpace(s[0]) then RemoveSpaces(s[1..])
    else [s[0]] + RemoveSpaces(s[1..])
  }

  /** `RemoveSpaces` keeps exactly the characters that are not white
      space. */
  lemma {:induction false} RemoveSpacesMembers(s: string)
    ensures NoSpace(RemoveSpaces(s))
    ensures forall c :: c in RemoveSpaces(s) <==> c in s && !IsSpace(c)
    decreases |s|
  {
    if |s| > 0 {
      RemoveSpacesMembers(s[1..]);
      assert s == [s[0]] + s[1..];
    }
  }

  /** Text without white space is left alone by `RemoveSpaces`. */
  lemma {:induction false} RemoveSpacesAbsent(s: string)
    requires NoSpace(s)
    ensures RemoveSpaces(s) == s
    decreases |s|
  {
    if |s| > 0 {
      RemoveSpacesAbsent(s[1..]);
    }
  }

  /** `s.replace(/a/g, b)` for a single-character pattern. */
  function ReplaceAll(s: string, a: char, b: char): (r: string)
    ensures |r| == |s|
    ensures forall i :: 0 <= i < |s| ==> r[i] == (if s[i] == a then b else s[i])
  {
    seq(|s|, i requires 0 <= i < |s| => if s[i] == a then b else s[i])
  }

  /** `s.replace(/a/g, '')` for a single-character pattern. */
  function DeleteAll(s: string, a: char): (r: string)
    ensures |r| <= |s|
  {
    if |s| == 0 then ""
    else if s[0] == a then DeleteAll(s[1..], a)
    else [s[0]] + DeleteAll(s[1..], a)
  }

  /** `DeleteAll` keeps exactly the characters other than `a`. */
  lemma {:induction false} DeleteAllMembers(s: string, a: char)
    ensures forall c :: c in DeleteAll(s, a) <==> c in s && c != a
    decreases |s|
  {
    if |s| > 0 {
      DeleteAllMembers(s[1..], a);
      assert s == [s[0]] + s[1..];
    }
  }

  lemma {:induction false} DeleteAllAppend(a: string, b: string, c: char)
    ensures DeleteAll(a + b, c) == DeleteAll(a, c) + DeleteAll(b, c)
    decreases |a|
  {
    if |a| > 0 {
      assert (a + b)[1..] == a[1..] + b;
      DeleteAllAppend(a[1..], b, c);
    } else {
      assert a + b == b;
    }
  }

  lemma {:induction false} DeleteAllAbsent(s: string, c: char)
    requires c !in s
    ensures DeleteAll(s, c) == s
    decreases |s|
  {
    if |s| > 0 {
      assert c !in s[1..];
      DeleteAllAbsent(s[1..], c);
    }
  }

  /** `s.replace(a, b)` with a one-character string pattern: only the first
      occurrence is replaced. */
  function ReplaceFirst(s: string, a: char, b: char): (r: string)
    ensures |r| == |s|
  {
    if a in s then
      var k := Seqs.IndexOf(s, a);
      s[..k] + [b] + s[k + 1..]
    else s
  }

  /** `ReplaceFirst` changes the first `a`, if any, and nothing else. */
  lemma ReplaceFirstAt(s: string, a: char, b: char)
    ensures a !in s ==> ReplaceFirst(s, a, b) == s
    ensures a in s ==> var k := Seqs.IndexOf(s, a);
      && (forall i :: 0 <= i < k ==> s[i] != a)
      && (forall i :: 0 <= i < |s| ==> ReplaceFirst(s, a, b)[i] == if i == k then b else s[i])
  {
    if a in s {
      var k := Seqs.IndexOf(s, a);
      assert forall i :: 0 <= i < k ==> s[i] == s[..k][i];
    }
  }

  // ------------------------------------------------------------ case mapping

  /** JavaScript `toLowerCase` restricted to the Basic Latin and Latin-1
      letters (the only ones the spreadsheets use). */
  function LowerChar(c: char): char {
    if 'A' <= c <= 'Z' || ('\U{00C0}' <= c <= '\U{00DE}' && c != '\U{00D7}') then
      (c as int + 32) as char
    else c
  }

  function UpperChar(c: char): char {
    if 'a' <= c <= 'z' || ('\U{00E0}' <= c <= '\U{00FE}' && c != '\U{00F7}') then
      (c as int - 32) as char
    else c
  }

  function ToLower(s: string): (r: string)
    ensures |r| == |s|
    ensures forall i :: 0 <= i < |s| ==> r[i] == LowerChar(s[i])
  {
    seq(|s|, i requires 0 <= i < |s| => LowerChar(s[i]))
  }

  function ToUpper(s: string): (r: string)
    ensures |r| == |s|
    ensures forall i :: 0 <= i < |s| ==> r[i] == UpperChar(s[i])
  {
    seq(|s|, i requires 0 <= i < |s| => UpperChar(s[i]))
  }

  // ------------------------------------------------------------------ digits

  predicate IsDigit(c: char) {
    '0' <= c <= '9'
  }

  predicate AllDigits(s: string) {
    forall i :: 0 <= i < |s| ==> IsDigit(s[i])
  }

  function DigitValue(c: char): nat
    requires IsDigit(c)
  {
    c as int - '0' as int
  }

  function DigitChar(d: nat): (c: char)
    requires d < 10
    ensures IsDigit(c) && DigitValue(c) == d
  {
    ('0' as int + d) as char
  }

  /** The value `parseInt(s, 10)` gives a string of decimal digits. */
  function DigitsValue(s: string): nat
    requires AllDigits(s)
  {
    if |s| == 0 then 0 else DigitsValue(s[..|s| - 1]) * 10 + DigitValue(s[|s| - 1])
  }

  /** `String(n)` for a natural number: its shortest decimal rendering. */
  function NatToDigits(n: nat): (r: string)
    ensures AllDigits(r) && |r| > 0
    ensures DigitsValue(r) == n
    ensures |r| > 1 ==> r[0] != '0'
  {
    if n < 10 then [DigitChar(n)]
    else
      var r := NatToDigits(n / 10) + [DigitChar(n % 10)];
      assert r[..|r| - 1] == NatToDigits(n / 10);
      r
  }

  /** The longest prefix of `s` made of decimal digits. */
  function TakeDigits(s: string): (r: string)
    ensures AllDigits(r) && |r| <= |s|
  {
    if |s| > 0 && IsDigit(s[0]) then [s[0]] + TakeDigits(s[1..]) else ""
  }

  /** `TakeDigits` is a prefix of `s` that no digit follows. */
  lemma {:induction false} TakeDigitsParts(s: string)
    ensures TakeDigits(s) == s[..|TakeDigits(s)|]
    ensures |TakeDigits(s)| < |s| ==> !IsDigit(s[|TakeDigits(s)|])
    decreases |s|
  {
    if |s| > 0 && IsDigit(s[0]) {
      TakeDigitsParts(s[1..]);
      assert s[..|TakeDigits(s)|] == [s[0]] + s[1..][..|TakeDigits(s[1..])|];
    }
  }

  /** The digit run at the front of `d + rest` is `d` when `rest` does not
      go on with a digit. */
  lemma {:induction false} TakeDigitsUpTo(d: string, rest: string)
    requires AllDigits(d) && (|rest| == 0 || !IsDigit(rest[0]))
    ensures TakeDigits(d + rest) == d
    decreases |d|
  {
    if |d| == 0 {
      assert d + rest == rest;
    } else {
      assert (d + rest)[1..] == d[1..] + rest;
      TakeDigitsUpTo(d[1..], rest);
    }
  }

  /** The index of the first digit of `s`, if any. */
  function FirstDigitAt(s: string): (r: Option<nat>)
    ensures r.Some? ==> r.value < |s| && IsDigit(s[r.value])
  {
    if |s| == 0 then None
    else if IsDigit(s[0]) then Some(0)
    else match FirstDigitAt(s[1..])
      case None => None
      case Some(k) => Some(k + 1)
  }

  /** No digit comes before `FirstDigitAt`, and there is none when it finds
      none. */
  lemma {:induction false} FirstDigitAtFirst(s: string)
    ensures FirstDigitAt(s).None? ==> forall i :: 0 <= i < |s| ==> !IsDigit(s[i])
    ensures FirstDigitAt(s).Some? ==> forall i :: 0 <= i < FirstDigitAt(s).value ==> !IsDigit(s[i])
    decreases |s|
  {
    if |s| > 0 && !IsDigit(s[0]) {
      FirstDigitAtFirst(s[1..]);
      assert forall i :: 1 <= i < |s| ==> s[i] == s[1..][i - 1];
    }
  }

  /** The text `s.match(/\d+/)` finds: the first maximal run of digits. */
  function FirstDigitRun(s: string): (r: Option<string>)
    ensures r.Some? ==> |r.value| > 0 && AllDigits(r.value)
    ensures r.None? <==> FirstDigitAt(s).None?
  {
    match FirstDigitAt(s)
    case None => None
    case Some(k) => Some(TakeDigits(s[k..]))
  }

  /** `parts.join(sep)` */
  function Join(parts: seq<string>, sep: string): (r: string)
    ensures |parts| == 1 ==> r == parts[0]
  {
    if |parts| == 0 then ""
    else if |parts| == 1 then parts[0]
    else parts[0] + sep + Join(parts[1..], sep)
  }

  /** Joining non-empty trimmed texts, with any separator, gives non-empty
      trimmed text that starts as the first text does and ends as the last
      one does. */
  lemma {:induction false} JoinTrimmed(parts: seq<string>, sep: string)
    requires |parts| > 0
    requires forall i :: 0 <= i < |parts| ==> |parts[i]| > 0 && IsTrimmed(parts[i])
    ensures var j := Join(parts, sep);
      && |j| > 0 && j[0] == parts[0][0] && j[|j| - 1] == parts[|parts| - 1][|parts[|parts| - 1]| - 1]
      && IsTrimmed(j)
    decreases |parts|
  {
    if |parts| > 1 {
      JoinTrimmed(parts[1..], sep);
      var rest := Join(parts[1..], sep);
      assert Join(parts, sep) == parts[0] + sep + rest;
    }
    assert IsTrimmed(parts[0]) && IsTrimmed(parts[|parts| - 1]);
  }
}

=== FILE: loader.dfy ===
/** The import of a workbook into the database (src/services/dataLoader.js):
    the three record builders, the writes of the master, contact and renewal
    records, and the import that chains them in one transaction. The
    database is a value, each table a map or a sequence, and each write a
    function from the old tables to the new ones. */
module Loader {
  import opened Wrappers
  import opened Cells
  import JsText
  import Headers
  import opened Records

  // ------------------------------------------------------------ builders

  /** `records.map(normalise).filter((record) => record !== null)` */
  function Built<T(==)>(records: seq<Record>, f: Record -> Option<T>): (r: seq<T>)
    ensures |r| <= |records|
  {
    if |records| == 0 then []
    else
      var n := |records| - 1;
      Built(records[..n], f) + (match f(records[n]) case Some(x) => [x] case None => [])
  }

  /** A record is built exactly when some row normalises to it. */
  lemma {:induction false} BuiltMembers<T>(records: seq<Record>, f: Record -> Option<T>, x: T)
    ensures x in Built(records, f) <==> exists i :: 0 <= i < |records| && f(records[i]) == Some(x)
  {
    if |records| > 0 {
      var n := |records| - 1;
      BuiltMembers(records[..n], f, x);
      assert forall i :: 0 <= i < n ==> records[..n][i] == records[i];
    }
  }

  /** Building keeps the order of the rows: the records of two runs of rows
      are those of the first run followed by those of the second. */
  lemma {:induction false} BuiltAppend<T>(a: seq<Record>, b: seq<Record>, f: Record -> Option<T>)
    ensures Built(a + b, f) == Built(a, f) + Built(b, f)
    decreases |b|
  {
    if |b| > 0 {
      var n := |b| - 1;
      assert (a + b)[..|a| + n] == a + b[..n];
      assert (a + b)[|a| + n] == b[n];
      BuiltAppend(a, b[..n], f);
    } else {
      assert a + b == a;
    }
  }

  /** Each data row of a sheet as a record keyed by the column names. */
  function SheetRecords(rows: seq<seq<Cell>>, w: Headers.Window): seq<Record> {
    var prepared := Headers.PrepareSheetRows(rows, w);
    seq(|prepared.1|, i requires 0 <= i < |prepared.1| => Headers.RowToRecord(prepared.1[i], prepared.0))
  }

  /** `buildMasterRecords(rows)` */
  function BuildMasterRecords(rows: seq<seq<Cell>>, w: Headers.Window): seq<Master> {
    Built(SheetRecords(rows, w), NormaliseMasterRecord)
  }

  /** `buildContactRecords(rows)` */
  function BuildContactRecords(rows: seq<seq<Cell>>, w: Headers.Window): seq<Contact> {
    Built(SheetRecords(rows, w), NormaliseContactRecord)
  }

  /** `buildRenewalRecords(rows, sheetName)`, with `rinnovo_da` matched as
      text. */
  function BuildRenewalRecords(rows: seq<seq<Cell>>, w: Headers.Window, name: Option<string>): seq<Renewal> {
    Built(SheetRecords(rows, w), raw => NormaliseRenewalRecord(raw, name))
  }

  /** The written builder over row records: the first row whose
      normalisation throws aborts the whole build. */
  function BuiltAsWritten<T>(records: seq<Record>, g: Record -> Result<Option<T>, string>): Result<seq<T>, string> {
    if |records| == 0 then Success([])
    else
      var n := |records| - 1;
      var front :- BuiltAsWritten(records[..n], g);
      var last :- g(records[n]);
      Success(front + match last case Some(x) => [x] case None => [])
  }

  /** `buildRenewalRecords(rows, sheetName)` as written. */
  function BuildRenewalRecordsAsWritten(rows: seq<seq<Cell>>, w: Headers.Window, name: Option<string>): Result<seq<Renewal>, string> {
    BuiltAsWritten(SheetRecords(rows, w), raw => NormaliseRenewalRecordAsWritten(raw, name))
  }

  /** When no row throws, the written builder builds what `f` builds,
      provided `f` agrees with `g` on every row that does not throw. */
  lemma {:induction false} BuiltAsWrittenAgrees<T>(records: seq<Record>, g: Record -> Result<Option<T>, string>,
                                                   f: Record -> Option<T>)
    requires forall raw :: g(raw).Success? ==> g(raw).value == f(raw)
    requires BuiltAsWritten(records, g).Success?
    ensures BuiltAsWritten(records, g).value == Built(records, f)
  {
    if |records| > 0 {
      BuiltAsWrittenAgrees(records[..|records| - 1], g, f);
    }
  }

  /** The written builder throws as soon as one row throws. */
  lemma {:induction false} BuiltAsWrittenFails<T>(records: seq<Record>, g: Record -> Result<Option<T>, string>, i: nat)
    requires i < |records| && g(records[i]).Failure?
    ensures BuiltAsWritten(records, g).Failure?
  {
    var n := |records| - 1;
    if i < n {
      assert records[..n][i] == records[i];
      BuiltAsWrittenFails(records[..n], g, i);
    }
  }

  /** A row with a usable id whose `Rinnovo DA` is a non-zero number. */
  predicate NumericRinnovo(raw: Record, x: real) {
    x != 0.0 && Identifies(RenewalId(raw, RenewalTarget)) && LastOf(raw, RenewalTarget, "rinnovo_da") == Some(Num(x))
  }

  /** A sheet the written builder gets through is built the same by the
      corrected one; a sheet with a row of a usable id and a numeric
      `Rinnovo DA` aborts the written build. */
  lemma BuildRenewalRecordsAgree(rows: seq<seq<Cell>>, w: Headers.Window, name: Option<string>)
    ensures BuildRenewalRecordsAsWritten(rows, w, name).Success? ==>
      BuildRenewalRecordsAsWritten(rows, w, name).value == BuildRenewalRecords(rows, w, name)
    ensures forall i, x :: 0 <= i < |SheetRecords(rows, w)| && NumericRinnovo(SheetRecords(rows, w)[i], x) ==>
      BuildRenewalRecordsAsWritten(rows, w, name).Failure?
  {
    var g := raw => NormaliseRenewalRecordAsWritten(raw, name);
    var f := raw => NormaliseRenewalRecord(raw, name);
    forall raw | g(raw).Success? ensures g(raw).value == f(raw) {
      RenewalAgrees(raw, RenewalTarget, name);
    }
    if BuildRenewalRecordsAsWritten(rows, w, name).Success? {
      BuiltAsWrittenAgrees(SheetRecords(rows, w), g, f);
    }
    var records := SheetRecords(rows, w);
    forall i, x | 0 <= i < |records| && NumericRinnovo(records[i], x)
      ensures BuiltAsWritten(records, g).Failure?
    {
      RenewalNumericRinnovo(records[i], RenewalTarget, name, x);
      BuiltAsWrittenFails(records, g, i);
    }
  }

  /** Every master record built from a sheet has a positive id and its
      thirteen assets and three documents. */
  lemma BuiltMastersShape(rows: seq<seq<Cell>>, w: Headers.Window)
    ensures var ms := BuildMasterRecords(rows, w);
      forall i :: 0 <= i < |ms| ==>
        ms[i].base.id.Some? && ms[i].base.id.value > 0 && |ms[i].assets| == 13 && |ms[i].documents| == 3
  {
    var records := SheetRecords(rows, w);
    var ms := BuildMasterRecords(rows, w);
    forall i | 0 <= i < |ms|
      ensures ms[i].base.id.Some? && ms[i].base.id.value > 0 && |ms[i].assets| == 13 && |ms[i].documents| == 3
    {
      var x := ms[i];
      BuiltMembers(records, NormaliseMasterRecord, x);
      var j :| 0 <= j < |records| && NormaliseMasterRecord(records[j]) == Some(x);
      MasterId(records[j], MasterTarget);
      MasterCoverage(records[j], MasterTarget);
    }
  }

  // ------------------------------------------------------------- database

  /** A row of the base table: the master's columns and the contact columns
      the master sheet does not carry. The table is taken to have every
      column the importer writes (`fattura_data_pagamento`, `email`,
      `recapito_telefonico`); the one scripts/createTables.js creates lacks
      them. */
  datatype BaseRow = BaseRow(master: MasterBase, email: Cell, telefono: Cell)

  /** The four tables: base rows by id, the asset and document rows of each
      signature by its id, and the renewal rows in insertion order. */
  datatype Db = Db(
    base: map<nat, BaseRow>,
    assets: map<nat, seq<Flag>>,
    documents: map<nat, seq<Flag>>,
    renewals: seq<Renewal>)

  /** `value ? 1 : 0` */
  function Bit(v: int): int {
    if v != 0 then 1 else 0
  }

  /** The flags as inserted, with the value made 0 or 1. */
  function StoredFlags(fs: seq<Flag>): (r: seq<Flag>)
    ensures |r| == |fs|
  {
    seq(|fs|, i requires 0 <= i < |fs| => Flag(fs[i].item, Bit(fs[i].value)))
  }

  /** Flags already 0 or 1 are stored as they are. */
  lemma StoredFlagsOfBits(fs: seq<Flag>)
    requires forall i :: 0 <= i < |fs| ==> fs[i].value in {0, 1}
    ensures StoredFlags(fs) == fs
  {
  }

  /** Every master to load has an id. */
  predicate Keyed(records: seq<Master>) {
    forall i :: 0 <= i < |records| ==> records[i].base.id.Some?
  }

  /** The writes of one master: `REPLACE INTO` of the base row, whose
      contact columns fall back to `NULL`, and the delete-then-insert of its
      asset and document rows. */
  function StoreMaster(db: Db, r: Master): Db
    requires r.base.id.Some?
  {
    var k := r.base.id.value;
    db.(base := db.base[k := BaseRow(r.base, Empty, Empty)],
        assets := db.assets[k := StoredFlags(r.assets)],
        documents := db.documents[k := StoredFlags(r.documents)])
  }

  datatype MasterStats = MasterStats(base: nat, assets: nat, documents: nat)

  /** `loadDataToDatabase(connection, records, ...)` */
  function LoadMasters(db: Db, records: seq<Master>): (Db, MasterStats)
    requires Keyed(records)
  {
    if |records| == 0 then (db, MasterStats(0, 0, 0))
    else
      var n := |records| - 1;
      var front := LoadMasters(db, records[..n]);
      var r := records[n];
      (StoreMaster(front.0, r),
       MasterStats(front.1.base + 1, front.1.assets + |r.assets|, front.1.documents + |r.documents|))
  }

  /** The base count is the number of records, and with the workbook's
      coverage the asset and document counts are 13 and 3 per record. */
  lemma {:induction false} LoadMastersCounts(db: Db, records: seq<Master>)
    requires Keyed(records)
    requires forall i :: 0 <= i < |records| ==> |records[i].assets| == 13 && |records[i].documents| == 3
    ensures var s := LoadMasters(db, records).1;
      s.base == |records| && s.assets == 13 * |records| && s.documents == 3 * |records|
  {
    if |records| > 0 {
      LoadMastersCounts(db, records[..|records| - 1]);
    }
  }

  /** An id has rows after the load exactly when it had rows before or a
      record carries it; ids no record carries keep their rows, and the
      renewals are untouched. */
  lemma StoreMasterKeys(db: Db, r: Master, k: nat)
    requires r.base.id.Some?
    ensures var d := StoreMaster(db, r);
      && (k in d.base <==> k in db.base || r.base.id == Some(k))
      && (k in d.assets <==> k in db.assets || r.base.id == Some(k))
      && (k in d.documents <==> k in db.documents || r.base.id == Some(k))
      && d.renewals == db.renewals
  {
  }

  /** Some record carries the id `k`. */
  predicate Carries(records: seq<Master>, k: nat) {
    exists i :: 0 <= i < |records| && records[i].base.id == Some(k)
  }

  lemma CarriesSnoc(records: seq<Master>, k: nat)
    requires |records| > 0
    ensures Carries(records, k) <==>
      Carries(records[..|records| - 1], k) || records[|records| - 1].base.id == Some(k)
  {
    var n := |records| - 1;
    assert forall i :: 0 <= i < n ==> records[..n][i] == records[i];
  }

  lemma {:induction false} LoadMastersKeys(db: Db, records: seq<Master>, k: nat)
    requires Keyed(records)
    ensures var d := LoadMasters(db, records).0;
      && (k in d.base <==> k in db.base || Carries(records, k))
      && (k in d.assets <==> k in db.assets || Carries(records, k))
      && (k in d.documents <==> k in db.documents || Carries(records, k))
      && d.renewals == db.renewals
  {
    if |records| > 0 {
      var n := |records| - 1;
      LoadMastersKeys(db, records[..n], k);
      CarriesSnoc(records, k);
      StoreMasterKeys(LoadMasters(db, records[..n]).0, records[n], k);
    }
  }

  /** The rows of an id no record carries are left as they were. */
  lemma {:induction false} LoadMastersUntouched(db: Db, records: seq<Master>, k: nat)
    requires Keyed(records)
    requires forall i :: 0 <= i < |records| ==> records[i].base.id != Some(k)
    ensures var d := LoadMasters(db, records).0;
      && (k in db.base ==> k in d.base && d.base[k] == db.base[k])
      && (k in db.assets ==> k in d.assets && d.assets[k] == db.assets[k])
      && (k in db.documents ==> k in d.documents && d.documents[k] == db.documents[k])
  {
    if |records| > 0 {
      var n := |records| - 1;
      assert forall i :: 0 <= i < n ==> records[..n][i] == records[i];
      LoadMastersUntouched(db, records[..n], k);
    }
  }

  /** The rows of an id are those of the last record carrying it: its base
      columns with empty contact columns, and its flags. */
  lemma {:induction false} LoadMastersLastWins(db: Db, records: seq<Master>, j: nat)
    requires Keyed(records) && j < |records|
    requires forall i :: j < i < |records| ==> records[i].base.id != records[j].base.id
    ensures var d := LoadMasters(db, records).0;
      var k := records[j].base.id.value;
      && k in d.base && d.base[k] == BaseRow(records[j].base, Empty, Empty)
      && k in d.assets && d.assets[k] == StoredFlags(records[j].assets)
      && k in d.documents && d.documents[k] == StoredFlags(records[j].documents)
  {
    var n := |records| - 1;
    if j < n {
      assert forall i :: j < i < n ==> records[..n][i] == records[i];
      LoadMastersLastWins(db, records[..n], j);
    }
  }

  // ------------------------------------------------------------- contacts

  /** One contact's `UPDATE`: only its truthy e-mail and telephone are
      written, nothing at all when neither is; the affected-row count is 1
      when the base table has that id. */
  function UpdateContact(db: Db, c: Contact): (Db, nat) {
    if !Truthy(c.email) && !Truthy(c.telefono) then (db, 0)
    else if c.id !in db.base then (db, 0)
    else
      var row := db.base[c.id];
      var row' := row.(email := if Truthy(c.email) then c.email else row.email,
                       telefono := if Truthy(c.telefono) then c.telefono else row.telefono);
      (db.(base := db.base[c.id := row']), 1)
  }

  /** `applyContactUpdates(connection, baseTableName, contacts)` */
  function ApplyContacts(db: Db, contacts: seq<Contact>): (Db, nat) {
    if |contacts| == 0 then (db, 0)
    else
      var n := |contacts| - 1;
      var front := ApplyContacts(db, contacts[..n]);
      var last := UpdateContact(front.0, contacts[n]);
      (last.0, front.1 + last.1)
  }

  /** A contact that changes something: it has an id in the base table and a
      truthy e-mail or telephone. */
  predicate Applies(db: Db, c: Contact) {
    c.id in db.base && (Truthy(c.email) || Truthy(c.telefono))
  }

  /** One update keeps the ids of the base table, its master columns and
      the other tables, and counts 1 exactly when the contact applies. */
  lemma UpdateContactKeeps(db: Db, c: Contact)
    ensures var (d, n) := UpdateContact(db, c);
      && d.base.Keys == db.base.Keys
      && (forall k :: k in d.base ==> d.base[k].master == db.base[k].master)
      && d.assets == db.assets && d.documents == db.documents && d.renewals == db.renewals
      && (n == 1 <==> Applies(db, c)) && n <= 1
  {
  }

  /** Contact updates keep the ids of the base table, its master columns
      and the other tables. */
  lemma {:induction false} ApplyContactsKeeps(db: Db, contacts: seq<Contact>)
    ensures var d := ApplyContacts(db, contacts).0;
      && d.base.Keys == db.base.Keys
      && (forall k :: k in d.base ==> d.base[k].master == db.base[k].master)
      && d.assets == db.assets && d.documents == db.documents && d.renewals == db.renewals
  {
    if |contacts| > 0 {
      var n := |contacts| - 1;
      ApplyContactsKeeps(db, contacts[..n]);
      UpdateContactKeeps(ApplyContacts(db, contacts[..n]).0, contacts[n]);
    }
  }

  /** The number of positions of `s` whose element satisfies `p`. */
  function CountWhere<T>(s: seq<T>, p: T -> bool): nat {
    |set i | 0 <= i < |s| && p(s[i])|
  }

  lemma CountWhereSnoc<T>(s: seq<T>, p: T -> bool)
    requires |s| > 0
    ensures CountWhere(s, p) == CountWhere(s[..|s| - 1], p) + if p(s[|s| - 1]) then 1 else 0
  {
    var n := |s| - 1;
    var front := set i | 0 <= i < n && p(s[..n][i]);
    var all := set i | 0 <= i < |s| && p(s[i]);
    assert front == set i | 0 <= i < n && p(s[i]);
    if p(s[n]) {
      assert all == front + {n};
    } else {
      assert all == front;
    }
  }

  /** The update count is the number of contacts that apply. */
  lemma {:induction false} ApplyContactsCount(db: Db, contacts: seq<Contact>)
    ensures ApplyContacts(db, contacts).1 == CountWhere(contacts, c => Applies(db, c))
  {
    if |contacts| > 0 {
      var n := |contacts| - 1;
      var p := contacts[..n];
      ApplyContactsCount(db, p);
      ApplyContactsKeeps(db, p);
      UpdateContactKeeps(ApplyContacts(db, p).0, contacts[n]);
      CountWhereSnoc(contacts, c => Applies(db, c));
    }
  }

  /** The selected contact field: e-mail or telephone. */
  function Field(c: Contact, email: bool): Cell {
    if email then c.email else c.telefono
  }

  function RowField(row: BaseRow, email: bool): Cell {
    if email then row.email else row.telefono
  }

  /** One update keeps every id of the base table and writes a field only
      of its own id, and only with a truthy value. */
  lemma UpdateContactField(db: Db, c: Contact, k: nat, email: bool)
    requires k in db.base
    ensures var d := UpdateContact(db, c).0;
      && k in d.base
      && RowField(d.base[k], email) ==
           if c.id == k && Truthy(Field(c, email)) then Field(c, email) else RowField(db.base[k], email)
  {
  }

  /** A contact field stays as it was when no contact of that id gives a
      truthy value for it. */
  lemma {:induction false} ApplyContactsFieldKept(db: Db, contacts: seq<Contact>, k: nat, email: bool)
    requires k in db.base
    requires forall i :: 0 <= i < |contacts| && contacts[i].id == k ==> !Truthy(Field(contacts[i], email))
    ensures var d := ApplyContacts(db, contacts).0;
      k in d.base && RowField(d.base[k], email) == RowField(db.base[k], email)
  {
    if |contacts| > 0 {
      var n := |contacts| - 1;
      var p := contacts[..n];
      assert forall i :: 0 <= i < n ==> p[i] == contacts[i];
      ApplyContactsFieldKept(db, p, k, email);
      UpdateContactField(ApplyContacts(db, p).0, contacts[n], k, email);
    }
  }

  /** A contact field of a signature is the last truthy value given for it. */
  lemma {:induction false} ApplyContactsFieldLast(db: Db, contacts: seq<Contact>, k: nat, email: bool, j: nat)
    requires k in db.base
    requires j < |contacts| && contacts[j].id == k && Truthy(Field(contacts[j], email))
    requires forall i :: j < i < |contacts| && contacts[i].id == k ==> !Truthy(Field(contacts[i], email))
    ensures var d := ApplyContacts(db, contacts).0;
      k in d.base && RowField(d.base[k], email) == Field(contacts[j], email)
  {
    var n := |contacts| - 1;
    var p := contacts[..n];
    if j < n {
      assert forall i :: j < i < n ==> p[i] == contacts[i];
      ApplyContactsFieldLast(db, p, k, email, j);
      UpdateContactField(ApplyContacts(db, p).0, contacts[n], k, email);
    } else {
      ApplyContactsKeeps(db, p);
      UpdateContactField(ApplyContacts(db, p).0, contacts[n], k, email);
    }
  }

  /** Never more updates than contacts. */
  lemma {:induction false} ApplyContactsBound(db: Db, contacts: seq<Contact>)
    ensures ApplyContacts(db, contacts).1 <= |contacts|
  {
    if |contacts| > 0 {
      ApplyContactsBound(db, contacts[..|contacts| - 1]);
    }
  }

  // ------------------------------------------------------------- renewals

  /** Renewals are inserted in statements of at most this many rows. */
  const ChunkSize: nat := 500

  /** A renewal as inserted: the certificate flags made 0 or 1, a falsy note
      stored as `NULL`, and no `rinnovo_riferimento`, which the insert does
      not list. */
  function StoreRenewal(r: Renewal): Renewal {
    r.(cnsL := Bit(r.cnsL), cns := Bit(r.cns), cfd := Bit(r.cfd), cfdR := Bit(r.cfdR),
       rinnovoRiferimento := None,
       note := if Truthy(r.note) then r.note else Empty)
  }

  function StoredRenewals(rs: seq<Renewal>): (r: seq<Renewal>)
    ensures |r| == |rs|
  {
    seq(|rs|, i requires 0 <= i < |rs| => StoreRenewal(rs[i]))
  }

  lemma StoredRenewalsAppend(a: seq<Renewal>, b: seq<Renewal>)
    ensures StoredRenewals(a + b) == StoredRenewals(a) + StoredRenewals(b)
  {
  }

  /** A stored renewal differs from the built one only in its reference
      number and, when falsy, its note. */
  lemma StoreRenewalKeeps(r: Renewal)
    requires r.cnsL in {0, 1} && r.cns in {0, 1} && r.cfd in {0, 1} && r.cfdR in {0, 1}
    ensures StoreRenewal(r).rinnovoRiferimento == None
    ensures StoreRenewal(r).(rinnovoRiferimento := r.rinnovoRiferimento, note := r.note) == r
    ensures StoreRenewal(r).note == Empty <==> !Truthy(r.note)
    ensures Truthy(r.note) ==> StoreRenewal(r).note == r.note
  {
  }

  /** `renewals.slice(i, i + chunkSize)` for `i = 0, chunkSize, ...` */
  function Chunks<T>(s: seq<T>, size: nat): seq<seq<T>>
    requires size > 0
    decreases |s|
  {
    if |s| == 0 then []
    else if |s| <= size then [s]
    else [s[..size]] + Chunks(s[size..], size)
  }

  function Flatten<T>(ss: seq<seq<T>>): seq<T> {
    if |ss| == 0 then [] else ss[0] + Flatten(ss[1..])
  }

  /** The chunks, in order, are the whole input. */
  lemma {:induction false} ChunksFlatten<T>(s: seq<T>, size: nat)
    requires size > 0
    ensures Flatten(Chunks(s, size)) == s
    decreases |s|
  {
    if |s| > size {
      ChunksFlatten(s[size..], size);
      assert s == s[..size] + s[size..];
    } else if |s| > 0 {
      assert [s][1..] == [];
    }
  }

  /** There are `ceil(|s| / size)` chunks: `size` times their number is
      the first multiple of `size` not below `|s|`. */
  lemma {:induction false} ChunksCount<T>(s: seq<T>, size: nat)
    requires size > 0
    ensures |s| <= |Chunks(s, size)| * size < |s| + size
    decreases |s|
  {
    if |s| > size {
      var k := |Chunks(s[size..], size)|;
      ChunksCount(s[size..], size);
      assert (k + 1) * size == k * size + size;
    }
  }

  /** No chunk is empty or longer than `size`. */
  lemma {:induction false} ChunksBounded<T>(s: seq<T>, size: nat)
    requires size > 0
    ensures forall c :: c in Chunks(s, size) ==> 0 < |c| <= size
    decreases |s|
  {
    if |s| > size {
      ChunksBounded(s[size..], size);
    }
  }

  /** `replaceRenewals(connection, renewalTableName, renewals)`: without a
      table name nothing happens; otherwise the table is emptied and the
      renewals inserted in statements of `ChunkSize` rows, `inserted` adding
      up the rows each statement affects and `statements` counting them. */
  method ReplaceRenewals(db: Db, table: string, renewals: seq<Renewal>)
    returns (r: Db, inserted: nat, statements: nat)
    ensures table == "" ==> r == db && inserted == 0 && statements == 0
    ensures table != "" ==> r == db.(renewals := StoredRenewals(renewals))
    ensures table != "" ==> inserted == |renewals| && statements == |Chunks(renewals, ChunkSize)|
  {
    if table == "" {
      return db, 0, 0;
    }
    r := db.(renewals := []);
    inserted := 0;
    statements := 0;
    if |renewals| == 0 {
      return;
    }
    var i := 0;
    while i < |renewals|
      invariant i == statements * ChunkSize
      invariant statements == 0 || i - ChunkSize < |renewals|
      invariant r == db.(renewals := StoredRenewals(renewals[..Headers.Min(i, |renewals|)]))
      invariant inserted == Headers.Min(i, |renewals|)
      decreases |renewals| - i
    {
      var end := Headers.Min(i + ChunkSize, |renewals|);
      var chunk := renewals[i..end];
      assert renewals[..end] == renewals[..i] + chunk;
      StoredRenewalsAppend(renewals[..i], chunk);
      r := r.(renewals := r.renewals + StoredRenewals(chunk));
      inserted := inserted + |chunk|;
      statements := statements + 1;
      i := i + ChunkSize;
    }
    assert renewals[..|renewals|] == renewals;
    ChunksCount(renewals, ChunkSize);
  }

  // ------------------------------------------------------------- import

  /** A worksheet: its name and its rows of cells. */
  datatype Sheet = Sheet(name: Option<string>, rows: seq<seq<Cell>>)

  /** `DB_TABLE`, `DB_ASSET_TABLE`, `DB_DOCUMENT_TABLE`, `DB_RENEWAL_TABLE` */
  datatype TableEnv = TableEnv(base: Option<string>, asset: Option<string>, document: Option<string>, renewal: Option<string>)

  datatype Tables = Tables(base: string, asset: string, document: string, renewal: string)

  /** The four table names: each sanitised, the last three falling back to
      the base name with a suffix. */
  function TableNames(env: TableEnv): Tables {
    var base := Headers.SanitizeTableName(env.base, "digital_signatures");
    Tables(base,
      Headers.SanitizeTableName(env.asset, base + "_assets"),
      Headers.SanitizeTableName(env.document, base + "_documents"),
      Headers.SanitizeTableName(env.renewal, base + "_renewals"))
  }

  lemma FallbackIdent(name: Option<string>, fallback: string)
    requires |fallback| > 0 && Headers.IsIdent(fallback)
    ensures var r := Headers.SanitizeTableName(name, fallback);
      |r| > 0 && Headers.IsIdent(r)
  {
    Headers.SanitizeTableNameShape(name, fallback);
  }

  lemma LiteralIdents()
    ensures Headers.IsIdent("digital_signatures") && |"digital_signatures"| > 0
    ensures Headers.IsIdent("_assets") && Headers.IsIdent("_documents") && Headers.IsIdent("_renewals")
  {
  }

  /** Every table name is a non-empty identifier, so in particular the
      renewal table is always replaced. */
  lemma TableNamesIdent(env: TableEnv)
    ensures var t := TableNames(env);
      && |t.base| > 0 && Headers.IsIdent(t.base) && |t.asset| > 0 && Headers.IsIdent(t.asset)
      && |t.document| > 0 && Headers.IsIdent(t.document) && |t.renewal| > 0 && Headers.IsIdent(t.renewal)
  {
    var base := TableNames(env).base;
    LiteralIdents();
    FallbackIdent(env.base, "digital_signatures");
    Headers.IdentAppend(base, "_assets");
    Headers.IdentAppend(base, "_documents");
    Headers.IdentAppend(base, "_renewals");
    FallbackIdent(env.asset, base + "_assets");
    FallbackIdent(env.document, base + "_documents");
    FallbackIdent(env.renewal, base + "_renewals");
  }

  /** An unset variable leaves its table at the fallback name. */
  lemma UnsetFallback(fallback: string)
    ensures Headers.SanitizeTableName(None, fallback) == fallback
  {
    assert JsText.Trim("") == "";
    assert Headers.KeepChars("", Headers.IdentChar) == "";
  }

  /** With no variable set the names are the defaults. */
  lemma TableNamesDefault()
    ensures TableNames(TableEnv(None, None, None, None)) == Tables("digital_signatures",
      "digital_signatures_assets", "digital_signatures_documents", "digital_signatures_renewals")
  {
    UnsetFallback("digital_signatures");
    UnsetFallback("digital_signatures_assets");
    UnsetFallback("digital_signatures_documents");
    UnsetFallback("digital_signatures_renewals");
  }

  /** The contacts of the second sheet, none when there is no second sheet. */
  function ContactsOf(sheets: seq<Sheet>, w: Headers.Window): seq<Contact> {
    if |sheets| > 1 then BuildContactRecords(sheets[1].rows, w) else []
  }

  /** `xs.flatMap(f)` */
  function FlatMap<S, T>(xs: seq<S>, f: S -> seq<T>): seq<T> {
    if |xs| == 0 then []
    else
      var n := |xs| - 1;
      FlatMap(xs[..n], f) + f(xs[n])
  }

  /** `xs.flatMap(g)` when `g` may throw: the first element whose `g`
      throws aborts it. */
  function FlatMapAsWritten<S, T>(xs: seq<S>, g: S -> Result<seq<T>, string>): Result<seq<T>, string> {
    if |xs| == 0 then Success([])
    else
      var n := |xs| - 1;
      var front :- FlatMapAsWritten(xs[..n], g);
      var last :- g(xs[n]);
      Success(front + last)
  }

  /** The throwing `flatMap` throws exactly when `g` throws on some element;
      otherwise it yields the `flatMap` of any `f` that agrees with `g`
      wherever `g` does not throw. */
  lemma {:induction false} FlatMapAsWrittenAgrees<S, T>(xs: seq<S>, g: S -> Result<seq<T>, string>, f: S -> seq<T>)
    requires forall x :: g(x).Success? ==> g(x).value == f(x)
    ensures FlatMapAsWritten(xs, g).Success? <==> forall i :: 0 <= i < |xs| ==> g(xs[i]).Success?
    ensures FlatMapAsWritten(xs, g).Success? ==> FlatMapAsWritten(xs, g).value == FlatMap(xs, f)
  {
    if |xs| > 0 {
      var n := |xs| - 1;
      FlatMapAsWrittenAgrees(xs[..n], g, f);
      assert forall i :: 0 <= i < n ==> xs[..n][i] == xs[i];
    }
  }

  /** `sheets.flatMap((sheet) => buildRenewalRecords(sheet.rows, sheet.name))` */
  function RenewalsOfSheets(sheets: seq<Sheet>, w: Headers.Window): seq<Renewal> {
    FlatMap(sheets, (sheet: Sheet) => BuildRenewalRecords(sheet.rows, w, sheet.name))
  }

  /** The renewals of every sheet after the first. */
  function RenewalsOf(sheets: seq<Sheet>, w: Headers.Window): seq<Renewal> {
    if |sheets| == 0 then [] else RenewalsOfSheets(sheets[1..], w)
  }

  /** The same `flatMap` as written: the first sheet whose build throws
      aborts it. */
  function RenewalsOfSheetsAsWritten(sheets: seq<Sheet>, w: Headers.Window): Result<seq<Renewal>, string> {
    FlatMapAsWritten(sheets, (sheet: Sheet) => BuildRenewalRecordsAsWritten(sheet.rows, w, sheet.name))
  }

  /** The renewals of every sheet after the first, as written. */
  function RenewalsOfAsWritten(sheets: seq<Sheet>, w: Headers.Window): Result<seq<Renewal>, string> {
    if |sheets| == 0 then Success([]) else RenewalsOfSheetsAsWritten(sheets[1..], w)
  }

  /** One sheet: the written build, when it does not throw, yields the
      corrected one. */
  lemma SheetRenewalsAgree(sheet: Sheet, w: Headers.Window)
    ensures BuildRenewalRecordsAsWritten(sheet.rows, w, sheet.name).Success? ==>
      BuildRenewalRecordsAsWritten(sheet.rows, w, sheet.name).value == BuildRenewalRecords(sheet.rows, w, sheet.name)
  {
    BuildRenewalRecordsAgree(sheet.rows, w, sheet.name);
  }

  /** The renewals of the workbook as written: they are those of the
      corrected builders unless some sheet after the first throws, and a
      row with a usable id and a numeric `Rinnovo DA` on any such sheet
      makes it throw. */
  lemma RenewalsOfAgree(sheets: seq<Sheet>, w: Headers.Window)
    ensures RenewalsOfAsWritten(sheets, w).Success? <==>
      forall i :: 1 <= i < |sheets| ==> BuildRenewalRecordsAsWritten(sheets[i].rows, w, sheets[i].name).Success?
    ensures RenewalsOfAsWritten(sheets, w).Success? ==> RenewalsOfAsWritten(sheets, w).value == RenewalsOf(sheets, w)
    ensures forall i, j, x :: (1 <= i < |sheets| && 0 <= j < |SheetRecords(sheets[i].rows, w)|
      && NumericRinnovo(SheetRecords(sheets[i].rows, w)[j], x)) ==> RenewalsOfAsWritten(sheets, w).Failure?
  {
    if |sheets| > 0 {
      var later := sheets[1..];
      var g := (sheet: Sheet) => BuildRenewalRecordsAsWritten(sheet.rows, w, sheet.name);
      var f := (sheet: Sheet) => BuildRenewalRecords(sheet.rows, w, sheet.name);
      forall sheet: Sheet | g(sheet).Success? ensures g(sheet).value == f(sheet) {
        SheetRenewalsAgree(sheet, w);
      }
      FlatMapAsWrittenAgrees(later, g, f);
      assert forall i :: 1 <= i < |sheets| ==> sheets[i] == later[i - 1];
      forall i | 1 <= i < |sheets| {
        BuildRenewalRecordsAgree(sheets[i].rows, w, sheets[i].name);
      }
    }
  }

  /** Why an import fails: no sheet, no valid master row, or a renewal
      build that threw (with its message) before the transaction began. */
  datatype ImportError = NoSheets | NoValidRows | RenewalThrew(message: string)


  datatype ImportStats = ImportStats(base: nat, assets: nat, documents: nat, contactsUpdated: nat, renewalsInserted: nat)

  /** The writes of one import, inside its transaction: the masters, then
      the contacts, then the renewals. */
  method ImportRecords(db: Db, tables: Tables, masters: seq<Master>, contacts: seq<Contact>, renewals: seq<Renewal>)
    returns (d: Db, s: ImportStats)
    requires |tables.renewal| > 0
    requires forall i :: 0 <= i < |masters| ==>
      masters[i].base.id.Some? && |masters[i].assets| == 13 && |masters[i].documents| == 3
    ensures s.base == |masters| && s.assets == 13 * |masters| && s.documents == 3 * |masters|
    ensures s.renewalsInserted == |renewals| && s.contactsUpdated <= |contacts|
    ensures d.renewals == StoredRenewals(renewals)
    ensures forall k :: k in d.base <==> k in db.base || Carries(masters, k)
  {
    var loaded := LoadMasters(db, masters);
    LoadMastersCounts(db, masters);
    var updated := ApplyContacts(loaded.0, contacts);
    ApplyContactsKeeps(loaded.0, contacts);
    ApplyContactsBound(loaded.0, contacts);
    var inserted, statements;
    d, inserted, statements := ReplaceRenewals(updated.0, tables.renewal, renewals);
    forall k ensures k in d.base <==> k in db.base || Carries(masters, k) {
      LoadMastersKeys(db, masters, k);
    }
    s := ImportStats(loaded.1.base, loaded.1.assets, loaded.1.documents, updated.1, inserted);
  }

  /** `loadDataFromXLS(filePath)` on the parsed workbook and the database it
      writes to. The file's deletion is not modelled. Every record is built
      before the transaction begins, so an error leaves the database as it
      was. */
  method LoadDataFromXls(db: Db, env: TableEnv, w: Headers.Window, sheets: seq<Sheet>)
    returns (r: Result<(Db, ImportStats), ImportError>)
    ensures r == Failure(NoSheets) <==> |sheets| == 0
    ensures r == Failure(NoValidRows) <==> |sheets| > 0 && |BuildMasterRecords(sheets[0].rows, w)| == 0
    ensures (r.Failure? && r.error.RenewalThrew?) <==>
      |sheets| > 0 && |BuildMasterRecords(sheets[0].rows, w)| > 0 && RenewalsOfAsWritten(sheets, w).Failure?
    ensures r.Failure? && r.error.RenewalThrew? ==> r.error.message == RenewalsOfAsWritten(sheets, w).error
    ensures r.Success? ==> (|sheets| > 0 &&
      var masters := BuildMasterRecords(sheets[0].rows, w);
      var renewals := RenewalsOf(sheets, w);
      var (d, s) := r.value;
      && s.base == |masters| && s.assets == 13 * |masters| && s.documents == 3 * |masters|
      && s.renewalsInserted == |renewals|
      && s.contactsUpdated <= |ContactsOf(sheets, w)|
      && d.renewals == StoredRenewals(renewals)
      && (forall k :: k in d.base <==> k in db.base || Carries(masters, k)))
  {
    if |sheets| == 0 {
      return Failure(NoSheets);
    }
    var masters := BuildMasterRecords(sheets[0].rows, w);
    if |masters| == 0 {
      return Failure(NoValidRows);
    }
    var contacts := ContactsOf(sheets, w);
    var built := RenewalsOfAsWritten(sheets, w);
    if built.Failure? {
      return Failure(RenewalThrew(built.error));
    }
    RenewalsOfAgree(sheets, w);
    var tables := TableNames(env);
    BuiltMastersShape(sheets[0].rows, w);
    TableNamesIdent(env);
    var d, s := ImportRecords(db, tables, masters, contacts, built.value);
    r := Success((d, s));
  }
}

=== FILE: records.dfy ===
/** The record builders of the spreadsheet loader (src/services/dataLoader.js):
    a row record of the master sheet becomes a signature with its full asset
    and document coverage, a row of a renewal sheet becomes a renewal with its
    `NE-<n>` reference and merged notes, and a row of a contact sheet becomes
    an e-mail and telephone pair. */
module Records {
  import opened Wrappers
  import opened JsText
  import opened Cells
  import Seqs
  import Calendar
  import Coerce
  import Headers
  import opened Columns

  type Record = Headers.Record

  // ------------------------------------------------------------ mapped values

  /** The value of the last column of `raw` whose header `target` maps to
      `t`: what `mapped[t] = rawValue` leaves after the loop over the
      record's entries. */
  function LastOf<T(==)>(raw: Record, target: string -> Option<T>, t: T): Option<Cell>
  {
    if |raw| == 0 then None
    else
      var n := |raw| - 1;
      if target(raw[n].0) == Some(t) then Some(raw[n].1) else LastOf(raw[..n], target, t)
  }

  /** Nothing is mapped to `t` exactly when no header maps to it. */
  lemma {:induction false} LastOfNone<T>(raw: Record, target: string -> Option<T>, t: T)
    ensures LastOf(raw, target, t).None? <==> forall i :: 0 <= i < |raw| ==> target(raw[i].0) != Some(t)
  {
    if |raw| > 0 {
      var n := |raw| - 1;
      LastOfNone(raw[..n], target, t);
      assert forall i :: 0 <= i < n ==> raw[..n][i] == raw[i];
    }
  }

  /** The value mapped to `t` is that of the last column whose header maps
      to `t`. */
  lemma {:induction false} LastOfSome<T>(raw: Record, target: string -> Option<T>, t: T, v: Cell)
    ensures LastOf(raw, target, t) == Some(v) <==>
      exists i :: (0 <= i < |raw| && target(raw[i].0) == Some(t) && raw[i].1 == v
        && forall j :: i < j < |raw| ==> target(raw[j].0) != Some(t))
  {
    if |raw| > 0 {
      var n := |raw| - 1;
      var p := raw[..n];
      assert forall i :: 0 <= i < n ==> p[i] == raw[i];
      LastOfSome(p, target, t, v);
      if target(raw[n].0) != Some(t) && exists i :: (0 <= i < |raw| && target(raw[i].0) == Some(t) && raw[i].1 == v
        && forall j :: i < j < |raw| ==> target(raw[j].0) != Some(t)) {
        var i :| 0 <= i < |raw| && target(raw[i].0) == Some(t) && raw[i].1 == v
          && forall j :: i < j < |raw| ==> target(raw[j].0) != Some(t);
        assert i < n && p[i] == raw[i];
      }
    }
  }

  /** `rawRecord[k]` */
  function RawAt(raw: Record, k: string): Cell {
    Headers.Get(raw, k).GetOr(Empty)
  }

  /** `normaliseId(mapped.id || rawRecord['N°'])`: the mapped id when it is
      truthy, else the cell under the literal header `N°`. */
  function ResolveId(mappedId: Cell, raw: Record): Option<nat> {
    Coerce.NormaliseId(if Truthy(mappedId) then mappedId else RawAt(raw, "N\U{00B0}"))
  }

  /** `if (!id) return null`: neither `null` nor `0` identifies a row. */
  predicate Identifies(id: Option<nat>) {
    id.Some? && id.value > 0
  }

  // ---------------------------------------------------------------- payments

  /** The payment type and payment date a record stores. */
  datatype Payment = Payment(kind: Cell, date: Option<string>)

  /** A payment-type cell that reads as a date means "other, paid on that
      day"; any other cell is stored as generic text. */
  function PaymentOf(c: Cell): Payment {
    match Coerce.ParseDate(c)
    case Some(d) => Payment(Str("Altro"), Some(d))
    case None => Payment(Coerce.ParseGenericValue(c), None)
  }

  /** A day/month/year payment cell is the type `Altro` paid on that day. */
  lemma PaymentOfDate(d: Calendar.Date, sep: char)
    requires Calendar.Valid(d) && 100 <= d.year <= 9999
    requires sep == '/' || sep == '-' || sep == '.'
    ensures PaymentOf(Str(Calendar.Pad(d.day, 2) + [sep] + Calendar.Pad(d.month, 2) + [sep] + Calendar.Pad(d.year, 4)))
      == Payment(Str("Altro"), Some(Calendar.IsoText(d)))
  {
    Coerce.DateRoundTrip(d, sep);
  }

  lemma SlashedFirst(t: string)
    requires |t| > 0 && !IsDigit(t[0])
    ensures TakeDigits(Coerce.Slashed(t)) == ""
  {
  }

  lemma TrimmedNoDigit(s: string)
    requires forall i :: 0 <= i < |s| ==> !IsDigit(s[i])
    ensures |Trim(s)| > 0 ==> !IsDigit(Trim(s)[0])
  {
    TrimCutsSpace(s);
  }

  /** A text without digits holds no day/month/year date. */
  lemma DayOfTextNoDigits(s: string)
    requires forall i :: 0 <= i < |s| ==> !IsDigit(s[i])
    ensures Coerce.DayOfText(s).None?
  {
    var t := Trim(s);
    TrimmedNoDigit(s);
    if t != "" && t != "-" {
      SlashedFirst(t);
    }
  }

  /** A payment text without digits (`Bonifico`, `RiBa`) is no date: it is
      stored trimmed, with no payment date. */
  lemma PaymentOfText(s: string)
    requires forall i :: 0 <= i < |s| ==> !IsDigit(s[i])
    ensures PaymentOf(Str(s)) == Payment(Coerce.ParseGenericValue(Str(s)), None)
  {
    DayOfTextNoDigits(s);
  }

  /** The payment is a date exactly when the cell parses as one, and the
      type is then `Altro`. */
  lemma PaymentOfIff(c: Cell)
    ensures PaymentOf(c).date.Some? <==> Coerce.ParseDate(c).Some?
    ensures PaymentOf(c).date.Some? ==> PaymentOf(c).kind == Str("Altro") && PaymentOf(c).date == Coerce.ParseDate(c)
    ensures PaymentOf(c).date.None? ==> PaymentOf(c).kind == Coerce.ParseGenericValue(c)
  {
  }

  // ------------------------------------------------------------ master records

  /** A (category, subtype) flag of a signature. */
  datatype Flag = Flag(item: Item, value: int)

  /** The base columns of a signature; `Empty` and `None` stand for `null`
      and for a key the row did not have, which the database stores as
      `NULL` alike. */
  datatype MasterBase = MasterBase(
    id: Option<nat>,
    titolare: Cell,
    dataEmissione: Option<string>,
    emessoDa: Cell,
    costoIe: Option<int>,
    importoIe: Option<int>,
    fatturaNumero: Cell,
    fatturaTipoInvio: Cell,
    fatturaTipoPagamento: Cell,
    fatturaDataPagamento: Option<string>,
    note: Cell)

  datatype Master = Master(base: MasterBase, assets: seq<Flag>, documents: seq<Flag>)

  /** `mapColumnKey(header, COLUMN_LOOKUP)` */
  function MasterTarget(k: string): Option<Target> {
    Headers.MapColumnKey(k, ColumnLookup())
  }

  /** `baseRaw[name]` */
  function BaseRaw(raw: Record, m: string -> Option<Target>, name: string): Cell {
    LastOf(raw, m, Base(name)).GetOr(Empty)
  }

  /** The flag of one asset or document: 1 when the last column mapped to
      it reads as true, 0 when it reads as false or no column maps to it. */
  function FlagOf(raw: Record, m: string -> Option<Target>, t: Target, it: Item): Flag {
    Flag(it, match LastOf(raw, m, t)
      case Some(v) => if Coerce.ParseBoolean(v) then 1 else 0
      case None => 0)
  }

  /** One flag per definition, in the order of the definitions. */
  function Flags(raw: Record, m: string -> Option<Target>, defs: seq<Item>, document: bool): (r: seq<Flag>)
    ensures |r| == |defs|
  {
    seq(|defs|, i requires 0 <= i < |defs| =>
      FlagOf(raw, m, if document then Document(defs[i]) else Asset(defs[i]), defs[i]))
  }

  /** `if (!baseNormalised.titolare) baseNormalised.titolare = ''` */
  function Titolare(c: Cell): Cell {
    var g := Coerce.ParseGenericValue(c);
    if Truthy(g) then g else Str("")
  }

  /** `normaliseMasterRecord(rawRecord)` with the headers mapped by `m`:
      `None` for a row without a usable id. The id is normalised a second
      time when the base columns are normalised. */
  function NormaliseMasterWith(raw: Record, m: string -> Option<Target>): Option<Master> {
    var id := ResolveId(BaseRaw(raw, m, "id"), raw);
    if !Identifies(id) then None
    else
      var pay := PaymentOf(BaseRaw(raw, m, "fattura_tipo_pagamento"));
      var base := MasterBase(
        Coerce.NormaliseId(Num(id.value as real)),
        Titolare(BaseRaw(raw, m, "titolare")),
        Coerce.ParseDate(BaseRaw(raw, m, "data_emissione")),
        Coerce.ParseGenericValue(BaseRaw(raw, m, "emesso_da")),
        Coerce.ParseMoney(BaseRaw(raw, m, "costo_ie")),
        Coerce.ParseMoney(BaseRaw(raw, m, "importo_ie")),
        Coerce.ParseGenericValue(BaseRaw(raw, m, "fattura_numero")),
        Coerce.ParseGenericValue(BaseRaw(raw, m, "fattura_tipo_invio")),
        pay.kind,
        pay.date,
        Coerce.ParseGenericValue(BaseRaw(raw, m, "note")));
      Some(Master(base, Flags(raw, m, AssetDefinitions(), false), Flags(raw, m, DocumentDefinitions(), true)))
  }

  /** `normaliseMasterRecord(rawRecord)` */
  function NormaliseMasterRecord(raw: Record): Option<Master> {
    NormaliseMasterWith(raw, MasterTarget)
  }

  /** The items of a sequence of flags. */
  function Items(fs: seq<Flag>): seq<Item> {
    seq(|fs|, i requires 0 <= i < |fs| => fs[i].item)
  }

  lemma FlagsItems(raw: Record, m: string -> Option<Target>, defs: seq<Item>, document: bool)
    ensures Items(Flags(raw, m, defs, document)) == defs
    ensures forall i :: 0 <= i < |defs| ==> Flags(raw, m, defs, document)[i].value in {0, 1}
  {
  }

  /** A master record is built exactly when the row's id resolves to a
      positive number, and that number is its id. */
  lemma MasterId(raw: Record, m: string -> Option<Target>)
    ensures NormaliseMasterWith(raw, m).Some? <==> Identifies(ResolveId(BaseRaw(raw, m, "id"), raw))
    ensures NormaliseMasterWith(raw, m).Some? ==> NormaliseMasterWith(raw, m).value.base.id == ResolveId(BaseRaw(raw, m, "id"), raw)
  {
    var id := ResolveId(BaseRaw(raw, m, "id"), raw);
    if Identifies(id) {
      Coerce.NormaliseIdOfNumber(id.value);
    }
  }

  /** A row whose last id column holds a positive whole number is the
      signature with that id. */
  lemma MasterOfNumericId(raw: Record, m: string -> Option<Target>, n: nat)
    requires n > 0 && LastOf(raw, m, Base("id")) == Some(Num(n as real))
    ensures NormaliseMasterWith(raw, m).Some? && NormaliseMasterWith(raw, m).value.base.id == Some(n)
  {
    Coerce.NormaliseIdOfNumber(n);
    MasterId(raw, m);
  }

  /** Every signature lists the thirteen asset and the three document pairs,
      each once and in definition order, with value 0 or 1. */
  lemma MasterCoverage(raw: Record, m: string -> Option<Target>)
    requires NormaliseMasterWith(raw, m).Some?
    ensures var rec := NormaliseMasterWith(raw, m).value;
      && Items(rec.assets) == AssetItems && |rec.assets| == 13 && Seqs.NoDups(Items(rec.assets))
      && Items(rec.documents) == DocumentItems && |rec.documents| == 3 && Seqs.NoDups(Items(rec.documents))
      && (forall i :: 0 <= i < 13 ==> rec.assets[i].value in {0, 1})
      && (forall i :: 0 <= i < 3 ==> rec.documents[i].value in {0, 1})
  {
    AssetDefinitionsAre();
    DocumentDefinitionsAre();
    FlagsItems(raw, m, AssetDefinitions(), false);
    FlagsItems(raw, m, DocumentDefinitions(), true);
  }

  /** An asset is flagged exactly when the last column that maps to it reads
      as true. */
  lemma FlagLast(raw: Record, m: string -> Option<Target>, defs: seq<Item>, document: bool, i: nat)
    requires i < |defs|
    ensures var t := if document then Document(defs[i]) else Asset(defs[i]);
      Flags(raw, m, defs, document)[i].value == 1 <==>
        exists j :: (0 <= j < |raw| && m(raw[j].0) == Some(t) && Coerce.ParseBoolean(raw[j].1)
          && forall k :: j < k < |raw| ==> m(raw[k].0) != Some(t))
  {
    var t := if document then Document(defs[i]) else Asset(defs[i]);
    match LastOf(raw, m, t)
    case None =>
      LastOfNone(raw, m, t);
    case Some(v) =>
      LastOfSome(raw, m, t, v);
      forall j | 0 <= j < |raw| && m(raw[j].0) == Some(t)
        && forall k :: j < k < |raw| ==> m(raw[k].0) != Some(t)
        ensures raw[j].1 == v
      {
        LastOfSome(raw, m, t, raw[j].1);
      }
  }

  /** The holder is never `null`: a blank or missing holder is `''`, any
      other is its generic value. */
  lemma TitolareNeverNull(c: Cell)
    ensures Titolare(c) != Empty
    ensures Titolare(c) == Str("") <==> !Truthy(Coerce.ParseGenericValue(c))
    ensures Truthy(Coerce.ParseGenericValue(c)) ==> Titolare(c) == Coerce.ParseGenericValue(c)
  {
  }

  /** A base column no header maps to reads as `null`. */
  lemma BaseRawAbsent(raw: Record, m: string -> Option<Target>, name: string)
    requires forall i :: 0 <= i < |raw| ==> m(raw[i].0) != Some(Base(name))
    ensures BaseRaw(raw, m, name) == Empty
  {
    LastOfNone(raw, m, Base(name));
  }

  // ----------------------------------------------------------- contact records

  datatype Contact = Contact(id: nat, email: Cell, telefono: Cell)

  /** `mapColumnKey(header, CONTACT_LOOKUP)` */
  function ContactTarget(k: string): Option<string> {
    Headers.MapColumnKey(k, ContactLookup())
  }

  function ContactRaw(raw: Record, m: string -> Option<string>, name: string): Cell {
    LastOf(raw, m, name).GetOr(Empty)
  }

  /** `normaliseContactRecord(rawRecord)` with the headers mapped by `m` */
  function NormaliseContactWith(raw: Record, m: string -> Option<string>): Option<Contact> {
    var id := ResolveId(ContactRaw(raw, m, "id"), raw);
    if !Identifies(id) then None
    else Some(Contact(id.value, Coerce.ParseGenericValue(ContactRaw(raw, m, "email")),
                      Coerce.ParseGenericValue(ContactRaw(raw, m, "recapito_telefonico"))))
  }

  /** `normaliseContactRecord(rawRecord)` */
  function NormaliseContactRecord(raw: Record): Option<Contact> {
    NormaliseContactWith(raw, ContactTarget)
  }

  /** A contact exists exactly for a positive id; its e-mail and telephone are
      trimmed text, never blank or `-`. */
  lemma ContactShape(raw: Record, m: string -> Option<string>)
    ensures NormaliseContactWith(raw, m).Some? <==> Identifies(ResolveId(ContactRaw(raw, m, "id"), raw))
    ensures NormaliseContactWith(raw, m).Some? ==> var c := NormaliseContactWith(raw, m).value;
      && c.id > 0
      && (c.email.Str? ==> IsTrimmed(c.email.s) && c.email.s != "" && c.email.s != "-")
      && (c.telefono.Str? ==> IsTrimmed(c.telefono.s) && c.telefono.s != "" && c.telefono.s != "-")
  {
  }

  // -------------------------------------------------------------------- notes

  /** A merged note: `null`, or a truthy value the generic parse leaves
      alone and whose text has no white space at either end. */
  predicate NoteValue(c: Cell) {
    c == Empty || (Truthy(c) && Coerce.ParseGenericValue(c) == c && IsTrimmed(JsString(c)))
  }

  /** One step of the note merge of `normaliseRenewalRecord`: a blank value
      is skipped, the first value is kept, and a value different from the
      whole note so far is appended after ` | `. */
  function NoteStep(acc: Cell, v: Cell): Cell {
    var p := Coerce.ParseGenericValue(v);
    if !Truthy(p) then acc
    else if Truthy(acc) then
      var e := Coerce.ParseGenericValue(acc);
      if Truthy(e) && e != p then Str(JsString(e) + " | " + JsString(p))
      else if !Truthy(e) then p
      else acc
    else p
  }

  /** The note merged from the note columns' values, left to right. */
  function NoteFold(vals: seq<Cell>): Cell {
    if |vals| == 0 then Empty
    else NoteStep(NoteFold(vals[..|vals| - 1]), vals[|vals| - 1])
  }

  /** The characters `String(x)` writes for a number. */
  predicate NumberChar(c: char) {
    IsDigit(c) || c == '-' || c == '.'
  }

  predicate NumberChars(s: string) {
    forall i :: 0 <= i < |s| ==> NumberChar(s[i])
  }

  lemma NumberCharsAppend(a: string, b: string)
    requires NumberChars(a) && NumberChars(b)
    ensures NumberChars(a + b)
  {
    assert forall i :: |a| <= i < |a + b| ==> (a + b)[i] == b[i - |a|];
  }

  lemma FracChars(f: real)
    requires 0.0 <= f < 1.0
    ensures NumberChars(if f == 0.0 then "" else "." + FracDigits(f, 20))
  {
    if f != 0.0 {
      NumberCharsAppend(".", FracDigits(f, 20));
    }
  }

  lemma NumberTextChars(x: real)
    ensures NumberChars(NumberText(x))
  {
    var a := if x < 0.0 then -x else x;
    var n := a.Floor;
    var f := a - n as real;
    var sign := if x < 0.0 then "-" else "";
    var frac := if f == 0.0 then "" else "." + FracDigits(f, 20);
    FracChars(f);
    NumberCharsAppend(sign, NatToDigits(n));
    NumberCharsAppend(sign + NatToDigits(n), frac);
  }

  lemma NumberCharNotSpace(c: char)
    requires NumberChar(c)
    ensures !IsSpace(c) && !IsN(c)
  {
  }

  /** `String(x)` of a number has no white space, so it is trimmed, and no
      letter `N`. */
  lemma NumberTextNoSpace(x: real)
    ensures NoSpace(NumberText(x)) && IsTrimmed(NumberText(x))
    ensures forall i :: 0 <= i < |NumberText(x)| ==> !IsN(NumberText(x)[i])
  {
    var t := NumberText(x);
    NumberTextChars(x);
    forall i | 0 <= i < |t|
      ensures !IsSpace(t[i]) && !IsN(t[i])
    {
      NumberCharNotSpace(t[i]);
    }
  }

  /** What the generic parse leaves of a truthy value is a note value. */
  lemma GenericNoteValue(v: Cell)
    requires Truthy(Coerce.ParseGenericValue(v))
    ensures NoteValue(Coerce.ParseGenericValue(v))
  {
    var p := Coerce.ParseGenericValue(v);
    Coerce.ParseGenericValueIdempotent(v);
    if p.Num? {
      NumberTextNoSpace(p.x);
    }
  }

  /** Trimmed text other than `''` and `-` is its own generic value. */
  lemma GenericOfTrimmed(z: string)
    requires IsTrimmed(z) && z != "" && z != "-"
    ensures Coerce.ParseGenericValue(Str(z)) == Str(z)
  {
    TrimOfTrimmed(z);
  }

  /** Two trimmed texts joined by ` | ` are a note value. */
  lemma JoinedNoteValue(x: string, y: string)
    requires IsTrimmed(x) && x != "" && IsTrimmed(y) && y != ""
    ensures NoteValue(Str(x + " | " + y))
  {
    var z := x + " | " + y;
    assert z[0] == x[0] && z[|z| - 1] == y[|y| - 1];
    GenericOfTrimmed(z);
  }

  /** A merge step keeps the note a note value. */
  lemma NoteStepValue(acc: Cell, v: Cell)
    requires NoteValue(acc)
    ensures NoteValue(NoteStep(acc, v))
  {
    var p := Coerce.ParseGenericValue(v);
    if Truthy(p) {
      GenericNoteValue(v);
      if Truthy(acc) && acc != p {
        JoinedNoteValue(JsString(acc), JsString(p));
      }
    }
  }

  lemma {:induction false} NoteFoldValue(vals: seq<Cell>)
    ensures NoteValue(NoteFold(vals))
  {
    if |vals| > 0 {
      NoteFoldValue(vals[..|vals| - 1]);
      NoteStepValue(NoteFold(vals[..|vals| - 1]), vals[|vals| - 1]);
    }
  }

  /** The note is `null` exactly when every note column is blank. */
  lemma {:induction false} NoteFoldEmpty(vals: seq<Cell>)
    ensures NoteFold(vals) == Empty <==>
      forall i :: 0 <= i < |vals| ==> !Truthy(Coerce.ParseGenericValue(vals[i]))
  {
    if |vals| > 0 {
      var n := |vals| - 1;
      NoteFoldEmpty(vals[..n]);
      NoteFoldValue(vals[..n]);
      assert forall i :: 0 <= i < n ==> vals[..n][i] == vals[i];
      if Truthy(Coerce.ParseGenericValue(vals[n])) {
        GenericNoteValue(vals[n]);
        if Truthy(NoteFold(vals[..n])) && NoteFold(vals[..n]) != Coerce.ParseGenericValue(vals[n]) {
          JoinedNoteValue(JsString(NoteFold(vals[..n])), JsString(Coerce.ParseGenericValue(vals[n])));
        }
      }
    }
  }

  /** A value equal to the whole note so far adds nothing ... */
  lemma NoteRepeat(acc: Cell, v: Cell)
    requires NoteValue(acc) && Truthy(acc) && Coerce.ParseGenericValue(v) == acc
    ensures NoteStep(acc, v) == acc
  {
  }

  /** ... and a different one is appended after ` | `. */
  lemma NoteAppend(acc: Cell, v: Cell)
    requires NoteValue(acc) && Truthy(acc)
    requires Truthy(Coerce.ParseGenericValue(v)) && Coerce.ParseGenericValue(v) != acc
    ensures NoteStep(acc, v) == Str(JsString(acc) + " | " + JsString(Coerce.ParseGenericValue(v)))
  {
  }

  /** The merge compares with the whole note so far, not with each earlier
      value: notes `a`, `b`, `a` give `a | b | a`. */
  lemma NoteRepeatsApart(a: string, b: string)
    requires IsTrimmed(a) && a != "" && a != "-"
    requires IsTrimmed(b) && b != "" && b != "-" && a != b
    ensures NoteFold([Str(a), Str(b), Str(a)]) == Str(a + " | " + b + " | " + a)
  {
    var vals := [Str(a), Str(b), Str(a)];
    GenericOfTrimmed(a);
    GenericOfTrimmed(b);
    assert vals[..0] == [];
    assert vals[..1] == [Str(a)];
    assert NoteFold(vals[..1]) == Str(a);
    assert vals[..2][..1] == vals[..1];
    JoinedNoteValue(a, b);
    assert NoteFold(vals[..2]) == Str(a + " | " + b);
    assert Str(a + " | " + b) != Str(a) by {
      assert |a + " | " + b| > |a|;
    }
    assert (a + " | " + b) + " | " + a == a + " | " + b + " | " + a;
  }

  // ---------------------------------------------------------- NE references

  predicate IsN(c: char) {
    c == 'N' || c == 'n'
  }

  predicate IsE(c: char) {
    c == 'E' || c == 'e'
  }

  /** The digits `/NE-?\s*(\d+)/i` captures when a match starts at `p`: `N`,
      `E` in either case, an optional `-`, any white space, then the
      longest run of digits. */
  function NeAt(t: string, p: nat): Option<string> {
    if p + 2 > |t| || !IsN(t[p]) || !IsE(t[p + 1]) then None
    else
      var q := if p + 2 < |t| && t[p + 2] == '-' then p + 3 else p + 2;
      var d := TakeDigits(TrimStart(t[q..]));
      if |d| == 0 then None else Some(d)
  }

  /** The leftmost match at or after `p`. */
  function NeRef(t: string, p: nat): Option<string>
    decreases |t| - p
  {
    if p >= |t| then None
    else match NeAt(t, p)
      case Some(d) => Some(d)
      case None => NeRef(t, p + 1)
  }

  /** A match found is the leftmost one: no earlier position matches. */
  lemma {:induction false} NeRefLeftmost(t: string, p: nat)
    requires NeRef(t, p).Some?
    ensures exists k :: (p <= k < |t| && NeAt(t, k) == NeRef(t, p)
      && forall j :: p <= j < k ==> NeAt(t, j).None?)
    decreases |t| - p
  {
    if NeAt(t, p).None? {
      NeRefLeftmost(t, p + 1);
      var k :| p + 1 <= k < |t| && NeAt(t, k) == NeRef(t, p + 1)
        && forall j :: p + 1 <= j < k ==> NeAt(t, j).None?;
      assert forall j :: p <= j < k ==> NeAt(t, j).None?;
    }
  }

  /** No match is found only when no position matches. */
  lemma {:induction false} NeRefNone(t: string, p: nat)
    requires NeRef(t, p).None?
    ensures forall k :: p <= k < |t| ==> NeAt(t, k).None?
    decreases |t| - p
  {
    if p < |t| {
      NeRefNone(t, p + 1);
    }
  }

  /** Every match found has digits. */
  lemma NeRefDigits(t: string, p: nat)
    requires NeRef(t, p).Some?
    ensures |NeRef(t, p).value| > 0 && AllDigits(NeRef(t, p).value)
  {
    NeRefLeftmost(t, p);
  }

  lemma DigitNotSpace(c: char)
    requires IsDigit(c)
    ensures !IsSpace(c)
  {
  }

  /** `N`, `E`, an optional `-`, white space and a digit run match with that
      run, whatever follows the digits. */
  lemma NeAtSpelled(n: char, e: char, dash: string, ws: string, d: string, rest: string)
    requires IsN(n) && IsE(e) && (dash == "" || dash == "-")
    requires AllSpace(ws) && |d| > 0 && AllDigits(d) && (|rest| == 0 || !IsDigit(rest[0]))
    ensures NeAt([n, e] + dash + ws + d + rest, 0) == Some(d)
  {
    var t := [n, e] + dash + ws + d + rest;
    var u := ws + d + rest;
    var q := 2 + |dash|;
    assert t[q..] == u;
    assert t[2] == u[0] || dash == "-";
    SpaceBeforeDigits(ws, d, rest);
    TakeDigitsUpTo(d, rest);
  }

  /** White space before digits is all that `trimStart` removes. */
  lemma {:induction false} SpaceBeforeDigits(ws: string, d: string, rest: string)
    requires AllSpace(ws) && |d| > 0 && AllDigits(d)
    ensures TrimStart(ws + d + rest) == d + rest
    ensures (ws + d + rest)[0] != '-'
    decreases |ws|
  {
    if |ws| == 0 {
      assert ws + d + rest == d + rest;
      DigitNotSpace(d[0]);
    } else {
      assert (ws + d + rest)[1..] == ws[1..] + d + rest;
      SpaceBeforeDigits(ws[1..], d, rest);
    }
  }

  /** The canonical form `NE-<digits>` reads back as its digits. */
  lemma NeRefCanonical(d: string)
    requires |d| > 0 && AllDigits(d)
    ensures NeRef("NE-" + d, 0) == Some(d)
  {
    NeAtSpelled('N', 'E', "-", "", d, "");
    assert ['N', 'E'] + "-" + "" + d + "" == "NE-" + d;
  }

  /** A text with no `N` holds no reference. */
  lemma NeRefWithoutN(t: string, p: nat)
    requires forall i :: 0 <= i < |t| ==> !IsN(t[i])
    ensures NeRef(t, p).None?
    decreases |t| - p
  {
    if p < |t| {
      NeRefWithoutN(t, p + 1);
    }
  }

  /** The reference as `normaliseRenewalRecord` stores it: the rewritten
      `NE-<digits>` text and the number, or the text as it was. */
  function RinnovoOfText(t: string): (Cell, Option<nat>) {
    match NeRef(t, 0)
    case Some(d) =>
      NeRefDigits(t, 0);
      (Str("NE-" + d), Some(DigitsValue(d)))
    case None => (Str(t), None)
  }

  /** `rinnovo_da` handling as written: the generic value's `match` method
      is called, which a number or a boolean does not have, so a truthy
      non-text value throws a `TypeError`. */
  function RinnovoAsWritten(p: Cell): Result<(Cell, Option<nat>), string> {
    if !Truthy(p) then Success((Empty, None))
    else if !p.Str? then Failure("TypeError: rinnovoDaRaw.match is not a function")
    else Success(RinnovoOfText(p.s))
  }

  /** `rinnovo_da` handling with the value matched as its text: a number is
      kept as it is, with no reference. */
  function RinnovoOf(p: Cell): (Cell, Option<nat>) {
    if !Truthy(p) then (Empty, None)
    else
      var r := RinnovoOfText(JsString(p));
      if r.1.None? then (p, None) else r
  }

  /** The corrected handling agrees with the written one on every value the
      written one does not throw on. */
  lemma RinnovoAgrees(p: Cell)
    requires RinnovoAsWritten(p).Success?
    ensures RinnovoAsWritten(p).value == RinnovoOf(p)
  {
  }

  /** A numeric `Rinnovo DA` cell makes the written code throw, and the
      import of the whole workbook with it. */
  lemma NumericRinnovoThrows(x: real)
    requires x != 0.0
    ensures RinnovoAsWritten(Coerce.ParseGenericValue(Num(x))).Failure?
  {
  }

  /** With the correction, a numeric cell is stored as it is, with no
      reference. */
  lemma NumericRinnovoKept(x: real)
    requires x != 0.0
    ensures RinnovoOf(Num(x)) == (Num(x), None)
  {
    var t := NumberText(x);
    NumberTextNoSpace(x);
    NeRefWithoutN(t, 0);
  }

  /** Text holding `NE` (either case), an optional `-`, white space and
      digits is rewritten to `NE-<digits>` with that number as the
      reference. */
  lemma RinnovoOfSpelled(n: char, e: char, dash: string, ws: string, d: string, rest: string)
    requires IsN(n) && IsE(e) && (dash == "" || dash == "-")
    requires AllSpace(ws) && |d| > 0 && AllDigits(d) && (|rest| == 0 || !IsDigit(rest[0]))
    ensures RinnovoOfText([n, e] + dash + ws + d + rest) == (Str("NE-" + d), Some(DigitsValue(d)))
  {
    NeAtSpelled(n, e, dash, ws, d, rest);
  }

  /** Rewriting is idempotent: the stored `NE-<digits>` reads back as
      itself, with the same reference. */
  lemma RinnovoIdempotent(p: Cell)
    requires Coerce.ParseGenericValue(p) == p && RinnovoOf(p).0.Str?
    ensures RinnovoOf(Coerce.ParseGenericValue(RinnovoOf(p).0)).0 == RinnovoOf(p).0
  {
    var r := RinnovoOf(p);
    if r.1.Some? {
      var t := JsString(p);
      var d := NeRef(t, 0).value;
      NeRefDigits(t, 0);
      assert r.0 == Str("NE-" + d);
      var z := "NE-" + d;
      GenericOfTrimmed(z);
      NeRefCanonical(d);
    }
  }

  // ----------------------------------------------------------- renewal records

  datatype Renewal = Renewal(
    signatureId: nat,
    sheetName: string,
    email: Cell,
    telefono: Cell,
    cnsL: int,
    cns: int,
    cfd: int,
    cfdR: int,
    dataEmissione: Option<string>,
    dataScadenza: Option<string>,
    rinnovoData: Option<string>,
    rinnovoDa: Cell,
    rinnovoRiferimento: Option<nat>,
    costoIe: Option<int>,
    importoIe: Option<int>,
    fatturaNumero: Cell,
    fatturaTipoInvio: Cell,
    fatturaTipoPagamento: Cell,
    fatturaDataPagamento: Option<string>,
    note: Cell)

  /** `mapColumnKey(header, RENEWAL_LOOKUP)` */
  function RenewalTarget(k: string): Option<string> {
    Headers.MapColumnKey(k, RenewalLookup())
  }

  function RenewalRaw(raw: Record, m: string -> Option<string>, name: string): Cell {
    LastOf(raw, m, name).GetOr(Empty)
  }

  /** The values of the note columns, in column order. */
  function NoteValues(raw: Record, m: string -> Option<string>): seq<Cell> {
    if |raw| == 0 then []
    else
      var n := |raw| - 1;
      NoteValues(raw[..n], m) + (if m(raw[n].0) == Some("note") then [raw[n].1] else [])
  }

  function Flag01(c: Cell): int {
    if Coerce.ParseBoolean(c) then 1 else 0
  }

  /** `sheetName ? sheetName.trim() : ''` */
  function SheetName(name: Option<string>): string {
    match name
    case Some(s) => if s == "" then "" else Trim(s)
    case None => ""
  }

  /** The renewal of a row with id `id` and `rinnovo_da` handled as `rinnovo`. */
  function BuildRenewal(raw: Record, m: string -> Option<string>, name: Option<string>, id: nat, rinnovo: (Cell, Option<nat>)): Renewal {
    var pay := PaymentOf(RenewalRaw(raw, m, "fattura_tipo_pagamento"));
    Renewal(
      id,
      SheetName(name),
      Coerce.ParseGenericValue(RenewalRaw(raw, m, "email")),
      Coerce.ParseGenericValue(RenewalRaw(raw, m, "recapito_telefonico")),
      Flag01(RenewalRaw(raw, m, "certificato_cns_l")),
      Flag01(RenewalRaw(raw, m, "certificato_cns")),
      Flag01(RenewalRaw(raw, m, "certificato_cfd")),
      Flag01(RenewalRaw(raw, m, "certificato_cfd_r")),
      Coerce.ParseDate(RenewalRaw(raw, m, "data_emissione")),
      Coerce.ParseDate(RenewalRaw(raw, m, "data_scadenza")),
      Coerce.ParseDate(RenewalRaw(raw, m, "rinnovo_data")),
      rinnovo.0,
      rinnovo.1,
      Coerce.ParseMoney(RenewalRaw(raw, m, "costo_ie")),
      Coerce.ParseMoney(RenewalRaw(raw, m, "importo_ie")),
      Coerce.ParseGenericValue(RenewalRaw(raw, m, "fattura_numero")),
      Coerce.ParseGenericValue(RenewalRaw(raw, m, "fattura_tipo_invio")),
      pay.kind,
      pay.date,
      Coerce.ParseGenericValue(NoteFold(NoteValues(raw, m))))
  }

  function RenewalId(raw: Record, m: string -> Option<string>): Option<nat> {
    ResolveId(RenewalRaw(raw, m, "id"), raw)
  }

  function RinnovoRaw(raw: Record, m: string -> Option<string>): Cell {
    Coerce.ParseGenericValue(RenewalRaw(raw, m, "rinnovo_da"))
  }

  /** `normaliseRenewalRecord(rawRecord, sheetName)` as written: a truthy
      non-text `rinnovo_da` throws. */
  function NormaliseRenewalAsWritten(raw: Record, m: string -> Option<string>, name: Option<string>): Result<Option<Renewal>, string> {
    var id := RenewalId(raw, m);
    if !Identifies(id) then Success(None)
    else
      var rinnovo :- RinnovoAsWritten(RinnovoRaw(raw, m));
      Success(Some(BuildRenewal(raw, m, name, id.value, rinnovo)))
  }

  /** `normaliseRenewalRecord(rawRecord, sheetName)` with the headers mapped
      by `m` and `rinnovo_da` matched as text. */
  function NormaliseRenewalWith(raw: Record, m: string -> Option<string>, name: Option<string>): Option<Renewal> {
    var id := RenewalId(raw, m);
    if !Identifies(id) then None
    else Some(BuildRenewal(raw, m, name, id.value, RinnovoOf(RinnovoRaw(raw, m))))
  }

  /** `normaliseRenewalRecord(rawRecord, sheetName)`, corrected. */
  function NormaliseRenewalRecord(raw: Record, name: Option<string>): Option<Renewal> {
    NormaliseRenewalWith(raw, RenewalTarget, name)
  }

  /** `normaliseRenewalRecord(rawRecord, sheetName)` as written. */
  function NormaliseRenewalRecordAsWritten(raw: Record, name: Option<string>): Result<Option<Renewal>, string> {
    NormaliseRenewalAsWritten(raw, RenewalTarget, name)
  }

  /** The corrected builder gives what the written one gives whenever that
      one does not throw. */
  lemma RenewalAgrees(raw: Record, m: string -> Option<string>, name: Option<string>)
    requires NormaliseRenewalAsWritten(raw, m, name).Success?
    ensures NormaliseRenewalAsWritten(raw, m, name).value == NormaliseRenewalWith(raw, m, name)
  {
    if Identifies(RenewalId(raw, m)) {
      RinnovoAgrees(RinnovoRaw(raw, m));
    }
  }

  /** A row with a usable id and a numeric `Rinnovo DA` makes the written
      builder throw. */
  lemma RenewalNumericRinnovo(raw: Record, m: string -> Option<string>, name: Option<string>, x: real)
    requires Identifies(RenewalId(raw, m)) && LastOf(raw, m, "rinnovo_da") == Some(Num(x)) && x != 0.0
    ensures NormaliseRenewalAsWritten(raw, m, name).Failure?
  {
    NumericRinnovoThrows(x);
  }

  /** A renewal exists exactly for a positive id, and that id is its
      signature id. */
  lemma RenewalExists(raw: Record, m: string -> Option<string>, name: Option<string>)
    ensures NormaliseRenewalWith(raw, m, name).Some? <==> Identifies(RenewalId(raw, m))
    ensures NormaliseRenewalWith(raw, m, name).Some? ==>
      NormaliseRenewalWith(raw, m, name).value.signatureId == RenewalId(raw, m).value > 0
  {
  }

  /** A renewal's certificate flags are 0 or 1, its sheet name is trimmed,
      and its payment follows the payment cell. */
  lemma RenewalShape(raw: Record, m: string -> Option<string>, name: Option<string>, id: nat,
                     rinnovo: (Cell, Option<nat>))
    ensures var r := BuildRenewal(raw, m, name, id, rinnovo);
      && r.cnsL in {0, 1} && r.cns in {0, 1} && r.cfd in {0, 1} && r.cfdR in {0, 1}
      && IsTrimmed(r.sheetName)
      && Payment(r.fatturaTipoPagamento, r.fatturaDataPagamento) == PaymentOf(RenewalRaw(raw, m, "fattura_tipo_pagamento"))
  {
  }

  /** The stored note is the merged note itself, `null` exactly when every
      note column is blank. */
  lemma RenewalNote(raw: Record, m: string -> Option<string>, name: Option<string>, id: nat,
                    rinnovo: (Cell, Option<nat>))
    ensures BuildRenewal(raw, m, name, id, rinnovo).note == NoteFold(NoteValues(raw, m))
    ensures BuildRenewal(raw, m, name, id, rinnovo).note == Empty <==>
      forall i :: 0 <= i < |NoteValues(raw, m)| ==> !Truthy(Coerce.ParseGenericValue(NoteValues(raw, m)[i]))
  {
    NoteFoldValue(NoteValues(raw, m));
    NoteFoldEmpty(NoteValues(raw, m));
  }
}

=== FILE: schema.dfy ===
/** Database provisioning (scripts/createTables.js): the identifier
    sanitiser, the names and the character set and collation the database
    and its tables are created with, and the single retry with a fallback
    pair when the server does not know the desired one. */
module Schema {
  import opened Wrappers
  import opened JsText
  import opened Headers

  const InvalidIdentifier := "Identifier non valido: specificare un valore appropriato nelle variabili di ambiente."
  const MissingDbName := "Variabile DB_NAME mancante: impostare il nome del database nel file .env."

  /** An environment variable is truthy when it is set and not empty. */
  predicate Given(v: Option<string>) {
    v.Some? && |v.value| > 0
  }

  /** Some character of `s` is an identifier character. */
  predicate HasIdentChar(s: string) {
    exists i :: 0 <= i < |s| && IdentChar(s[i])
  }

  // ------------------------------------------------------------- the sanitiser

  /** `sanitizeIdentifier(value, fallback)`: the identifier characters of the
      trimmed value; when none remain, the fallback as given (it is not
      sanitised), and an error when there is no fallback either. */
  function SanitizeIdentifier(value: Option<string>, fallback: Option<string>): (r: Result<string, string>)
    ensures r.Failure? ==> r.error == InvalidIdentifier
  {
    var safe := KeepChars(Trim(value.GetOr("")), IdentChar);
    if |safe| > 0 then Success(safe)
    else if Given(fallback) then Success(fallback.value)
    else Failure(InvalidIdentifier)
  }

  /** The sanitiser keeps exactly the identifier characters of the value,
      with or without the trim. */
  lemma KeptMembers(v: string)
    ensures var safe := KeepChars(Trim(v), IdentChar);
      (|safe| > 0 <==> HasIdentChar(v))
      && IsIdent(safe) && forall c :: c in safe ==> c in v
  {
    var safe := KeepChars(Trim(v), IdentChar);
    KeepIdentUntrimmed(v);
    KeepCharsMembers(v, IdentChar);
    if |safe| > 0 {
      assert safe[0] in safe;
      var i :| 0 <= i < |v| && v[i] == safe[0];
    }
    if HasIdentChar(v) {
      var i :| 0 <= i < |v| && IdentChar(v[i]);
      assert v[i] in safe;
    }
    forall i | 0 <= i < |safe| ensures IdentChar(safe[i]) {
      assert safe[i] in safe;
    }
  }

  /** What the sanitiser returns: a non-empty identifier made of the value's
      own characters when it has any, otherwise the fallback when one is
      given, otherwise the error. */
  lemma SanitizeIdentifierShape(value: Option<string>, fallback: Option<string>)
    ensures var v := value.GetOr("");
      var r := SanitizeIdentifier(value, fallback);
      && (HasIdentChar(v) ==>
            r.Success? && |r.value| > 0 && IsIdent(r.value) && forall c :: c in r.value ==> c in v)
      && (!HasIdentChar(v) && Given(fallback) ==> r == Success(fallback.value))
      && (r.Failure? <==> !HasIdentChar(v) && !Given(fallback))
  {
    KeptMembers(value.GetOr(""));
  }

  /** Sanitising what the sanitiser took from the value gives it back,
      whatever the second fallback. */
  lemma SanitizeIdentifierIdempotent(value: Option<string>, fallback: Option<string>, fallback': Option<string>)
    requires HasIdentChar(value.GetOr(""))
    ensures var r := SanitizeIdentifier(value, fallback);
      r.Success? && SanitizeIdentifier(Some(r.value), fallback') == r
  {
    var r := SanitizeIdentifier(value, fallback);
    SanitizeIdentifierShape(value, fallback);
    SanitizeIdent(r.value, "x");
  }

  /** With a fallback the sanitiser cannot fail, and it then agrees with the
      table-name sanitiser of the loader. */
  lemma SanitizeAgreesWithLoader(value: Option<string>, fallback: string)
    requires |fallback| > 0
    ensures SanitizeIdentifier(value, Some(fallback)) == Success(SanitizeTableName(value, fallback))
  {
  }

  /** The sanitiser with a non-empty fallback, which never fails. */
  function Override(value: Option<string>, fallback: string): (r: string)
    requires |fallback| > 0
    ensures SanitizeIdentifier(value, Some(fallback)) == Success(r)
    ensures |r| > 0
  {
    SanitizeTableName(value, fallback)
  }

  /** An override is the sanitised value when it has an identifier character,
      the fallback otherwise; an identifier fallback gives an identifier. */
  lemma OverrideShape(value: Option<string>, fallback: string)
    requires |fallback| > 0
    ensures HasIdentChar(value.GetOr("")) ==> IsIdent(Override(value, fallback))
    ensures !HasIdentChar(value.GetOr("")) ==> Override(value, fallback) == fallback
    ensures IsIdent(fallback) ==> IsIdent(Override(value, fallback))
  {
    SanitizeIdentifierShape(value, Some(fallback));
  }

  // ------------------------------------------------- character sets, collations

  /** A character set with a collation. */
  datatype Pair = Pair(charset: string, collation: string)

  /** The default collation as written: the Unicode collation for `utf8mb4`,
      the general `utf8` collation for every other character set. */
  function DefaultCollation(charset: string): (r: string) {
    if charset == "utf8mb4" then "utf8mb4_unicode_ci" else "utf8_general_ci"
  }

  /** The fallback character set: `utf8` instead of `utf8mb4`, any other set
      unchanged. */
  function FallbackCharset(desired: string): (r: string) {
    if desired == "utf8mb4" then "utf8" else desired
  }

  /** The fallback collation: `utf8_general_ci` for `utf8`, the set's own
      general collation otherwise. */
  function FallbackCollation(charset: string): (r: string) {
    if charset == "utf8" then "utf8_general_ci" else charset + "_general_ci"
  }

  /** In MySQL a collation belongs to the character set whose name, followed
      by `_`, starts the collation's name. */
  predicate CollationOf(charset: string, collation: string) {
    |charset| < |collation| && collation[..|charset| + 1] == charset + "_"
  }

  /** Both branches of the fallback collation are the set's general
      collation, which belongs to the set. */
  lemma FallbackCollationGeneral(charset: string)
    ensures FallbackCollation(charset) == charset + "_general_ci"
    ensures CollationOf(charset, FallbackCollation(charset))
  {
    var r := FallbackCollation(charset);
    assert r[..|charset| + 1] == charset + "_";
  }

  /** The fallback differs from the desired set exactly for `utf8mb4`. */
  lemma FallbackCharsetChanges(desired: string)
    ensures FallbackCharset(desired) != desired <==> desired == "utf8mb4"
    ensures desired == "utf8mb4" ==> FallbackCharset(desired) == "utf8"
  {
  }

  /** The default collation is one of two, and the Unicode one exactly for
      `utf8mb4`. */
  lemma DefaultCollationChoice(charset: string)
    ensures DefaultCollation(charset) in {"utf8mb4_unicode_ci", "utf8_general_ci"}
    ensures DefaultCollation(charset) == "utf8mb4_unicode_ci" <==> charset == "utf8mb4"
  {
  }

  /** The default collation with the set's general collation for every set
      but `utf8mb4`: the same as written for `utf8mb4` and `utf8`. */
  function MatchingCollation(charset: string): (r: string) {
    if charset == "utf8mb4" then "utf8mb4_unicode_ci" else FallbackCollation(charset)
  }

  /** The corrected default always belongs to its set and agrees with the
      default as written on the two sets the script names. */
  lemma MatchingCollationBelongs(charset: string)
    ensures CollationOf(charset, MatchingCollation(charset))
    ensures charset in {"utf8mb4", "utf8"} ==> MatchingCollation(charset) == DefaultCollation(charset)
  {
    FallbackCollationGeneral(charset);
    if charset == "utf8mb4" {
      var u := "utf8mb4_unicode_ci";
      assert u[..8] == "utf8mb4_";
    }
  }

  /** `latin1` is not the set of the default collation as written. */
  lemma DefaultCollationMismatch()
    ensures exists cs :: (IsIdent(cs) && !CollationOf(cs, DefaultCollation(cs)))
  {
    var cs := "latin1";
    var c := DefaultCollation(cs);
    assert c[0] != cs[0];
    assert c[..|cs| + 1][0] == c[0];
    assert IsIdent(cs);
  }

  // ------------------------------------------------------------- configuration

  /** The environment variables the script reads; `None` when unset. */
  datatype Env = Env(
    dbName: Option<string>,
    table: Option<string>,
    assetTable: Option<string>,
    documentTable: Option<string>,
    charset: Option<string>,
    collation: Option<string>,
    fallbackCharset: Option<string>,
    fallbackCollation: Option<string>)

  /** The names and the two pairs the database is provisioned with. */
  datatype Setup = Setup(
    database: string,
    table: string,
    assetTable: string,
    documentTable: string,
    desired: Pair,
    fallback: Pair)

  /** The opening of `main`, with the default collation of the desired set as
      a parameter: the database name must be given, and it is sanitised
      without a fallback; every other name has one. */
  function ConfigureWith(env: Env, collationFor: string -> string): (r: Result<Setup, string>)
    requires forall cs :: |collationFor(cs)| > 0
  {
    if !Given(env.dbName) then Failure(MissingDbName)
    else match SanitizeIdentifier(env.dbName, None)
      case Failure(e) => Failure(e)
      case Success(database) =>
        var table := Override(env.table, "digital_signatures");
        var charset := Override(env.charset, "utf8mb4");
        var collation := Override(env.collation, collationFor(charset));
        var fallbackCharset := Override(env.fallbackCharset, FallbackCharset(charset));
        var fallbackCollation := Override(env.fallbackCollation, FallbackCollation(fallbackCharset));
        Success(Setup(database, table,
          Override(env.assetTable, table + "_assets"),
          Override(env.documentTable, table + "_documents"),
          Pair(charset, collation), Pair(fallbackCharset, fallbackCollation)))
  }

  /** The configuration as written. */
  function ConfigureAsWritten(env: Env): (r: Result<Setup, string>) {
    ConfigureWith(env, DefaultCollation)
  }

  /** The configuration with the corrected default collation. */
  function Configure(env: Env): (r: Result<Setup, string>) {
    ConfigureWith(env, MatchingCollation)
  }

  /** The configuration fails exactly when the database name is missing or
      has no identifier character, with the message for each. */
  lemma ConfigureFails(env: Env, collationFor: string -> string)
    requires forall cs :: |collationFor(cs)| > 0
    ensures var r := ConfigureWith(env, collationFor);
      && (!Given(env.dbName) ==> r == Failure(MissingDbName))
      && (Given(env.dbName) && !HasIdentChar(env.dbName.value) ==> r == Failure(InvalidIdentifier))
      && (r.Success? <==> Given(env.dbName) && HasIdentChar(env.dbName.value))
  {
    if Given(env.dbName) {
      SanitizeIdentifierShape(env.dbName, None);
    }
  }

  lemma SuffixesIdent()
    ensures IsIdent("_assets") && IsIdent("_documents") && IsIdent("_general_ci")
  {
  }

  lemma DefaultsAreIdent()
    ensures IsIdent("digital_signatures") && IsIdent("utf8mb4") && IsIdent("utf8")
  {
  }

  lemma CollationsAreIdent()
    ensures IsIdent("utf8mb4_unicode_ci") && IsIdent("utf8_general_ci")
  {
  }

  /** Every name the script puts into its SQL statements is a non-empty
      identifier, whatever the environment holds, as long as the default
      collation of an identifier is one. */
  lemma SetupIdentifiers(env: Env, collationFor: string -> string)
    requires forall cs :: |collationFor(cs)| > 0
    requires forall cs :: IsIdent(cs) ==> IsIdent(collationFor(cs))
    requires ConfigureWith(env, collationFor).Success?
    ensures var s := ConfigureWith(env, collationFor).value;
      && IsIdent(s.database) && IsIdent(s.table) && IsIdent(s.assetTable) && IsIdent(s.documentTable)
      && IsIdent(s.desired.charset) && IsIdent(s.desired.collation)
      && IsIdent(s.fallback.charset) && IsIdent(s.fallback.collation)
      && |s.database| > 0 && |s.table| > 0 && |s.assetTable| > 0 && |s.documentTable| > 0
  {
    var s := ConfigureWith(env, collationFor).value;
    SuffixesIdent();
    DefaultsAreIdent();
    SanitizeIdentifierShape(env.dbName, None);
    OverrideShape(env.table, "digital_signatures");
    IdentAppend(s.table, "_assets");
    IdentAppend(s.table, "_documents");
    OverrideShape(env.assetTable, s.table + "_assets");
    OverrideShape(env.documentTable, s.table + "_documents");
    OverrideShape(env.charset, "utf8mb4");
    OverrideShape(env.collation, collationFor(s.desired.charset));
    OverrideShape(env.fallbackCharset, FallbackCharset(s.desired.charset));
    FallbackCollationGeneral(s.fallback.charset);
    IdentAppend(s.fallback.charset, "_general_ci");
    OverrideShape(env.fallbackCollation, FallbackCollation(s.fallback.charset));
  }

  /** Both defaults keep identifiers identifiers. */
  lemma DefaultsIdent(cs: string)
    ensures IsIdent(DefaultCollation(cs))
    ensures IsIdent(cs) ==> IsIdent(MatchingCollation(cs))
  {
    SuffixesIdent();
    CollationsAreIdent();
    FallbackCollationGeneral(cs);
    if IsIdent(cs) {
      IdentAppend(cs, "_general_ci");
    }
  }

  /** The defaults for the names and pairs that the environment leaves unset
      or gives without any identifier character. */
  lemma SetupDefaults(env: Env, collationFor: string -> string)
    requires forall cs :: |collationFor(cs)| > 0
    requires ConfigureWith(env, collationFor).Success?
    ensures var s := ConfigureWith(env, collationFor).value;
      && (!HasIdentChar(env.table.GetOr("")) ==> s.table == "digital_signatures")
      && (!HasIdentChar(env.assetTable.GetOr("")) ==> s.assetTable == s.table + "_assets")
      && (!HasIdentChar(env.documentTable.GetOr("")) ==> s.documentTable == s.table + "_documents")
      && (!HasIdentChar(env.charset.GetOr("")) ==> s.desired.charset == "utf8mb4")
      && (!HasIdentChar(env.collation.GetOr("")) ==> s.desired.collation == collationFor(s.desired.charset))
      && (!HasIdentChar(env.fallbackCharset.GetOr("")) ==>
            (s.fallback.charset != s.desired.charset <==> s.desired.charset == "utf8mb4")
            && (s.desired.charset == "utf8mb4" ==> s.fallback.charset == "utf8"))
      && (!HasIdentChar(env.fallbackCollation.GetOr("")) ==>
            s.fallback.collation == s.fallback.charset + "_general_ci")
  {
    var s := ConfigureWith(env, collationFor).value;
    OverrideShape(env.table, "digital_signatures");
    OverrideShape(env.assetTable, s.table + "_assets");
    OverrideShape(env.documentTable, s.table + "_documents");
    OverrideShape(env.charset, "utf8mb4");
    OverrideShape(env.collation, collationFor(s.desired.charset));
    OverrideShape(env.fallbackCharset, FallbackCharset(s.desired.charset));
    FallbackCharsetChanges(s.desired.charset);
    OverrideShape(env.fallbackCollation, FallbackCollation(s.fallback.charset));
    FallbackCollationGeneral(s.fallback.charset);
  }

  /** With the corrected default, a pair the environment does not override
      always belongs together. */
  lemma ConfiguredPairsBelong(env: Env)
    requires Configure(env).Success?
    ensures var s := Configure(env).value;
      && (!HasIdentChar(env.collation.GetOr("")) ==> CollationOf(s.desired.charset, s.desired.collation))
      && (!HasIdentChar(env.fallbackCollation.GetOr("")) ==> CollationOf(s.fallback.charset, s.fallback.collation))
  {
    var s := Configure(env).value;
    SetupDefaults(env, MatchingCollation);
    MatchingCollationBelongs(s.desired.charset);
    FallbackCollationGeneral(s.fallback.charset);
  }

  /** An identifier given as the desired character set is used as it is. */
  lemma CharsetOverride(env: Env, collationFor: string -> string, cs: string)
    requires forall cs :: |collationFor(cs)| > 0
    requires ConfigureWith(env, collationFor).Success?
    requires env.charset == Some(cs) && |cs| > 0 && IsIdent(cs)
    ensures ConfigureWith(env, collationFor).value.desired.charset == cs
  {
    SanitizeIdent(cs, "utf8mb4");
  }

  /** An identifier set given without a collation is paired with the
      default collation of that set. */
  lemma CharsetWithoutCollation(env: Env, collationFor: string -> string, cs: string)
    requires forall cs :: |collationFor(cs)| > 0
    requires ConfigureWith(env, collationFor).Success?
    requires env.charset == Some(cs) && |cs| > 0 && IsIdent(cs)
    requires !HasIdentChar(env.collation.GetOr(""))
    ensures ConfigureWith(env, collationFor).value.desired == Pair(cs, collationFor(cs))
  {
    CharsetOverride(env, collationFor, cs);
    OverrideShape(env.collation, collationFor(cs));
  }

  /** As written, a database configured with any identifier set but
      `utf8mb4` and no collation is asked for the `utf8` general collation,
      which belongs to no set whose name does not start with `u` (`latin1`,
      say). */
  lemma ForeignDefaultCollation(env: Env, cs: string)
    requires ConfigureAsWritten(env).Success?
    requires env.charset == Some(cs) && |cs| > 0 && IsIdent(cs) && cs != "utf8mb4"
    requires !HasIdentChar(env.collation.GetOr(""))
    ensures var s := ConfigureAsWritten(env).value;
      s.desired == Pair(cs, "utf8_general_ci")
      && (cs[0] != 'u' ==> !CollationOf(s.desired.charset, s.desired.collation))
  {
    CharsetWithoutCollation(env, DefaultCollation, cs);
    var c := "utf8_general_ci";
    if |cs| < |c| {
      assert c[..|cs| + 1][0] == c[0];
    }
  }

  /** The same environment with the corrected default asks for the set's
      own general collation. */
  lemma OwnDefaultCollation(env: Env, cs: string)
    requires Configure(env).Success?
    requires env.charset == Some(cs) && |cs| > 0 && IsIdent(cs) && cs != "utf8mb4"
    requires !HasIdentChar(env.collation.GetOr(""))
    ensures var s := Configure(env).value;
      s.desired == Pair(cs, cs + "_general_ci") && CollationOf(s.desired.charset, s.desired.collation)
  {
    CharsetWithoutCollation(env, MatchingCollation, cs);
    FallbackCollationGeneral(cs);
  }

  /** With nothing but the database name set, the script wants `utf8mb4`
      with its Unicode collation and falls back to `utf8` with its general
      one; both defaults agree on this. */
  lemma DefaultPairs(env: Env)
    requires Configure(env).Success?
    requires env.charset == None && env.collation == None
    requires env.fallbackCharset == None && env.fallbackCollation == None
    ensures Configure(env).value.desired == Pair("utf8mb4", "utf8mb4_unicode_ci")
    ensures Configure(env).value.fallback == Pair("utf8", "utf8_general_ci")
    ensures ConfigureAsWritten(env).value == Configure(env).value
  {
    var s := Configure(env).value;
    assert !HasIdentChar("");
    SetupDefaults(env, MatchingCollation);
    SetupDefaults(env, DefaultCollation);
  }

  // ---------------------------------------------------------- the database

  /** The error of a failed statement: its code and number, when present. */
  datatype DbError = DbError(code: Option<string>, errno: Option<int>)

  /** The errors of an unknown character set or collation, by code or by
      number. */
  predicate UnknownCharsetOrCollation(e: DbError) {
    || e.code == Some("ER_UNKNOWN_CHARACTER_SET")
    || e.code == Some("ER_UNKNOWN_COLLATION")
    || e.errno == Some(1115)
    || e.errno == Some(1273)
  }

  /** `shouldFallback`: the error is about the pair, and the fallback pair is
      a different one. */
  predicate ShouldFallback(e: DbError, s: Setup) {
    UnknownCharsetOrCollation(e) && (s.desired.charset != s.fallback.charset || s.desired.collation != s.fallback.collation)
  }

  /** `CREATE DATABASE` with the desired pair, and once more with the
      fallback pair when the first error allows it; `server` answers a
      statement with the error it raises, if any. The result is the pair
      the database was created with, or the error that ends the script. */
  function CreateDatabase(s: Setup, server: Pair -> Option<DbError>): (r: Result<Pair, DbError>) {
    match server(s.desired)
    case None => Success(s.desired)
    case Some(e) =>
      if !ShouldFallback(e, s) then Failure(e)
      else match server(s.fallback)
        case None => Success(s.fallback)
        case Some(e') => Failure(e')
  }

  /** The database is created with the desired pair when the server accepts
      it, and with the fallback pair only after an unknown-pair error and
      only when the pairs differ; any other error is raised unchanged. */
  lemma CreateDatabaseOutcome(s: Setup, server: Pair -> Option<DbError>)
    ensures var r := CreateDatabase(s, server);
      && (server(s.desired).None? ==> r == Success(s.desired))
      && (r.Success? && r.value != s.desired ==>
            r.value == s.fallback && server(s.desired).Some?
            && UnknownCharsetOrCollation(server(s.desired).value) && s.desired != s.fallback)
      && (server(s.desired).Some? && !UnknownCharsetOrCollation(server(s.desired).value) ==>
            r == Failure(server(s.desired).value))
      && (s.desired == s.fallback ==>
            r == if server(s.desired).None? then Success(s.desired) else Failure(server(s.desired).value))
  {
  }

  /** A collation that does not belong to its set is refused with error
      1253, which is not one of the errors that allow the fallback. */
  lemma MismatchNotRetried(s: Setup)
    ensures !ShouldFallback(DbError(Some("ER_COLLATION_CHARSET_MISMATCH"), Some(1253)), s)
  {
  }

  /** With the default pairs, every unknown-pair error leads to the
      fallback attempt. */
  lemma DefaultsFallBack(env: Env, e: DbError)
    requires Configure(env).Success?
    requires env.charset == None && env.collation == None
    requires env.fallbackCharset == None && env.fallbackCollation == None
    ensures ShouldFallback(e, Configure(env).value) <==> UnknownCharsetOrCollation(e)
  {
    DefaultPairs(env);
  }

  // ----------------------------------------------------------------- main

  /** Why the script stops: a configuration error, or a server error. */
  datatype Abort = Config(message: string) | Server(error: DbError)

  /** The provisioning part of `main`: configuration, then the database,
      with the default collation of the desired set as a parameter. */
  function ProvisionWith(env: Env, server: Pair -> Option<DbError>, collationFor: string -> string)
    : (r: Result<(Setup, Pair), Abort>)
    requires forall cs :: |collationFor(cs)| > 0
  {
    match ConfigureWith(env, collationFor)
    case Failure(m) => Failure(Config(m))
    case Success(s) =>
      match CreateDatabase(s, server)
      case Success(p) => Success((s, p))
      case Failure(e) => Failure(Server(e))
  }

  /** The provisioning as written. */
  function Provision(env: Env, server: Pair -> Option<DbError>): (r: Result<(Setup, Pair), Abort>) {
    ProvisionWith(env, server, DefaultCollation)
  }

  /** The provisioning with the corrected default collation. */
  function ProvisionCorrected(env: Env, server: Pair -> Option<DbError>): (r: Result<(Setup, Pair), Abort>) {
    ProvisionWith(env, server, MatchingCollation)
  }

  /** A missing database name stops the script before the server is asked
      anything: the outcome does not depend on the server. */
  lemma MissingNameFirst(env: Env, server: Pair -> Option<DbError>, server': Pair -> Option<DbError>)
    requires !Given(env.dbName)
    ensures Provision(env, server) == Failure(Config(MissingDbName))
    ensures Provision(env, server) == Provision(env, server')
  {
  }

  /** The database is created with one of the two configured pairs. */
  lemma ProvisionedPair(env: Env, server: Pair -> Option<DbError>, collationFor: string -> string)
    requires forall cs :: |collationFor(cs)| > 0
    requires ProvisionWith(env, server, collationFor).Success?
    ensures var (s, p) := ProvisionWith(env, server, collationFor).value;
      ConfigureWith(env, collationFor) == Success(s) && (p == s.desired || p == s.fallback)
      && (p == s.desired <==> server(s.desired).None?)
  {
    var (s, p) := ProvisionWith(env, server, collationFor).value;
    CreateDatabaseOutcome(s, server);
  }

  /** The error of a collation outside its character set. */
  const CollationMismatch := DbError(Some("ER_COLLATION_CHARSET_MISMATCH"), Some(1253))

  /** On a server that refuses every collation outside its set and accepts
      every pair that belongs together: as written, a character set such as
      `latin1` without a collation ends the script with the mismatch error;
      with the corrected default the database is created with the set's own
      general collation. */
  lemma ForeignCharsetProvision(env: Env, cs: string, server: Pair -> Option<DbError>)
    requires Given(env.dbName) && HasIdentChar(env.dbName.value)
    requires env.charset == Some(cs) && |cs| > 0 && IsIdent(cs) && cs != "utf8mb4" && cs[0] != 'u'
    requires !HasIdentChar(env.collation.GetOr(""))
    requires forall p: Pair :: server(p) == (if CollationOf(p.charset, p.collation) then None else Some(CollationMismatch))
    ensures Provision(env, server) == Failure(Server(CollationMismatch))
    ensures ProvisionCorrected(env, server).Success?
      && ProvisionCorrected(env, server).value.1 == Pair(cs, cs + "_general_ci")
  {
    ConfigureFails(env, DefaultCollation);
    ConfigureFails(env, MatchingCollation);
    ForeignDefaultCollation(env, cs);
    OwnDefaultCollation(env, cs);
    MismatchNotRetried(ConfigureAsWritten(env).value);
  }
}

=== FILE: seqs.dfy ===
/** Sequence utilities shared by the loader, the workbook checker and the
    browser code: duplicate-freedom and first-occurrence de-duplication. */
module Seqs {

  predicate NoDups<T(==)>(xs: seq<T>) {
    forall i, j :: 0 <= i < j < |xs| ==> xs[i] != xs[j]
  }

  /** `xs.indexOf(x)` for an element that occurs. */
  function IndexOf<T(==)>(xs: seq<T>, x: T): (k: nat)
    requires x in xs
    ensures k < |xs| && xs[k] == x && x !in xs[..k]
  {
    if xs[0] == x then 0
    else
      var k := 1 + IndexOf(xs[1..], x);
      assert xs[..k] == [xs[0]] + xs[1..][..k - 1];
      k
  }

  /** The first position holding `x` is `xs.indexOf(x)`. */
  lemma IndexOfAt<T>(xs: seq<T>, x: T, k: nat)
    requires k < |xs| && xs[k] == x && x !in xs[..k]
    ensures IndexOf(xs, x) == k
  {
  }

  /** First-occurrence de-duplication: what both
      `xs.filter((v, i) => xs.indexOf(v) === i)` and `Array.from(new Set(xs))`
      compute. */
  function Distinct<T(==)>(xs: seq<T>): (r: seq<T>)
    ensures NoDups(r) && |r| <= |xs|
    ensures forall i :: 0 <= i < |r| ==> r[i] in xs
    ensures forall i :: 0 <= i < |xs| ==> xs[i] in r
  {
    if |xs| == 0 then []
    else
      var d := Distinct(xs[..|xs| - 1]);
      var x := xs[|xs| - 1];
      assert forall i :: 0 <= i < |xs| - 1 ==> xs[i] == xs[..|xs| - 1][i];
      if x in d then d else d + [x]
  }

  lemma IndexOfPrefix<T>(xs: seq<T>, n: nat, x: T)
    requires n <= |xs| && x in xs[..n]
    ensures IndexOf(xs, x) == IndexOf(xs[..n], x)
  {
    var k := IndexOf(xs[..n], x);
    var k' := IndexOf(xs, x);
    assert xs[..n][..k] == xs[..k];
  }

  /** `Distinct` keeps first-occurrence order: an element listed earlier in
      the result occurs earlier in the input. */
  lemma {:induction false} DistinctOrder<T>(xs: seq<T>)
    ensures forall i, j :: 0 <= i < j < |Distinct(xs)| ==>
      IndexOf(xs, Distinct(xs)[i]) < IndexOf(xs, Distinct(xs)[j])
  {
    if |xs| > 0 {
      var p := xs[..|xs| - 1];
      var d := Distinct(p);
      var x := xs[|xs| - 1];
      DistinctOrder(p);
      forall y | y in d
        ensures IndexOf(xs, y) == IndexOf(p, y) < |p|
      {
        IndexOfPrefix(xs, |p|, y);
      }
      if x !in d {
        assert x !in p;
        assert forall i :: 0 <= i < |p| ==> xs[i] == p[i];
        assert IndexOf(xs, x) == |p|;
      }
    }
  }

  /** A duplicate-free sequence is its own de-duplication. */
  lemma {:induction false} DistinctOfNoDups<T>(xs: seq<T>)
    requires NoDups(xs)
    ensures Distinct(xs) == xs
  {
    if |xs| > 0 {
      var p := xs[..|xs| - 1];
      DistinctOfNoDups(p);
      assert forall i :: 0 <= i < |p| ==> p[i] == xs[i];
      assert xs[|xs| - 1] !in p;
      assert p + [xs[|xs| - 1]] == xs;
    }
  }

  /** De-duplicating twice changes nothing. */
  lemma DistinctIdempotent<T>(xs: seq<T>)
    ensures Distinct(Distinct(xs)) == Distinct(xs)
  {
    DistinctOfNoDups(Distinct(xs));
  }
}

=== FILE: workbook_compare.dfy ===
/** The comparisons of the workbook checker (scripts/verifyWorkbookVsDb.js):
    the renewal records of a sheet against the database rows of that sheet as
    multisets, and the base records against the database's base rows by id
    and field. A record's key is the record itself: `JSON.stringify` of the
    comparable payload, whose fields always come in the same order, tells
    records apart exactly when they differ, the JavaScript type of the id
    included. */
module WorkbookCompare {
  import opened Wrappers
  import opened Cells
  import opened JsText
  import Seqs
  import Coerce
  import WorkbookValues
  import opened WorkbookRecords

  // ------------------------------------------------------------- multisets

  /** `buildMultiset(records)`: how often each key occurs. */
  function Counts<K(==)>(xs: seq<K>): map<K, nat> {
    if |xs| == 0 then map[]
    else
      var m := Counts(xs[..|xs| - 1]);
      var x := xs[|xs| - 1];
      m[x := Count(m, x) + 1]
  }

  /** `entry ? entry.count : 0` */
  function Count<K(==)>(m: map<K, nat>, k: K): nat {
    if k in m then m[k] else 0
  }

  /** The counts are the multiplicities of the multiset of the records, and
      only keys that occur have an entry. */
  lemma {:induction false} CountsAreMultiplicities<K>(xs: seq<K>)
    ensures forall k :: Count(Counts(xs), k) == multiset(xs)[k]
    ensures forall k :: k in Counts(xs) <==> k in xs
    decreases |xs|
  {
    if |xs| > 0 {
      var p := xs[..|xs| - 1];
      CountsAreMultiplicities(p);
      assert xs == p + [xs[|xs| - 1]];
    }
  }

  /** An entry of `onlyInExcel` or `onlyInDb`: a sample record and by how
      many copies its side exceeds the other. */
  datatype Delta<K> = Delta(record: K, delta: nat)

  /** The loop over the keys, given each side's counts. */
  function Walk<K(==)>(keys: seq<K>, e: map<K, nat>, d: map<K, nat>): (r: (seq<Delta<K>>, seq<Delta<K>>))
    ensures |r.0| <= |keys| && |r.1| <= |keys|
  {
    if |keys| == 0 then ([], [])
    else
      var rest := Walk(keys[1..], e, d);
      var k := keys[0];
      var x := Count(e, k);
      var y := Count(d, k);
      if x > y then ([Delta(k, x - y)] + rest.0, rest.1)
      else if y > x then (rest.0, [Delta(k, y - x)] + rest.1)
      else rest
  }

  /** `compareRenewalSets(excelRecords, dbRecords)`: the keys of both sides,
      each once, in first-occurrence order, and for each the surplus of the
      side that has more copies. */
  function CompareRenewalSets<K(==)>(excel: seq<K>, db: seq<K>): (seq<Delta<K>>, seq<Delta<K>>) {
    Walk(Seqs.Distinct(excel + db), Counts(excel), Counts(db))
  }

  /** An entry is reported exactly for a key of the walk whose side has more
      copies, with the difference as its delta. */
  lemma {:induction false} WalkMembers<K>(keys: seq<K>, e: map<K, nat>, d: map<K, nat>)
    ensures forall r :: r in Walk(keys, e, d).0 <==>
      r.record in keys && Count(e, r.record) > Count(d, r.record) && r.delta == Count(e, r.record) - Count(d, r.record)
    ensures forall r :: r in Walk(keys, e, d).1 <==>
      r.record in keys && Count(d, r.record) > Count(e, r.record) && r.delta == Count(d, r.record) - Count(e, r.record)
    decreases |keys|
  {
    if |keys| > 0 {
      WalkMembers(keys[1..], e, d);
      assert keys == [keys[0]] + keys[1..];
    }
  }

  predicate DistinctRecords<K(==)>(xs: seq<Delta<K>>) {
    forall i, j :: 0 <= i < j < |xs| ==> xs[i].record != xs[j].record
  }

  /** Without repeated keys, no record is reported twice on a side. */
  lemma {:induction false} WalkDistinct<K>(keys: seq<K>, e: map<K, nat>, d: map<K, nat>)
    requires Seqs.NoDups(keys)
    ensures DistinctRecords(Walk(keys, e, d).0) && DistinctRecords(Walk(keys, e, d).1)
    decreases |keys|
  {
    if |keys| > 0 {
      var t := keys[1..];
      assert Seqs.NoDups(t) by {
        assert forall i :: 0 <= i < |t| ==> t[i] == keys[i + 1];
      }
      WalkDistinct(t, e, d);
      WalkMembers(t, e, d);
      assert keys[0] !in t by {
        assert forall i :: 0 <= i < |t| ==> t[i] == keys[i + 1];
      }
      var rest := Walk(t, e, d);
      var k := keys[0];
      forall i | 0 <= i < |rest.0|
        ensures rest.0[i].record != k
      {
        assert rest.0[i] in rest.0;
      }
      forall i | 0 <= i < |rest.1|
        ensures rest.1[i].record != k
      {
        assert rest.1[i] in rest.1;
      }
      var x := Count(e, k);
      var y := Count(d, k);
      if x > y {
        var a := [Delta(k, x - y)] + rest.0;
        assert Walk(keys, e, d) == (a, rest.1);
        assert forall j :: 1 <= j < |a| ==> a[j] == rest.0[j - 1];
      } else if y > x {
        var b := [Delta(k, y - x)] + rest.1;
        assert Walk(keys, e, d) == (rest.0, b);
        assert forall j :: 1 <= j < |b| ==> b[j] == rest.1[j - 1];
      } else {
        assert Walk(keys, e, d) == rest;
      }
    }
  }

  /** The walk visits exactly the records that occur on either side. */
  lemma WalkKeys<K>(excel: seq<K>, db: seq<K>, k: K)
    ensures k in Seqs.Distinct(excel + db) <==> multiset(excel)[k] > 0 || multiset(db)[k] > 0
  {
    var keys := Seqs.Distinct(excel + db);
    if multiset(excel)[k] > 0 {
      var i :| 0 <= i < |excel| && excel[i] == k;
      assert (excel + db)[i] == k;
    } else if multiset(db)[k] > 0 {
      var i :| 0 <= i < |db| && db[i] == k;
      assert (excel + db)[|excel| + i] == k;
    }
  }

  /** A record is only in Excel, by `delta` copies, exactly when Excel has
      `delta` more copies of it than the database, and symmetrically. */
  lemma CompareRenewalSetsSpec<K>(excel: seq<K>, db: seq<K>, r: Delta<K>)
    ensures var (a, b) := CompareRenewalSets(excel, db);
      && (r in a <==> multiset(excel)[r.record] > multiset(db)[r.record]
                      && r.delta == multiset(excel)[r.record] - multiset(db)[r.record])
      && (r in b <==> multiset(db)[r.record] > multiset(excel)[r.record]
                      && r.delta == multiset(db)[r.record] - multiset(excel)[r.record])
  {
    var keys := Seqs.Distinct(excel + db);
    CountsAreMultiplicities(excel);
    CountsAreMultiplicities(db);
    WalkMembers(keys, Counts(excel), Counts(db));
    WalkKeys(excel, db, r.record);
  }

  /** No record is reported twice on one side. */
  lemma CompareRenewalSetsDistinct<K>(excel: seq<K>, db: seq<K>)
    ensures DistinctRecords(CompareRenewalSets(excel, db).0) && DistinctRecords(CompareRenewalSets(excel, db).1)
  {
    WalkDistinct(Seqs.Distinct(excel + db), Counts(excel), Counts(db));
  }

  /** No record is reported on both sides. */
  lemma CompareRenewalSetsDisjoint<K>(excel: seq<K>, db: seq<K>, ra: Delta<K>, rb: Delta<K>)
    requires ra in CompareRenewalSets(excel, db).0 && rb in CompareRenewalSets(excel, db).1
    ensures ra.record != rb.record
  {
    CompareRenewalSetsSpec(excel, db, ra);
    CompareRenewalSetsSpec(excel, db, rb);
  }

  /** Both lists are empty exactly when the two sides hold the same records
      the same number of times. */
  lemma CompareRenewalSetsEmpty<K>(excel: seq<K>, db: seq<K>)
    ensures CompareRenewalSets(excel, db) == ([], []) <==> multiset(excel) == multiset(db)
  {
    var (a, b) := CompareRenewalSets(excel, db);
    if multiset(excel) == multiset(db) {
      if |a| > 0 {
        CompareRenewalSetsSpec(excel, db, a[0]);
      }
      if |b| > 0 {
        CompareRenewalSetsSpec(excel, db, b[0]);
      }
    }
    if a == [] && b == [] {
      forall k
        ensures multiset(excel)[k] == multiset(db)[k]
      {
        var x := multiset(excel)[k];
        var y := multiset(db)[k];
        if x > y {
          CompareRenewalSetsSpec(excel, db, Delta(k, x - y));
        } else if y > x {
          CompareRenewalSetsSpec(excel, db, Delta(k, y - x));
        }
      }
    }
  }

  /** Comparing records with any reordering of themselves reports nothing. */
  lemma ComparePermutation<K>(excel: seq<K>, db: seq<K>)
    requires multiset(excel) == multiset(db)
    ensures CompareRenewalSets(excel, db) == ([], [])
  {
    CompareRenewalSetsEmpty(excel, db);
  }

  // ------------------------------------------------------- database values

  /** Does the text carry one of the signs of UTF-8 read as Latin-1 (`Ã`,
      `Â` or the replacement character)? */
  predicate Misencoded(s: string) {
    '\U{00C3}' in s || '\U{FFFD}' in s || '\U{00C2}' in s
  }

  /** `decodeMisencodedText(value)`; the Latin-1 to UTF-8 re-reading of
      `Buffer` is the parameter `utf8`. */
  function Decode(s: string, utf8: string -> string): string {
    if Misencoded(s) then utf8(s) else s
  }

  /** `normaliseDbText(value)` for the values a column holds (no `Date`s). */
  function NormaliseDbText(c: Cell, utf8: string -> string): Option<string> {
    match c
    case Empty => None
    case Num(x) => Some(NumberText(x))
    case _ =>
      var t := Trim(Decode(JsString(c), utf8));
      if t == "" || t == "-" then None else Some(t)
  }

  lemma TrueFalseClean()
    ensures !Misencoded("true") && !Misencoded("false")
    ensures Trim("true") == "true" && Trim("false") == "false"
  {
    assert IsTrimmed("true") && IsTrimmed("false");
    TrimOfTrimmed("true");
    TrimOfTrimmed("false");
  }

  /** Text without the signs of a wrong encoding is read from the database
      as the checker reads it from the workbook. */
  lemma DbTextAgrees(c: Cell, utf8: string -> string)
    requires c.Str? ==> !Misencoded(c.s)
    ensures NormaliseDbText(c, utf8) == WorkbookValues.ToText(c)
  {
    if c.Bool? {
      TrueFalseClean();
    }
  }

  /** Mis-encoded text is re-read before it is trimmed. */
  lemma DbTextDecodes(s: string, utf8: string -> string)
    requires Misencoded(s)
    ensures NormaliseDbText(Str(s), utf8) == WorkbookValues.ToText(Str(utf8(s)))
  {
  }

  /** `normaliseDbMoney(value)`, in whole cents. */
  function NormaliseDbMoney(c: Cell): Option<int> {
    match c
    case Empty => None
    case Num(x) => Some(Cents(x))
    case _ =>
      match JsParseFloat(JsString(c))
      case Finite(v) => Some(Cents(v))
      case _ => None
  }

  // -------------------------------------------------------- compared values

  /** A compared value: `null`, a text or an amount in cents. */
  datatype Value = Null | Text(s: string) | Amount(cents: int)

  function TextValue(o: Option<string>): Value {
    match o
    case None => Null
    case Some(s) => Text(s)
  }

  function MoneyValue(o: Option<int>): Value {
    match o
    case None => Null
    case Some(n) => Amount(n)
  }

  /** `fieldsToCompare` */
  const FieldNames: seq<string> := ["titolare", "email", "recapito_telefonico", "data_emissione", "emesso_da",
    "costo_ie", "importo_ie", "fattura_numero", "fattura_tipo_invio", "fattura_tipo_pagamento"]

  /** The compared fields of a workbook base record. */
  function ExcelFields(e: Emission): (r: seq<Value>)
    ensures |r| == |FieldNames|
  {
    [TextValue(e.titolare), TextValue(e.email), TextValue(e.telefono), TextValue(e.dataEmissione),
     TextValue(e.emessoDa), MoneyValue(e.costo), MoneyValue(e.importo), TextValue(e.fatturaNumero),
     TextValue(e.fatturaTipoInvio), TextValue(e.fatturaTipoPagamento)]
  }

  // -------------------------------------------------------------------- ids

  /** An id as a JavaScript value: `null`, a number or a string. `Set.has`
      and `Map.has` compare by `SameValueZero`, under which a number never
      equals a string, and `JSON.stringify` prints `7` and `"7"` apart; two
      keys are the same for both exactly when they are equal here. */
  datatype Key = NullKey | NumKey(n: nat) | StrKey(s: string)

  /** The value a key holds, as a cell. */
  function KeyCell(k: Key): Cell {
    match k
    case NullKey => Empty
    case NumKey(n) => Num(n as real)
    case StrKey(s) => Str(s)
  }

  /** `normaliseId(value)` of a key: a number, or `null`. */
  function NormaliseKey(k: Key): (r: Key)
    ensures r.NullKey? || r.NumKey?
  {
    match WorkbookValues.ToId(KeyCell(k))
    case Some(n) => NumKey(n)
    case None => NullKey
  }

  /** A `VARCHAR` id as the database driver returns it: a string. */
  function TextKey(s: string): Key {
    StrKey(s)
  }

  /** A `VARCHAR` id put through `normaliseId`. */
  function NormalisedKey(s: string): Key {
    NormaliseKey(StrKey(s))
  }

  /** `normaliseId` keeps a number, and reads an id back from its decimal
      text. */
  lemma NormaliseKeyOfId(n: nat)
    ensures NormaliseKey(NumKey(n)) == NumKey(n)
    ensures NormalisedKey(JsText.NatToDigits(n)) == NumKey(n)
  {
    WorkbookValues.ToIdAgrees(Num(n as real));
    Coerce.NormaliseIdOfNumber(n);
    var s := JsText.NatToDigits(n);
    WorkbookValues.ToIdAgrees(Str(s));
    Coerce.IdOfDigits(s);
  }

  // ---------------------------------------------------------- base records

  /** A row of the base table as the query returns it. Its `id` column is a
      `VARCHAR(10)`, which comes back as a string. */
  datatype DbBase = DbBase(
    id: string,
    titolare: Cell,
    email: Cell,
    telefono: Cell,
    dataEmissione: Cell,
    emessoDa: Cell,
    costo: Cell,
    importo: Cell,
    fatturaNumero: Cell,
    fatturaTipoInvio: Cell,
    fatturaTipoPagamento: Cell)

  /** The compared fields of a database row, normalised. */
  function DbFields(row: DbBase, utf8: string -> string): (r: seq<Value>)
    ensures |r| == |FieldNames|
  {
    [TextValue(NormaliseDbText(row.titolare, utf8)), TextValue(NormaliseDbText(row.email, utf8)),
     TextValue(NormaliseDbText(row.telefono, utf8)), TextValue(NormaliseDbText(row.dataEmissione, utf8)),
     TextValue(NormaliseDbText(row.emessoDa, utf8)), MoneyValue(NormaliseDbMoney(row.costo)),
     MoneyValue(NormaliseDbMoney(row.importo)), TextValue(NormaliseDbText(row.fatturaNumero, utf8)),
     TextValue(NormaliseDbText(row.fatturaTipoInvio, utf8)),
     TextValue(NormaliseDbText(row.fatturaTipoPagamento, utf8))]
  }

  datatype Mismatch = Mismatch(id: Key, field: string, excel: Value, db: Value)

  /** The mismatches of one pair of records, in field order. */
  function FieldMismatches(id: Key, names: seq<string>, xs: seq<Value>, ys: seq<Value>): (r: seq<Mismatch>)
    requires |xs| == |names| && |ys| == |names|
    ensures |r| <= |names|
  {
    if |names| == 0 then []
    else
      (if xs[0] == ys[0] then [] else [Mismatch(id, names[0], xs[0], ys[0])])
        + FieldMismatches(id, names[1..], xs[1..], ys[1..])
  }

  /** A field is reported exactly when its two values differ. */
  lemma {:induction false} FieldMismatchesMembers(id: Key, names: seq<string>, xs: seq<Value>, ys: seq<Value>)
    requires |xs| == |names| && |ys| == |names|
    ensures forall m :: m in FieldMismatches(id, names, xs, ys) ==>
      exists i :: 0 <= i < |names| && xs[i] != ys[i] && m == Mismatch(id, names[i], xs[i], ys[i])
    ensures forall i :: 0 <= i < |names| && xs[i] != ys[i] ==>
      Mismatch(id, names[i], xs[i], ys[i]) in FieldMismatches(id, names, xs, ys)
    decreases |names|
  {
    if |names| > 0 {
      FieldMismatchesMembers(id, names[1..], xs[1..], ys[1..]);
      assert forall i :: 1 <= i < |names| ==>
        names[1..][i - 1] == names[i] && xs[1..][i - 1] == xs[i] && ys[1..][i - 1] == ys[i];
    }
  }

  /** The workbook ids as the keys of `excelRecords`: numbers. */
  function ExcelKeys(excel: Table<Emission>): (r: seq<Key>)
    ensures |r| == |excel.keys|
  {
    seq(|excel.keys|, i requires 0 <= i < |excel.keys| => NumKey(excel.keys[i]))
  }

  /** `excelRecords.has(k)` */
  predicate ExcelHas(excel: Table<Emission>, k: Key) {
    k.NumKey? && k.n in excel.values
  }

  lemma ExcelKeysSpec(excel: Table<Emission>)
    requires ValidTable(excel)
    ensures forall k :: k in ExcelKeys(excel) <==> ExcelHas(excel, k)
    ensures Seqs.NoDups(ExcelKeys(excel))
  {
    forall k | ExcelHas(excel, k)
      ensures k in ExcelKeys(excel)
    {
      var i :| 0 <= i < |excel.keys| && excel.keys[i] == k.n;
      assert ExcelKeys(excel)[i] == k;
    }
  }

  /** The mismatches of the rows, in row order, each row keyed by `key` of
      its id: only rows whose key has a workbook record are compared. */
  function RowMismatches(excel: Table<Emission>, rows: seq<DbBase>, utf8: string -> string, key: string -> Key)
    : seq<Mismatch>
  {
    if |rows| == 0 then []
    else
      var k := key(rows[0].id);
      (if ExcelHas(excel, k)
       then FieldMismatches(k, FieldNames, ExcelFields(excel.values[k.n]), DbFields(rows[0], utf8))
       else [])
        + RowMismatches(excel, rows[1..], utf8, key)
  }

  /** No row whose key has no workbook record is compared. */
  lemma {:induction false} RowMismatchesNone(excel: Table<Emission>, rows: seq<DbBase>, utf8: string -> string,
                                             key: string -> Key)
    requires forall j :: 0 <= j < |rows| ==> !ExcelHas(excel, key(rows[j].id))
    ensures RowMismatches(excel, rows, utf8, key) == []
    decreases |rows|
  {
    if |rows| > 0 {
      assert forall j :: 0 <= j < |rows| - 1 ==> rows[1..][j] == rows[j + 1];
      RowMismatchesNone(excel, rows[1..], utf8, key);
    }
  }

  /** `xs.filter(keep)` */
  function Filter<T>(xs: seq<T>, keep: T -> bool): (r: seq<T>)
    ensures |r| <= |xs|
  {
    if |xs| == 0 then []
    else (if keep(xs[0]) then [xs[0]] else []) + Filter(xs[1..], keep)
  }

  lemma {:induction false} FilterMembers<T>(xs: seq<T>, keep: T -> bool)
    ensures forall k :: k in Filter(xs, keep) <==> k in xs && keep(k)
    ensures Seqs.NoDups(xs) ==> Seqs.NoDups(Filter(xs, keep))
    decreases |xs|
  {
    if |xs| > 0 {
      FilterMembers(xs[1..], keep);
      assert xs == [xs[0]] + xs[1..];
      if Seqs.NoDups(xs) {
        assert Seqs.NoDups(xs[1..]) by {
          assert forall i :: 0 <= i < |xs| - 1 ==> xs[1..][i] == xs[i + 1];
        }
        assert xs[0] !in xs[1..] by {
          assert forall i :: 0 <= i < |xs| - 1 ==> xs[1..][i] == xs[i + 1];
        }
      }
    }
  }

  /** A filter that keeps every element changes nothing. */
  lemma {:induction false} FilterKeepsAll<T>(xs: seq<T>, keep: T -> bool)
    requires forall i :: 0 <= i < |xs| ==> keep(xs[i])
    ensures Filter(xs, keep) == xs
    decreases |xs|
  {
    if |xs| > 0 {
      assert forall i :: 0 <= i < |xs| - 1 ==> xs[1..][i] == xs[i + 1];
      FilterKeepsAll(xs[1..], keep);
      assert xs == [xs[0]] + xs[1..];
    }
  }

  /** The keys of the rows, in row order. */
  function Ids(rows: seq<DbBase>, key: string -> Key): (r: seq<Key>)
    ensures |r| == |rows|
  {
    seq(|rows|, i requires 0 <= i < |rows| => key(rows[i].id))
  }

  datatype BaseComparison = BaseComparison(missingInDb: seq<Key>, extraInDb: seq<Key>, fieldMismatches: seq<Mismatch>)

  /** `compareBaseRecords(excelRecords, dbRecords)`, with each row's id read
      as `key` of it. */
  function CompareBaseRecordsWith(excel: Table<Emission>, rows: seq<DbBase>, utf8: string -> string,
                                  key: string -> Key): BaseComparison
  {
    var dbIds := Seqs.Distinct(Ids(rows, key));
    BaseComparison(
      Filter(ExcelKeys(excel), k => k !in dbIds),
      Filter(dbIds, k => !ExcelHas(excel, k)),
      RowMismatches(excel, rows, utf8, key))
  }

  /** `compareBaseRecords` as written: the workbook ids are numbers, the row
      ids strings. */
  function CompareBaseRecords(excel: Table<Emission>, rows: seq<DbBase>, utf8: string -> string): BaseComparison {
    CompareBaseRecordsWith(excel, rows, utf8, TextKey)
  }

  /** `compareBaseRecords` with each row id put through `normaliseId` first,
      as the workbook ids are. */
  function CompareBaseRecordsCorrected(excel: Table<Emission>, rows: seq<DbBase>, utf8: string -> string)
    : BaseComparison
  {
    CompareBaseRecordsWith(excel, rows, utf8, NormalisedKey)
  }

  /** Whichever way the row ids are read, `missingInDb` is exactly the
      workbook ids no row has and `extraInDb` exactly the row ids with no
      workbook record; neither repeats an id and no id is on both. */
  lemma BaseIdsSpec(excel: Table<Emission>, rows: seq<DbBase>, utf8: string -> string, key: string -> Key, k: Key)
    requires ValidTable(excel)
    ensures var c := CompareBaseRecordsWith(excel, rows, utf8, key);
      && (k in c.missingInDb <==> ExcelHas(excel, k) && k !in Ids(rows, key))
      && (k in c.extraInDb <==> k in Ids(rows, key) && !ExcelHas(excel, k))
      && !(k in c.missingInDb && k in c.extraInDb)
      && Seqs.NoDups(c.missingInDb) && Seqs.NoDups(c.extraInDb)
  {
    var dbIds := Seqs.Distinct(Ids(rows, key));
    ExcelKeysSpec(excel);
    FilterMembers(ExcelKeys(excel), k => k !in dbIds);
    FilterMembers(dbIds, k => !ExcelHas(excel, k));
  }

  /** As written, no string id equals a number: every workbook id is
      reported missing, every row id extra, and no field is compared. */
  lemma BaseAsWrittenOneSided(excel: Table<Emission>, rows: seq<DbBase>, utf8: string -> string)
    ensures var c := CompareBaseRecords(excel, rows, utf8);
      && c.missingInDb == ExcelKeys(excel)
      && c.extraInDb == Seqs.Distinct(Ids(rows, TextKey))
      && c.fieldMismatches == []
  {
    var ids := Ids(rows, TextKey);
    var dbIds := Seqs.Distinct(ids);
    forall i | 0 <= i < |dbIds|
      ensures dbIds[i].StrKey?
    {
      var j :| 0 <= j < |ids| && ids[j] == dbIds[i];
    }
    FilterKeepsAll(ExcelKeys(excel), k => k !in dbIds);
    FilterKeepsAll(dbIds, k => !ExcelHas(excel, k));
    RowMismatchesNone(excel, rows, utf8, TextKey);
  }

  /** Some row's id reads as workbook id `n`. */
  predicate HasRowId(rows: seq<DbBase>, n: nat) {
    exists j :: 0 <= j < |rows| && NormalisedKey(rows[j].id) == NumKey(n)
  }

  /** Some row's id reads as no number. */
  predicate HasUnreadableId(rows: seq<DbBase>) {
    exists j :: 0 <= j < |rows| && NormalisedKey(rows[j].id) == NullKey
  }

  lemma HasRowIdKeys(rows: seq<DbBase>, n: nat)
    ensures NumKey(n) in Ids(rows, NormalisedKey) <==> HasRowId(rows, n)
    ensures NullKey in Ids(rows, NormalisedKey) <==> HasUnreadableId(rows)
  {
    var ids := Ids(rows, NormalisedKey);
    if HasRowId(rows, n) {
      var j :| 0 <= j < |rows| && NormalisedKey(rows[j].id) == NumKey(n);
      assert ids[j] == NumKey(n);
    }
    if HasUnreadableId(rows) {
      var j :| 0 <= j < |rows| && NormalisedKey(rows[j].id) == NullKey;
      assert ids[j] == NullKey;
    }
  }

  /** With the row ids normalised, a workbook id is missing exactly when no
      row's id reads as it and extra exactly when a row's id reads as it
      and the workbook has no such record; a row whose id reads as no
      number puts one `null` among the extra ids. */
  lemma BaseIdsCorrected(excel: Table<Emission>, rows: seq<DbBase>, utf8: string -> string, n: nat)
    requires ValidTable(excel)
    ensures var c := CompareBaseRecordsCorrected(excel, rows, utf8);
      && (NumKey(n) in c.missingInDb <==> n in excel.values && !HasRowId(rows, n))
      && (NumKey(n) in c.extraInDb <==> HasRowId(rows, n) && n !in excel.values)
      && (NullKey in c.extraInDb <==> HasUnreadableId(rows))
  {
    BaseIdsSpec(excel, rows, utf8, NormalisedKey, NumKey(n));
    BaseIdsSpec(excel, rows, utf8, NormalisedKey, NullKey);
    HasRowIdKeys(rows, n);
  }

  /** A workbook id `n` stored in the base table as its decimal text is
      reported missing (and its row extra) as written, and matched once
      the row ids are normalised. */
  lemma BaseStoredId(excel: Table<Emission>, rows: seq<DbBase>, utf8: string -> string, j: nat, n: nat)
    requires ValidTable(excel) && n in excel.values
    requires j < |rows| && rows[j].id == JsText.NatToDigits(n)
    ensures NumKey(n) in CompareBaseRecords(excel, rows, utf8).missingInDb
    ensures StrKey(rows[j].id) in CompareBaseRecords(excel, rows, utf8).extraInDb
    ensures NumKey(n) !in CompareBaseRecordsCorrected(excel, rows, utf8).missingInDb
    ensures NumKey(n) !in CompareBaseRecordsCorrected(excel, rows, utf8).extraInDb
  {
    ExcelKeysSpec(excel);
    BaseAsWrittenOneSided(excel, rows, utf8);
    assert Ids(rows, TextKey)[j] == StrKey(rows[j].id);
    NormaliseKeyOfId(n);
    assert NormalisedKey(rows[j].id) == NumKey(n);
    BaseIdsCorrected(excel, rows, utf8, n);
  }

  /** Row `row`, keyed by `key`, and the workbook record of its key differ
      on a field, and `m` reports it. */
  predicate Reports(excel: Table<Emission>, row: DbBase, utf8: string -> string, key: string -> Key, m: Mismatch) {
    && key(row.id) == m.id && ExcelHas(excel, m.id)
    && var xs := ExcelFields(excel.values[m.id.n]);
       var ys := DbFields(row, utf8);
       exists i :: 0 <= i < |FieldNames| && xs[i] != ys[i] && m == Mismatch(m.id, FieldNames[i], xs[i], ys[i])
  }

  lemma RowReports(excel: Table<Emission>, row: DbBase, utf8: string -> string, key: string -> Key, m: Mismatch)
    requires ExcelHas(excel, key(row.id))
    ensures var k := key(row.id);
      (m in FieldMismatches(k, FieldNames, ExcelFields(excel.values[k.n]), DbFields(row, utf8))
       <==> Reports(excel, row, utf8, key, m))
  {
    var k := key(row.id);
    FieldMismatchesMembers(k, FieldNames, ExcelFields(excel.values[k.n]), DbFields(row, utf8));
  }

  /** Whichever way the row ids are read, a mismatch is reported exactly for
      a field on which a database row and the workbook record of the same
      id differ. */
  lemma {:induction false} MismatchesSpec(excel: Table<Emission>, rows: seq<DbBase>, utf8: string -> string,
                                          key: string -> Key, m: Mismatch)
    ensures m in RowMismatches(excel, rows, utf8, key) <==>
      exists j :: 0 <= j < |rows| && Reports(excel, rows[j], utf8, key, m)
    decreases |rows|
  {
    if |rows| > 0 {
      MismatchesSpec(excel, rows[1..], utf8, key, m);
      if ExcelHas(excel, key(rows[0].id)) {
        RowReports(excel, rows[0], utf8, key, m);
      }
      if exists j :: 0 <= j < |rows| && Reports(excel, rows[j], utf8, key, m) {
        var j :| 0 <= j < |rows| && Reports(excel, rows[j], utf8, key, m);
        if j > 0 {
          assert rows[1..][j - 1] == rows[j];
        }
      }
      if exists j :: 0 <= j < |rows| - 1 && Reports(excel, rows[1..][j], utf8, key, m) {
        var j :| 0 <= j < |rows| - 1 && Reports(excel, rows[1..][j], utf8, key, m);
        assert rows[j + 1] == rows[1..][j];
      }
    }
  }

  /** Only ids with both a workbook record and a database row are reported,
      and only for differing values. */
  lemma MismatchesOnlyCommon(excel: Table<Emission>, rows: seq<DbBase>, utf8: string -> string,
                             key: string -> Key, m: Mismatch)
    requires m in CompareBaseRecordsWith(excel, rows, utf8, key).fieldMismatches
    ensures ExcelHas(excel, m.id) && m.id in Ids(rows, key)
    ensures m.excel != m.db
  {
    MismatchesSpec(excel, rows, utf8, key, m);
    var j :| 0 <= j < |rows| && Reports(excel, rows[j], utf8, key, m);
    assert Ids(rows, key)[j] == m.id;
  }

  // -------------------------------------------------------- renewal records

  /** A row of the renewal table as the query returns it. The id is kept as
      the JavaScript value it arrives as, which depends on the column's
      type. */
  datatype DbRenewal = DbRenewal(
    signatureId: Key,
    sheetName: string,
    email: Cell,
    telefono: Cell,
    cnsL: Cell,
    cns: Cell,
    cfd: Cell,
    cfdR: Cell,
    dataEmissione: Cell,
    dataScadenza: Cell,
    rinnovoData: Cell,
    rinnovoDa: Cell,
    nuovaEmissioneId: Option<nat>,
    costo: Cell,
    importo: Cell,
    fatturaNumero: Cell,
    fatturaTipoInvio: Cell,
    fatturaTipoPagamento: Cell,
    dataRiferimentoIncasso: Cell,
    note: Cell)

  /** The comparable payload of a renewal, told apart as `JSON.stringify`
      tells payloads apart: the signature id as the JavaScript value it is,
      and the other fields. `fields.signatureId` is the id when that is a
      number, and 0 otherwise, so it adds nothing to the key. */
  datatype Payload = Payload(signatureId: Key, fields: CheckRenewal)

  /** The number a key carries, 0 for any other key. */
  function KeyNumber(k: Key): nat {
    if k.NumKey? then k.n else 0
  }

  /** The payload of a workbook renewal: its id is a number. */
  function ExcelPayload(r: CheckRenewal): (p: Payload)
    ensures p.signatureId.NumKey?
  {
    Payload(NumKey(r.signatureId), r)
  }

  function ExcelPayloads(excel: seq<CheckRenewal>): (r: seq<Payload>)
    ensures |r| == |excel|
  {
    seq(|excel|, i requires 0 <= i < |excel| => ExcelPayload(excel[i]))
  }

  /** `row.flag ? 1 : 0` */
  function Bit(c: Cell): (r: int)
    ensures r == 0 || r == 1
  {
    if Truthy(c) then 1 else 0
  }

  /** The normalisation of a database renewal row before the comparison,
      with its id read as `id`. */
  function NormaliseDbRenewalWith(row: DbRenewal, utf8: string -> string, id: Key): (r: Payload)
    ensures r.signatureId == id && r.fields.sheetName == row.sheetName
    ensures 0 <= r.fields.cnsL <= 1 && 0 <= r.fields.cns <= 1 && 0 <= r.fields.cfd <= 1 && 0 <= r.fields.cfdR <= 1
  {
    Payload(id, CheckRenewal(KeyNumber(id), row.sheetName,
      NormaliseDbText(row.email, utf8), NormaliseDbText(row.telefono, utf8),
      Bit(row.cnsL), Bit(row.cns), Bit(row.cfd), Bit(row.cfdR),
      NormaliseDbText(row.dataEmissione, utf8), NormaliseDbText(row.dataScadenza, utf8),
      NormaliseDbText(row.rinnovoData, utf8), NormaliseDbText(row.rinnovoDa, utf8),
      NormaliseDbMoney(row.costo), NormaliseDbMoney(row.importo),
      NormaliseDbText(row.fatturaNumero, utf8), NormaliseDbText(row.fatturaTipoInvio, utf8),
      NormaliseDbText(row.fatturaTipoPagamento, utf8),
      NormaliseDbText(row.dataRiferimentoIncasso, utf8), row.nuovaEmissioneId,
      NormaliseDbText(row.note, utf8)))
  }

  /** As written: `signature_id: row.signature_id`. */
  function NormaliseDbRenewal(row: DbRenewal, utf8: string -> string): Payload {
    NormaliseDbRenewalWith(row, utf8, row.signatureId)
  }

  /** Corrected: `signature_id: normaliseId(row.signature_id)`. */
  function NormaliseDbRenewalCorrected(row: DbRenewal, utf8: string -> string): Payload {
    NormaliseDbRenewalWith(row, utf8, NormaliseKey(row.signatureId))
  }

  function NormaliseDbRenewals(rows: seq<DbRenewal>, utf8: string -> string): (r: seq<Payload>)
    ensures |r| == |rows|
  {
    seq(|rows|, i requires 0 <= i < |rows| => NormaliseDbRenewal(rows[i], utf8))
  }

  function NormaliseDbRenewalsCorrected(rows: seq<DbRenewal>, utf8: string -> string): (r: seq<Payload>)
    ensures |r| == |rows|
  {
    seq(|rows|, i requires 0 <= i < |rows| => NormaliseDbRenewalCorrected(rows[i], utf8))
  }

  /** The comparison of one renewal sheet, as written. */
  function CompareSheet(excel: seq<CheckRenewal>, rows: seq<DbRenewal>, utf8: string -> string)
    : (seq<Delta<Payload>>, seq<Delta<Payload>>)
  {
    CompareRenewalSets(ExcelPayloads(excel), NormaliseDbRenewals(rows, utf8))
  }

  /** The comparison of one renewal sheet with the row ids normalised. */
  function CompareSheetCorrected(excel: seq<CheckRenewal>, rows: seq<DbRenewal>, utf8: string -> string)
    : (seq<Delta<Payload>>, seq<Delta<Payload>>)
  {
    CompareRenewalSets(ExcelPayloads(excel), NormaliseDbRenewalsCorrected(rows, utf8))
  }

  /** A sheet is reported clean exactly when its database rows, normalised,
      are its workbook records in some order. */
  lemma CompareSheetClean(excel: seq<CheckRenewal>, rows: seq<DbRenewal>, utf8: string -> string)
    ensures CompareSheet(excel, rows, utf8) == ([], []) <==>
      multiset(ExcelPayloads(excel)) == multiset(NormaliseDbRenewals(rows, utf8))
    ensures CompareSheetCorrected(excel, rows, utf8) == ([], []) <==>
      multiset(ExcelPayloads(excel)) == multiset(NormaliseDbRenewalsCorrected(rows, utf8))
  {
    CompareRenewalSetsEmpty(ExcelPayloads(excel), NormaliseDbRenewals(rows, utf8));
    CompareRenewalSetsEmpty(ExcelPayloads(excel), NormaliseDbRenewalsCorrected(rows, utf8));
  }

  /** As written, a sheet whose rows return their ids as strings is never
      clean unless both sides are empty: no row's payload is a workbook
      payload. */
  lemma SheetAsWrittenNeverClean(excel: seq<CheckRenewal>, rows: seq<DbRenewal>, utf8: string -> string)
    requires forall j :: 0 <= j < |rows| ==> rows[j].signatureId.StrKey?
    requires |excel| > 0 || |rows| > 0
    ensures CompareSheet(excel, rows, utf8) != ([], [])
  {
    var xs, ys := ExcelPayloads(excel), NormaliseDbRenewals(rows, utf8);
    CompareRenewalSetsEmpty(xs, ys);
    assert forall j :: 0 <= j < |ys| ==> ys[j].signatureId.StrKey?;
    DisjointPayloads(xs, ys);
  }

  /** Payloads with number ids and payloads with string ids never make the
      same multiset, unless both are empty. */
  lemma DisjointPayloads(xs: seq<Payload>, ys: seq<Payload>)
    requires forall i :: 0 <= i < |xs| ==> xs[i].signatureId.NumKey?
    requires forall j :: 0 <= j < |ys| ==> ys[j].signatureId.StrKey?
    requires |xs| > 0 || |ys| > 0
    ensures multiset(xs) != multiset(ys)
  {
    if |xs| > 0 {
      assert xs[0] in multiset(xs);
      assert xs[0] !in ys;
    } else {
      assert ys[0] in multiset(ys);
    }
  }

  /** A row stored from a workbook renewal keeps its id as decimal text and
      its other fields. As written its payload is not the record's; with the
      id normalised it is. */
  lemma StoredRenewalPayload(r: CheckRenewal, row: DbRenewal, utf8: string -> string)
    requires row.signatureId == StrKey(JsText.NatToDigits(r.signatureId))
    requires NormaliseDbRenewalWith(row, utf8, NumKey(r.signatureId)).fields == r
    ensures NormaliseDbRenewal(row, utf8) != ExcelPayload(r)
    ensures NormaliseDbRenewalCorrected(row, utf8) == ExcelPayload(r)
  {
    NormaliseKeyOfId(r.signatureId);
  }
}

=== FILE: workbook_records.dfy ===
/** The records the workbook checker (scripts/verifyWorkbookVsDb.js) builds
    from the sheets: the `Emissione` rows keyed by id in a `Map`, the renewal
    rows of each `Rinnovo` sheet as a list, and the contact data merged from
    the renewal sheets into the base records. The reading of date cells
    (`toIsoDate`, with its Rome-time formatting) is a parameter. */
module WorkbookRecords {
  import opened Wrappers
  import opened Cells
  import Seqs
  import Coerce
  import Headers
  import Records
  import opened WorkbookValues

  /** JavaScript truthiness of a `string | null` value. */
  predicate Present(o: Option<string>) {
    o.Some? && |o.value| > 0
  }

  // ------------------------------------------------------------ ordered maps

  /** A JavaScript `Map` keyed by ids: the keys in insertion order, and the
      values. */
  datatype Table<T> = Table(keys: seq<nat>, values: map<nat, T>)

  /** Each key once, and exactly the keys that have a value. */
  predicate ValidTable<T>(t: Table<T>) {
    && Seqs.NoDups(t.keys)
    && (forall k :: k in t.keys ==> k in t.values)
    && (forall k :: k in t.values ==> k in t.keys)
  }

  /** `map.set(k, v)`: a new key goes last, an existing key keeps its place
      and takes the new value. */
  function Put<T>(t: Table<T>, k: nat, v: T): (r: Table<T>)
    ensures r.values == t.values[k := v]
  {
    Table(if k in t.values then t.keys else t.keys + [k], t.values[k := v])
  }

  lemma PutValid<T>(t: Table<T>, k: nat, v: T)
    requires ValidTable(t)
    ensures ValidTable(Put(t, k, v))
    ensures k in t.values ==> Put(t, k, v).keys == t.keys
  {
  }

  // --------------------------------------------------------- Emissione sheet

  /** A base record of the checker. */
  datatype Emission = Emission(
    id: nat,
    titolare: Option<string>,
    email: Option<string>,
    telefono: Option<string>,
    dataEmissione: Option<string>,
    emessoDa: Option<string>,
    costo: Option<int>,
    importo: Option<int>,
    fatturaNumero: Option<string>,
    fatturaTipoInvio: Option<string>,
    fatturaTipoPagamento: Option<string>,
    dataRiferimentoIncasso: Option<string>)

  /** The id of a row, `None` when `!id` (missing, or zero). */
  function RowId(row: seq<Cell>): (r: Option<nat>)
    ensures r.Some? ==> r.value > 0
  {
    match ToId(Headers.CellAt(row, 0))
    case None => None
    case Some(n) => if n == 0 then None else Some(n)
  }

  /** `(paymentType, paymentReference)` of a payment cell: a cell that reads
      as a date means `Altro` paid on that day, any other cell is its text. */
  function PaymentOf(c: Cell, isoDate: Cell -> Option<string>): (Option<string>, Option<string>) {
    var date := isoDate(c);
    if Present(date) then (Some("Altro"), date) else (ToText(c), None)
  }

  /** With the loader's date reading, the checker's payment rule is the
      loader's: `Altro` with the date when the cell is a date, the cell's
      text otherwise. */
  lemma PaymentAgrees(c: Cell)
    ensures var (kind, date) := PaymentOf(c, Coerce.ParseDate);
      && date == Records.PaymentOf(c).date
      && (Records.PaymentOf(c).kind.Str? ==> kind == Some(Records.PaymentOf(c).kind.s))
      && (Records.PaymentOf(c).kind.Empty? <==> kind.None?)
  {
    Records.PaymentOfIff(c);
    ToTextAgrees(c);
  }

  /** The base record of an `Emissione` row, `None` for a row without an id. */
  function EmissionOf(row: seq<Cell>, isoDate: Cell -> Option<string>): (r: Option<Emission>)
    ensures r.Some? <==> RowId(row).Some?
    ensures r.Some? ==> r.value.id == RowId(row).value && r.value.email.None? && r.value.telefono.None?
  {
    match RowId(row)
    case None => None
    case Some(id) =>
      var (kind, date) := PaymentOf(Headers.CellAt(row, 24), isoDate);
      Some(Emission(id,
        ToText(Headers.CellAt(row, 1)), None, None,
        isoDate(Headers.CellAt(row, 15)), ToText(Headers.CellAt(row, 16)),
        ToMoney(Headers.CellAt(row, 20)), ToMoney(Headers.CellAt(row, 21)),
        ToText(Headers.CellAt(row, 22)), ToText(Headers.CellAt(row, 23)),
        kind, date))
  }

  /** The `Map` the loop over the rows fills, each record under its id. */
  function Keyed(rows: seq<seq<Cell>>, f: seq<Cell> -> Option<Emission>): Table<Emission> {
    if |rows| == 0 then Table([], map[])
    else
      var t := Keyed(rows[..|rows| - 1], f);
      match f(rows[|rows| - 1])
      case None => t
      case Some(e) => Put(t, e.id, e)
  }

  /** Some row gives a record with id `k`. */
  predicate Gives(rows: seq<seq<Cell>>, f: seq<Cell> -> Option<Emission>, k: nat) {
    exists j :: 0 <= j < |rows| && f(rows[j]).Some? && f(rows[j]).value.id == k
  }

  lemma GivesSnoc(rows: seq<seq<Cell>>, f: seq<Cell> -> Option<Emission>, k: nat)
    requires |rows| > 0
    ensures Gives(rows, f, k) <==>
      (Gives(rows[..|rows| - 1], f, k) || (f(rows[|rows| - 1]).Some? && f(rows[|rows| - 1]).value.id == k))
  {
    var p := rows[..|rows| - 1];
    if Gives(p, f, k) {
      var j :| 0 <= j < |p| && f(p[j]).Some? && f(p[j]).value.id == k;
      assert rows[j] == p[j];
    }
    if Gives(rows, f, k) {
      var j :| 0 <= j < |rows| && f(rows[j]).Some? && f(rows[j]).value.id == k;
      if j < |p| {
        assert rows[j] == p[j];
      }
    }
  }

  /** The map is well formed, holds every record under its own id, and has
      exactly the ids some row gives. */
  lemma {:induction false} KeyedShape(rows: seq<seq<Cell>>, f: seq<Cell> -> Option<Emission>)
    ensures ValidTable(Keyed(rows, f))
    ensures forall k :: k in Keyed(rows, f).values ==> Keyed(rows, f).values[k].id == k
    ensures forall k :: k in Keyed(rows, f).values <==> Gives(rows, f, k)
    decreases |rows|
  {
    if |rows| > 0 {
      var p := rows[..|rows| - 1];
      KeyedShape(p, f);
      forall k
        ensures Gives(rows, f, k) <==> (Gives(p, f, k) || (f(rows[|rows| - 1]).Some? && f(rows[|rows| - 1]).value.id == k))
      {
        GivesSnoc(rows, f, k);
      }
      if f(rows[|rows| - 1]).Some? {
        var e := f(rows[|rows| - 1]).value;
        PutValid(Keyed(p, f), e.id, e);
      }
    }
  }

  /** A later row with the same id overwrites an earlier one: the record
      kept for an id is that of the last row giving it. */
  lemma {:induction false} KeyedLastWins(rows: seq<seq<Cell>>, f: seq<Cell> -> Option<Emission>, j: nat)
    requires j < |rows| && f(rows[j]).Some?
    requires forall l :: j < l < |rows| && f(rows[l]).Some? ==> f(rows[l]).value.id != f(rows[j]).value.id
    ensures var t := Keyed(rows, f);
      f(rows[j]).value.id in t.values && t.values[f(rows[j]).value.id] == f(rows[j]).value
    decreases |rows|
  {
    var p := rows[..|rows| - 1];
    if j < |rows| - 1 {
      assert rows[j] == p[j];
      forall l | j < l < |p| && f(p[l]).Some?
        ensures f(p[l]).value.id != f(p[j]).value.id
      {
        assert rows[l] == p[l];
      }
      KeyedLastWins(p, f, j);
    }
  }

  /** `extractEmissionRecords(worksheet)`: an error when the sheet is
      missing, otherwise the base records of the scanned rows by id. */
  function ExtractEmissionRecords(sheet: Option<seq<seq<Cell>>>, startRow: int, endRow: int,
                                  isoDate: Cell -> Option<string>): (r: Result<Table<Emission>, string>)
    ensures r.Failure? <==> sheet.None?
    ensures r.Failure? ==> r.error == "Foglio \"Emissione\" non trovato nel file Excel."
  {
    match sheet
    case None => Failure("Foglio \"Emissione\" non trovato nel file Excel.")
    case Some(rows) => Success(Keyed(Scanned(rows, startRow, endRow), row => EmissionOf(row, isoDate)))
  }

  /** The extracted map holds, for each id of a scanned row, the record of
      the last scanned row with that id, and no other id. */
  lemma EmissionRecordsSpec(rows: seq<seq<Cell>>, startRow: int, endRow: int,
                            isoDate: Cell -> Option<string>, j: nat)
    requires var s := Scanned(rows, startRow, endRow);
      && j < |s| && RowId(s[j]).Some?
      && forall l :: j < l < |s| ==> RowId(s[l]) != RowId(s[j])
    ensures var s := Scanned(rows, startRow, endRow);
      var t := ExtractEmissionRecords(Some(rows), startRow, endRow, isoDate).value;
      && ValidTable(t)
      && RowId(s[j]).value in t.values
      && t.values[RowId(s[j]).value] == EmissionOf(s[j], isoDate).value
  {
    var s := Scanned(rows, startRow, endRow);
    var f := row => EmissionOf(row, isoDate);
    KeyedShape(s, f);
    KeyedLastWins(s, f, j);
  }

  // ----------------------------------------------------------- Rinnovo sheets

  /** A renewal record of the checker. */
  datatype CheckRenewal = CheckRenewal(
    signatureId: nat,
    sheetName: string,
    email: Option<string>,
    telefono: Option<string>,
    cnsL: int,
    cns: int,
    cfd: int,
    cfdR: int,
    dataEmissione: Option<string>,
    dataScadenza: Option<string>,
    rinnovoData: Option<string>,
    rinnovoDa: Option<string>,
    costo: Option<int>,
    importo: Option<int>,
    fatturaNumero: Option<string>,
    fatturaTipoInvio: Option<string>,
    fatturaTipoPagamento: Option<string>,
    dataRiferimentoIncasso: Option<string>,
    nuovaEmissioneId: Option<nat>,
    note: Option<string>)

  /** The cells of the three note columns. */
  function NoteCells(row: seq<Cell>): seq<Cell> {
    [Headers.CellAt(row, 16), Headers.CellAt(row, 17), Headers.CellAt(row, 18)]
  }

  /** The renewal record of a row of sheet `name`, `None` for a row without
      an id. */
  function RenewalOf(row: seq<Cell>, name: string, isoDate: Cell -> Option<string>): (r: Option<CheckRenewal>)
    ensures r.Some? <==> RowId(row).Some?
    ensures r.Some? ==> r.value.signatureId == RowId(row).value && r.value.sheetName == name
  {
    match RowId(row)
    case None => None
    case Some(id) =>
      var (kind, date) := PaymentOf(Headers.CellAt(row, 15), isoDate);
      Some(CheckRenewal(id, name,
        ToText(Headers.CellAt(row, 2)), ToText(Headers.CellAt(row, 3)),
        ToBooleanFlag(Headers.CellAt(row, 4)), ToBooleanFlag(Headers.CellAt(row, 5)),
        ToBooleanFlag(Headers.CellAt(row, 6)), 0,
        isoDate(Headers.CellAt(row, 7)), isoDate(Headers.CellAt(row, 8)), isoDate(Headers.CellAt(row, 9)),
        ToText(Headers.CellAt(row, 10)),
        ToMoney(Headers.CellAt(row, 11)), ToMoney(Headers.CellAt(row, 12)),
        ToText(Headers.CellAt(row, 13)), ToText(Headers.CellAt(row, 14)),
        kind, date, None, NoteOf(NoteCells(row))))
  }

  /** The flags of a checker renewal are 0 or 1, the CFD-R flag is always 0
      and no new emission is linked; the note is `null` exactly when the
      three note columns are blank, and otherwise joins their distinct
      texts. */
  lemma RenewalOfShape(row: seq<Cell>, name: string, isoDate: Cell -> Option<string>)
    requires RenewalOf(row, name, isoDate).Some?
    ensures var r := RenewalOf(row, name, isoDate).value;
      && 0 <= r.cnsL <= 1 && 0 <= r.cns <= 1 && 0 <= r.cfd <= 1 && r.cfdR == 0
      && r.nuovaEmissioneId.None? && r.signatureId > 0
      && (r.note.None? <==> forall i :: 0 <= i < 3 ==> ToText(NoteCells(row)[i]).None?)
      && (r.note.Some? ==> r.note == Some(JsText.Join(Seqs.Distinct(NoteTexts(NoteCells(row))), " | ")))
  {
    NoteOfNone(NoteCells(row));
    if |NoteTexts(NoteCells(row))| > 0 {
      NoteOfJoin(NoteCells(row));
    }
  }

  /** The records of the rows, in row order, rows without a record skipped. */
  function Listed(rows: seq<seq<Cell>>, f: seq<Cell> -> Option<CheckRenewal>): (r: seq<CheckRenewal>)
    ensures |r| <= |rows|
  {
    if |rows| == 0 then []
    else
      Listed(rows[..|rows| - 1], f)
        + (match f(rows[|rows| - 1]) case Some(x) => [x] case None => [])
  }

  /** Some row gives record `x`. */
  predicate Yields(rows: seq<seq<Cell>>, f: seq<Cell> -> Option<CheckRenewal>, x: CheckRenewal) {
    exists j :: 0 <= j < |rows| && f(rows[j]) == Some(x)
  }

  lemma YieldsSnoc(rows: seq<seq<Cell>>, f: seq<Cell> -> Option<CheckRenewal>, x: CheckRenewal)
    requires |rows| > 0
    ensures Yields(rows, f, x) <==> (Yields(rows[..|rows| - 1], f, x) || f(rows[|rows| - 1]) == Some(x))
  {
    var p := rows[..|rows| - 1];
    if Yields(p, f, x) {
      var j :| 0 <= j < |p| && f(p[j]) == Some(x);
      assert rows[j] == p[j];
    }
    if Yields(rows, f, x) {
      var j :| 0 <= j < |rows| && f(rows[j]) == Some(x);
      if j < |p| {
        assert rows[j] == p[j];
      }
    }
  }

  /** The list holds exactly the records the rows give. */
  lemma {:induction false} ListedMembers(rows: seq<seq<Cell>>, f: seq<Cell> -> Option<CheckRenewal>)
    ensures forall x :: x in Listed(rows, f) <==> Yields(rows, f, x)
    decreases |rows|
  {
    if |rows| > 0 {
      var p := rows[..|rows| - 1];
      ListedMembers(p, f);
      forall x
        ensures Yields(rows, f, x) <==> (Yields(p, f, x) || f(rows[|rows| - 1]) == Some(x))
      {
        YieldsSnoc(rows, f, x);
      }
    }
  }

  /** `extractRenewalRecords(worksheet, sheetName)`: an error naming the
      sheet when it is missing, otherwise the renewal records of the scanned
      rows in order. */
  function ExtractRenewalRecords(sheet: Option<seq<seq<Cell>>>, name: string, startRow: int, endRow: int,
                                 isoDate: Cell -> Option<string>): (r: Result<seq<CheckRenewal>, string>)
    ensures r.Failure? <==> sheet.None?
    ensures r.Failure? ==> r.error == "Foglio \"" + name + "\" non trovato nel file Excel."
  {
    match sheet
    case None => Failure("Foglio \"" + name + "\" non trovato nel file Excel.")
    case Some(rows) => Success(Listed(Scanned(rows, startRow, endRow), row => RenewalOf(row, name, isoDate)))
  }

  /** A record is extracted exactly when a scanned row gives it; every one
      carries the sheet's name and a positive id. */
  lemma RenewalRecordsSpec(rows: seq<seq<Cell>>, name: string, startRow: int, endRow: int,
                           isoDate: Cell -> Option<string>, x: CheckRenewal)
    ensures var s := Scanned(rows, startRow, endRow);
      x in ExtractRenewalRecords(Some(rows), name, startRow, endRow, isoDate).value <==>
        exists j :: 0 <= j < |s| && RenewalOf(s[j], name, isoDate) == Some(x)
    ensures x in ExtractRenewalRecords(Some(rows), name, startRow, endRow, isoDate).value ==>
      x.sheetName == name && x.signatureId > 0
  {
    var s := Scanned(rows, startRow, endRow);
    ListedMembers(s, row => RenewalOf(row, name, isoDate));
  }

  // ----------------------------------------------------------- contact merge

  /** The contact data gathered for an id. */
  datatype Info = Info(email: Option<string>, telefono: Option<string>)

  /** The e-mail (`email == true`) or the telephone field. */
  function InfoField(info: Info, email: bool): Option<string> {
    if email then info.email else info.telefono
  }

  function RenewalField(r: CheckRenewal, email: bool): Option<string> {
    if email then r.email else r.telefono
  }

  /** One step of the merge loop: a field is filled only while still empty. */
  function MergeStep(m: map<nat, Info>, r: CheckRenewal): map<nat, Info> {
    if r.signatureId == 0 then m
    else
      var info := if r.signatureId in m then m[r.signatureId] else Info(None, None);
      var e := if Present(r.email) && !Present(info.email) then r.email else info.email;
      var p := if Present(r.telefono) && !Present(info.telefono) then r.telefono else info.telefono;
      m[r.signatureId := Info(e, p)]
  }

  /** `contactInfo`: the loop over the renewal records of all sheets, in
      sheet order. */
  function MergeContacts(records: seq<CheckRenewal>): map<nat, Info> {
    if |records| == 0 then map[]
    else MergeStep(MergeContacts(records[..|records| - 1]), records[|records| - 1])
  }

  /** What a step leaves for one id and field. */
  lemma MergeStepField(m: map<nat, Info>, r: CheckRenewal, id: nat, email: bool)
    ensures id in MergeStep(m, r) <==> id in m || (id == r.signatureId && id != 0)
    ensures id != r.signatureId && id in m ==> MergeStep(m, r)[id] == m[id]
    ensures (id == r.signatureId && id != 0 && Present(RenewalField(r, email))
      && (id !in m || !Present(InfoField(m[id], email)))) ==>
        InfoField(MergeStep(m, r)[id], email) == RenewalField(r, email)
    ensures id == r.signatureId && id != 0 && !Present(RenewalField(r, email)) ==>
      InfoField(MergeStep(m, r)[id], email) == (if id in m then InfoField(m[id], email) else None)
    ensures id == r.signatureId && id in m && Present(InfoField(m[id], email)) ==>
      InfoField(MergeStep(m, r)[id], email) == InfoField(m[id], email)
  {
  }

  /** While no record of an id has a value for a field, the merged field
      stays `null`. */
  lemma {:induction false} MergeNoneYet(records: seq<CheckRenewal>, id: nat, email: bool)
    requires forall k :: 0 <= k < |records| && records[k].signatureId == id ==> !Present(RenewalField(records[k], email))
    ensures id in MergeContacts(records) ==> InfoField(MergeContacts(records)[id], email).None?
    decreases |records|
  {
    if |records| > 0 {
      var p := records[..|records| - 1];
      MergeNoneYet(p, id, email);
      MergeStepField(MergeContacts(p), records[|records| - 1], id, email);
    }
  }

  /** The first record of an id with a value for a field decides that field:
      later values never replace it. */
  lemma {:induction false} MergeFirstWins(records: seq<CheckRenewal>, id: nat, email: bool, j: nat)
    requires j < |records| && records[j].signatureId == id && id != 0
    requires Present(RenewalField(records[j], email))
    requires forall k :: 0 <= k < j && records[k].signatureId == id ==> !Present(RenewalField(records[k], email))
    ensures id in MergeContacts(records)
    ensures InfoField(MergeContacts(records)[id], email) == RenewalField(records[j], email)
    decreases |records|
  {
    var n := |records|;
    var p := records[..n - 1];
    var m := MergeContacts(p);
    if j == n - 1 {
      MergeNoneYet(p, id, email);
    } else {
      MergeFirstWins(p, id, email, j);
    }
    MergeStepField(m, records[n - 1], id, email);
  }

  /** The merged entries are exactly the ids of the records. */
  lemma {:induction false} MergeKeys(records: seq<CheckRenewal>, id: nat)
    ensures id in MergeContacts(records) <==>
      id != 0 && exists k :: 0 <= k < |records| && records[k].signatureId == id
    decreases |records|
  {
    if |records| > 0 {
      var p := records[..|records| - 1];
      MergeKeys(p, id);
      MergeStepField(MergeContacts(p), records[|records| - 1], id, true);
      if exists k :: 0 <= k < |records| && records[k].signatureId == id {
        var k :| 0 <= k < |records| && records[k].signatureId == id;
        if k < |p| {
          assert p[k] == records[k];
        }
      }
      if exists k :: 0 <= k < |p| && p[k].signatureId == id {
        var k :| 0 <= k < |p| && p[k].signatureId == id;
        assert records[k] == p[k];
      }
    }
  }

  function EmissionField(e: Emission, email: bool): Option<string> {
    if email then e.email else e.telefono
  }

  /** A base record with the merged contact data of its id: a field is
      replaced only when a merged value exists. */
  function Patch(k: nat, e: Emission, info: map<nat, Info>): Emission {
    if k !in info then e
    else
      var i := info[k];
      e.(email := if Present(i.email) then i.email else e.email,
         telefono := if Present(i.telefono) then i.telefono else e.telefono)
  }

  /** The loop over `emissionRecords.entries()` writing the merged data. */
  function ApplyInfo(t: Table<Emission>, info: map<nat, Info>): (r: Table<Emission>)
    ensures r.keys == t.keys && r.values.Keys == t.values.Keys
  {
    Table(t.keys, map k | k in t.values :: Patch(k, t.values[k], info))
  }

  /** Applying the merge changes nothing but the e-mail and the telephone. */
  lemma ApplyInfoKeeps(t: Table<Emission>, info: map<nat, Info>, k: nat)
    requires k in t.values
    ensures var e := t.values[k];
      ApplyInfo(t, info).values[k] == e.(email := ApplyInfo(t, info).values[k].email,
                                         telefono := ApplyInfo(t, info).values[k].telefono)
  {
  }

  lemma PatchField(k: nat, e: Emission, info: map<nat, Info>, email: bool)
    ensures EmissionField(Patch(k, e, info), email) ==
      if k in info && Present(InfoField(info[k], email)) then InfoField(info[k], email) else EmissionField(e, email)
  {
  }

  /** After the merge, a base record's e-mail (or telephone) is the first
      value any renewal record of its id carries. */
  lemma BaseTakesFirstRenewal(t: Table<Emission>, records: seq<CheckRenewal>, k: nat, email: bool, j: nat)
    requires k in t.values && k != 0
    requires j < |records| && records[j].signatureId == k && Present(RenewalField(records[j], email))
    requires forall l :: 0 <= l < j && records[l].signatureId == k ==> !Present(RenewalField(records[l], email))
    ensures EmissionField(ApplyInfo(t, MergeContacts(records)).values[k], email) == RenewalField(records[j], email)
  {
    MergeFirstWins(records, k, email, j);
    PatchField(k, t.values[k], MergeContacts(records), email);
  }

  /** ... and when no renewal record of its id carries one, the base
      record keeps its own. */
  lemma BaseKeepsWithoutRenewal(t: Table<Emission>, records: seq<CheckRenewal>, k: nat, email: bool)
    requires k in t.values
    requires forall l :: 0 <= l < |records| && records[l].signatureId == k ==> !Present(RenewalField(records[l], email))
    ensures EmissionField(ApplyInfo(t, MergeContacts(records)).values[k], email) == EmissionField(t.values[k], email)
  {
    MergeNoneYet(records, k, email);
    PatchField(k, t.values[k], MergeContacts(records), email);
  }

  // ------------------------------------------------------------- table names

  /** `a || b` for an environment variable. */
  function OrElse(o: Option<string>, d: string): string {
    if Present(o) then o.value else d
  }

  datatype CheckTables = CheckTables(base: string, renewal: string)

  /** `baseTable` and `renewalTable` of the checker: the base name is used
      as given, and only the derived renewal name is cleaned. */
  function CheckTableNames(baseEnv: Option<string>, renewalEnv: Option<string>): (r: CheckTables)
    ensures !Present(baseEnv) ==> r.base == "digital_signatures"
    ensures Present(renewalEnv) ==> r.renewal == renewalEnv.value
  {
    var base := OrElse(baseEnv, "digital_signatures");
    CheckTables(base, OrElse(renewalEnv, Headers.KeepChars(base, Headers.IdentChar) + "_renewals"))
  }

  /** Unset, or a non-empty identifier. */
  predicate PlainName(o: Option<string>) {
    o.None? || (|o.value| > 0 && Headers.IsIdent(o.value))
  }

  lemma IdentTrimmed(s: string)
    requires Headers.IsIdent(s)
    ensures JsText.Trim(s) == s
  {
    assert JsText.IsTrimmed(s);
    JsText.TrimOfTrimmed(s);
  }

  /** A plain name is what the loader's sanitiser leaves. */
  lemma SanitizePlain(o: Option<string>, fallback: string)
    requires PlainName(o)
    ensures Headers.SanitizeTableName(o, fallback) == OrElse(o, fallback)
  {
    if o.Some? {
      IdentTrimmed(o.value);
      Headers.KeepCharsNoop(o.value, Headers.IdentChar);
    } else {
      assert JsText.Trim("") == "";
      assert Headers.KeepChars("", Headers.IdentChar) == "";
    }
  }

  /** When the variables are unset or plain identifiers, the checker reads
      the tables the loader writes. */
  lemma CheckTablesAgree(baseEnv: Option<string>, renewalEnv: Option<string>)
    requires PlainName(baseEnv) && PlainName(renewalEnv)
    ensures var base := Headers.SanitizeTableName(baseEnv, "digital_signatures");
      CheckTableNames(baseEnv, renewalEnv)
        == CheckTables(base, Headers.SanitizeTableName(renewalEnv, base + "_renewals"))
  {
    SanitizePlain(baseEnv, "digital_signatures");
    var base := OrElse(baseEnv, "digital_signatures");
    assert Headers.IsIdent(base);
    Headers.KeepCharsNoop(base, Headers.IdentChar);
    SanitizePlain(renewalEnv, base + "_renewals");
  }
}

=== FILE: workbook_values.dfy ===
/** The workbook checker's own reading of the spreadsheet
    (scripts/verifyWorkbookVsDb.js): its row window, its value conversions,
    the records it extracts from the `Emissione` and `Rinnovo` sheets and the
    merge of contact data across the renewal sheets. Where the checker and
    the loader read a value alike, a lemma says so; where they differ, a
    lemma exhibits the difference. */
module WorkbookValues {
  import opened Wrappers
  import opened JsText
  import opened Cells
  import Seqs
  import Coerce
  import Headers

  // -------------------------------------------------------------- row window

  /** `startRowIndex`: the 0-based index of the first row read, from the
      configured 1-based start row. */
  function StartIndex(startRow: int): nat {
    (if startRow < 1 then 1 else startRow) - 1
  }

  /** `endRowIndex`: `None` when no end row is configured (zero or less),
      otherwise the 0-based end row, never before the start. */
  function EndIndex(startRow: int, endRow: int): (r: Option<int>)
    ensures r.Some? ==> r.value >= StartIndex(startRow)
    ensures r.None? <==> endRow <= 0
  {
    if endRow <= 0 then None
    else if endRow - 1 < StartIndex(startRow) then Some(StartIndex(startRow))
    else Some(endRow - 1)
  }

  datatype Bounds = Bounds(start: int, end: int)

  /** `clampRowBounds(rowsLength)`: the inclusive index range the
      extraction loops walk. */
  function ClampRowBounds(startRow: int, endRow: int, len: nat): (r: Bounds)
    ensures r.start == StartIndex(startRow) && r.end < len
    ensures EndIndex(startRow, endRow).None? ==> r.end == len - 1
    ensures EndIndex(startRow, endRow).Some? ==>
      r.end <= EndIndex(startRow, endRow).value && (r.end == len - 1 || r.end == EndIndex(startRow, endRow).value)
  {
    match EndIndex(startRow, endRow)
    case None => Bounds(StartIndex(startRow), len - 1)
    case Some(e) => Bounds(StartIndex(startRow), Headers.Min(e, len - 1))
  }

  /** The rows `for (let i = start; i <= end; i += 1)` visits. */
  function Scanned(rows: seq<seq<Cell>>, startRow: int, endRow: int): seq<seq<Cell>> {
    var b := ClampRowBounds(startRow, endRow, |rows|);
    if b.start > b.end then [] else rows[b.start..b.end + 1]
  }

  /** With an end row configured, the checker walks exactly the rows the
      loader's window covers (the loader then also drops blank rows). */
  lemma ScannedAgreesWithLoader(rows: seq<seq<Cell>>, w: Headers.Window)
    requires w.endRow > 0
    ensures Scanned(rows, w.startRow, w.endRow)
      == rows[Headers.Min(Headers.StartRow(w) - 1, |rows|)..Headers.Min(Headers.EndRow(w), |rows|)]
  {
  }

  /** With no end row configured, the checker walks to the last row, where
      the loader's window would stop at the start row. */
  lemma ScannedToLastRow(rows: seq<seq<Cell>>, startRow: int, endRow: int)
    requires endRow <= 0
    ensures Scanned(rows, startRow, endRow) == rows[Headers.Min(StartIndex(startRow), |rows|)..]
  {
  }

  // -------------------------------------------------------------------- text

  /** `toText(value)` for the values a cell can hold: trimmed text, with a
      blank or `-` text read as `null`; numbers and booleans as `String`
      writes them. */
  function ToText(c: Cell): Option<string> {
    match c
    case Empty => None
    case Str(s) =>
      var t := Trim(s);
      if t == "" || t == "-" then None else Some(t)
    case Num(x) => Some(NumberText(x))
    case Bool(b) => Some(if b then "true" else "false")
  }

  /** The checker reads text as the loader's `parseGenericValue` does: the
      same cells are `null`, text cells give the same trimmed text, and other
      values their `String` form. */
  lemma ToTextAgrees(c: Cell)
    ensures ToText(c).None? <==> Coerce.ParseGenericValue(c).Empty?
    ensures Coerce.ParseGenericValue(c).Str? ==> ToText(c) == Some(Coerce.ParseGenericValue(c).s)
    ensures !c.Empty? && !c.Str? ==> ToText(c) == Some(JsString(c))
  {
  }

  /** A text `toText` keeps is never empty. */
  lemma ToTextNonEmpty(c: Cell)
    ensures ToText(c).Some? ==> |ToText(c).value| > 0
  {
  }

  lemma NatDigitsTrimmed(n: nat)
    ensures |NatToDigits(n)| > 0 && !IsSpace(NatToDigits(n)[0])
    ensures !IsSpace(NatToDigits(n)[|NatToDigits(n)| - 1])
  {
    var d := NatToDigits(n);
    assert AllDigits(d) && |d| > 0;
    assert IsDigit(d[0]) && IsDigit(d[|d| - 1]);
  }

  lemma FracDigitsEnd(f: real)
    requires 0.0 < f < 1.0
    ensures var d := FracDigits(f, 20); |d| > 0 && !IsSpace(d[|d| - 1])
  {
    var d := FracDigits(f, 20);
    assert AllDigits(d);
    assert IsDigit(d[|d| - 1]);
  }

  /** `String(x)` neither starts nor ends with white space. */
  lemma NumberTextTrimmed(x: real)
    ensures IsTrimmed(NumberText(x))
  {
    var a := if x < 0.0 then -x else x;
    var n := a.Floor;
    var f := a - n as real;
    var sign := if x < 0.0 then "-" else "";
    var frac := if f == 0.0 then "" else "." + FracDigits(f, 20);
    var d := NatToDigits(n);
    NatDigitsTrimmed(n);
    assert NumberText(x) == sign + d + frac;
    if f != 0.0 {
      FracDigitsEnd(f);
    }
  }

  /** Every text `toText` keeps is trimmed. */
  lemma ToTextTrimmed(c: Cell)
    ensures ToText(c).Some? ==> IsTrimmed(ToText(c).value)
  {
    if c.Num? {
      NumberTextTrimmed(c.x);
    }
  }

  // ----------------------------------------------------------------- boolean

  /** `truthyTokens`; `sÃ¬` is `sì` read with the wrong encoding. */
  const TruthyTokens: set<string> :=
    {"1", "true", "t", "yes", "y", "si", "s\U{00EC}", "s\U{00C3}\U{00AC}", "ok", "x", Coerce.BlackSquare}

  /** `toBooleanFlag(value)`: 1 for a non-zero number, for text that is a
      truthy token as written or lower-cased, and for text holding a black
      square; 0 for everything else (the falsy tokens give 0 as well). */
  function ToBooleanFlag(c: Cell): (r: int)
    ensures r == 0 || r == 1
    ensures c.Empty? ==> r == 0
  {
    match c
    case Empty => 0
    case Num(x) => if x == 0.0 then 0 else 1
    case _ =>
      var raw := Trim(JsString(c));
      if raw == "" then 0
      else if ToLower(raw) in TruthyTokens || raw in TruthyTokens || '\U{25A0}' in raw then 1
      else 0
  }

  /** A black square survives trimming. */
  lemma SquareInTrimmed(s: string)
    ensures '\U{25A0}' in s <==> '\U{25A0}' in Trim(s)
  {
    var t := Trim(s);
    var a := Lead(s);
    TrimCutsSpace(s);
    assert forall j :: 0 <= j < a ==> IsSpace(s[j]) by {
      forall j | 0 <= j < a
        ensures IsSpace(s[j])
      {
        assert s[..a][j] == s[j];
      }
    }
    assert forall j :: a + |t| <= j < |s| ==> IsSpace(s[j]) by {
      forall j | a + |t| <= j < |s|
        ensures IsSpace(s[j])
      {
        assert s[a + |t|..][j - a - |t|] == s[j];
      }
    }
    if '\U{25A0}' in s {
      var i :| 0 <= i < |s| && s[i] == '\U{25A0}';
      assert t[i - a] == s[i];
    }
    if '\U{25A0}' in t {
      var i :| 0 <= i < |t| && t[i] == '\U{25A0}';
      assert s[a + i] == t[i];
    }
  }

  lemma LowerOfEmpty()
    ensures ToLower("") == "" && "" !in TruthyTokens
  {
  }

  /** A text is flagged exactly when it holds a black square anywhere, or its
      trimmed form, as written or lower-cased, is a truthy token. */
  lemma FlagOfText(s: string)
    ensures ToBooleanFlag(Str(s)) == 1 <==>
      ('\U{25A0}' in s || ToLower(Trim(s)) in TruthyTokens || Trim(s) in TruthyTokens)
  {
    SquareInTrimmed(s);
    LowerOfEmpty();
  }

  lemma TrueFalseText()
    ensures Trim("true") == "true" && Trim("false") == "false"
    ensures ToLower("true") == "true" && ToLower("false") == "false"
  {
    assert IsTrimmed("true") && IsTrimmed("false");
    TrimOfTrimmed("true");
    TrimOfTrimmed("false");
  }

  /** On values that are not text the flag and the loader's `parseBoolean`
      agree. */
  lemma FlagAgreesOffText(c: Cell)
    requires !c.Str?
    ensures ToBooleanFlag(c) == 1 <==> Coerce.ParseBoolean(c)
  {
    if c.Bool? {
      TrueFalseText();
    }
  }

  lemma LowerLatinWord(s: string)
    requires forall i :: 0 <= i < |s| ==> 'a' <= s[i] <= 'z' || s[i] == '\U{00ED}'
    ensures ToLower(s) == s
  {
  }

  lemma TrimmedWord(s: string)
    requires NoSpace(s)
    ensures Trim(s) == s && Coerce.StandardiseKey(s) == s
  {
    assert IsTrimmed(s);
    TrimOfTrimmed(s);
    Coerce.StandardiseKeyNoSpace(s);
  }

  /** `ok` is flagged but is not a `parseBoolean` marker. */
  lemma FlagTakesOk()
    ensures ToBooleanFlag(Str("ok")) == 1 && !Coerce.ParseBoolean(Str("ok"))
  {
    TrimmedWord("ok");
    LowerLatinWord("ok");
    Coerce.ParseBooleanText("ok");
  }

  /** `t` is flagged but is not a `parseBoolean` marker. */
  lemma FlagTakesT()
    ensures ToBooleanFlag(Str("t")) == 1 && !Coerce.ParseBoolean(Str("t"))
  {
    TrimmedWord("t");
    LowerLatinWord("t");
    Coerce.ParseBooleanText("t");
  }

  /** `sí` is a `parseBoolean` marker but not a token of the checker. */
  lemma FlagRefusesAcuteSi()
    ensures ToBooleanFlag(Str("s\U{00ED}")) == 0 && Coerce.ParseBoolean(Str("s\U{00ED}"))
  {
    TrimmedWord("s\U{00ED}");
    LowerLatinWord("s\U{00ED}");
    Coerce.ParseBooleanText("s\U{00ED}");
  }

  // ------------------------------------------------------------------- money

  /** The quote characters `toMoney` strips: `'`, `’` and the backtick. */
  function StripQuotes(s: string): string {
    DeleteAll(DeleteAll(DeleteAll(s, '\''), '\U{2019}'), '`')
  }

  /** The cleaning of `toMoney`: quotes, white space and dots dropped, the
      first comma turned into the decimal point, the ends trimmed. Unlike the
      loader it keeps euro signs. */
  function CleanAmount(s: string): string {
    Trim(ReplaceFirst(DeleteAll(RemoveSpaces(StripQuotes(s)), '.'), ',', '.'))
  }

  /** `toMoney(value)`, in whole cents: `null` for a missing, empty or `-`
      value and for text that does not start with a number. */
  function ToMoney(c: Cell): (r: Option<int>)
    ensures c.Empty? || c == Str("") || c == Str("-") ==> r.None?
    ensures c.Num? ==> r == Some(Cents(c.x))
  {
    match c
    case Empty => None
    case Num(x) => Some(Cents(x))
    case _ =>
      if c == Str("") || c == Str("-") then None
      else
        var t := CleanAmount(JsString(c));
        if t == "" || t == "-" then None
        else match JsParseFloat(t)
          case Finite(v) => Some(Cents(v))
          case _ => None
  }

  predicate NoQuoteOrEuro(s: string) {
    '\'' !in s && '\U{2019}' !in s && '`' !in s && '\U{20AC}' !in s
  }

  /** Without quotes or euro signs both cleanings leave the same text. */
  lemma CleanAmountAgrees(s: string)
    requires NoQuoteOrEuro(s)
    ensures CleanAmount(s) == Coerce.CleanMoney(s)
  {
    DeleteAllAbsent(s, '\'');
    DeleteAllAbsent(s, '\U{2019}');
    DeleteAllAbsent(s, '`');
    DeleteAllAbsent(s, '\U{20AC}');
  }

  /** The loader's cleaning leaves a dash alone. */
  lemma CleanDash()
    ensures Coerce.CleanMoney("-") == "-" && Coerce.CleanMoney("") == ""
  {
    DeleteAllAbsent("-", '\U{20AC}');
    RemoveSpacesAbsent("-");
    DeleteAllAbsent("-", '.');
    ReplaceFirstAt("-", ',', '.');
    TrimOfTrimmed("-");
    TrimOfTrimmed("");
  }

  /** The checker and the loader read the same amount from every value
      whose text has no quote character or euro sign. */
  lemma ToMoneyAgrees(c: Cell)
    requires !c.Empty? ==> NoQuoteOrEuro(JsString(c))
    ensures ToMoney(c) == Coerce.ParseMoney(c)
  {
    if !c.Empty? && !c.Num? {
      CleanAmountAgrees(JsString(c));
      if c == Str("") || c == Str("-") {
        CleanDash();
      }
    }
  }

  // --------------------------------------------------------------------- ids

  /** The checker's `normaliseId(value)`: `null` for a missing value,
      otherwise the first run of digits of the trimmed text. */
  function ToId(c: Cell): Option<nat> {
    if c.Empty? then None
    else
      var t := Trim(JsString(c));
      if t == "" then None else Coerce.RunValue(t)
  }

  /** The checker's `normaliseId` is the loader's. */
  lemma ToIdAgrees(c: Cell)
    ensures ToId(c) == Coerce.NormaliseId(c)
  {
    if c == Str("") {
      TrimOfTrimmed("");
    }
  }

  /** The id is the number the first run of digits of the untrimmed text
      spells. */
  lemma ToIdOfRun(c: Cell)
    requires !c.Empty?
    ensures ToId(c) == Coerce.RunValue(JsString(c))
  {
    Coerce.IdOfTextUntrimmed(JsString(c));
  }

  // ------------------------------------------------------------------- notes

  /** `noteParts`: the texts of the note columns, blanks dropped. */
  function NoteTexts(cells: seq<Cell>): (r: seq<string>)
    ensures |r| <= |cells|
  {
    if |cells| == 0 then []
    else
      (match ToText(cells[0])
       case Some(t) => if |t| > 0 then [t] else []
       case None => []) + NoteTexts(cells[1..])
  }

  /** Every part is non-empty, trimmed text one of the cells gave. */
  lemma {:induction false} NoteTextsParts(cells: seq<Cell>)
    ensures forall i :: 0 <= i < |NoteTexts(cells)| ==>
      |NoteTexts(cells)[i]| > 0 && IsTrimmed(NoteTexts(cells)[i])
    decreases |cells|
  {
    if |cells| > 0 {
      NoteTextsParts(cells[1..]);
      ToTextTrimmed(cells[0]);
    }
  }

  /** There are no parts exactly when every cell reads as `null`. */
  lemma {:induction false} NoteTextsEmpty(cells: seq<Cell>)
    ensures |NoteTexts(cells)| == 0 <==> forall i :: 0 <= i < |cells| ==> ToText(cells[i]).None?
    decreases |cells|
  {
    if |cells| > 0 {
      NoteTextsEmpty(cells[1..]);
      ToTextNonEmpty(cells[0]);
      assert forall i :: 1 <= i < |cells| ==> cells[i] == cells[1..][i - 1];
    }
  }

  /** The note of a renewal row: `null` without parts, otherwise the distinct
      parts in first-occurrence order joined by ` | `, trimmed. */
  function NoteOf(cells: seq<Cell>): Option<string> {
    var parts := NoteTexts(cells);
    if |parts| == 0 then None else Some(Trim(Join(Seqs.Distinct(parts), " | ")))
  }

  /** The final `trim()` changes nothing: the note is the join itself. */
  lemma NoteOfJoin(cells: seq<Cell>)
    requires |NoteTexts(cells)| > 0
    ensures NoteOf(cells) == Some(Join(Seqs.Distinct(NoteTexts(cells)), " | "))
  {
    var parts := NoteTexts(cells);
    var d := Seqs.Distinct(parts);
    NoteTextsParts(cells);
    assert parts[0] in d;
    forall i | 0 <= i < |d|
      ensures |d[i]| > 0 && IsTrimmed(d[i])
    {
      var k :| 0 <= k < |parts| && parts[k] == d[i];
    }
    JoinTrimmed(d, " | ");
    var j := Join(d, " | ");
    assert IsTrimmed(d[0]) && IsTrimmed(d[|d| - 1]);
    assert IsTrimmed(j);
    TrimOfTrimmed(j);
  }

  /** The note is `null` exactly when every note column reads as `null`. */
  lemma NoteOfNone(cells: seq<Cell>)
    ensures NoteOf(cells).None? <==> forall i :: 0 <= i < |cells| ==> ToText(cells[i]).None?
  {
    NoteTextsEmpty(cells);
  }

  lemma TextOfTrimmed(a: string)
    requires IsTrimmed(a) && a != "" && a != "-"
    ensures ToText(Str(a)) == Some(a)
  {
    TrimOfTrimmed(a);
  }

  lemma NoteTextsCons(c: Cell, rest: seq<Cell>, t: string)
    requires ToText(c) == Some(t) && |t| > 0
    ensures NoteTexts([c] + rest) == [t] + NoteTexts(rest)
  {
    assert ([c] + rest)[1..] == rest;
  }

  /** A note repeated around another is kept once: `a | b`, where the
      loader's note merge writes `a | b | a`. */
  lemma NoteRepeatKeptOnce(a: string, b: string)
    requires IsTrimmed(a) && a != "" && a != "-"
    requires IsTrimmed(b) && b != "" && b != "-" && a != b
    ensures NoteOf([Str(a), Str(b), Str(a)]) == Some(a + " | " + b)
  {
    var cells := [Str(a), Str(b), Str(a)];
    TextOfTrimmed(a);
    TextOfTrimmed(b);
    NoteTextsCons(Str(a), [], a);
    assert [Str(a)] + [] == [Str(a)];
    NoteTextsCons(Str(b), [Str(a)], b);
    assert [Str(b)] + [Str(a)] == [Str(b), Str(a)];
    NoteTextsCons(Str(a), [Str(b), Str(a)], a);
    assert [Str(a)] + [Str(b), Str(a)] == cells;
    assert NoteTexts(cells) == [a, b, a];
    var parts := [a, b, a];
    assert parts[..2] == [a, b];
    assert parts[..2][..1] == [a];
    assert parts[..2][..1][..0] == [];
    assert Seqs.Distinct(parts) == [a, b];
    NoteOfJoin(cells);
    assert [a, b][1..] == [b];
  }
}

=== FILE: wrappers.dfy ===
/** Failure-compatible wrappers shared by every module of the model: `Option`
    stands for JavaScript's `null`/`undefined` results, `Result` for a thrown
    error or an error response. */
module Wrappers {

  datatype Option<+T> = None | Some(value: T) {

    predicate IsFailure() {
      None?
    }

    function PropagateFailure<U>(): Option<U>
      requires None?
    {
      None
    }

    function Extract(): T
      requires Some?
    {
      value
    }

    /** `value ?? default` */
    function GetOr(default: T): T {
      match this
      case Some(v) => v
      case None => default
    }
  }

  datatype Result<+R, +E> = Success(value: R) | Failure(error: E) {

    predicate IsFailure() {
      Failure?
    }

    function PropagateFailure<U>(): Result<U, E>
      requires Failure?
    {
      Failure(error)
    }

    function Extract(): R
      requires Success?
    {
      value
    }
  }
}
